=== FILE: README.md ===
# BIDS curation for Flywheel, modelled in Dafny

This project models two parts of the Flywheel BIDS client.

- **The legacy archive converter** (`create_archive_funcs.py`). It walks a Flywheel
  project → session → acquisition hierarchy and names every NIfTI acquisition as a BIDS
  file (`sub-<x>/ses-<y>/<anat|func|fmap>/<name>`). Folders that end up holding the same
  name twice get `_run-<k>` numbers in order of acquisition time. Every BOLD image then gets
  a JSON sidecar row.
- **The client library** behind the curation, upload and export commands:
  - the template engine: string templates, rule conditions, `$switch`/`$take`/`$format`/`$regex`
    derivations, rule selection and `process_matching_templates`;
  - JSON-schema validation of a file's `info.BIDS` block;
  - `IntendedFor` linking of fieldmaps;
  - the upload helpers: extensions, acquisition labels, `fill_in_properties`,
    sidecar-to-file matching, `convert_dtype` and `handle_project_label`;
  - the export helpers: `define_path`, exclusion of containers and files, and
    `determine_container`.

The client library's implementation files are not part of this model: `utils.py`,
`templates.py`, `bidsify_flywheel.py`, `curate_bids.py`, `upload_bids.py`, `export_bids.py`
and the template JSON. Its behaviour is rebuilt from the repository's tests under
`bids-client/tests/`, and every claim about it is stated as those tests state it.

Where the source's comments and its tests disagree, the model follows the tests:
- a block with no `template` is valid with an empty message;
- only `acquisition_file` is reserved for uploads;
- schema errors come per property in declared order, then the missing required properties.

Layout, one module per file:
- `Outcomes`: `Option`/`Result`.
- `Text`: character classes, search, split/join, `repr`, `dirname`.
- `Patterns`: the regular expressions the code uses, with Python's leftmost-first matching
  and `re.sub`.
- `Json`: JSON values with `Get`/`Set` along a path.
- `Assoc`: insertion-ordered dictionaries.
- `LegacyNaming`, `LegacyArchive`: the archive converter.
- `Resolver`, `Rules`, `Bidsify`, `TemplateCatalog`: the template engine and the rules that
  the tests exercise.
- `Validator`, `Curate`: curation.
- `Extension`, `Upload`, `ProjectLabel`: upload.
- `Export`: export.
- `*Examples` modules: the tests' concrete cases, proved against the model.

## Model

| member | source | states |
|---|---|---|
| LegacyNaming.MakeBidsSpec | create_archive_funcs.py:125-170 | The result always starts with the entity prefix. A value that already matches `desc[0-9a-zA-Z]+$` (or `[0-9]+$` for an index) is returned as it is. Otherwise the prefix is followed by exactly the allowed characters of the value, in order. Whenever any were allowed, the result itself passes the test. |
| LegacyNaming.AlreadyBidsIff | create_archive_funcs.py:162-170 | The `re.match` test accepts exactly the prefix followed by one or more allowed characters. Python's `$` also lets one trailing newline through. |
| LegacyNaming.MakeBidsSpecIdempotent | create_archive_funcs.py:125-170 | Normalising a normalised label changes nothing, unless nothing allowed was left to extract. |
| LegacyNaming.MakeBidsSpecBarePrefix | create_archive_funcs.py:150-170 | A bare prefix never passes the test, so `sub-` becomes `sub-sub`. |
| LegacyNaming.PopulateBidsHierarchy | create_archive_funcs.py:108-123 | A path that does not split into exactly four `/` parts raises. Otherwise the file name is appended to its participant/session/folder list, and every other list is unchanged. A new participant key is added last. |
| LegacyNaming.LastNiftiFile | create_archive_funcs.py:204-207 | With aligned lists, the file paired with the last `nifti` type is chosen. Any chosen file is one of the acquisition's files. A failure names the acquisition. |
| LegacyNaming.NiftiExtensionDropsGz | create_archive_funcs.py:208-216 | Because the second `if` overwrites the first, a `.nii.gz` file is still given the extension `.nii`. |
| LegacyNaming.NiftiExtensionOther | create_archive_funcs.py:208-216 | A name without `.nii` gets the placeholder extension. |
| LegacyNaming.KindOf | create_archive_funcs.py:230-306 | The branch is anatomical if a T1w or T2w measurement is present, else functional, else fieldmap, else unrecognised, in the source's order of tests. |
| LegacyNaming.AnatSuffix | create_archive_funcs.py:230-240 | The suffix is `T2w` exactly when a T2w measurement is present, and `T1w` otherwise. |
| LegacyNaming.TaskName | create_archive_funcs.py:246-254 | The task is `task-rest` when the lower-cased label mentions `rest`, otherwise the label normalised as a task label. |
| LegacyNaming.FuncTaskDropsSbref | create_archive_funcs.py:256-263 | For a single-band reference whose task is `a`, then one `sbref` in any case, then `b` with no further `sbref`, the functional task is `a + b`: the leftmost occurrence is cut out and the rest kept. |
| LegacyNaming.FuncTaskKeepsPlain | create_archive_funcs.py:256-263 | A task with no `sbref` in any case is used as it is. |
| LegacyNaming.FuncSuffix | create_archive_funcs.py:256-266 | The suffix is `sbref` exactly for single-band references and `bold` otherwise. |
| LegacyNaming.RemoveSbref | create_archive_funcs.py:261 | Removing one `sbref` keeps the text before it and drops the match. |
| LegacyNaming.DirLabel | create_archive_funcs.py:296-300 | The direction is the leftmost `AP`/`PA`/`LR`/`RL` in the label, and `unknown` exactly when none occurs. |
| LegacyNaming.FieldmapDesc | create_archive_funcs.py:268-303 | A spin-echo label gives `dir-<d>_epi`. Otherwise `phasediff` wins over `magnitude`. Otherwise the description left by an earlier acquisition is reused, and the result is missing exactly when there is none. |
| LegacyNaming.RunRewriteToken | create_archive_funcs.py:308-310 | The leftmost `run<d>` becomes `_run-<d>`. The text before it is kept, and rewriting continues after it. |
| LegacyNaming.RunRewriteNoToken | create_archive_funcs.py:308-310 | A name without `run<digit>` is left as it is. |
| LegacyNaming.RunInsertSuffix | create_archive_funcs.py:357-360 | When the path holds exactly one `_T1w`/`_bold`/`_sbref`, `_run-<k>` is inserted right before that only occurrence, and the rest of the path is kept. |
| LegacyNaming.RunInsertOtherSuffix | create_archive_funcs.py:357-360 | A path without those suffixes is not renumbered. |
| LegacyArchive.NameAcquisition | create_archive_funcs.py:222-306 | No name exactly when the acquisition is unrecognised; a failure naming the acquisition exactly when a fieldmap has no description, not even a prior one. A name starts with `<sub>_<ses>_` and ends with the extension; its folder is `anat`, `func` or `fmap` exactly by the kind. An anatomical name says `T2w` exactly when a T2w measurement is present and `T1w` otherwise; a functional descriptor is exactly `<task>_sbref` for single-band references and `<task>_bold` otherwise, with the task of the label; a fieldmap name carries the description it passes on, and other kinds pass the prior description on unchanged. |
| LegacyArchive.ProcessAcquisition | create_archive_funcs.py:187-318 | Acquisitions without NIfTI files are skipped and pass the fieldmap description on unchanged. A recorded row carries the acquisition's time and ids. Every recognised non-fieldmap acquisition with aligned lists is recorded, and failures are the two raising cases. |
| LegacyArchive.ProcessAcquisitionRow | create_archive_funcs.py:204-318 | A recorded row's source file is the acquisition's last NIfTI file, its target is `<sub>/<ses>/<dir>/<name>` for the name the acquisition gets (with the `run` rewrite), and the name's field description is what the step passes on. |
| LegacyArchive.TargetPathParts | create_archive_funcs.py:310-318 | A target path joined from four slash-free parts splits back into exactly those parts, so the hierarchy files the name under its participant, session and folder. |
| LegacyArchive.SourcePathParts | create_archive_funcs.py:219 | The input path joined from a non-empty, slash-free project, session, acquisition and file name splits back into exactly those four names, as the unpacking at lines 335 and 376 expects. |
| LegacyArchive.SlashInFileName | create_archive_funcs.py:219 | A file name holding a `/` makes the joined input path split into five parts, so the four-way unpacking at lines 335 and 376 raises. |
| LegacyArchive.ProcessAcquisitionPlain | create_archive_funcs.py:204-219 | When the ids and file names are plain, the row recorded for an acquisition has a plain source: its file is one of the acquisition's files. |
| LegacyArchive.WalkAcquisitionsPlain | create_archive_funcs.py:180-219 | Walking the acquisitions of a plain tree records only plain sources. |
| LegacyArchive.WalkSessionsPlain | create_archive_funcs.py:176-219 | Walking the sessions of a plain tree records only plain sources. |
| LegacyArchive.WalkProjectsPlain | create_archive_funcs.py:173-219 | Walking a plain tree records only plain sources. |
| LegacyArchive.RowsSourcesSplit | create_archive_funcs.py:219 | Over a tree whose ids and file names are non-empty and slash-free, the joined input path of every lookup row splits back into that row's own project, session, acquisition and file, so the unpacking at lines 335 and 376 succeeds and looks up the row's own acquisition. |
| LegacyArchive.WalkSessions | create_archive_funcs.py:185-188 | Sessions without an `acquisitions` entry contribute nothing. |
| LegacyArchive.WalkAcquisitions | create_archive_funcs.py:189-318 | The lookup only grows, at most one row per acquisition, and earlier rows stay as they were. |
| LegacyArchive.Duplicates | create_archive_funcs.py:328 | The duplicates are exactly the names that occur more than once. |
| LegacyArchive.DuplicatePositions | create_archive_funcs.py:330-331 | Gives every lookup position whose file name is a duplicate, ascending. |
| LegacyArchive.SortByCreatedOrder | create_archive_funcs.py:333-341 | The stable sort orders positions by acquisition time, and ties keep lookup order. |
| LegacyArchive.FirstWithSource | create_archive_funcs.py:343-356 | The search finds the first row with the given source file, or reports that none has it. |
| LegacyArchive.AssignRunsEffect | create_archive_funcs.py:343-361 | With distinct source files, the `k`-th row of the order gets run `k+1` and every other row is untouched. |
| LegacyArchive.RenumberFolderEffect | create_archive_funcs.py:322-361 | In one folder, every row whose name occurs twice or more (across all duplicate groups) is numbered 1..n by creation time. All other rows are unchanged. |
| LegacyArchive.WalkDistinct | create_archive_funcs.py:183-320 | Over a tree whose dictionaries have unique keys, the walk names every input file at most once. |
| LegacyArchive.RenumberPass | create_archive_funcs.py:322-363 | The passes of the duplicate loop compose: the k-th works on what the earlier ones left, the later ones continue from its result, and distinct input files stay distinct. |
| LegacyArchive.ConversionPass | create_archive_funcs.py:322-363 | Over a well-formed tree, each folder's pass numbers its duplicates 1..n in creation order, keeps every other row, and the conversion's rows are what the later passes make of that. |
| LegacyArchive.Renumber | create_archive_funcs.py:322-361 | Renumbering keeps the number of rows, and each row keeps its source and time. |
| LegacyArchive.TaskNameAfterPrefix | create_archive_funcs.py:396-397 | The sidecar's task name is the alphanumeric run after the leftmost `task-` that is followed by one. |
| LegacyArchive.JsonNameReplacesExtension | create_archive_funcs.py:399 | With escaped dots, a dot-free stem keeps its text and only `.nii`/`.nii.gz` becomes `.json`. |
| LegacyArchive.JsonNameAsWrittenRewritesLabel | create_archive_funcs.py:399 | As written, any character followed by `nii` is replaced, so `task-niiback` is corrupted. |
| LegacyArchive.AddSidecars | create_archive_funcs.py:368-403 | Succeeds exactly when every `_bold.nii` row has a task label and a sidecar path of four parts. On success the appended rows are the sidecars of the bold rows, one each and in order: repetition time 123, the task read from the path, and the sidecar path the chosen naming gives. The returned hierarchy is the given one with each sidecar's file name appended under its folder, in order. With no bold row nothing is appended and the hierarchy is unchanged. |
| LegacyArchive.RevisitSidecars | create_archive_funcs.py:371-397 | When the loop reaches the rows it appended, it succeeds exactly when none of them looks like a BOLD path. |
| LegacyArchive.PopulateAll | create_archive_funcs.py:363-366 | Filing every row succeeds exactly when every target splits into four parts; the result is the given hierarchy with each target's file name appended under its participant, session and folder, in row order. |
| LegacyArchive.ConversionSucceeds | create_archive_funcs.py:363-405 | The hierarchy loop, the sidecar loop and the revisit of the appended rows all succeed exactly when every target splits in four, every bold target has a task label and a four-part sidecar path, and no sidecar path contains `_bold.nii`. |
| LegacyArchive.NiftiItems | create_archive_funcs.py:312-318 | Each lookup row becomes one NIfTI item with its source and target. |
| LegacyArchive.CreateBidsHierarchy | create_archive_funcs.py:173-405 | Fails whenever the walk fails. On success the lookup begins with one nifti item per renumbered row, in order, followed by exactly the sidecars of the bold rows (repetition time 123, the chosen sidecar naming), none of which again looks like a `_bold.nii` path. When the walk succeeds, the conversion succeeds exactly when every target splits in four, every bold target has a task label and a four-part sidecar path, and no sidecar path contains `_bold.nii`. The returned hierarchy holds, under each participant, session and folder, exactly the file names of the lookup's targets filed there, in lookup order. |
| Resolver.LitText | bids-client/tests/test_bidsify_flywheel.py:46-69 | A literal is kept, or it loses exactly its trailing entity prefix, which happens when the next value already carries it. |
| Resolver.ResolveConcat | bids-client/tests/test_bidsify_flywheel.py:21-44 | Resolving a concatenation of templates concatenates the resolutions. |
| Resolver.OptionalTextFound | bids-client/tests/test_bidsify_flywheel.py:71-115 | A bracketed segment renders exactly when all its values are found. |
| Resolver.OptionalDropped | bids-client/tests/test_bidsify_flywheel.py:71-94 | One missing value drops the whole bracketed segment. |
| Resolver.OptionalKept | bids-client/tests/test_bidsify_flywheel.py:96-115 | When every value is present, the segment renders as plain text. |
| Resolver.PlainVerbatim | bids-client/tests/test_bidsify_flywheel.py:146-194 | Outside brackets, a missing required value stays in the name as written. |
| Resolver.PlainIsSubstitution | bids-client/tests/test_bidsify_flywheel.py:21-44 | Without doubled prefixes, plain text is the substitution of each `<a.b>` by its value. |
| Resolver.PrefixWrittenOnce | bids-client/tests/test_bidsify_flywheel.py:46-69 | A value that already starts with the literal's entity prefix replaces that prefix instead of following it. |
| Resolver.EntityPrefixOfLabel | bids-client/tests/test_bidsify_flywheel.py:46-69 | The entity prefix of `…<word>-` is `<word>-`. |
| ResolverExamples.RequiredResolved | bids-client/tests/test_bidsify_flywheel.py:21-44 | The test's template resolves to the expected file name. |
| ResolverExamples.PrefixNotDoubled | bids-client/tests/test_bidsify_flywheel.py:46-69 | Code `sub-01` and session `ses-001` give `sub-01_ses-001_bold.nii.gz`. |
| ResolverExamples.OptionalSegmentDropped | bids-client/tests/test_bidsify_flywheel.py:71-94 | A `None` subject code drops `[sub-<subject.code>]`. |
| ResolverExamples.FullOptionalResolved | bids-client/tests/test_bidsify_flywheel.py:96-115 | Only `sub-123_ses-456` is left when no optional entity has a value. |
| ResolverExamples.DeferredFilled | bids-client/tests/test_bidsify_flywheel.py:117-144 | The functional file name is `sub-001_ses-session444_task-test123_bold.nii.gz`. |
| ResolverExamples.RequiredLeftVerbatim | bids-client/tests/test_bidsify_flywheel.py:146-194 | A missing or `None` code leaves `<subject.code>` in the name. |
| Rules.AnyIn | bids-client/tests/test_templates.py:137-162 | `$in` holds exactly when some listed item is `in` the field, in Python's sense: a substring of a string, a key of a dict, an element of a list. |
| Rules.Test | bids-client/tests/test_templates.py:125-179 | A `where` clause holds exactly when every one of its conditions holds on the field it names. |
| Rules.TestSplit | bids-client/tests/test_templates.py:125-179 | Splitting a clause into two parts gives the conjunction of the parts. |
| RuleExamples.ScalarSwitch | bids-client/tests/test_templates.py:11-42 | `foo` and `bar` select their own cases and any other value takes the default. |
| RuleExamples.ListSwitchReordered | bids-client/tests/test_templates.py:44-80 | A reordering of the first case's list selects that case. |
| RuleExamples.ListSwitchSecond | bids-client/tests/test_templates.py:44-80 | `[a, d]` selects the second case. |
| RuleExamples.ListSwitchSubset | bids-client/tests/test_templates.py:44-80 | A strict subset of a case's list takes the default. |
| RuleExamples.ListSwitchSuperset | bids-client/tests/test_templates.py:44-80 | A strict superset of a case's list takes the default. |
| RuleExamples.FormatExamples | bids-client/tests/test_templates.py:82-123 | `the_OLD_string` becomes `the_New_string` under the first format chain and `the_upper_12_key_string` under the second. |
| RuleExamples.InString | bids-client/tests/test_templates.py:137-162 | `$in` on a text field finds `topup` as a substring; on a dictionary no listed word is found. |
| RuleExamples.NotIn | bids-client/tests/test_templates.py:164-179 | `$not` around `$in` fails on the listed value and holds on another. |
| Rules.SwitchValue | bids-client/tests/test_templates.py:11-42 | Gives the first case that selects the value, or none exactly when no case does. |
| Rules.SwitchIgnoresOrder | bids-client/tests/test_templates.py:44-80 | List values match cases as sets, so reordering a list never changes the switch. |
| Rules.ApplyFormat | bids-client/tests/test_templates.py:82-123 | `$lower: true` lower-cases every character, and a pattern that matches nowhere leaves the text unchanged. |
| Rules.FormatsCompose | bids-client/tests/test_templates.py:82-123 | Format steps apply left to right. |
| Rules.LowerMatchesThenLowerAll | bids-client/tests/test_templates.py:82-123 | Lower-casing the matches keeps the length and is absorbed by a following full lower-casing. |
| Rules.LowerAllIdempotent | bids-client/tests/test_templates.py:82-123 | Lower-casing twice equals lower-casing once. |
| Rules.TakeComposes | bids-client/tests/test_templates.py:82-123 | Taking a value with two format lists in a row equals taking it with their concatenation, missing fields included. |
| Rules.TakeUnformatted | bids-client/tests/test_templates.py:82-123 | With no formats, `$take` of a missing field is the empty string and every other value passes through unchanged. |
| Rules.CaptureLeftmost | bids-client/tests/test_bidsify_flywheel.py:317-348 | When the leftmost match starts at `i` and is `n` long, a `$regex` capture is that match with its first `skip` characters dropped. |
| Rules.CaptureAbsent | bids-client/tests/test_bidsify_flywheel.py:317-348 | A capture is empty when the pattern matches nowhere or the value is not text. |
| Patterns.IgnoreCaseWidens | bids-client/tests/test_templates.py:125-135 | Ignoring case only widens a pattern: wherever it matched, it still matches. |
| Patterns.SearchIgnoreCaseWidens | bids-client/tests/test_templates.py:125-135 | A text the pattern is found in is still found in when case is ignored. |
| RuleExamples.RegexAnywhere | bids-client/tests/test_templates.py:125-135 | `$regex: topup` holds on `string_with topup in it`. |
| RuleExamples.RegexIgnoresCase | bids-client/tests/test_templates.py:125-135 | `$regex: topup` also holds on `string_with TOPUP in it`. |
| Rules.NextRun | bids-client/tests/test_bidsify_flywheel.py:912-937 | The run counter of a key goes up by one from zero, and other counters are unchanged. |
| Rules.InitializeKeeps | bids-client/tests/test_templates.py:11-123 | Initialisation leaves untouched every key it does not derive. |
| Rules.InitializeAt | bids-client/tests/test_templates.py:11-123 | The last derivation of a name sets it to its derived value. |
| Rules.Select | bids-client/tests/test_bidsify_flywheel.py:253-910 | Gives the first rule that applies, or none exactly when no rule applies. |
| Rules.SelectIs | bids-client/tests/test_bidsify_flywheel.py:253-910 | A rule that applies with none before it applying is the one selected. |
| Rules.UploadAddsLast | bids-client/tests/test_bidsify_flywheel.py:725-757 | When the last rule alone is reserved for uploads, the two modes choose alike except for that rule. |
| Bidsify.AddPropertiesDefault | bids-client/tests/test_bidsify_flywheel.py:196-219 | Each declared property holds its own default. |
| Bidsify.AddProperties | bids-client/tests/test_bidsify_flywheel.py:196-219 | Every declared property is added, and other keys are kept as they were. |
| Bidsify.UpdateProperties | bids-client/tests/test_bidsify_flywheel.py:221-251 | Only the properties with an `auto_update` template change. |
| Bidsify.UpdatePropertiesValue | bids-client/tests/test_bidsify_flywheel.py:221-251 | An auto-updated property holds its template resolved against the context. |
| Bidsify.ProcessMatchingTemplates | bids-client/tests/test_bidsify_flywheel.py:912-937 | A container marked `NA`, or one that no rule applies to, comes back unchanged with the counters unchanged. Everything outside `info.BIDS` is always kept. |
| Bidsify.ProcessWrites | bids-client/tests/test_bidsify_flywheel.py:253-315 | When a rule applies, its derived block lands at `info.BIDS`, together with the counters it advanced. |
| TemplateCatalog.SessionLabelAlnum | bids-client/tests/test_bidsify_flywheel.py:759-786 | The session `Label` is the session label with every non-alphanumeric character removed. |
| TemplateCatalog.StripFrom | bids-client/tests/test_bidsify_flywheel.py:759-786 | Substituting away every `[^a-zA-Z0-9]+` run keeps exactly the alphanumeric characters, in order. |
| TemplateCatalog.TaskCapture | bids-client/tests/test_bidsify_flywheel.py:317-348 | When the first match of `task-` followed by an alphanumeric word starts at a `task-`, the functional `Task` is that word, taken whole. |
| TemplateCatalog.RestTaskCapture | bids-client/tests/test_bidsify_flywheel.py:317-348 | The label `rest_task-rest` gives the task `rest`, although `rest` also appears before `task-`. |
| TemplateCatalog.DirectionCapture | bids-client/tests/test_bidsify_flywheel.py:576-609 | When no direction is named before a given two-letter direction, `Dir` is that direction. |
| TemplateCatalog.NoDirectionAt | bids-client/tests/test_bidsify_flywheel.py:576-609 | No direction match starts at a position whose character, or the next one, is not among `P`, `A`, `L` and `R`. |
| TemplateCatalog.EpiDirection | bids-client/tests/test_bidsify_flywheel.py:576-609 | The label `EPI_PA` gives the direction `PA`, past the `P` of `EPI`. |
| TemplateCatalog.FirstRun | bids-client/tests/test_bidsify_flywheel.py:912-937 | A `run+` label whose run key has no counter yet is handed run index 1. |
| TemplateCatalog.RunNumberCapture | bids-client/tests/test_curate_bids.py:238-250 | When the first match of `run-` followed by digits starts at a given `run-`, the digits after it are captured whole. |
| TemplateCatalog.FuncRunNumber | bids-client/tests/test_curate_bids.py:238-250 | The label `func_run-1` gives the run number `1`, although it holds other letters of `run-` before it. |
| TemplateCatalog.ExplicitRun | bids-client/tests/test_curate_bids.py:238-250 | A label whose first `run-<digits>` match is the one written, and that does not end in `run+`, gets those digits as its run index, and the counters are left as they were. |
| TemplateCatalog.ProjectSelected | bids-client/tests/test_bidsify_flywheel.py:815-848 | A project gets the `project` template. |
| TemplateCatalog.SessionSelected | bids-client/tests/test_bidsify_flywheel.py:759-786 | A session gets the `session` template. |
| TemplateCatalog.AcquisitionSelected | bids-client/tests/test_bidsify_flywheel.py:698-723 | An acquisition gets the `acquisition` template. |
| TemplateCatalog.AnatSelected | bids-client/tests/test_bidsify_flywheel.py:253-315 | A structural NIfTI file measured as T1 or T2 gets `anat_file`. |
| TemplateCatalog.FuncSelected | bids-client/tests/test_bidsify_flywheel.py:317-348 | A functional NIfTI file gets `func_file`. |
| TemplateCatalog.TaskEventsSelected | bids-client/tests/test_bidsify_flywheel.py:350-380 | A tabular file of a functional acquisition gets `task_events_file`. |
| TemplateCatalog.BehEventsSelected | bids-client/tests/test_bidsify_flywheel.py:382-410 | A non-functional behavioural table gets `beh_events_file`. |
| TemplateCatalog.PhysioSelected | bids-client/tests/test_bidsify_flywheel.py:412-446 | A non-functional physiological table gets `physio_task_file`. |
| TemplateCatalog.DiffusionSelected | bids-client/tests/test_bidsify_flywheel.py:448-539 | A diffusion image, `bval` or `bvec` file gets `diffusion_file`. |
| TemplateCatalog.FieldmapSelected | bids-client/tests/test_bidsify_flywheel.py:541-574 | A fieldmap whose label names no direction, in either case, gets `fieldmap_file`. |
| TemplateCatalog.PhaseEncodedSelected | bids-client/tests/test_bidsify_flywheel.py:576-609 | A fieldmap whose label names a direction, in either case, gets `fieldmap_phase_encoded_file`. |
| TemplateCatalog.FieldmapTestLabels | bids-client/tests/test_bidsify_flywheel.py:541-609 | Ignoring case, `acqTEST` names no direction and `acqTEST Topup PA` names one, so the two tests reach the two fieldmap rules. |
| TemplateCatalog.DicomSelected | bids-client/tests/test_bidsify_flywheel.py:611-638 | A DICOM file that is not a localizer gets `dicom_file`. |
| TemplateCatalog.LocalizerUnmatched | bids-client/tests/test_bidsify_flywheel.py:640-665 | A localizer DICOM matches no rule, unless uploading, when it falls to `acquisition_file`. |
| TemplateCatalog.UploadOnlyAddsFallback | bids-client/tests/test_bidsify_flywheel.py:725-757 | Uploading only adds `acquisition_file` as a last resort. |
| Validator.CheckErrorsNone | bids-client/tests/test_curate_bids.py:22-79 | No property complaint exactly when every checked property that is present passes. |
| Validator.RequiredErrorsNone | bids-client/tests/test_curate_bids.py:93-103 | No missing-property complaint exactly when every required property is present. |
| Validator.ErrorsNone | bids-client/tests/test_curate_bids.py:22-163 | A block has no errors exactly when it satisfies its schema. |
| Validator.BlockErrors | bids-client/tests/test_curate_bids.py:118-128 | A block without a template has no errors. An unknown template is one `Unknown template: <t>. ` error. |
| Validator.KnownTemplateErrors | bids-client/tests/test_curate_bids.py:81-163 | A known template's errors are its schema's, and there are none exactly when the block satisfies it. |
| Validator.Verdict | bids-client/tests/test_curate_bids.py:22-163 | `valid` is true exactly when there are no errors, and `error_message` joins them by newlines. Every other key is kept. |
| Validator.ValidateMetaInfo | bids-client/tests/test_curate_bids.py:165-190 | A missing block becomes `NA`, an `NA` block is left alone, and only a non-object block fails. Nothing outside the block changes. |
| Validator.ValidateReads | bids-client/tests/test_curate_bids.py:22-163 | For an object block, the stored verdict reads back as the block's errors. |
| Validator.RevalidateFromScratch | bids-client/tests/test_curate_bids.py:192-221 | An earlier verdict plays no part in the new one. |
| Validator.ValidateIdempotent | bids-client/tests/test_curate_bids.py:192-221 | Validating a validated record changes nothing. |
| ValidatorExamples.NoTemplateValid | bids-client/tests/test_curate_bids.py:22-79 | Blocks without a template are valid, whatever else they hold. |
| ValidatorExamples.IntegerRunKept | bids-client/tests/test_curate_bids.py:68-79 | An integer `Run` is kept. |
| ValidatorExamples.StaleVerdictReplaced | bids-client/tests/test_curate_bids.py:192-221 | A stale verdict is replaced by a fresh one. |
| ValidatorExamples.MissingBlockBecomesNA | bids-client/tests/test_curate_bids.py:165-181 | A record without a block is marked `NA`. |
| ValidatorExamples.NAKept | bids-client/tests/test_curate_bids.py:183-190 | An `NA` block stays `NA`. |
| ValidatorExamples.UnknownTemplate | bids-client/tests/test_curate_bids.py:118-128 | `NO_MATCH` gives `Unknown template: NO_MATCH. `. |
| ValidatorExamples.EmptyTask | bids-client/tests/test_curate_bids.py:81-91 | An empty `Task` gives the one pattern complaint. |
| ValidatorExamples.ShortName | bids-client/tests/test_curate_bids.py:93-103 | An empty `Filename` and a missing `Modality` give two complaints, in that order. |
| ValidatorExamples.EmptyModality | bids-client/tests/test_curate_bids.py:105-116 | An empty `Modality` is not one of the listed modalities. |
| ValidatorExamples.BadEcho | bids-client/tests/test_curate_bids.py:130-141 | The `Task` and `Echo` pattern complaints come one per line. |
| Validator.TrailingNewlinePasses | bids-client/tests/test_curate_bids.py:143-163 | A `pattern` anchored with `$` is searched as Python's `re.search` does: for text that does not already end in a newline, adding one newline changes nothing about whether it passes. |
| Validator.TwoNewlinesFail | bids-client/tests/test_curate_bids.py:143-163 | Two trailing newlines never pass an anchored character-class pattern. |
| ValidatorExamples.TaskWithNewline | bids-client/tests/test_curate_bids.py:143-163 | A task label `rest` followed by one newline passes the label pattern; followed by two it does not. |
| ValidatorExamples.BadCharacters | bids-client/tests/test_curate_bids.py:143-163 | Four complaints come in schema order. |
| Curate.Link | bids-client/tests/test_curate_bids.py:223-250 | Linking keeps the session's shape, and every file is linked against all files of its session. |
| Curate.TargetsMember | bids-client/tests/test_curate_bids.py:223-250 | A path is a fieldmap target exactly when some file in one of the named folders has that path. |
| Curate.NoTargets | bids-client/tests/test_curate_bids.py:223-250 | No file in the named folders means an empty `IntendedFor`. |
| Curate.LinkFieldmap | bids-client/tests/test_curate_bids.py:223-250 | A fieldmap gets exactly its targets as `IntendedFor`, and nothing else of it changes. |
| Curate.LinkKeepsBlock | bids-client/tests/test_curate_bids.py:223-250 | Linking never changes a file's BIDS block. |
| Curate.LinkFileTwice | bids-client/tests/test_curate_bids.py:223-250 | Linking again after linking changes nothing. |
| Curate.RelativeBelowSubject | bids-client/tests/test_curate_bids.py:223-250 | Target paths are relative to the subject directory. |
| CurateExamples.IntendedForRun | bids-client/tests/test_curate_bids.py:223-250 | The fieldmap lists `ses-session1/func/sub-subj1_ses-session1_task-rest_run-1_bold.nii.gz` alone. |
| CurateExamples.CurateLabelDerivations | bids-client/tests/test_curate_bids.py:238-250 | The label `acq2_task-rest_run-1` derives task `rest` and run `1` and leaves the counters alone, the two parts of the name the fieldmap lists. |
| Extension.GetExtension | bids-client/tests/test_utils.py:20-80 | There is no extension exactly when no dot follows the last `}`. Otherwise the extension is a dotted tail of the name containing no `}`. |
| Extension.SimpleExtension | bids-client/tests/test_utils.py:20-36 | `stem.e` has the extension `.e`. |
| Extension.CompoundExtension | bids-client/tests/test_utils.py:26-30 | `stem.a.gz` has the extension `.a.gz`. |
| Extension.NoExtension | bids-client/tests/test_utils.py:38-42 | A name without a dot has no extension. |
| Extension.ExtensionHasShape | bids-client/tests/test_utils.py:20-80 | Every extension is one dotted part, or a dotted part followed by `.gz`. |
| ExtensionExamples.NiftiExtension | bids-client/tests/test_utils.py:20-24 | `T1w.nii` has `.nii`. |
| ExtensionExamples.GzipNiftiExtension | bids-client/tests/test_utils.py:26-30 | `T1w.nii.gz` has `.nii.gz`. |
| ExtensionExamples.TableExtension | bids-client/tests/test_utils.py:32-36 | `T1w.tsv` has `.tsv`. |
| ExtensionExamples.MissingExtension | bids-client/tests/test_utils.py:38-42 | A name without a dot has none. |
| ExtensionExamples.DottedGzipExtension | bids-client/tests/test_utils.py:44-48 | `1.2.3.4.5.6.nii.gz` has `.nii.gz`. |
| ExtensionExamples.DottedJsonExtension | bids-client/tests/test_utils.py:50-54 | `1.2.3.4.5.json` has `.json`. |
| ExtensionExamples.ArchiveExtension | bids-client/tests/test_utils.py:56-60 | `test.tar.gz` has `.tar.gz`. |
| ExtensionExamples.OtherTableExtension | bids-client/tests/test_utils.py:62-66 | `test.tsv` has `.tsv`. |
| ExtensionExamples.BracedNameExtension | bids-client/tests/test_utils.py:74-80 | Dots inside a leading `{…}` reference are not part of the extension. |
| Upload.Decompose | bids-client/tests/test_upload_bids.py:564-774 | A name put together from parts and an extension splits back into exactly those parts and that extension. |
| Upload.ValueOf | bids-client/tests/test_upload_bids.py:564-774 | A part holds a value for a key exactly when it is `key-<allowed characters>`, and the value is the rest of the part. |
| Upload.FindEntityFirst | bids-client/tests/test_upload_bids.py:564-774 | An entity takes its value from the first part that carries it. |
| Upload.FindEntityNone | bids-client/tests/test_upload_bids.py:564-774 | An entity is missing exactly when no part carries it. |
| Upload.SuffixComposed | bids-client/tests/test_upload_bids.py:564-774 | The suffix is the last part of a put-together name. |
| Upload.FillBlock | bids-client/tests/test_upload_bids.py:640-676 | Filling keeps the keys, and without overwriting it keeps every value that is already set. |
| Upload.FillBlockIdempotent | bids-client/tests/test_upload_bids.py:564-774 | Filling twice equals filling once. |
| Upload.FillBlockRendered | bids-client/tests/test_upload_bids.py:564-774 | Filling from a rendered name gives each key its entity's value, the suffix, the folder or the name. |
| Upload.EntityOfRendered | bids-client/tests/test_upload_bids.py:564-774 | Reading an entity back from a rendered name gives the value it was rendered with. |
| Upload.FillInProperties | bids-client/tests/test_upload_bids.py:564-774 | There is a result exactly when the context has a name, an extension and a block. The result is the filled block, with its keys, under `BIDS`. |
| Upload.AcquisitionLabel | bids-client/tests/test_upload_bids.py:411-549 | Under the BIDS hierarchy the label is the folder. Under the Flywheel hierarchy it contains no dot. |
| Upload.FlywheelLabel | bids-client/tests/test_upload_bids.py:425-549 | The Flywheel label drops the extension, the subject, session and `recording-` parts and a shared suffix. Every remaining part comes from the name and is descriptive. |
| Upload.DescriptiveMembers | bids-client/tests/test_upload_bids.py:425-549 | The descriptive parts are exactly the parts that are not `sub-`, `ses-` or `recording-` parts. |
| Upload.DropShared | bids-client/tests/test_upload_bids.py:481-549 | Only a last part that is a shared suffix (`bold`, `events`, `physio`, `stim`) is dropped. |
| Upload.DescribesComposed | bids-client/tests/test_upload_bids.py:790-879 | A sidecar describes a data file exactly when the file's extension is a data extension and every sidecar part is a part of the file. |
| Upload.DescribesMore | bids-client/tests/test_upload_bids.py:790-830 | A sidecar that describes a file describes every file with more parts and the same extension. |
| Upload.MissingPartBreaks | bids-client/tests/test_upload_bids.py:832-872 | A sidecar part missing from the file means no match. |
| Upload.ReadIntToString | bids-client/tests/test_upload_bids.py:902-993 | Reading the decimal text of any integer gives that integer back. |
| Upload.ReadIntCanonical | bids-client/tests/test_upload_bids.py:902-993 | Canonical decimal text reads back to itself. |
| Upload.ConvertCell | bids-client/tests/test_upload_bids.py:902-993 | A cell becomes an integer exactly when it reads as one. Otherwise it stays text, except that `F`/`M` are spelled out. |
| Upload.ConvertRows | bids-client/tests/test_upload_bids.py:902-993 | Conversion keeps the table's shape and the header text, and converts every data cell. |
| Upload.ConvertIntegerCell | bids-client/tests/test_upload_bids.py:902-922 | The text of any integer converts to that integer. |
| UploadExamples.LabelFromFolder | bids-client/tests/test_upload_bids.py:411-423 | Under the BIDS hierarchy the folder is the label. |
| UploadExamples.LabelOfAnatomy | bids-client/tests/test_upload_bids.py:425-465 | An anatomical image is uploaded under its suffix, for any subject and session. |
| UploadExamples.LabelOfTask | bids-client/tests/test_upload_bids.py:467-493 | A task file is uploaded under `task-<task>`, followed by its suffix unless the suffix is shared. |
| UploadExamples.LabelOfRecording | bids-client/tests/test_upload_bids.py:495-549 | The recording entity plays no part in the label. |
| UploadExamples.SidecarOfRuns | bids-client/tests/test_upload_bids.py:790-809 | A task sidecar describes the image of every subject, session and run. |
| UploadExamples.SidecarOfTable | bids-client/tests/test_upload_bids.py:818-830 | A physiological sidecar describes the compressed table. |
| UploadExamples.SidecarOfOtherSuffix | bids-client/tests/test_upload_bids.py:832-851 | A sidecar of another suffix does not describe the image. |
| UploadExamples.SidecarOfOtherAcquisition | bids-client/tests/test_upload_bids.py:839-872 | A sidecar of another acquisition does not describe the file. |
| UploadExamples.SidecarOfOtherRun | bids-client/tests/test_upload_bids.py:860-865 | A sidecar of another run does not describe the image. |
| UploadExamples.SidecarOfPlainTable | bids-client/tests/test_upload_bids.py:874-879 | A sidecar does not describe an uncompressed table. |
| UploadExamples.FillAnatomy | bids-client/tests/test_upload_bids.py:564-600 | Every key of an empty anatomical block is filled from the name. |
| UploadExamples.FillFunctional | bids-client/tests/test_upload_bids.py:602-638 | Every key of a functional block is filled, including the echo index. |
| UploadExamples.FillDicom | bids-client/tests/test_upload_bids.py:640-676 | Without overwriting, the given run and folder stay and the empty keys are filled. |
| UploadExamples.FillDiffusion | bids-client/tests/test_upload_bids.py:678-708 | A diffusion image's run, suffix, folder and name are filled. |
| UploadExamples.FillPhasediff | bids-client/tests/test_upload_bids.py:710-740 | A phase-difference fieldmap's block is filled. |
| UploadExamples.FillEpi | bids-client/tests/test_upload_bids.py:742-774 | A spin-echo fieldmap's direction, run, suffix, folder and name are filled. |
| UploadExamples.ConvertParticipants | bids-client/tests/test_upload_bids.py:902-922 | Sexes are spelled out and ages and counts become integers, and the header is kept. |
| UploadExamples.ConvertFilenames | bids-client/tests/test_upload_bids.py:941-960 | File names stay text, and digits become integers. |
| UploadExamples.ConvertSexes | bids-client/tests/test_upload_bids.py:962-986 | A column of sexes is spelled out row by row. |
| UploadExamples.ConvertIntegerColumn | bids-client/tests/test_upload_bids.py:924-939 | The integer column of a two-row table converts. |
| ProjectLabel.LevelOf | bids-client/tests/test_upload_bids.py:61-200 | The tree is at subject level exactly when its top holds a `sub-` entry. It is at project level only when its one entry is a directory holding subjects. |
| ProjectLabel.LevelUndetermined | bids-client/tests/test_upload_bids.py:61-81 | The level is undetermined exactly when there is no subject at the top and no project directory. |
| ProjectLabel.Place | bids-client/tests/test_upload_bids.py:83-188 | Placement fails exactly for an undetermined tree, or a subject-level one without a label. A given label always names the project. A subject-level tree keeps its directories, loses its top files and is read from the parent. |
| ProjectLabel.Select | bids-client/tests/test_upload_bids.py:246-373 | Narrowing fails exactly for a missing subject or session. Otherwise it keeps that subject, or that session, and gives the directories made up for it empty file lists. |
| ProjectLabel.HandleProjectLabel | bids-client/tests/test_upload_bids.py:61-409 | Succeeds exactly when placement and narrowing do, and the result is one project, under the placed label. |
| ProjectLabel.ProjectUnchanged | bids-client/tests/test_upload_bids.py:83-106 | A project uploaded whole under its own name comes back unchanged. |
| ProjectLabel.ProjectRenamed | bids-client/tests/test_upload_bids.py:108-141 | A label renames the project directory, and its contents are unchanged. |
| ProjectLabel.SubjectWrapped | bids-client/tests/test_upload_bids.py:163-188 | A subject-level tree is wrapped under the label and read from the parent. |
| ProjectLabel.SourceDropped | bids-client/tests/test_upload_bids.py:202-244 | Without the flag, `sourcedata` alone is dropped. |
| ProjectLabel.Undeterminable | bids-client/tests/test_upload_bids.py:61-81 | An undeterminable label stops the upload. |
| ProjectLabel.HandleTwice | bids-client/tests/test_upload_bids.py:61-409 | Placing a placed tree again changes nothing. |
| ProjectLabelExamples.GroupFails | bids-client/tests/test_upload_bids.py:61-81 | A group directory above the project fails. |
| ProjectLabelExamples.ProjectWithoutLabel | bids-client/tests/test_upload_bids.py:83-106 | A project without a label is uploaded as it is. |
| ProjectLabelExamples.ProjectWithLabel | bids-client/tests/test_upload_bids.py:108-141 | A project with a label is renamed. |
| ProjectLabelExamples.SubjectsWithoutLabel | bids-client/tests/test_upload_bids.py:143-162 | Subjects without a label fail. |
| ProjectLabelExamples.SubjectsWithLabel | bids-client/tests/test_upload_bids.py:163-188 | Subjects with a label are wrapped, and their top files are emptied. |
| ProjectLabelExamples.FilesOnlyFails | bids-client/tests/test_upload_bids.py:190-200 | A tree of files alone fails. |
| ProjectLabelExamples.SourceData | bids-client/tests/test_upload_bids.py:202-244 | Source data is kept with the flag and dropped without it. |
| ProjectLabelExamples.SubjectNotFound | bids-client/tests/test_upload_bids.py:246-274 | An absent subject fails. |
| ProjectLabelExamples.SingleSubject | bids-client/tests/test_upload_bids.py:276-306 | One subject is uploaded alone. |
| ProjectLabelExamples.SessionNotFound | bids-client/tests/test_upload_bids.py:308-336 | An absent session fails. |
| ProjectLabelExamples.SingleSession | bids-client/tests/test_upload_bids.py:338-373 | One session is uploaded alone. |
| ProjectLabelExamples.ProjectOfTwoSubjects | bids-client/tests/test_upload_bids.py:376-409 | A two-subject project directory with a label given is placed under that label. |
| Export.PathJoin | bids-client/tests/test_export_bids.py:58-77 | The join ends with its second component. A relative component follows the first one, separated by at most one added `/`. |
| Export.DefinePath | bids-client/tests/test_export_bids.py:58-129 | There is no path exactly when the file has no block or no file name. A path ends with the file name and lies under the output directory. |
| Export.DefinePathDirectory | bids-client/tests/test_export_bids.py:58-77 | The file lands in `<outdir>/<Path>`. |
| Export.NotApplicableHasNoPath | bids-client/tests/test_export_bids.py:120-129 | A file marked `NA` is written nowhere. |
| Export.IgnoreDecides | bids-client/tests/test_export_bids.py:186-206 | The `ignore` flag alone decides container exclusion. |
| Export.IsFileExcluded | bids-client/tests/test_export_bids.py:208-258 | A file is skipped if it is ignored, or if it is source or derived data that is not exported, or if only changed files are replaced and the local copy is current; in no other case. |
| Export.SourceDataExportsMore | bids-client/tests/test_export_bids.py:208-258 | Exporting source data never skips more files. |
| Export.ChangedFileExported | bids-client/tests/test_export_bids.py:208-258 | A changed file that is not ignored and not held back is exported. |
| Export.DetermineContainer | bids-client/tests/test_export_bids.py:260-269 | Without a project, the container named by type and id is used, and it is missing exactly when either is missing. A project goes to the lookup. |
| ExportExamples.PathInOutput | bids-client/tests/test_export_bids.py:58-77 | `/test/` with an empty `Path` gives `/test/test.json`. |
| ExportExamples.EmptyFilename | bids-client/tests/test_export_bids.py:79-96 | An empty file name gives no path. |
| ExportExamples.NoInfo | bids-client/tests/test_export_bids.py:98-107 | A file without `info` gives no path. |
| ExportExamples.NoNamespace | bids-client/tests/test_export_bids.py:109-118 | A file without the namespace gives no path. |
| ExportExamples.NamespaceNotApplicable | bids-client/tests/test_export_bids.py:120-129 | A file marked `NA` gives no path. |
| ExportExamples.ExcludeContainers | bids-client/tests/test_export_bids.py:186-206 | A container is excluded exactly when its flag is set. |
| ExportExamples.ExcludeIgnoredFiles | bids-client/tests/test_export_bids.py:208-258 | Ignored files are skipped and others are not. |
| ExportExamples.ExcludeCurrentFiles | bids-client/tests/test_export_bids.py:233-244 | When only changed files are replaced, a function file whose local copy is current is skipped and one whose copy is stale is exported. |
| ExportExamples.ExcludeSourceData | bids-client/tests/test_export_bids.py:208-258 | Source data is skipped unless it is exported. |
| ExportExamples.SingleContainer | bids-client/tests/test_export_bids.py:260-269 | The named session is the container exported. |

## Left out

- `get_flywheel_hierarchy` (`create_archive_funcs.py:6-105`): it reads the hierarchy through the Flywheel client over the network. Its result is the model's input.
- The non-test branch of the sidecar loop (`create_archive_funcs.py:378-386`): it calls `fw.get_acquisition`. Only the `test_bool` branch, which writes repetition time 123, is modelled.
- Python's `print` calls and the logging in the client are not modelled.
- `classify_acquisition`: it calls the Flywheel classifier, and it is not part of this model.
- `validate_dirname`, `parse_bids_dir`, `parse_json`, `parse_tsv` and `create_json`: they touch the filesystem.
- `validate_project_label` and the lookups inside `determine_container`: they query Flywheel. `Export.DetermineContainer` takes the lookup as a parameter.
- Export.IsFileExcluded: the comparison of modification times is a boolean parameter (`current`), because it reads the filesystem and the clock.
- Upload.ConvertCell: floating-point columns are not converted to numbers. A decimal cell stays text.
- `templates.py` and the template JSON are not part of this model. `TemplateCatalog` holds only the rules and properties that the tests exercise, rebuilt from their expected outputs.
- Patterns: only the regular-expression forms the code uses are modelled (literal and case-insensitive characters, `.`, `\d`, `\D`, `[a-zA-Z0-9]`, its complement and `[A-Z]`, one trailing `+` run per branch, alternation).
- Validator: only the schema keywords the tests use are modelled (`required`, `minLength`, `pattern`, `enum`). Messages follow the tests' texts.
- LegacyNaming.FieldmapDesc: the variable left over from an earlier acquisition is threaded as `prior`. When it was never set, Python raises `NameError`, which the model reports as a failure.
- LegacyArchive.CreateBidsHierarchy: the renumbering of its rows is stated by LegacyArchive.ConversionPass, which needs the tree's dictionaries to have unique keys, as Python's dictionaries do.
- LegacyArchive.CreateBidsHierarchy: the input path of a row is kept as its four names rather than joined and split again. The source joins them with `os.path.join` (line 219) and splits at `/` (lines 335 and 376); an empty id or a `/` in an id or file name makes that unpacking raise `ValueError`, or look up the wrong acquisition. The success conditions are those of a tree whose ids and file names are non-empty and slash-free (LegacyArchive.PlainTree, as Flywheel's ids are), and LegacyArchive.RowsSourcesSplit proves the re-split exact there; on other trees the model reports success where the source raises.
- LegacyArchive.AddSidecars: the same; its unpacking at line 376 is not modelled, so a row whose input path does not split in four is not reported as a failure.
- LegacyArchive.ConversionSucceeds: the same; its success condition does not include the four-way split of the input paths at lines 335 and 376, which holds for plain trees (LegacyArchive.RowsSourcesSplit).
- LegacyArchive.WalkDistinct: needs unique keys in the tree's dictionaries (`WellFormed`), which Python's dictionaries guarantee and the model's association lists do not.
- LegacyArchive.ConversionPass: needs the same unique keys.
- LegacyNaming.MakeBidsSpec: the character classes are ASCII. Python's `isalnum()` and `\D` also accept other alphabets, so `make_bids_spec('sub-', 'Mü', 'label')` gives `sub-Mü`, which fails the ASCII test at line 164; the contract speaks of ASCII alphanumerics.
- LegacyNaming.MakeBidsSpecIdempotent: stated for ASCII input only; with a non-ASCII letter the source is not idempotent (`sub-Mü` becomes `sub-subMü`).
- LegacyNaming.RunRewriteToken: `\d` is ASCII in the model; Python's matches every decimal digit, so `run٣` is rewritten by the source.
- LegacyNaming.RunRewriteNoToken: stated for names whose digits are ASCII, for the same reason.
- Rules.ApplyFormat: lower-casing is ASCII-only. Python's `str.lower()` also lowers other alphabets (`É` becomes `é`) and can change the length (`'İ'.lower()` is two characters long), so the per-character and length claims hold of the model's ASCII lower-casing only.
- Rules.LowerMatchesThenLowerAll: stated for the ASCII lower-casing; with `İ` in the text Python's lower-casing changes the length, so "keeps the length" does not carry over to non-ASCII text.
- Rules.Holds: a `$regex` condition ignores case only in its literal characters; a class such as `[A-Z]` keeps its case. The `$regex` captures of derivations (Rules.CaptureLeftmost) are case-sensitive.
- CurateExamples.IntendedForRun: the functional file's block is written out by hand; only its `Task` and `Run` are derived from the label (CurateExamples.CurateLabelDerivations). Resolving the file name from them is not chained into the proof.
- Resolver: templates come already split into literal, required and optional parts; parsing the template string is not modelled.
- Curate: only the linking step of `curate_bids_tree` (`Curate.Link`) is modelled, not the tree traversal, the derivation pass or the run counters threaded across the tree.
- Acquisition.created: an integer stands in for the hierarchy's timestamp string; only its order is used.
- Concurrency and the command-line parsing of the upload and export scripts are not modelled.

## Findings

| source | as written | input that shows it | evidently intended | confidence | as-written member | corrected member |
|---|---|---|---|---|---|---|
| create_archive_funcs.py:399 | `re.sub(r'(.nii.gz\|.nii)', r'.json', b)`: the dots are unescaped, so any character followed by `nii` is replaced anywhere in the path | `sub-01_ses-01_task-niiback_bold.nii` gives `sub-01_ses-01_task.jsonback_bold.json` | `(\.nii\.gz\|\.nii)`, which replaces only the extension | not executed | LegacyArchive.JsonNameAsWrittenRewritesLabel | LegacyArchive.JsonNameReplacesExtension |

The converter takes the sidecar naming as a parameter (`LegacyArchive.SidecarNaming`):
`AsWritten` is the line as it stands and is what the script does; `Escaped` is the intended
pattern. Every contract of `LegacyArchive.AddSidecars` and `LegacyArchive.CreateBidsHierarchy`
holds for both.

=== FILE: assoc.dfy ===
/** Insertion-ordered dictionaries, as Python's `dict` keeps them: a sequence of key/value pairs. */
module Assoc {
  import opened Outcomes

  type Dict<K, V> = seq<(K, V)>

  function Keys<K, V>(d: Dict<K, V>): (r: seq<K>)
    ensures |r| == |d|
    ensures forall i :: 0 <= i < |d| ==> r[i] == d[i].0
  {
    seq(|d|, i requires 0 <= i < |d| => d[i].0)
  }

  predicate HasKey<K(==), V>(d: Dict<K, V>, k: K) {
    exists i :: 0 <= i < |d| && d[i].0 == k
  }

  /** `d.get(k)`: the value stored under the first pair with key `k`. */
  function Get<K(==), V>(d: Dict<K, V>, k: K): (r: Option<V>)
    ensures r.Some? <==> HasKey(d, k)
    ensures r.Some? ==> exists i :: 0 <= i < |d| && d[i] == (k, r.value)
  {
    if |d| == 0 then None
    else if d[0].0 == k then Some(d[0].1)
    else
      var r := Get(d[1..], k);
      assert forall i :: 1 <= i < |d| ==> d[i] == d[1..][i - 1];
      r
  }

  /** `d[k] = v`: replace the value in place when the key exists, otherwise append a new pair. */
  function Put<K(==), V>(d: Dict<K, V>, k: K, v: V): (r: Dict<K, V>)
    ensures HasKey(d, k) ==> Keys(r) == Keys(d)
    ensures !HasKey(d, k) ==> Keys(r) == Keys(d) + [k]
  {
    if |d| == 0 then [(k, v)]
    else if d[0].0 == k then [(k, v)] + d[1..]
    else
      var rest := Put(d[1..], k, v);
      KeysCons(d[0], rest);
      KeysCons(d[0], d[1..]);
      HasKeyTail(d, k);
      [d[0]] + rest
  }

  lemma KeysCons<K, V>(p: (K, V), d: Dict<K, V>)
    ensures Keys([p] + d) == [p.0] + Keys(d)
  {
  }

  lemma HasKeyTail<K, V>(d: Dict<K, V>, k: K)
    requires |d| > 0 && d[0].0 != k
    ensures HasKey(d, k) ==> HasKey(d[1..], k)
  {
    if HasKey(d, k) {
      var i :| 0 <= i < |d| && d[i].0 == k;
      assert d[1..][i - 1] == d[i];
    }
  }

  /** No key occurs twice, as in every Python `dict`. */
  predicate UniqueKeys<K(==), V>(d: Dict<K, V>) {
    forall i, j :: 0 <= i < j < |d| ==> d[i].0 != d[j].0
  }

  /** The tail of a dictionary with unique keys has unique keys and lacks the head's key. */
  lemma UniqueKeysTail<K, V>(d: Dict<K, V>)
    requires |d| > 0 && UniqueKeys(d)
    ensures UniqueKeys(d[1..]) && !HasKey(d[1..], d[0].0)
  {
    assert forall i :: 0 <= i < |d[1..]| ==> d[1..][i] == d[i + 1];
  }

  /** A key of the tail is a key of the dictionary. */
  lemma HasKeyFromTail<K, V>(d: Dict<K, V>, k: K)
    requires |d| > 0 && HasKey(d[1..], k)
    ensures HasKey(d, k)
  {
    var i :| 0 <= i < |d[1..]| && d[1..][i].0 == k;
    assert d[i + 1].0 == k;
  }

  /** After `d[k] = v`, key `k` holds `v` and every other key holds what it held before. */
  lemma {:induction false} GetPut<K, V>(d: Dict<K, V>, k: K, v: V, k': K)
    ensures Get(Put(d, k, v), k') == if k' == k then Some(v) else Get(d, k')
  {
    if |d| > 0 && d[0].0 != k {
      GetPut(d[1..], k, v, k');
    }
  }
}

=== FILE: bidsify.dfy ===
/**
 * `bidsify_flywheel`: fill a container's `info.BIDS` block from the first catalog rule that
 * applies to its context. The block starts from the template's property defaults
 * (`add_properties`), takes the rule's `initialize` derivations, and then re-resolves every
 * property that carries an `auto_update` naming template (`update_properties`).
 */
module Bidsify {
  import opened Outcomes
  import opened Text
  import opened Json
  import Resolver
  import opened Rules

  /** One property of a template definition: its default, and the naming template re-resolved on update. */
  datatype Property = Property(default: Value, autoUpdate: Option<Resolver.Template>)

  type Properties = seq<(string, Property)>

  /** The rules in priority order, and the properties of each template by name. */
  datatype Catalog = Catalog(rules: seq<Rule>, definitions: map<string, Properties>)

  /** No property is declared twice. */
  predicate UniqueNames(ps: Properties) {
    forall i, j :: 0 <= i < j < |ps| ==> ps[i].0 != ps[j].0
  }

  // ---------------------------------------------------------------- add_properties

  /** `add_properties`: every declared property takes its default; other keys are kept. */
  function AddProperties(ps: Properties, obj: map<string, Value>): (r: map<string, Value>)
    ensures r.Keys == obj.Keys + set n | n in Names(ps)
    ensures forall k :: k in obj && k !in Names(ps) ==> r[k] == obj[k]
    decreases |ps|
  {
    if |ps| == 0 then obj
    else
      var r := AddProperties(ps[1..], obj[ps[0].0 := ps[0].1.default]);
      assert Names(ps) == [ps[0].0] + Names(ps[1..]);
      r
  }

  /** With no property declared twice, each one ends up holding its own default. */
  lemma {:induction false} AddPropertiesDefault(ps: Properties, obj: map<string, Value>, k: nat)
    requires UniqueNames(ps) && k < |ps|
    ensures AddProperties(ps, obj)[ps[k].0] == ps[k].1.default
    decreases |ps|
  {
    var next := obj[ps[0].0 := ps[0].1.default];
    if k == 0 {
      assert ps[0].0 !in Names(ps[1..]);
    } else {
      assert UniqueNames(ps[1..]) by {
        forall i, j | 0 <= i < j < |ps[1..]| ensures ps[1..][i].0 != ps[1..][j].0 {
          assert ps[1..][i] == ps[i + 1] && ps[1..][j] == ps[j + 1];
        }
      }
      assert ps[1..][k - 1] == ps[k];
      AddPropertiesDefault(ps[1..], next, k - 1);
    }
  }

  // ---------------------------------------------------------------- update_properties

  /** The properties that carry an `auto_update` template. */
  function AutoUpdated(ps: Properties): (ns: set<string>)
    ensures forall n :: n in ns <==> exists k :: 0 <= k < |ps| && ps[k].0 == n && ps[k].1.autoUpdate.Some?
    decreases |ps|
  {
    if |ps| == 0 then {}
    else
      var rest := AutoUpdated(ps[1..]);
      assert forall k :: 1 <= k < |ps| ==> ps[k] == ps[1..][k - 1];
      var ns := (if ps[0].1.autoUpdate.Some? then {ps[0].0} else {}) + rest;
      assert forall n :: n in ns ==> exists k :: 0 <= k < |ps| && ps[k].0 == n && ps[k].1.autoUpdate.Some? by {
        forall n | n in ns ensures exists k :: 0 <= k < |ps| && ps[k].0 == n && ps[k].1.autoUpdate.Some? {
          if n !in rest {
            assert ps[0].0 == n && ps[0].1.autoUpdate.Some?;
          } else {
            var k :| 0 <= k < |ps[1..]| && ps[1..][k].0 == n && ps[1..][k].1.autoUpdate.Some?;
            assert ps[k + 1].0 == n;
          }
        }
      }
      ns
  }

  /**
   * `update_properties`: every property with an `auto_update` template is set to that template
   * resolved against the context; every other key of `obj` is left as it was.
   */
  function UpdateProperties(ps: Properties, ctx: Value, obj: map<string, Value>): (r: map<string, Value>)
    ensures r.Keys == obj.Keys + AutoUpdated(ps)
    ensures forall k :: k in obj && k !in AutoUpdated(ps) ==> r[k] == obj[k]
    decreases |ps|
  {
    if |ps| == 0 then obj
    else
      var next := match ps[0].1.autoUpdate
        case Some(t) => obj[ps[0].0 := Str(Resolver.Resolve(t, ctx))]
        case None => obj;
      UpdateProperties(ps[1..], ctx, next)
  }

  /** With no property declared twice, an auto-updated property holds its template's resolution. */
  lemma {:induction false} UpdatePropertiesValue(ps: Properties, ctx: Value, obj: map<string, Value>, k: nat)
    requires UniqueNames(ps) && k < |ps| && ps[k].1.autoUpdate.Some?
    ensures UpdateProperties(ps, ctx, obj)[ps[k].0] == Str(Resolver.Resolve(ps[k].1.autoUpdate.value, ctx))
    decreases |ps|
  {
    var next := match ps[0].1.autoUpdate
      case Some(t) => obj[ps[0].0 := Str(Resolver.Resolve(t, ctx))]
      case None => obj;
    if k == 0 {
      assert forall j :: 0 <= j < |ps[1..]| ==> ps[1..][j].0 != ps[0].0 by {
        forall j | 0 <= j < |ps[1..]| ensures ps[1..][j].0 != ps[0].0 {
          assert ps[1..][j] == ps[j + 1];
        }
      }
      assert ps[0].0 !in AutoUpdated(ps[1..]);
    } else {
      assert UniqueNames(ps[1..]) by {
        forall i, j | 0 <= i < j < |ps[1..]| ensures ps[1..][i].0 != ps[1..][j].0 {
          assert ps[1..][i] == ps[i + 1] && ps[1..][j] == ps[j + 1];
        }
      }
      assert ps[1..][k - 1] == ps[k];
      UpdatePropertiesValue(ps[1..], ctx, next, k - 1);
    }
  }

  // ---------------------------------------------------------------- process_matching_templates

  /** The sentinel a user sets to mark a container as not part of the BIDS dataset. */
  const NA: Value := Str("NA")

  const InfoPath: Path := ["info", "BIDS"]

  /** The container type the context is about (`context['container_type']`). */
  function ContainerType(ctx: Value): string {
    TextOf(Get(ctx, ["container_type"]))
  }

  /** `context[context['container_type']]`: the container whose block is being derived. */
  function ContainerOf(ctx: Value): Value {
    GetOrNull(ctx, [ContainerType(ctx)])
  }

  /** The context a property template reads: the block derived so far stands at `<container>.info.BIDS`. */
  function WithBlock(ctx: Value, block: map<string, Value>): (r: Value)
    ensures Get(r, [ContainerType(ctx)] + InfoPath) == Some(Obj(block))
  {
    GetSet(ctx, [ContainerType(ctx)] + InfoPath, Obj(block));
    Set(ctx, [ContainerType(ctx)] + InfoPath, Obj(block))
  }

  /** The properties declared for a template name, none for an unknown one. */
  function DefinitionOf(cat: Catalog, name: string): Properties {
    if name in cat.definitions then cat.definitions[name] else []
  }

  /** The block rule `k` derives: defaults, then its `initialize` derivations, then the auto-updated names. */
  function Populate(cat: Catalog, k: nat, ctx: Value, counters: Counters): (r: (map<string, Value>, Counters))
    requires k < |cat.rules|
    ensures "template" in r.0
  {
    var rule := cat.rules[k];
    var ps := DefinitionOf(cat, rule.template);
    var defaults := AddProperties(ps, map["template" := Str(rule.template)]);
    var (info, next) := Initialize(rule.init, ctx, defaults, counters);
    (UpdateProperties(ps, WithBlock(ctx, info), info), next)
  }

  /**
   * `process_matching_templates`: the container with the block of the first rule that applies
   * written to `info.BIDS`, and the run counters after it. A container already marked `NA`, or
   * one no rule applies to, is returned as it is.
   */
  function ProcessMatchingTemplates(cat: Catalog, ctx: Value, counters: Counters, upload: bool): (r: (Value, Counters))
    ensures Get(ContainerOf(ctx), InfoPath) == Some(NA) ==> r == (ContainerOf(ctx), counters)
    ensures Select(cat.rules, ctx, upload).None? ==> r == (ContainerOf(ctx), counters)
    ensures r.0 != ContainerOf(ctx) ==>
      Get(ContainerOf(ctx), InfoPath) != Some(NA) && Select(cat.rules, ctx, upload).Some?
    ensures forall q :: Diverge(InfoPath, q, 0) ==> Get(r.0, q) == Get(ContainerOf(ctx), q)
  {
    var container := ContainerOf(ctx);
    if Get(container, InfoPath) == Some(NA) then (container, counters)
    else match Select(cat.rules, ctx, upload)
      case None => (container, counters)
      case Some(k) =>
        var (block, next) := Populate(cat, k, ctx, counters);
        var updated := Set(container, InfoPath, Obj(block));
        assert forall q :: Diverge(InfoPath, q, 0) ==> Get(updated, q) == Get(container, q) by {
          forall q | Diverge(InfoPath, q, 0) ensures Get(updated, q) == Get(container, q) {
            GetSetOther(container, InfoPath, q, Obj(block));
          }
        }
        (updated, next)
  }

  /** When a rule applies to a container not marked `NA`, its block lands at `info.BIDS`. */
  lemma ProcessWrites(cat: Catalog, ctx: Value, counters: Counters, upload: bool, k: nat)
    requires Get(ContainerOf(ctx), InfoPath) != Some(NA)
    requires Select(cat.rules, ctx, upload) == Some(k)
    ensures Get(ProcessMatchingTemplates(cat, ctx, counters, upload).0, InfoPath) ==
            Some(Obj(Populate(cat, k, ctx, counters).0))
    ensures ProcessMatchingTemplates(cat, ctx, counters, upload).1 == Populate(cat, k, ctx, counters).1
  {
    GetSet(ContainerOf(ctx), InfoPath, Obj(Populate(cat, k, ctx, counters).0));
  }
}

=== FILE: catalog.dfy ===
/**
 * The default BIDS template catalog the client bidsifies against: fifteen rules in priority
 * order, and the properties of each template (their defaults and the naming templates
 * `Filename`, `Folder` and `Path` re-resolve on update).
 */
module TemplateCatalog {
  import opened Outcomes
  import opened Text
  import opened Json
  import Patterns
  import opened Resolver
  import opened Rules
  import opened Bidsify

  // ---------------------------------------------------------------- naming templates

  /** `file.info.BIDS.<key>`: a property of the block being derived for a file. */
  function Bids(key: string): Path {
    ["file", "info", "BIDS", key]
  }

  const SubjectCode: Path := ["subject", "code"]
  const SessionLabel: Path := ["session", "label"]
  const AcquisitionLabel: Path := ["acquisition", "label"]

  /** `[<lit>{file.info.BIDS.<key>}]`: an entity written only when the block has a value for it. */
  function Entity(lit: string, key: string): Group {
    Optional([Lit(lit), Deferred(Bids(key))])
  }

  /** `sub-<subject.code>[<sep>ses-<session.label>]`: the subject, then the session when it has a label. */
  function SubjectSession(sep: string): Template {
    [Plain([Lit("sub-"), Required(SubjectCode)]), Optional([Lit(sep + "ses-"), Required(SessionLabel)])]
  }

  /** A file name: subject and session, the optional entities, then the fixed tail. */
  function FileName(entities: seq<Group>, tail: seq<Piece>): Template {
    SubjectSession("_") + entities + [Plain(tail)]
  }

  /** `_{file.info.BIDS.Modality}{ext}` */
  const ModalityTail: seq<Piece> := [Lit("_"), Deferred(Bids("Modality")), Deferred(["ext"])]

  /** `_task-{file.info.BIDS.Task}`, required: an empty task stays visible in the name. */
  const TaskGroup: Group := Plain([Lit("_task-"), Deferred(Bids("Task"))])

  /** `sub-<subject.code>[/ses-<session.label>]/{file.info.BIDS.Folder}` */
  const FolderPath: Template := SubjectSession("/") + [Plain([Lit("/"), Deferred(Bids("Folder"))])]

  const AnatName: Template :=
    FileName([Entity("_acq-", "Acq"), Entity("_ce-", "Ce"), Entity("_rec-", "Rec"), Entity("_run-", "Run"),
              Entity("_mod-", "Mod")], ModalityTail)

  const FuncName: Template :=
    FileName([Entity("_task-", "Task"), Entity("_acq-", "Acq"), Entity("_rec-", "Rec"), Entity("_run-", "Run"),
              Entity("_echo-", "Echo")], ModalityTail)

  const TaskEventsName: Template :=
    FileName([TaskGroup, Entity("_acq-", "Acq"), Entity("_rec-", "Rec"), Entity("_run-", "Run"),
              Entity("_echo-", "Echo")], [Lit("_events"), Deferred(["ext"])])

  const BehEventsName: Template := FileName([TaskGroup], [Lit("_events"), Deferred(["ext"])])

  const PhysioName: Template :=
    FileName([TaskGroup, Entity("_acq-", "Acq"), Entity("_rec-", "Rec"), Entity("_recording-", "Recording"),
              Entity("_run-", "Run"), Entity("_echo-", "Echo")], [Lit("_physio"), Deferred(["ext"])])

  const DiffusionName: Template := FileName([Entity("_acq-", "Acq"), Entity("_run-", "Run")], ModalityTail)

  const PhaseEncodedName: Template :=
    FileName([Entity("_acq-", "Acq"), Plain([Lit("_dir-"), Deferred(Bids("Dir"))]), Entity("_run-", "Run")],
             ModalityTail)

  const FieldmapName: Template :=
    FileName([Entity("_acq-", "Acq"), Entity("_dir-", "Dir"), Entity("_run-", "Run")], ModalityTail)

  // ---------------------------------------------------------------- template definitions

  function Fixed(name: string, v: Value): (string, Property) {
    (name, Property(v, None))
  }

  function Empty(name: string): (string, Property) {
    Fixed(name, Str(""))
  }

  function Auto(name: string, t: Template): (string, Property) {
    (name, Property(Str(""), Some(t)))
  }

  const Ignore: (string, Property) := Fixed("ignore", Bool(false))

  /** The dataset description a project carries. */
  const ProjectProperties: Properties := [
    Empty("Acknowledgements"), Fixed("Authors", List([])), Fixed("BIDSVersion", Str("1.0.2")),
    Empty("DatasetDOI"), Empty("Funding"), Empty("HowToAcknowledge"), Empty("License"), Empty("Name"),
    Fixed("ReferencesAndLinks", List([]))
  ]

  const ProjectFileProperties: Properties := [Empty("Filename"), Empty("Folder"), Empty("Path"), Ignore]

  const SessionProperties: Properties := [Empty("Label"), Empty("Subject"), Ignore]

  const SessionFileProperties: Properties := [
    Empty("Filename"),
    Auto("Folder", [Plain([Lit("ses-"), Required(SessionLabel)])]),
    Auto("Path", [Plain([Lit("sub-"), Required(SubjectCode), Lit("/ses-"), Required(SessionLabel)])]),
    Ignore
  ]

  const AcquisitionProperties: Properties := [Ignore]

  /** The properties every file in an acquisition folder shares: its name, folder and path. */
  function FileProperties(name: Template, folder: string, rest: Properties): Properties {
    [Auto("Filename", name), Fixed("Folder", Str(folder)), Auto("Path", FolderPath)] + rest + [Ignore]
  }

  const AnatProperties: Properties :=
    FileProperties(AnatName, "anat", [Empty("Acq"), Empty("Ce"), Empty("Rec"), Empty("Run"), Empty("Mod"),
                                      Fixed("Modality", Str("T1w"))])

  const FuncProperties: Properties :=
    FileProperties(FuncName, "func", [Empty("Acq"), Empty("Task"), Empty("Rec"), Empty("Run"), Empty("Echo"),
                                      Fixed("Modality", Str("bold"))])

  const TaskEventsProperties: Properties :=
    FileProperties(TaskEventsName, "func", [Empty("Acq"), Empty("Task"), Empty("Rec"), Empty("Run"), Empty("Echo")])

  const BehEventsProperties: Properties := FileProperties(BehEventsName, "beh", [Empty("Task")])

  const PhysioProperties: Properties :=
    FileProperties(PhysioName, "func", [Empty("Acq"), Empty("Task"), Empty("Rec"), Empty("Recording"), Empty("Run"),
                                        Empty("Echo"), Fixed("Modality", Str("physio"))])

  const DiffusionProperties: Properties :=
    FileProperties(DiffusionName, "dwi", [Empty("Acq"), Empty("Run"), Fixed("Modality", Str("dwi"))])

  /** The folders a fieldmap is meant to correct. */
  const IntendedFolders: Value := List([Obj(map["Folder" := Str("anat")]), Obj(map["Folder" := Str("func")])])

  const PhaseEncodedProperties: Properties :=
    FileProperties(PhaseEncodedName, "fmap", [Empty("Acq"), Empty("Run"), Empty("Dir"), Fixed("Modality", Str("epi")),
                                              Fixed("IntendedFor", IntendedFolders)])

  const FieldmapProperties: Properties :=
    FileProperties(FieldmapName, "fmap", [Empty("Acq"), Empty("Run"), Empty("Dir"), Fixed("Modality", Str("fieldmap")),
                                          Fixed("IntendedFor", IntendedFolders)])

  const DicomProperties: Properties := [
    Empty("Filename"), Fixed("Folder", Str("sourcedata")),
    Auto("Path", [Plain([Lit("sourcedata/sub-"), Required(SubjectCode)]), Optional([Lit("/ses-"), Required(SessionLabel)])]),
    Ignore
  ]

  const AcquisitionFileProperties: Properties := [
    Empty("Filename"),
    Auto("Folder", [Plain([Lit("acq-"), Required(AcquisitionLabel)])]),
    Auto("Path", SubjectSession("/") + [Plain([Lit("/acq-"), Required(AcquisitionLabel)])]),
    Ignore
  ]

  // ---------------------------------------------------------------- rules

  const ContainerTypePath: Path := ["container_type"]
  const ParentTypePath: Path := ["parent_container_type"]
  const FileType: Path := ["file", "type"]
  const Intent: Path := ["file", "classification", "Intent"]
  const Measurement: Path := ["file", "classification", "Measurement"]
  const Custom: Path := ["file", "classification", "Custom"]

  /** The condition that a field equals `v` (or, for a list field, contains it). */
  function Eq(path: Path, v: string): (Path, Match) {
    (path, Equals(Str(v)))
  }

  /** A file directly inside a container of type `parent`. */
  function FileIn(parent: string): Where {
    [Eq(ContainerTypePath, "file"), Eq(ParentTypePath, parent)]
  }

  /** `[^a-zA-Z0-9]+` */
  const NonAlnumRun: Pat := [Patterns.Branch([], Some(Patterns.NonAlnum))]

  /** `task-[a-zA-Z0-9]+`; the capture drops the five-character `task-`. */
  const TaskLabel: Pat := [Patterns.Branch(Patterns.Literal("task-"), Some(Patterns.Alnum))]

  /** `PA|AP|LR|RL`: the phase-encoding direction in an acquisition label. */
  const Directions: Pat := Patterns.Literals(["PA", "AP", "LR", "RL"])

  function PlainRule(template: string, where: Where, init: seq<(string, Derivation)>): Rule {
    Rule(template, where, init, false)
  }

  const ProjectTemplate: Rule :=
    PlainRule("project", [Eq(ContainerTypePath, "project")], [("Name", Take(["project", "label"], []))])

  const ProjectFileTemplate: Rule := PlainRule("project_file", FileIn("project"), [])

  const SessionTemplate: Rule :=
    PlainRule("session", [Eq(ContainerTypePath, "session")],
              [("Label", Take(SessionLabel, [Replace(NonAlnumRun, "")])), ("Subject", Take(SubjectCode, []))])

  const SessionFileTemplate: Rule := PlainRule("session_file", FileIn("session"), [])

  const AcquisitionTemplate: Rule := PlainRule("acquisition", [Eq(ContainerTypePath, "acquisition")], [])

  const AnatTemplate: Rule :=
    PlainRule("anat_file",
              FileIn("acquisition") + [Eq(FileType, "nifti"), Eq(Intent, "Structural"),
                                       (Measurement, In([Str("T1"), Str("T2")]))],
              [("Modality", Switch(Measurement, [Case(Str("T1"), Str("T1w")), Case(Str("T2"), Str("T2w"))]))])

  const FuncTemplate: Rule :=
    PlainRule("func_file", FileIn("acquisition") + [Eq(FileType, "nifti"), Eq(Intent, "Functional")],
              [("Task", Capture(AcquisitionLabel, TaskLabel, 5)), ("Run", RunIndex(AcquisitionLabel))])

  const TaskEventsTemplate: Rule :=
    PlainRule("task_events_file", FileIn("acquisition") + [Eq(FileType, "tabular data"), Eq(Intent, "Functional")], [])

  const BehEventsTemplate: Rule :=
    PlainRule("beh_events_file", FileIn("acquisition") + [Eq(FileType, "tabular data"), Eq(Custom, "Behavioral")], [])

  const PhysioTemplate: Rule :=
    PlainRule("physio_task_file", FileIn("acquisition") + [Eq(FileType, "tabular data"), Eq(Custom, "Physio")], [])

  const DiffusionTemplate: Rule :=
    PlainRule("diffusion_file",
              FileIn("acquisition") + [(FileType, In([Str("nifti"), Str("bval"), Str("bvec")])),
                                       Eq(Measurement, "Diffusion"), Eq(Intent, "Structural")], [])

  const PhaseEncodedTemplate: Rule :=
    PlainRule("fieldmap_phase_encoded_file",
              FileIn("acquisition") + [Eq(FileType, "nifti"), Eq(Intent, "Fieldmap"), (AcquisitionLabel, Regex(Directions))],
              [("Dir", Capture(AcquisitionLabel, Directions, 0))])

  const FieldmapTemplate: Rule :=
    PlainRule("fieldmap_file", FileIn("acquisition") + [Eq(FileType, "nifti"), Eq(Intent, "Fieldmap")], [])

  const DicomTemplate: Rule :=
    PlainRule("dicom_file", FileIn("acquisition") + [Eq(FileType, "dicom"), (Intent, Not(In([Str("Localizer")])))],
              [("Filename", Take(["file", "name"], []))])

  const AcquisitionFileTemplate: Rule := Rule("acquisition_file", FileIn("acquisition"), [], true)

  const ProjectRule: nat := 0
  const ProjectFileRule: nat := 1
  const SessionRule: nat := 2
  const SessionFileRule: nat := 3
  const AcquisitionRule: nat := 4
  const AnatRule: nat := 5
  const FuncRule: nat := 6
  const TaskEventsRule: nat := 7
  const BehEventsRule: nat := 8
  const PhysioRule: nat := 9
  const DiffusionRule: nat := 10
  const PhaseEncodedRule: nat := 11
  const FieldmapRule: nat := 12
  const DicomRule: nat := 13
  const AcquisitionFileRule: nat := 14

  /** The rules in the order they are tried. */
  const CatalogRules: seq<Rule> := [
    ProjectTemplate, ProjectFileTemplate, SessionTemplate, SessionFileTemplate, AcquisitionTemplate,
    AnatTemplate, FuncTemplate, TaskEventsTemplate, BehEventsTemplate, PhysioTemplate, DiffusionTemplate,
    PhaseEncodedTemplate, FieldmapTemplate, DicomTemplate, AcquisitionFileTemplate
  ]

  const Definitions: map<string, Properties> := map[
    "project" := ProjectProperties,
    "project_file" := ProjectFileProperties,
    "session" := SessionProperties,
    "session_file" := SessionFileProperties,
    "acquisition" := AcquisitionProperties,
    "anat_file" := AnatProperties,
    "func_file" := FuncProperties,
    "task_events_file" := TaskEventsProperties,
    "beh_events_file" := BehEventsProperties,
    "physio_task_file" := PhysioProperties,
    "diffusion_file" := DiffusionProperties,
    "fieldmap_phase_encoded_file" := PhaseEncodedProperties,
    "fieldmap_file" := FieldmapProperties,
    "dicom_file" := DicomProperties,
    "acquisition_file" := AcquisitionFileProperties
  ]

  const Templates: Catalog := Catalog(CatalogRules, Definitions)

  // ---------------------------------------------------------------- what the derivations compute

  /** An alphanumeric character is no match, so it is copied and kept. */
  lemma StripAlnum(s: string, from: nat)
    requires from < |s| && IsAlnum(s[from])
    ensures Patterns.SubFrom(NonAlnumRun, [Patterns.Text("")], s, from) ==
            [s[from]] + Patterns.SubFrom(NonAlnumRun, [Patterns.Text("")], s, from + 1)
    ensures Keep(s[from..], IsAlnum) == [s[from]] + Keep(s[from + 1..], IsAlnum)
  {
    assert Patterns.MatchAt(NonAlnumRun, s, from).None?;
    Patterns.SubCopy(NonAlnumRun, [Patterns.Text("")], s, from);
    assert s[from..] == [s[from]] + s[from + 1..];
    KeepConcat([s[from]], s[from + 1..], IsAlnum);
  }

  /** A run of non-alphanumerics is one match, replaced by nothing, and none of it is kept. */
  lemma StripRun(s: string, from: nat) returns (n: nat)
    requires from < |s| && !IsAlnum(s[from])
    ensures n >= 1 && from + n <= |s|
    ensures Patterns.SubFrom(NonAlnumRun, [Patterns.Text("")], s, from) ==
            Patterns.SubFrom(NonAlnumRun, [Patterns.Text("")], s, from + n)
    ensures Keep(s[from..], IsAlnum) == Keep(s[from + n..], IsAlnum)
  {
    n := NonAlnumMatch(s, from);
    Patterns.SubMatch(NonAlnumRun, [Patterns.Text("")], s, from, n);
    assert Patterns.Expand([Patterns.Text("")], s[from..from + n]) == "";
    KeepSkipsRun(s, from, n);
  }

  /** At a non-alphanumeric character the pattern matches its whole run of non-alphanumerics. */
  lemma NonAlnumMatch(s: string, from: nat) returns (n: nat)
    requires from < |s| && !IsAlnum(s[from])
    ensures n >= 1 && from + n <= |s| && Patterns.MatchAt(NonAlnumRun, s, from) == Some(n)
    ensures forall j :: from <= j < from + n ==> !IsAlnum(s[j])
  {
    n := Patterns.RunFrom(s, from, Patterns.NonAlnum);
    assert Patterns.MatchAt(NonAlnumRun, s, from) == Some(n);
  }

  /** A run of non-alphanumerics contributes nothing to the kept characters. */
  lemma KeepSkipsRun(s: string, from: nat, n: nat)
    requires from + n <= |s|
    requires forall j :: from <= j < from + n ==> !IsAlnum(s[j])
    ensures Keep(s[from..], IsAlnum) == Keep(s[from + n..], IsAlnum)
  {
    var m := s[from..from + n];
    assert s[from..] == m + s[from + n..];
    KeepConcat(m, s[from + n..], IsAlnum);
    assert forall j :: 0 <= j < |m| ==> !IsAlnum(m[j]) by {
      forall j | 0 <= j < |m| ensures !IsAlnum(m[j]) {
        assert m[j] == s[from + j];
      }
    }
  }

  /** The suffix from `from` on with every `[^a-zA-Z0-9]+` run replaced by nothing. */
  function Stripped(s: string, from: nat): string
    requires from <= |s|
  {
    Patterns.SubFrom(NonAlnumRun, [Patterns.Text("")], s, from)
  }

  /** The alphanumeric characters of the suffix from `from` on. */
  function Kept(s: string, from: nat): string
    requires from <= |s|
  {
    Keep(s[from..], IsAlnum)
  }

  lemma AlnumStep(s: string, from: nat)
    requires from < |s| && IsAlnum(s[from])
    requires Stripped(s, from + 1) == Kept(s, from + 1)
    ensures Stripped(s, from) == Kept(s, from)
  {
    StripAlnum(s, from);
  }

  /** After a run of `n` non-alphanumerics, both sides agree at `from` once they agree at `from + n`. */
  lemma RunStep(s: string, from: nat) returns (n: nat)
    requires from < |s| && !IsAlnum(s[from])
    ensures n >= 1 && from + n <= |s|
    ensures Stripped(s, from + n) == Kept(s, from + n) ==> Stripped(s, from) == Kept(s, from)
  {
    n := StripRun(s, from);
  }

  /** Removing every run of non-alphanumerics keeps exactly the alphanumeric characters, in order. */
  lemma {:induction false} StripFrom(s: string, from: nat)
    requires from <= |s|
    ensures Stripped(s, from) == Kept(s, from)
    decreases |s| - from
  {
    if from == |s| {
      assert s[from..] == [];
    } else if IsAlnum(s[from]) {
      StripFrom(s, from + 1);
      AlnumStep(s, from);
    } else {
      var n := RunStep(s, from);
      StripFrom(s, from + n);
    }
  }

  /** The session `Label` is the session label with every non-alphanumeric character removed. */
  lemma SessionLabelAlnum(s: string)
    ensures ApplyFormats([Replace(NonAlnumRun, "")], s) == Keep(s, IsAlnum)
  {
    StripFrom(s, 0);
    assert s[0..] == s;
  }

  /** `task-` matches nowhere in a text without a `t`. */
  lemma TaskAbsent(a: string, b: string)
    requires 't' !in a
    ensures forall j :: 0 <= j < |a| ==> Patterns.MatchAt(TaskLabel, a + b, j).None?
  {
    forall j | 0 <= j < |a| ensures Patterns.MatchAt(TaskLabel, a + b, j).None? {
      assert (a + b)[j] == a[j];
      assert !Patterns.InClass((a + b)[j], Patterns.Literal("task-")[0]);
    }
  }

  /** No match of `p` starts among the first `n` characters of `s`. */
  predicate NoMatchBefore(p: Patterns.Pattern, s: string, n: nat) {
    forall j :: 0 <= j < n && j <= |s| ==> Patterns.MatchAt(p, s, j).None?
  }

  /**
   * The `Task` of a functional file is the alphanumeric word after the first `task-<word>` of its
   * acquisition label.
   */
  lemma TaskCapture(a: string, t: string, b: string)
    requires NoMatchBefore(TaskLabel, a + "task-" + t + b, |a|)
    requires |t| >= 1 && All(t, IsAlnum)
    requires |b| == 0 || !IsAlnum(b[0])
    ensures CaptureText(Str(a + "task-" + t + b), TaskLabel, 5) == t
  {
    var s := a + "task-" + t + b;
    AlnumWord(t);
    TaskMatchAt(a, t, b);
    CaptureLeftmost(TaskLabel, s, 5, |a|, 5 + |t|);
    assert s[|a| + 5..|a| + 5 + |t|] == t;
  }

  /** `rest_task-rest`: a `t` before the `task-` does not hide it. */
  lemma RestTaskCapture()
    ensures CaptureText(Str("rest_task-rest"), TaskLabel, 5) == "rest"
  {
    var s := "rest_task-rest";
    assert s == "rest_" + "task-" + "rest" + "";
    forall j | 0 <= j < 5 ensures Patterns.MatchAt(TaskLabel, s, j).None? {
      if j == 3 {
        assert !Patterns.InClass(s[4], Patterns.Literal("task-")[1]);
      } else {
        assert !Patterns.InClass(s[j], Patterns.Literal("task-")[0]);
      }
      assert !Patterns.FixedAt(Patterns.Literal("task-"), s, j);
      assert Patterns.MatchAt(TaskLabel, s, j) == Patterns.BranchAt(TaskLabel[0], s, j);
    }
    TaskCapture("rest_", "rest", "");
  }

  /** `task-` then an alphanumeric word that `b` does not continue matches where it stands. */
  lemma TaskMatchAt(a: string, t: string, b: string)
    requires |t| >= 1 && forall j :: 0 <= j < |t| ==> Patterns.InClass(t[j], Patterns.Alnum)
    requires |b| == 0 || !Patterns.InClass(b[0], Patterns.Alnum)
    ensures Patterns.MatchAt(TaskLabel, a + "task-" + t + b, |a|) == Some(5 + |t|)
  {
    Patterns.LiteralRunAt(TaskLabel, "task-", Patterns.Alnum, a, t, b);
  }

  lemma AlnumWord(t: string)
    requires All(t, IsAlnum)
    ensures forall j :: 0 <= j < |t| ==> Patterns.InClass(t[j], Patterns.Alnum)
  {
    forall j | 0 <= j < |t| ensures Patterns.InClass(t[j], Patterns.Alnum) {
      assert IsAlnum(t[j]);
    }
  }

  /** No direction matches inside a text without `P`, `A`, `L` or `R`. */
  lemma DirectionAbsent(a: string, b: string)
    requires 'P' !in a && 'A' !in a && 'L' !in a && 'R' !in a
    ensures forall j :: 0 <= j < |a| ==> Patterns.MatchAt(Directions, a + b, j).None?
  {
    forall j | 0 <= j < |a| ensures Patterns.MatchAt(Directions, a + b, j).None? {
      Patterns.LiteralsMatchAt(["PA", "AP", "LR", "RL"], a + b, j);
      assert (a + b)[j] == a[j];
    }
  }

  /** The `Dir` of a phase-encoded fieldmap is the first direction named in its acquisition label. */
  lemma DirectionCapture(a: string, d: string, b: string)
    requires d in ["PA", "AP", "LR", "RL"]
    requires NoMatchBefore(Directions, a + d + b, |a|)
    ensures CaptureText(Str(a + d + b), Directions, 0) == d
  {
    var s := a + d + b;
    assert s[|a|..|a| + 2] == d;
    Patterns.LiteralsMatchAt(["PA", "AP", "LR", "RL"], s, |a|);
    assert OccursAt(s, d, |a|);
    assert Patterns.MatchAt(Directions, s, |a|) == Some(2);
    CaptureLeftmost(Directions, s, 0, |a|, 2);
  }

  /** `EPI_PA`: the direction after other capitals is still found. */
  lemma EpiDirection()
    ensures CaptureText(Str("EPI_PA"), Directions, 0) == "PA"
  {
    var s := "EPI_PA";
    assert s == "EPI_" + "PA" + "";
    forall j | 0 <= j < 4 ensures Patterns.MatchAt(Directions, s, j).None? {
      assert s[j] !in "PALR" || s[j + 1] !in "PALR";
      NoDirectionAt(s, j);
    }
    DirectionCapture("EPI_", "PA", "");
  }

  /** No direction starts at `j` when one of the two characters there is not `P`, `A`, `L` or `R`. */
  lemma NoDirectionAt(s: string, j: nat)
    requires j + 1 < |s| && (s[j] !in "PALR" || s[j + 1] !in "PALR")
    ensures Patterns.MatchAt(Directions, s, j).None?
  {
    var dirs := ["PA", "AP", "LR", "RL"];
    Patterns.LiteralsMatchAt(dirs, s, j);
    forall k | 0 <= k < |dirs| ensures !OccursAt(s, dirs[k], j) {
      assert dirs[k][0] in "PALR" && dirs[k][1] in "PALR";
      if s[j] !in "PALR" {
        assert s[j..j + 2][0] == s[j];
      } else {
        assert s[j..j + 2][1] == s[j + 1];
      }
    }
  }

  /** The first run index handed out for an acquisition label ending in `run+` is `1`. */
  lemma FirstRun(ctx: Value, counters: Counters, name: string)
    requires Field(ctx, AcquisitionLabel, name) && EndsWith(name, RunMarker)
    requires (TextOf(Get(ctx, SessionLabel)), name[..|name| - |RunMarker|]) !in counters
    ensures Derive(RunIndex(AcquisitionLabel), ctx, counters).0 == Str("1")
  {
  }

  /** `run-` matches nowhere in `a + "run-" + b` before the `run-` when `a` has no `u`. */
  lemma RunNumberAbsent(a: string, b: string)
    requires 'u' !in a
    ensures forall j :: 0 <= j < |a| ==> Patterns.MatchAt(RunNumber, a + "run-" + b, j).None?
  {
    var s := a + "run-" + b;
    forall j | 0 <= j < |a| ensures Patterns.MatchAt(RunNumber, s, j).None? {
      if j + 1 < |a| {
        assert s[j + 1] == a[j + 1];
      } else {
        assert s[j + 1] == 'r';
      }
      assert !Patterns.InClass(s[j + 1], Patterns.Literal("run-")[1]);
      assert !Patterns.FixedAt(Patterns.Literal("run-"), s, j);
      assert Patterns.MatchAt(RunNumber, s, j) == Patterns.BranchAt(RunNumber[0], s, j);
    }
  }

  /** The written-out run index of a label is the digit run after its first `run-<digits>`. */
  lemma RunNumberCapture(a: string, n: string, b: string)
    requires NoMatchBefore(RunNumber, a + "run-" + n + b, |a|)
    requires |n| >= 1 && All(n, IsDigit)
    requires |b| == 0 || !IsDigit(b[0])
    ensures CaptureText(Str(a + "run-" + n + b), RunNumber, 4) == n
  {
    var s := a + "run-" + n + b;
    assert forall j :: 0 <= j < |n| ==> Patterns.InClass(n[j], Patterns.Digit);
    Patterns.LiteralRunAt(RunNumber, "run-", Patterns.Digit, a, n, b);
    CaptureLeftmost(RunNumber, s, 4, |a|, 4 + |n|);
    assert s[|a| + 4..|a| + 4 + |n|] == n;
  }

  /** `func_run-1`: a `u` before the `run-` does not hide it. */
  lemma FuncRunNumber()
    ensures CaptureText(Str("func_run-1"), RunNumber, 4) == "1"
  {
    var s := "func_run-1";
    assert s == "func_" + "run-" + "1" + "";
    forall j | 0 <= j < 5 ensures Patterns.MatchAt(RunNumber, s, j).None? {
      assert s[j] != 'r';
      assert !Patterns.InClass(s[j], Patterns.Literal("run-")[0]);
      assert !Patterns.FixedAt(Patterns.Literal("run-"), s, j);
      assert Patterns.MatchAt(RunNumber, s, j) == Patterns.BranchAt(RunNumber[0], s, j);
    }
    RunNumberCapture("func_", "1", "");
  }

  /** A label without the run marker takes its `Run` from its first `run-<digits>`, and no counter moves. */
  lemma ExplicitRun(ctx: Value, counters: Counters, a: string, n: string, b: string)
    requires Field(ctx, AcquisitionLabel, a + "run-" + n + b)
    requires !EndsWith(a + "run-" + n + b, RunMarker)
    requires NoMatchBefore(RunNumber, a + "run-" + n + b, |a|)
    requires |n| >= 1 && All(n, IsDigit)
    requires |b| == 0 || !IsDigit(b[0])
    ensures Derive(RunIndex(AcquisitionLabel), ctx, counters) == (Str(n), counters)
  {
    DeriveWrittenRun(AcquisitionLabel, ctx, counters, a + "run-" + n + b);
    RunNumberCapture(a, n, b);
  }

  // ---------------------------------------------------------------- what each rule tests

  /** The field at `path` equals `v`, or is a list holding `v`: a literal condition of a rule. */
  predicate Is(ctx: Value, path: Path, v: string) {
    Holds(Equals(Str(v)), GetOrNull(ctx, path))
  }

  /** A file directly inside a container of type `parent`. */
  predicate FileOf(ctx: Value, parent: string) {
    Is(ctx, ContainerTypePath, "file") && Is(ctx, ParentTypePath, parent)
  }

  /** A string field passes a literal condition exactly when it is the literal. */
  lemma IsString(ctx: Value, path: Path, w: string, v: string)
    requires Get(ctx, path) == Some(Str(w))
    ensures Is(ctx, path, v) <==> w == v
  {
  }

  lemma {:induction false} TestFour(w: Where, ctx: Value)
    requires |w| == 4
    ensures Test(w, ctx) <==> Holds(w[0].1, GetOrNull(ctx, w[0].0)) && Holds(w[1].1, GetOrNull(ctx, w[1].0)) &&
                              Holds(w[2].1, GetOrNull(ctx, w[2].0)) && Holds(w[3].1, GetOrNull(ctx, w[3].0))
  {
  }

  lemma {:induction false} TestFive(w: Where, ctx: Value)
    requires |w| == 5
    ensures Test(w, ctx) <==> Holds(w[0].1, GetOrNull(ctx, w[0].0)) && Holds(w[1].1, GetOrNull(ctx, w[1].0)) &&
                              Holds(w[2].1, GetOrNull(ctx, w[2].0)) && Holds(w[3].1, GetOrNull(ctx, w[3].0)) &&
                              Holds(w[4].1, GetOrNull(ctx, w[4].0))
  {
  }

  lemma {:induction false} TestOne(w: Where, ctx: Value)
    requires |w| == 1
    ensures Test(w, ctx) <==> Holds(w[0].1, GetOrNull(ctx, w[0].0))
  {
  }

  lemma {:induction false} TestTwo(w: Where, ctx: Value)
    requires |w| == 2
    ensures Test(w, ctx) <==> Holds(w[0].1, GetOrNull(ctx, w[0].0)) && Holds(w[1].1, GetOrNull(ctx, w[1].0))
  {
  }

  lemma AnyInTwo(a: Value, b: Value, v: Value)
    ensures AnyIn([a, b], v) <==> PyIn(a, v) || PyIn(b, v)
  {
    assert [a, b][1..] == [b];
  }

  lemma AnyInThree(a: Value, b: Value, c: Value, v: Value)
    ensures AnyIn([a, b, c], v) <==> PyIn(a, v) || PyIn(b, v) || PyIn(c, v)
  {
    assert [a, b, c][1..] == [b, c];
    AnyInTwo(b, c, v);
  }

  lemma ContainerRules(ctx: Value, upload: bool)
    ensures Applies(ProjectTemplate, ctx, upload) <==> Is(ctx, ContainerTypePath, "project")
    ensures Applies(SessionTemplate, ctx, upload) <==> Is(ctx, ContainerTypePath, "session")
    ensures Applies(AcquisitionTemplate, ctx, upload) <==> Is(ctx, ContainerTypePath, "acquisition")
  {
    TestOne(ProjectTemplate.where, ctx);
    TestOne(SessionTemplate.where, ctx);
    TestOne(AcquisitionTemplate.where, ctx);
  }

  lemma ContainerFileRules(ctx: Value, upload: bool)
    ensures Applies(ProjectFileTemplate, ctx, upload) <==> FileOf(ctx, "project")
    ensures Applies(SessionFileTemplate, ctx, upload) <==> FileOf(ctx, "session")
    ensures Applies(AcquisitionFileTemplate, ctx, upload) <==> upload && FileOf(ctx, "acquisition")
  {
    TestTwo(ProjectFileTemplate.where, ctx);
    TestTwo(SessionFileTemplate.where, ctx);
    TestTwo(AcquisitionFileTemplate.where, ctx);
  }

  lemma AnatRuleTests(ctx: Value, upload: bool)
    ensures Applies(AnatTemplate, ctx, upload) <==>
      FileOf(ctx, "acquisition") && Is(ctx, FileType, "nifti") && Is(ctx, Intent, "Structural") &&
      (PyIn(Str("T1"), GetOrNull(ctx, Measurement)) || PyIn(Str("T2"), GetOrNull(ctx, Measurement)))
  {
    TestFive(AnatTemplate.where, ctx);
    AnyInTwo(Str("T1"), Str("T2"), GetOrNull(ctx, Measurement));
  }

  lemma FuncRuleTests(ctx: Value, upload: bool)
    ensures Applies(FuncTemplate, ctx, upload) <==>
      FileOf(ctx, "acquisition") && Is(ctx, FileType, "nifti") && Is(ctx, Intent, "Functional")
  {
    TestFour(FuncTemplate.where, ctx);
  }

  lemma TabularRuleTests(ctx: Value, upload: bool)
    ensures Applies(TaskEventsTemplate, ctx, upload) <==>
      FileOf(ctx, "acquisition") && Is(ctx, FileType, "tabular data") && Is(ctx, Intent, "Functional")
    ensures Applies(BehEventsTemplate, ctx, upload) <==>
      FileOf(ctx, "acquisition") && Is(ctx, FileType, "tabular data") && Is(ctx, Custom, "Behavioral")
    ensures Applies(PhysioTemplate, ctx, upload) <==>
      FileOf(ctx, "acquisition") && Is(ctx, FileType, "tabular data") && Is(ctx, Custom, "Physio")
  {
    TestFour(TaskEventsTemplate.where, ctx);
    TestFour(BehEventsTemplate.where, ctx);
    TestFour(PhysioTemplate.where, ctx);
  }

  lemma DiffusionRuleTests(ctx: Value, upload: bool)
    ensures Applies(DiffusionTemplate, ctx, upload) <==>
      FileOf(ctx, "acquisition") &&
      (PyIn(Str("nifti"), GetOrNull(ctx, FileType)) || PyIn(Str("bval"), GetOrNull(ctx, FileType)) ||
       PyIn(Str("bvec"), GetOrNull(ctx, FileType))) &&
      Is(ctx, Measurement, "Diffusion") && Is(ctx, Intent, "Structural")
  {
    TestFive(DiffusionTemplate.where, ctx);
    AnyInThree(Str("nifti"), Str("bval"), Str("bvec"), GetOrNull(ctx, FileType));
  }

  lemma FieldmapRuleTests(ctx: Value, upload: bool)
    ensures Applies(PhaseEncodedTemplate, ctx, upload) <==>
      FileOf(ctx, "acquisition") && Is(ctx, FileType, "nifti") && Is(ctx, Intent, "Fieldmap") &&
      Holds(Regex(Directions), GetOrNull(ctx, AcquisitionLabel))
    ensures Applies(FieldmapTemplate, ctx, upload) <==>
      FileOf(ctx, "acquisition") && Is(ctx, FileType, "nifti") && Is(ctx, Intent, "Fieldmap")
  {
    TestFive(PhaseEncodedTemplate.where, ctx);
    TestFour(FieldmapTemplate.where, ctx);
  }

  lemma DicomRuleTests(ctx: Value, upload: bool)
    ensures Applies(DicomTemplate, ctx, upload) <==>
      FileOf(ctx, "acquisition") && Is(ctx, FileType, "dicom") && !PyIn(Str("Localizer"), GetOrNull(ctx, Intent))
  {
    TestFour(DicomTemplate.where, ctx);
  }

  // ---------------------------------------------------------------- which template a container gets

  /** The string field at `path` is `v`. */
  predicate Field(ctx: Value, path: Path, v: string) {
    Get(ctx, path) == Some(Str(v))
  }

  /** A file of an acquisition, of file type `ftype`. */
  predicate AcquisitionFile(ctx: Value, ftype: string) {
    Field(ctx, ContainerTypePath, "file") && Field(ctx, ParentTypePath, "acquisition") && Field(ctx, FileType, ftype)
  }

  /** No rule before the `k`-th applies. */
  predicate SkipsTo(ctx: Value, upload: bool, k: nat)
    requires k <= |CatalogRules|
  {
    forall j :: 0 <= j < k ==> !Applies(CatalogRules[j], ctx, upload)
  }

  lemma Skip(ctx: Value, upload: bool, k: nat)
    requires k < |CatalogRules| && SkipsTo(ctx, upload, k) && !Applies(CatalogRules[k], ctx, upload)
    ensures SkipsTo(ctx, upload, k + 1)
  {
  }

  /** A project gets the `project` template. */
  lemma ProjectSelected(ctx: Value, upload: bool)
    requires Field(ctx, ContainerTypePath, "project")
    ensures Select(CatalogRules, ctx, upload) == Some(ProjectRule)
  {
    ContainerRules(ctx, upload);
    SelectIs(CatalogRules, ctx, upload, ProjectRule);
  }

  /** A session gets the `session` template. */
  lemma SessionSelected(ctx: Value, upload: bool)
    requires Field(ctx, ContainerTypePath, "session")
    ensures Select(CatalogRules, ctx, upload) == Some(SessionRule)
  {
    ContainerRules(ctx, upload);
    ContainerFileRules(ctx, upload);
    SelectIs(CatalogRules, ctx, upload, SessionRule);
  }

  /** An acquisition gets the `acquisition` template. */
  lemma AcquisitionSelected(ctx: Value, upload: bool)
    requires Field(ctx, ContainerTypePath, "acquisition")
    ensures Select(CatalogRules, ctx, upload) == Some(AcquisitionRule)
  {
    ContainerRules(ctx, upload);
    ContainerFileRules(ctx, upload);
    SelectIs(CatalogRules, ctx, upload, AcquisitionRule);
  }

  /** A file of an acquisition passes the rules for projects, sessions, their files and acquisitions. */
  lemma FileSkipsContainers(ctx: Value, upload: bool, ftype: string)
    requires AcquisitionFile(ctx, ftype)
    ensures SkipsTo(ctx, upload, AnatRule) && FileOf(ctx, "acquisition")
    ensures forall v :: Is(ctx, FileType, v) <==> v == ftype
  {
    ContainerRules(ctx, upload);
    ContainerFileRules(ctx, upload);
  }

  /** A structural NIfTI file measured as `T1` or `T2` gets the `anat_file` template. */
  lemma AnatSelected(ctx: Value, upload: bool)
    requires AcquisitionFile(ctx, "nifti") && Field(ctx, Intent, "Structural")
    requires PyIn(Str("T1"), GetOrNull(ctx, Measurement)) || PyIn(Str("T2"), GetOrNull(ctx, Measurement))
    ensures Select(CatalogRules, ctx, upload) == Some(AnatRule)
  {
    FileSkipsContainers(ctx, upload, "nifti");
    AnatRuleTests(ctx, upload);
    SelectIs(CatalogRules, ctx, upload, AnatRule);
  }

  /** A functional NIfTI file gets the `func_file` template. */
  lemma FuncSelected(ctx: Value, upload: bool)
    requires AcquisitionFile(ctx, "nifti") && Field(ctx, Intent, "Functional")
    ensures Select(CatalogRules, ctx, upload) == Some(FuncRule)
  {
    FileSkipsContainers(ctx, upload, "nifti");
    AnatRuleTests(ctx, upload);
    FuncRuleTests(ctx, upload);
    SelectIs(CatalogRules, ctx, upload, FuncRule);
  }

  /** Files other than NIfTI images pass the two image rules. */
  lemma NotNiftiSkipsImages(ctx: Value, upload: bool, ftype: string)
    requires AcquisitionFile(ctx, ftype) && ftype != "nifti"
    ensures SkipsTo(ctx, upload, TaskEventsRule)
  {
    FileSkipsContainers(ctx, upload, ftype);
    AnatRuleTests(ctx, upload);
    FuncRuleTests(ctx, upload);
  }

  /** A tabular file of a functional acquisition gets the `task_events_file` template. */
  lemma TaskEventsSelected(ctx: Value, upload: bool)
    requires AcquisitionFile(ctx, "tabular data") && Field(ctx, Intent, "Functional")
    ensures Select(CatalogRules, ctx, upload) == Some(TaskEventsRule)
  {
    NotNiftiSkipsImages(ctx, upload, "tabular data");
    TabularRuleTests(ctx, upload);
    SelectIs(CatalogRules, ctx, upload, TaskEventsRule);
  }

  /** A tabular behavioural file gets the `beh_events_file` template when it is not functional. */
  lemma BehEventsSelected(ctx: Value, upload: bool)
    requires AcquisitionFile(ctx, "tabular data") && Field(ctx, Custom, "Behavioral")
    requires !Is(ctx, Intent, "Functional")
    ensures Select(CatalogRules, ctx, upload) == Some(BehEventsRule)
  {
    NotNiftiSkipsImages(ctx, upload, "tabular data");
    TabularRuleTests(ctx, upload);
    SelectIs(CatalogRules, ctx, upload, BehEventsRule);
  }

  /** A tabular physiological recording gets the `physio_task_file` template when it is not functional. */
  lemma PhysioSelected(ctx: Value, upload: bool)
    requires AcquisitionFile(ctx, "tabular data") && Field(ctx, Custom, "Physio")
    requires !Is(ctx, Intent, "Functional")
    ensures Select(CatalogRules, ctx, upload) == Some(PhysioRule)
  {
    NotNiftiSkipsImages(ctx, upload, "tabular data");
    TabularRuleTests(ctx, upload);
    SelectIs(CatalogRules, ctx, upload, PhysioRule);
  }

  /** Files that are not tabular pass the three tabular rules. */
  lemma TabularSkipped(ctx: Value, upload: bool, ftype: string)
    requires AcquisitionFile(ctx, ftype) && ftype != "tabular data" && SkipsTo(ctx, upload, TaskEventsRule)
    ensures SkipsTo(ctx, upload, DiffusionRule)
  {
    TabularRulesFail(ctx, upload, ftype);
    Skip(ctx, upload, TaskEventsRule);
    Skip(ctx, upload, BehEventsRule);
    Skip(ctx, upload, PhysioRule);
  }

  lemma TabularRulesFail(ctx: Value, upload: bool, ftype: string)
    requires AcquisitionFile(ctx, ftype) && ftype != "tabular data"
    ensures !Applies(CatalogRules[TaskEventsRule], ctx, upload) && !Applies(CatalogRules[BehEventsRule], ctx, upload)
    ensures !Applies(CatalogRules[PhysioRule], ctx, upload)
  {
    FileSkipsContainers(ctx, upload, ftype);
    assert !Is(ctx, FileType, "tabular data");
    TabularRuleTests(ctx, upload);
    TabularRulesAre();
  }

  lemma TabularRulesAre()
    ensures CatalogRules[TaskEventsRule] == TaskEventsTemplate && CatalogRules[BehEventsRule] == BehEventsTemplate
    ensures CatalogRules[PhysioRule] == PhysioTemplate
  {
  }

  /** A structural file whose measurement names neither `T1` nor `T2` passes every rule before the diffusion rule. */
  lemma StructuralSkips(ctx: Value, upload: bool, ftype: string)
    requires AcquisitionFile(ctx, ftype) && ftype != "tabular data" && Field(ctx, Intent, "Structural")
    requires !PyIn(Str("T1"), GetOrNull(ctx, Measurement)) && !PyIn(Str("T2"), GetOrNull(ctx, Measurement))
    ensures SkipsTo(ctx, upload, DiffusionRule)
  {
    assert !Applies(CatalogRules[AnatRule], ctx, upload) by { AnatRuleTests(ctx, upload); }
    assert !Applies(CatalogRules[FuncRule], ctx, upload) by { FuncRuleTests(ctx, upload); }
    ImagingSkipped(ctx, upload, ftype);
    TabularSkipped(ctx, upload, ftype);
  }

  /** A file neither rule for structural or functional images accepts passes them. */
  lemma ImagingSkipped(ctx: Value, upload: bool, ftype: string)
    requires AcquisitionFile(ctx, ftype)
    requires !Applies(CatalogRules[AnatRule], ctx, upload) && !Applies(CatalogRules[FuncRule], ctx, upload)
    ensures SkipsTo(ctx, upload, TaskEventsRule)
  {
    FileSkipsContainers(ctx, upload, ftype);
    Skip(ctx, upload, AnatRule);
    Skip(ctx, upload, FuncRule);
  }

  /** The diffusion rule accepts a structural diffusion image or gradient table. */
  lemma DiffusionApplies(ctx: Value, upload: bool, ftype: string)
    requires ftype == "nifti" || ftype == "bval" || ftype == "bvec"
    requires AcquisitionFile(ctx, ftype) && Field(ctx, Measurement, "Diffusion") && Field(ctx, Intent, "Structural")
    ensures Applies(CatalogRules[DiffusionRule], ctx, upload)
  {
    FileSkipsContainers(ctx, upload, ftype);
    ContainsSelf(ftype);
    DiffusionRuleTests(ctx, upload);
  }

  /** A structural diffusion image or gradient table gets the `diffusion_file` template. */
  lemma DiffusionSelected(ctx: Value, upload: bool, ftype: string)
    requires ftype == "nifti" || ftype == "bval" || ftype == "bvec"
    requires AcquisitionFile(ctx, ftype) && Field(ctx, Measurement, "Diffusion") && Field(ctx, Intent, "Structural")
    ensures Select(CatalogRules, ctx, upload) == Some(DiffusionRule)
  {
    assert !PyIn(Str("T1"), GetOrNull(ctx, Measurement)) && !PyIn(Str("T2"), GetOrNull(ctx, Measurement)) by {
      ContainsHead("Diffusion", "T1");
      ContainsHead("Diffusion", "T2");
    }
    StructuralSkips(ctx, upload, ftype);
    DiffusionApplies(ctx, upload, ftype);
    SelectIs(CatalogRules, ctx, upload, DiffusionRule);
  }

  /** NIfTI fieldmaps pass every rule before the fieldmap rules. */
  lemma FieldmapSkips(ctx: Value, upload: bool)
    requires AcquisitionFile(ctx, "nifti") && Field(ctx, Intent, "Fieldmap")
    ensures SkipsTo(ctx, upload, PhaseEncodedRule)
  {
    FieldmapNotImaging(ctx, upload);
    ImagingSkipped(ctx, upload, "nifti");
    TabularSkipped(ctx, upload, "nifti");
    FieldmapNotDiffusion(ctx, upload);
    Skip(ctx, upload, DiffusionRule);
  }

  lemma FieldmapNotImaging(ctx: Value, upload: bool)
    requires AcquisitionFile(ctx, "nifti") && Field(ctx, Intent, "Fieldmap")
    ensures !Applies(CatalogRules[AnatRule], ctx, upload) && !Applies(CatalogRules[FuncRule], ctx, upload)
  {
    AnatRuleTests(ctx, upload);
    FuncRuleTests(ctx, upload);
  }

  lemma FieldmapNotDiffusion(ctx: Value, upload: bool)
    requires AcquisitionFile(ctx, "nifti") && Field(ctx, Intent, "Fieldmap")
    ensures !Applies(CatalogRules[DiffusionRule], ctx, upload)
  {
    FileSkipsContainers(ctx, upload, "nifti");
    DiffusionRuleTests(ctx, upload);
  }


  /** A fieldmap whose acquisition label names a phase-encoding direction, in either case, gets `fieldmap_phase_encoded_file`. */
  lemma PhaseEncodedSelected(ctx: Value, upload: bool, name: string)
    requires AcquisitionFile(ctx, "nifti") && Field(ctx, Intent, "Fieldmap")
    requires Field(ctx, AcquisitionLabel, name) && Patterns.Search(Patterns.IgnoreCase(Directions), name).Some?
    ensures Select(CatalogRules, ctx, upload) == Some(PhaseEncodedRule)
  {
    FieldmapSkips(ctx, upload);
    FileSkipsContainers(ctx, upload, "nifti");
    FieldmapRuleTests(ctx, upload);
    SelectIs(CatalogRules, ctx, upload, PhaseEncodedRule);
  }

  /** Any other fieldmap gets `fieldmap_file`. */
  lemma FieldmapSelected(ctx: Value, upload: bool)
    requires AcquisitionFile(ctx, "nifti") && Field(ctx, Intent, "Fieldmap")
    requires Patterns.Search(Patterns.IgnoreCase(Directions), TextOf(Get(ctx, AcquisitionLabel))).None?
    ensures Select(CatalogRules, ctx, upload) == Some(FieldmapRule)
  {
    FieldmapSkips(ctx, upload);
    FileSkipsContainers(ctx, upload, "nifti");
    FieldmapRuleTests(ctx, upload);
    SelectIs(CatalogRules, ctx, upload, FieldmapRule);
  }

  /** `acqTEST` names no direction in either case; `acqTEST Topup PA` names `PA`. */
  lemma FieldmapTestLabels()
    ensures Patterns.Search(Patterns.IgnoreCase(Directions), "acqTEST").None?
    ensures Patterns.Search(Patterns.IgnoreCase(Directions), "acqTEST Topup PA").Some?
  {
    var p := Patterns.IgnoreCase(Directions);
    var s := "acqTEST";
    forall j | 0 <= j <= |s| ensures Patterns.MatchAt(p, s, j).None? {
      DirectionsIgnoreCaseAt(s, j);
    }
    var t := "acqTEST Topup PA";
    assert t[14..16] == "PA";
    Patterns.LiteralsMatchAt(["PA", "AP", "LR", "RL"], t, 14);
    assert OccursAt(t, "PA", 14);
    Patterns.IgnoreCaseWidens(Directions, t, 14);
  }

  /** Ignoring case, a direction matches at `j` only where the characters there spell one. */
  lemma DirectionsIgnoreCaseAt(s: string, j: nat)
    requires j <= |s|
    ensures Patterns.MatchAt(Patterns.IgnoreCase(Directions), s, j).Some? ==>
      j + 2 <= |s| && [LowerChar(s[j]), LowerChar(s[j + 1])] in ["pa", "ap", "lr", "rl"]
  {
    var ds := ["PA", "AP", "LR", "RL"];
    var p := Patterns.IgnoreCase(Directions);
    Patterns.MatchAtFirstBranch(p, s, j);
    if Patterns.MatchAt(p, s, j).Some? {
      var k :| 0 <= k < |p| && Patterns.BranchAt(p[k], s, j).Some?;
      Patterns.IgnoreCaseLiteralAt(ds, k, s, j);
      DirectionLowered(ds[k], s[j], s[j + 1]);
    }
  }

  lemma DirectionLowered(d: string, x: char, y: char)
    requires d in ["PA", "AP", "LR", "RL"] && |d| == 2
    requires LowerChar(x) == LowerChar(d[0]) && LowerChar(y) == LowerChar(d[1])
    ensures [LowerChar(x), LowerChar(y)] in ["pa", "ap", "lr", "rl"]
  {
  }

  /** DICOM files pass every rule before the DICOM rule. */
  lemma DicomSkips(ctx: Value, upload: bool)
    requires AcquisitionFile(ctx, "dicom")
    ensures SkipsTo(ctx, upload, DicomRule)
  {
    NotNiftiSkipsImages(ctx, upload, "dicom");
    TabularSkipped(ctx, upload, "dicom");
    assert !Applies(CatalogRules[DiffusionRule], ctx, upload) by {
      ContainsHead("dicom", "nifti");
      ContainsHead("dicom", "bval");
      ContainsHead("dicom", "bvec");
      DiffusionRuleTests(ctx, upload);
    }
    Skip(ctx, upload, DiffusionRule);
    assert !Applies(CatalogRules[PhaseEncodedRule], ctx, upload) by { FieldmapRuleTests(ctx, upload); }
    Skip(ctx, upload, PhaseEncodedRule);
    assert !Applies(CatalogRules[FieldmapRule], ctx, upload) by { FieldmapRuleTests(ctx, upload); }
    Skip(ctx, upload, FieldmapRule);
  }


  /** A DICOM file gets `dicom_file` unless its intent is a localizer. */
  lemma DicomSelected(ctx: Value, upload: bool)
    requires AcquisitionFile(ctx, "dicom") && !PyIn(Str("Localizer"), GetOrNull(ctx, Intent))
    ensures Select(CatalogRules, ctx, upload) == Some(DicomRule)
  {
    DicomSkips(ctx, upload);
    FileSkipsContainers(ctx, upload, "dicom");
    DicomRuleTests(ctx, upload);
    SelectIs(CatalogRules, ctx, upload, DicomRule);
  }

  /** A localizer DICOM matches no rule unless the caller is uploading, when it falls to `acquisition_file`. */
  lemma LocalizerUnmatched(ctx: Value)
    requires AcquisitionFile(ctx, "dicom") && PyIn(Str("Localizer"), GetOrNull(ctx, Intent))
    ensures Select(CatalogRules, ctx, false).None?
    ensures Select(CatalogRules, ctx, true) == Some(AcquisitionFileRule)
  {
    DicomSkips(ctx, false);
    DicomSkips(ctx, true);
    FileSkipsContainers(ctx, true, "dicom");
    DicomRuleTests(ctx, false);
    DicomRuleTests(ctx, true);
    ContainerFileRules(ctx, false);
    ContainerFileRules(ctx, true);
    SelectIs(CatalogRules, ctx, true, AcquisitionFileRule);
  }

  /** Uploading only adds `acquisition_file` as a last resort: every other choice is the same either way. */
  lemma UploadOnlyAddsFallback(ctx: Value)
    ensures Select(CatalogRules, ctx, false) ==
      if Select(CatalogRules, ctx, true) == Some(AcquisitionFileRule) then None else Select(CatalogRules, ctx, true)
  {
    FallbackIsLastUploadOnly();
    UploadAddsLast(CatalogRules, ctx);
  }

  /** `acquisition_file` is the last rule and the only one reserved for uploads. */
  lemma FallbackIsLastUploadOnly()
    ensures |CatalogRules| == AcquisitionFileRule + 1 && CatalogRules[AcquisitionFileRule].uploadOnly
    ensures forall j :: 0 <= j < AcquisitionFileRule ==> !CatalogRules[j].uploadOnly
  {
  }
}

=== FILE: curate.dfy ===
/**
 * The `IntendedFor` pass of `curate_bids_tree`. Once every file of a session carries its
 * `info.BIDS` block, each fieldmap file, whose block holds `IntendedFor` placeholders naming
 * target folders (`[{Folder: anat}, {Folder: func}]`), is given under `info.IntendedFor` the
 * paths of the session's files in those folders. The paths are relative to the subject
 * directory: `ses-<label>/<Folder>/<Filename>`.
 */
module Curate {
  import opened Outcomes
  import opened Text
  import opened Json

  /** A session's files, acquisition by acquisition, in the order the hierarchy lists them. */
  type Session = seq<seq<Value>>

  const BlockPath: Path := ["info", "BIDS"]
  const LinkPath: Path := ["info", "IntendedFor"]

  /** The file's `info.BIDS` block; none for a file without one or marked `"NA"`. */
  function Block(file: Value): map<string, Value> {
    match Get(file, BlockPath)
    case Some(Obj(m)) => m
    case _ => map[]
  }

  /** The folders the placeholders name, in order; placeholders without a textual `Folder` name none. */
  function Folders(items: seq<Value>): (fs: seq<string>)
    ensures |fs| <= |items|
  {
    if |items| == 0 then []
    else
      var head := if items[0].Obj? && "Folder" in items[0].fields && items[0].fields["Folder"].Str?
                  then [items[0].fields["Folder"].s] else [];
      head + Folders(items[1..])
  }

  /** The target folders of a fieldmap file; `None` for a file whose block has no `IntendedFor` list. */
  function Placeholders(file: Value): Option<seq<string>> {
    var block := Block(file);
    if "IntendedFor" in block && block["IntendedFor"].List? then Some(Folders(block["IntendedFor"].items))
    else None
  }

  /** A file's place below the subject directory: its `Path` without the first component, then its name. */
  function Relative(path: string, fname: string): string {
    match Find(path, "/")
    case None => fname
    case Some(i) => path[i + 1..] + "/" + fname
  }

  /** The relative path of `file` when its block puts it in `folder` and names its path and file. */
  function TargetOf(file: Value, folder: string): Option<string> {
    var block := Block(file);
    if "Folder" in block && block["Folder"] == Str(folder) &&
       "Path" in block && block["Path"].Str? && "Filename" in block && block["Filename"].Str?
    then Some(Relative(block["Path"].s, block["Filename"].s))
    else None
  }

  /** The files in `folder`, in the order given. */
  function InFolder(folder: string, files: seq<Value>): seq<string> {
    if |files| == 0 then []
    else
      var head := match TargetOf(files[0], folder) case Some(p) => [p] case None => [];
      head + InFolder(folder, files[1..])
  }

  /** The targets of every folder, folder by folder. */
  function Targets(folders: seq<string>, files: seq<Value>): seq<string> {
    if |folders| == 0 then [] else InFolder(folders[0], files) + Targets(folders[1..], files)
  }

  function Flatten(session: Session): (files: seq<Value>)
    ensures |files| == 0 <==> forall i :: 0 <= i < |session| ==> |session[i]| == 0
  {
    if |session| == 0 then [] else session[0] + Flatten(session[1..])
  }

  function Texts(ps: seq<string>): (vs: seq<Value>)
    ensures |vs| == |ps| && forall k :: 0 <= k < |ps| ==> vs[k] == Str(ps[k])
  {
    if |ps| == 0 then [] else [Str(ps[0])] + Texts(ps[1..])
  }

  /** One file after linking, against all the files of its session. */
  function LinkFile(file: Value, files: seq<Value>): Value {
    match Placeholders(file)
    case None => file
    case Some(folders) => Set(file, LinkPath, List(Texts(Targets(folders, files))))
  }

  /** Every fieldmap file of the session linked to the session's targets; the hierarchy keeps its shape. */
  function Link(session: Session): (r: Session)
    ensures |r| == |session|
    ensures forall i :: 0 <= i < |session| ==> |r[i]| == |session[i]|
    ensures forall i, j :: 0 <= i < |session| && 0 <= j < |session[i]| ==>
              r[i][j] == LinkFile(session[i][j], Flatten(session))
  {
    var files := Flatten(session);
    seq(|session|, i requires 0 <= i < |session| =>
      seq(|session[i]|, j requires 0 <= j < |session[i]| => LinkFile(session[i][j], files)))
  }

  // ---------------------------------------------------------------- properties

  /** The path starts below the subject directory: after the first `/` of `Path`. */
  lemma RelativeBelowSubject(head: string, rest: string, fname: string)
    requires '/' !in head
    ensures Relative(head + "/" + rest, fname) == rest + "/" + fname
  {
    var path := head + "/" + rest;
    assert OccursAt(path, "/", |head|);
    forall j | 0 <= j < |head| ensures !OccursAt(path, "/", j) {
      assert path[j..j + 1][0] == head[j];
    }
    assert path[|head| + 1..] == rest;
  }

  /** The files in a folder, read over two runs of files, are those of the first run, then the second. */
  lemma {:induction false} InFolderAppend(folder: string, a: seq<Value>, b: seq<Value>)
    ensures InFolder(folder, a + b) == InFolder(folder, a) + InFolder(folder, b)
  {
    if |a| == 0 {
      assert a + b == b;
    } else {
      assert (a + b)[0] == a[0] && (a + b)[1..] == a[1..] + b;
      InFolderAppend(folder, a[1..], b);
    }
  }

  /** A path is listed for a folder exactly when some file lies there under that path. */
  lemma {:induction false} InFolderMember(folder: string, files: seq<Value>, p: string)
    ensures p in InFolder(folder, files) <==> exists k :: 0 <= k < |files| && TargetOf(files[k], folder) == Some(p)
  {
    if |files| > 0 {
      InFolderMember(folder, files[1..], p);
      if exists k :: 0 <= k < |files[1..]| && TargetOf(files[1..][k], folder) == Some(p) {
        var k :| 0 <= k < |files[1..]| && TargetOf(files[1..][k], folder) == Some(p);
        assert TargetOf(files[k + 1], folder) == Some(p);
      }
      if exists k :: 0 <= k < |files| && TargetOf(files[k], folder) == Some(p) {
        var k :| 0 <= k < |files| && TargetOf(files[k], folder) == Some(p);
        if k > 0 {
          assert TargetOf(files[1..][k - 1], folder) == Some(p);
        }
      }
    }
  }

  /** A path is a target exactly when some file lies under it in one of the named folders. */
  lemma {:induction false} TargetsMember(folders: seq<string>, files: seq<Value>, p: string)
    ensures p in Targets(folders, files) <==>
            exists f, k :: f in folders && 0 <= k < |files| && TargetOf(files[k], f) == Some(p)
  {
    if |folders| > 0 {
      InFolderMember(folders[0], files, p);
      TargetsMember(folders[1..], files, p);
      assert Targets(folders, files) == InFolder(folders[0], files) + Targets(folders[1..], files);
      if p in InFolder(folders[0], files) {
        var k :| 0 <= k < |files| && TargetOf(files[k], folders[0]) == Some(p);
        assert folders[0] in folders;
      }
      if p in Targets(folders[1..], files) {
        var f, k :| f in folders[1..] && 0 <= k < |files| && TargetOf(files[k], f) == Some(p);
        assert f in folders;
      }
      if exists f, k :: f in folders && 0 <= k < |files| && TargetOf(files[k], f) == Some(p) {
        var f, k :| f in folders && 0 <= k < |files| && TargetOf(files[k], f) == Some(p);
        if f != folders[0] {
          assert f in folders[1..];
        }
      }
    }
  }

  /** A session with no file in any named folder links to nothing. */
  lemma NoTargets(folders: seq<string>, files: seq<Value>)
    requires forall f, k :: f in folders && 0 <= k < |files| ==> TargetOf(files[k], f).None?
    ensures Targets(folders, files) == []
  {
    if |Targets(folders, files)| > 0 {
      var p := Targets(folders, files)[0];
      TargetsMember(folders, files, p);
    }
  }

  /** A fieldmap file gets the list of its targets under `info.IntendedFor`; the rest of the file stays. */
  lemma LinkFieldmap(file: Value, files: seq<Value>, q: Path)
    requires Placeholders(file).Some?
    requires Diverge(LinkPath, q, 0)
    ensures Get(LinkFile(file, files), LinkPath) ==
            Some(List(Texts(Targets(Placeholders(file).value, files))))
    ensures Get(LinkFile(file, files), q) == Get(file, q)
  {
    var x := List(Texts(Targets(Placeholders(file).value, files)));
    GetSet(file, LinkPath, x);
    GetSetOther(file, LinkPath, q, x);
  }

  /** The BIDS block is among what linking keeps. */
  lemma LinkKeepsBlock(file: Value, files: seq<Value>)
    ensures Get(LinkFile(file, files), BlockPath) == Get(file, BlockPath)
    ensures Block(LinkFile(file, files)) == Block(file)
  {
    if Placeholders(file).Some? {
      assert LinkPath[1] != BlockPath[1] && LinkPath[0..1] == BlockPath[0..1];
      LinkFieldmap(file, files, BlockPath);
    }
  }

  /** Linking a second time changes nothing: the blocks it reads are the blocks it keeps. */
  lemma LinkFileTwice(file: Value, files: seq<Value>, linked: seq<Value>)
    requires |linked| == |files| && forall k :: 0 <= k < |files| ==> linked[k] == LinkFile(files[k], files)
    ensures LinkFile(LinkFile(file, files), linked) == LinkFile(file, files)
  {
    LinkKeepsBlock(file, files);
    forall k | 0 <= k < |files| ensures Block(linked[k]) == Block(files[k]) {
      LinkKeepsBlock(files[k], files);
    }
    if Placeholders(file).Some? {
      var folders := Placeholders(file).value;
      TargetsSame(folders, files, linked);
      var x := List(Texts(Targets(folders, files)));
      SetSet(file, LinkPath, x, x);
    }
  }

  /** Files with the same blocks have the same targets. */
  lemma {:induction false} TargetsSame(folders: seq<string>, files: seq<Value>, linked: seq<Value>)
    requires |linked| == |files| && forall k :: 0 <= k < |files| ==> Block(linked[k]) == Block(files[k])
    ensures Targets(folders, linked) == Targets(folders, files)
  {
    if |folders| > 0 {
      InFolderSame(folders[0], files, linked);
      TargetsSame(folders[1..], files, linked);
    }
  }

  lemma {:induction false} InFolderSame(folder: string, files: seq<Value>, linked: seq<Value>)
    requires |linked| == |files| && forall k :: 0 <= k < |files| ==> Block(linked[k]) == Block(files[k])
    ensures InFolder(folder, linked) == InFolder(folder, files)
  {
    if |files| > 0 {
      assert Block(linked[0]) == Block(files[0]);
      InFolderSame(folder, files[1..], linked[1..]);
    }
  }
}

=== FILE: curate_examples.dfy ===
/** The `IntendedFor` linking the curation test pins down: one fieldmap, one functional run. */
module CurateExamples {
  import opened Outcomes
  import opened Json
  import opened Curate
  import Rules
  import TemplateCatalog
  import Text

  /** A file record as the first pass leaves it: the block under `info.BIDS`. */
  function FileWith(block: map<string, Value>): Value {
    Obj(map["info" := Obj(map["BIDS" := Obj(block)])])
  }

  lemma BlockOfFile(block: map<string, Value>)
    ensures Block(FileWith(block)) == block
  {
    var f := FileWith(block);
    assert BlockPath == ["info", "BIDS"];
    assert GetFrom(Obj(block), BlockPath, 2) == Some(Obj(block));
    assert GetFrom(f.fields["info"], BlockPath, 1) == Some(Obj(block));
    assert Get(f, BlockPath) == Some(Obj(block));
  }

  /** The placeholders the fieldmap templates write: the `anat` and `func` folders. */
  const IntendedFolders: Value := List([Obj(map["Folder" := Str("anat")]), Obj(map["Folder" := Str("func")])])

  function Fieldmap(path: string, fname: string): Value {
    FileWith(map["Folder" := Str("fmap"), "Path" := Str(path), "Filename" := Str(fname),
                 "IntendedFor" := IntendedFolders])
  }

  function Functional(path: string, fname: string): Value {
    FileWith(map["Folder" := Str("func"), "Path" := Str(path), "Filename" := Str(fname)])
  }

  lemma FieldmapFolders(path: string, fname: string)
    ensures Placeholders(Fieldmap(path, fname)) == Some(["anat", "func"])
  {
    var items := IntendedFolders.items;
    BlockOfFile(map["Folder" := Str("fmap"), "Path" := Str(path), "Filename" := Str(fname),
                    "IntendedFor" := IntendedFolders]);
    assert items[1..][1..] == [];
    assert items[1..][0].fields["Folder"] == Str("func");
    assert Folders(items[1..][1..]) == [];
    assert Folders(items[1..]) == ["func"];
    assert items[0].fields["Folder"] == Str("anat");
    assert Folders(items) == ["anat", "func"];
    var block := Block(Fieldmap(path, fname));
    assert "IntendedFor" in block && block["IntendedFor"] == IntendedFolders;
  }

  /** The fieldmap itself lies in neither target folder. */
  lemma FieldmapNoTarget(path: string, fname: string)
    ensures TargetOf(Fieldmap(path, fname), "anat") == None
    ensures TargetOf(Fieldmap(path, fname), "func") == None
  {
    BlockOfFile(map["Folder" := Str("fmap"), "Path" := Str(path), "Filename" := Str(fname),
                    "IntendedFor" := IntendedFolders]);
  }

  /** Of the two files only the functional one lies in `func`, and neither in `anat`. */
  lemma OneFunctionalTargets(files: seq<Value>, fmapPath: string, fmapName: string, head: string, rest: string, fname: string)
    requires '/' !in head
    requires files == [Fieldmap(fmapPath, fmapName), Functional(head + "/" + rest, fname)]
    ensures Targets(["anat", "func"], files) == [rest + "/" + fname]
  {
    FieldmapNoTarget(fmapPath, fmapName);
    RelativeBelowSubject(head, rest, fname);
    BlockOfFile(map["Folder" := Str("func"), "Path" := Str(head + "/" + rest), "Filename" := Str(fname)]);
    assert TargetOf(files[1], "anat") == None;
    assert TargetOf(files[1], "func") == Some(rest + "/" + fname);
    assert files[1..][1..] == [] && files[1..][0] == files[1];
    assert InFolder("anat", files[1..][1..]) == [];
    assert InFolder("anat", files[1..]) == [];
    assert InFolder("anat", files) == [];
    assert InFolder("func", files[1..][1..]) == [];
    assert InFolder("func", files[1..]) == [rest + "/" + fname];
    assert InFolder("func", files) == [rest + "/" + fname];
    var folders := ["anat", "func"];
    assert folders[1..][1..] == [] && folders[1..][0] == "func";
    assert Targets(folders[1..], files) == [rest + "/" + fname] + Targets(folders[1..][1..], files);
  }

  /** With one functional file in the session, the fieldmap lists exactly its path below the subject directory. */
  lemma OneFunctional(fmapPath: string, fmapName: string, head: string, rest: string, fname: string)
    requires '/' !in head
    ensures Get(Link([[Fieldmap(fmapPath, fmapName)], [Functional(head + "/" + rest, fname)]])[0][0], LinkPath) ==
            Some(List([Str(rest + "/" + fname)]))
  {
    var session := [[Fieldmap(fmapPath, fmapName)], [Functional(head + "/" + rest, fname)]];
    var files := [Fieldmap(fmapPath, fmapName), Functional(head + "/" + rest, fname)];
    assert Flatten(session) == files by {
      assert session[1..][1..] == [];
      assert Flatten(session[1..]) == [Functional(head + "/" + rest, fname)] + Flatten(session[1..][1..]);
    }
    FieldmapFolders(fmapPath, fmapName);
    OneFunctionalTargets(files, fmapPath, fmapName, head, rest, fname);
    LinkFieldmap(Fieldmap(fmapPath, fmapName), files, ["info", "BIDS"]);
    assert Texts([rest + "/" + fname]) == [Str(rest + "/" + fname)];
    assert Link(session)[0][0] == LinkFile(Fieldmap(fmapPath, fmapName), files);
  }

  /** The test's session: the run `task-rest_run-1` of subject `subj1`, session `session1`. */
  lemma IntendedForRun()
    ensures Get(Link([[Fieldmap("sub-subj1/ses-session1/fmap", "sub-subj1_ses-session1_dir-LR_epi.nii.gz")],
                      [Functional("sub-subj1" + "/" + "ses-session1/func",
                                  "sub-subj1_ses-session1_task-rest_run-1_bold.nii.gz")]])[0][0], LinkPath) ==
            Some(List([Str("ses-session1/func" + "/" + "sub-subj1_ses-session1_task-rest_run-1_bold.nii.gz")]))
  {
    OneFunctional("sub-subj1/ses-session1/fmap", "sub-subj1_ses-session1_dir-LR_epi.nii.gz",
                  "sub-subj1", "ses-session1/func", "sub-subj1_ses-session1_task-rest_run-1_bold.nii.gz");
  }

  /** The test's functional label `acq2_task-rest_run-1` derives `Task` `rest` and `Run` `1`, and leaves the run counters alone. */
  lemma CurateLabelDerivations(ctx: Value, counters: Rules.Counters)
    requires TemplateCatalog.Field(ctx, TemplateCatalog.AcquisitionLabel, "acq2_task-rest_run-1")
    ensures Rules.Derive(Rules.Capture(TemplateCatalog.AcquisitionLabel, TemplateCatalog.TaskLabel, 5), ctx, counters) ==
            (Str("rest"), counters)
    ensures Rules.Derive(Rules.RunIndex(TemplateCatalog.AcquisitionLabel), ctx, counters) == (Str("1"), counters)
  {
    Rules.DeriveCapture(TemplateCatalog.AcquisitionLabel, TemplateCatalog.TaskLabel, 5, ctx, counters, "acq2_task-rest_run-1");
    CurateLabelTask();
    CurateLabelRun(ctx, counters);
  }

  lemma CurateLabelTask()
    ensures Rules.CaptureText(Str("acq2_task-rest_run-1"), TemplateCatalog.TaskLabel, 5) == "rest"
  {
    assert "acq2_task-rest_run-1" == "acq2_" + "task-" + "rest" + "_run-1";
    TemplateCatalog.TaskAbsent("acq2_", "task-" + "rest" + "_run-1");
    assert "acq2_" + ("task-" + "rest" + "_run-1") == "acq2_" + "task-" + "rest" + "_run-1";
    TemplateCatalog.TaskCapture("acq2_", "rest", "_run-1");
  }

  lemma CurateLabelRun(ctx: Value, counters: Rules.Counters)
    requires TemplateCatalog.Field(ctx, TemplateCatalog.AcquisitionLabel, "acq2_task-rest_run-1")
    ensures Rules.Derive(Rules.RunIndex(TemplateCatalog.AcquisitionLabel), ctx, counters) == (Str("1"), counters)
  {
    var name := "acq2_task-rest_run-1";
    assert name == "acq2_task-rest_" + "run-" + "1" + "";
    assert !Text.EndsWith(name, Rules.RunMarker) by {
      assert name[|name| - 4..] == "un-1";
    }
    TemplateCatalog.RunNumberAbsent("acq2_task-rest_", "1");
    assert "acq2_task-rest_" + "run-" + "1" == "acq2_task-rest_" + "run-" + "1" + "";
    TemplateCatalog.ExplicitRun(ctx, counters, "acq2_task-rest_", "1", "");
  }

  /** Without a file in `anat` or `func` the fieldmap's list is empty. */
  lemma NoFunctional(fmapPath: string, fmapName: string)
    ensures Get(Link([[Fieldmap(fmapPath, fmapName)]])[0][0], LinkPath) == Some(List([]))
  {
    var files := [Fieldmap(fmapPath, fmapName)];
    assert Flatten([[Fieldmap(fmapPath, fmapName)]]) == files;
    FieldmapFolders(fmapPath, fmapName);
    FieldmapNoTarget(fmapPath, fmapName);
    NoTargets(["anat", "func"], files);
    LinkFieldmap(Fieldmap(fmapPath, fmapName), files, ["info", "BIDS"]);
  }
}

=== FILE: export.dfy ===
/**
 * The export client's per-file decisions: where a Flywheel file is written below the output
 * directory (`define_path`), and whether a container or file is skipped
 * (`is_container_excluded`, `is_file_excluded_options`), plus which container an export
 * starts from (`determine_container`).
 */
module Export {
  import opened Outcomes
  import opened Text
  import opened Json

  /** `posixpath.join(a, b)`: an absolute `b` replaces `a`; otherwise `b` follows `a`, after a `/` unless `a` is empty or ends in one. */
  function PathJoin(a: string, b: string): (r: string)
    ensures EndsWith(r, b)
    ensures !StartsWith(b, "/") ==> StartsWith(r, a) && |r| <= |a| + 1 + |b|
  {
    if |b| > 0 && b[0] == '/' then b
    else if a == "" || a[|a| - 1] == '/' then a + b
    else a + "/" + b
  }

  /** The directory of a relative name joined to a directory is that directory. */
  lemma PathJoinDirname(dir: string, name: string)
    requires dir != "" && dir[|dir| - 1] != '/' && '/' !in name
    ensures Dirname(PathJoin(dir, name)) == dir
  {
    if |name| > 0 {
      assert name[0] in name;
    }
    DirnameOfChild(dir, name);
  }

  /** Joining an empty component keeps the path, as a directory. */
  lemma PathJoinEmpty(a: string)
    ensures PathJoin(a, "") == if a == "" || a[|a| - 1] == '/' then a else a + "/"
  {
  }

  /** The file's `info.<namespace>` block, when it is an object: not missing and not the `"NA"` sentinel. */
  function Block(f: Value, namespace: string): (r: Option<map<string, Value>>)
    ensures r.Some? <==> Get(f, ["info", namespace]).Some? && Get(f, ["info", namespace]).value.Obj?
  {
    match Get(f, ["info", namespace])
    case Some(Obj(m)) => Some(m)
    case _ => None
  }

  /** A block field read as text: missing and non-text fields read as empty. */
  function FieldText(block: map<string, Value>, key: string): string {
    if key in block && block[key].Str? then block[key].s else ""
  }

  /**
   * Where the file is written: the output directory joined with the block's `Path` and
   * `Filename`; empty when the file has no block or no file name. `Folder` plays no part.
   */
  function DefinePath(outdir: string, f: Value, namespace: string): (r: string)
    ensures r == "" <==> Block(f, namespace).None? || FieldText(Block(f, namespace).value, "Filename") == ""
    ensures r != "" ==> EndsWith(r, FieldText(Block(f, namespace).value, "Filename"))
    ensures (r != "" && !StartsWith(FieldText(Block(f, namespace).value, "Path"), "/") &&
             !StartsWith(FieldText(Block(f, namespace).value, "Filename"), "/")) ==> StartsWith(r, outdir)
  {
    match Block(f, namespace)
    case None => ""
    case Some(block) =>
      var name := FieldText(block, "Filename");
      if name == "" then "" else PathJoin(PathJoin(outdir, FieldText(block, "Path")), name)
  }

  /** A file in directory `Path` below the output directory lands in `<outdir>/<Path>`. */
  lemma DefinePathDirectory(outdir: string, f: Value, namespace: string)
    requires Block(f, namespace).Some?
    requires var block := Block(f, namespace).value;
             FieldText(block, "Filename") != "" && '/' !in FieldText(block, "Filename") &&
             FieldText(block, "Path") != "" && !StartsWith(FieldText(block, "Path"), "/") &&
             !EndsWith(FieldText(block, "Path"), "/") &&
             outdir != "" && !EndsWith(outdir, "/")
    ensures Dirname(DefinePath(outdir, f, namespace)) == outdir + "/" + FieldText(Block(f, namespace).value, "Path")
  {
    var block := Block(f, namespace).value;
    var path := FieldText(block, "Path");
    assert outdir[|outdir| - 1] != '/' by {
      assert outdir[|outdir| - 1..] == [outdir[|outdir| - 1]];
    }
    assert path[0] != '/' by {
      assert path[..1] == [path[0]];
    }
    assert path[|path| - 1] != '/' by {
      assert path[|path| - 1..] == [path[|path| - 1]];
    }
    var dir := PathJoin(outdir, path);
    assert dir == outdir + "/" + path;
    assert dir[|dir| - 1] == path[|path| - 1];
    PathJoinDirname(dir, FieldText(block, "Filename"));
  }

  /** A file marked `"NA"` under the namespace is written nowhere. */
  lemma NotApplicableHasNoPath(outdir: string, f: Value, namespace: string)
    ensures DefinePath(outdir, Set(f, ["info", namespace], Str("NA")), namespace) == ""
  {
    GetSet(f, ["info", namespace], Str("NA"));
  }

  /** The container carries a true `ignore` flag in its block. */
  function IsContainerExcluded(c: Value, namespace: string): (r: bool)
    ensures r ==> Block(c, namespace).Some?
  {
    match Block(c, namespace)
    case Some(block) => "ignore" in block && Truthy(block["ignore"])
    case None => false
  }

  /** Setting the block's `ignore` flag decides exclusion, whatever else the container holds. */
  lemma IgnoreDecides(c: Value, namespace: string, ignore: bool)
    requires Block(c, namespace).Some?
    ensures IsContainerExcluded(Set(c, ["info", namespace, "ignore"], Bool(ignore)), namespace) == ignore
  {
    var x := Bool(ignore);
    var c' := Set(c, ["info", namespace, "ignore"], x);
    GetSet(c, ["info", namespace, "ignore"], x);
    GetSetExtend(c, ["info", namespace], Obj(Block(c, namespace).value), ["ignore"]);
    assert Get(c', ["info", namespace, "ignore"]) == Some(x);
    IgnoreFromGet(c', namespace);
  }

  lemma IgnoreFromGet(c: Value, namespace: string)
    requires Get(c, ["info", namespace, "ignore"]).Some?
    ensures Block(c, namespace).Some? && "ignore" in Block(c, namespace).value
    ensures Block(c, namespace).value["ignore"] == Get(c, ["info", namespace, "ignore"]).value
  {
    var p := ["info", namespace, "ignore"];
    assert GetFrom(c, p, 0).Some?;
    var info := c.fields["info"];
    assert GetFrom(info, p, 1).Some?;
    var block := info.fields[namespace];
    assert GetFrom(block, p, 2).Some?;
    assert GetFrom(c, ["info", namespace], 0) == GetFrom(info, ["info", namespace], 1) == GetFrom(block, ["info", namespace], 2);
  }

  /** Files kept out of a raw export: those under `sourcedata` or `derivatives`. */
  predicate OutsideRawData(path: string) {
    StartsWith(path, "sourcedata") || StartsWith(path, "derivatives")
  }

  /** The file's block places it in source or derived data. */
  predicate RawDataOnly(f: Value, namespace: string) {
    Block(f, namespace).Some? && OutsideRawData(FieldText(Block(f, namespace).value, "Path"))
  }

  /**
   * Whether the export skips a file: it is ignored; or it is source or derived data and those
   * are not exported; or only changed files are replaced and `current` says the local copy is
   * no older than the file (which the filesystem and the clock decide).
   */
  function IsFileExcluded(f: Value, namespace: string, sourceData: bool, replace: bool, current: bool): (r: bool)
    ensures IsContainerExcluded(f, namespace) ==> r
    ensures !sourceData && RawDataOnly(f, namespace) ==> r
    ensures replace && current ==> r
    ensures r ==> IsContainerExcluded(f, namespace) || (!sourceData && RawDataOnly(f, namespace)) || (replace && current)
  {
    if IsContainerExcluded(f, namespace) then true
    else if !sourceData && RawDataOnly(f, namespace) then true
    else replace && current
  }

  /** Exporting source data as well never skips a file that would be exported without it. */
  lemma SourceDataExportsMore(f: Value, namespace: string, replace: bool, current: bool)
    ensures IsFileExcluded(f, namespace, true, replace, current) ==> IsFileExcluded(f, namespace, false, replace, current)
  {
  }

  /** A file that has changed since the local copy is exported unless it is ignored or held back as raw data. */
  lemma ChangedFileExported(f: Value, namespace: string, sourceData: bool, replace: bool)
    requires !IsContainerExcluded(f, namespace) && (sourceData || !RawDataOnly(f, namespace))
    ensures !IsFileExcluded(f, namespace, sourceData, replace, false)
  {
  }

  /**
   * The container an export starts from: the one named by its type and id when no project is
   * given; otherwise the project (or its session) that `lookup`, standing for the Flywheel
   * client, finds.
   */
  function DetermineContainer(project: Option<string>, session: Option<string>, ctype: Option<string>, cid: Option<string>,
                              lookup: (string, Option<string>) -> Result<(string, string), string>): (r: Result<(string, string), string>)
    ensures !Given(project) ==> (r.Success? <==> Given(ctype) && Given(cid))
    ensures !Given(project) && r.Success? ==> r.value == (ctype.value, cid.value)
    ensures Given(project) ==> r == lookup(project.value, session)
  {
    if Given(project) then lookup(project.value, session)
    else if Given(ctype) && Given(cid) then Success((ctype.value, cid.value))
    else Failure("no container given: a project label or a container type and id is needed")
  }
}

=== FILE: export_examples.dfy ===
/** The export client's decisions on the file and container records of its tests. */
module ExportExamples {
  import opened Outcomes
  import opened Text
  import opened Json
  import opened Export

  /** A file whose `BIDS` block holds these fields. */
  function FileWith(block: map<string, Value>): Value {
    Obj(map["info" := Obj(map["BIDS" := Obj(block)])])
  }

  lemma BlockOfFile(block: map<string, Value>)
    ensures Block(FileWith(block), "BIDS") == Some(block)
  {
    assert Get(FileWith(block), ["info", "BIDS"]) == Some(Obj(block));
  }

  /** Path `''` and Folder `/` under `/test/`: the file lands directly in the output directory. */
  lemma PathInOutput()
    ensures DefinePath("/test/", FileWith(map["Path" := Str(""), "Folder" := Str("/"), "Filename" := Str("test.json")]), "BIDS") ==
            "/test/test.json"
  {
    BlockOfFile(map["Path" := Str(""), "Folder" := Str("/"), "Filename" := Str("test.json")]);
  }

  /** An empty file name: no path, wherever `Path` points. */
  lemma EmptyFilename(outdir: string)
    ensures DefinePath(outdir, FileWith(map["Path" := Str("/this/is/the/path"), "Folder" := Str("path"), "Filename" := Str("")]), "BIDS") == ""
  {
    BlockOfFile(map["Path" := Str("/this/is/the/path"), "Folder" := Str("path"), "Filename" := Str("")]);
  }

  /** A file without `info`: no path. */
  lemma NoInfo(outdir: string)
    ensures DefinePath(outdir, Obj(map["test" := Obj(map["test2" := Str("abcdef")])]), "BIDS") == ""
  {
    assert Get(Obj(map["test" := Obj(map["test2" := Str("abcdef")])]), ["info", "BIDS"]).None?;
  }

  /** A file whose `info` lacks the namespace: no path. */
  lemma NoNamespace(outdir: string)
    ensures DefinePath(outdir, Obj(map["info" := Obj(map["test2" := Str("abcdef")])]), "BIDS") == ""
  {
    assert Get(Obj(map["info" := Obj(map["test2" := Str("abcdef")])]), ["info", "BIDS"]).None?;
  }

  /** A file marked `"NA"`: no path. */
  lemma NamespaceNotApplicable(outdir: string)
    ensures DefinePath(outdir, Obj(map["info" := Obj(map["BIDS" := Str("NA")])]), "BIDS") == ""
  {
    assert Get(Obj(map["info" := Obj(map["BIDS" := Str("NA")])]), ["info", "BIDS"]) == Some(Str("NA"));
  }

  /** An acquisition record with the `ignore` flag set to `ignore`. */
  function Acquisition(template: string, ignore: bool, name: string): Value {
    Obj(map["info" := Obj(map["BIDS" := Obj(map["template" := Str(template), "ignore" := Bool(ignore)])]), "label" := Str(name)])
  }

  /** The container is excluded exactly when its flag is set. */
  lemma ExcludeContainers(template: string, ignore: bool, name: string)
    ensures IsContainerExcluded(Acquisition(template, ignore, name), "BIDS") == ignore
  {
    var block := map["template" := Str(template), "ignore" := Bool(ignore)];
    assert Get(Acquisition(template, ignore, name), ["info", "BIDS"]) == Some(Obj(block));
  }

  /** A functional file with its `ignore` flag and `Path`. */
  function FuncFile(ignore: bool, path: Option<string>, modified: Value): Value {
    var block := map["template" := Str("func_file"), "ignore" := Bool(ignore)];
    var block := if path.Some? then block["Path" := Str(path.value)] else block;
    Obj(map["info" := Obj(map["BIDS" := Obj(block)]), "modified" := modified])
  }

  lemma FuncFileBlock(ignore: bool, path: Option<string>, modified: Value)
    ensures Block(FuncFile(ignore, path, modified), "BIDS").Some?
    ensures "ignore" in Block(FuncFile(ignore, path, modified), "BIDS").value
    ensures Block(FuncFile(ignore, path, modified), "BIDS").value["ignore"] == Bool(ignore)
    ensures FieldText(Block(FuncFile(ignore, path, modified), "BIDS").value, "Path") == if path.Some? then path.value else ""
  {
    var f := FuncFile(ignore, path, modified);
    assert Get(f, ["info", "BIDS"]) == Some(f.fields["info"].fields["BIDS"]);
  }

  /** Ignored files are skipped, others are not, when the local copy does not count. */
  lemma ExcludeIgnoredFiles(modified: Value, current: bool)
    ensures !IsFileExcluded(FuncFile(false, None, modified), "BIDS", true, false, current)
    ensures IsFileExcluded(FuncFile(true, None, modified), "BIDS", true, false, current)
  {
    FuncFileBlock(false, None, modified);
    FuncFileBlock(true, None, modified);
  }

  /** When changed files alone are replaced, a current local copy is skipped and a stale one is not. */
  lemma ExcludeCurrentFiles(modified: Value)
    ensures IsFileExcluded(FuncFile(false, None, modified), "BIDS", true, true, true)
    ensures !IsFileExcluded(FuncFile(false, None, modified), "BIDS", true, true, false)
  {
    FuncFileBlock(false, None, modified);
  }

  /** Source data is skipped unless it is exported too. */
  lemma ExcludeSourceData(modified: Value)
    ensures IsFileExcluded(FuncFile(false, Some("sourcedata/file"), modified), "BIDS", false, true, false)
    ensures !IsFileExcluded(FuncFile(false, Some("sourcedata/file"), modified), "BIDS", true, true, false)
  {
    FuncFileBlock(false, Some("sourcedata/file"), modified);
    assert "sourcedata/file"[..10] == "sourcedata";
  }

  /** With no project given, the named container is the one exported. */
  lemma SingleContainer(lookup: (string, Option<string>) -> Result<(string, string), string>)
    ensures DetermineContainer(None, None, Some("session"), Some("123456789009876543211224"), lookup) ==
            Success(("session", "123456789009876543211224"))
  {
  }
}

=== FILE: extension.dfy ===
/**
 * `get_extension`: the extension of a file name, as the templates' `{ext}` placeholder reads
 * it. The extension starts at the last `.`; when that last part is `.gz` it takes the part
 * before it too (`.nii.gz`, `.tar.gz`). A `{...}` field reference at the front of a name may
 * hold dots of its own, so only the text after the last `}` is looked at.
 */
module Extension {
  import opened Outcomes
  import opened Text

  /** A `c` with no `c` after it is the last one. */
  lemma LastIndexIs(s: string, c: char, k: nat)
    requires k < |s| && s[k] == c
    requires forall j :: k < j < |s| ==> s[j] != c
    ensures LastIndex(s, c) == Some(k)
  {
    assert s[k] == c;
  }

  /** Where the extension may start: just after the last `}`, or at the front. */
  function Start(fname: string): (i: nat)
    ensures i <= |fname|
    ensures forall j :: i <= j < |fname| ==> fname[j] != '}'
    ensures i > 0 ==> fname[i - 1] == '}'
  {
    match LastIndex(fname, '}')
    case None => 0
    case Some(k) => k + 1
  }

  /** `.` followed by a part without dots, or two such parts of which the second is `.gz`. */
  predicate ExtensionShape(e: string) {
    |e| >= 1 && e[0] == '.' &&
    ('.' !in e[1..] || (EndsWith(e, ".gz") && |e| >= 4 && '.' !in e[1..|e| - 3]))
  }

  /** Where in `t` the extension starts: the last `.`, or the one before it when the last part is `.gz`. */
  function ExtensionAt(t: string): (r: Option<nat>)
    ensures r.None? <==> '.' !in t
    ensures r.Some? ==> r.value < |t| && t[r.value] == '.'
  {
    match LastIndex(t, '.')
    case None => None
    case Some(i) =>
      if t[i..] == ".gz" && LastIndex(t[..i], '.').Some? then
        var j := LastIndex(t[..i], '.').value;
        assert t[j] == t[..i][j];
        Some(j)
      else Some(i)
  }

  /**
   * `get_extension`: the text from where the extension starts in what follows the last `}`,
   * or `None` when no `.` follows the last `}`.
   */
  function GetExtension(fname: string): (r: Option<string>)
    ensures r.None? <==> '.' !in fname[Start(fname)..]
    ensures r.Some? ==> EndsWith(fname, r.value) && |r.value| >= 1 && r.value[0] == '.'
    ensures r.Some? ==> '}' !in r.value
  {
    var k := Start(fname);
    match ExtensionAt(fname[k..])
    case None => None
    case Some(i) =>
      assert fname[k..][i] == fname[k + i];
      var e := fname[k + i..];
      assert forall j :: 0 <= j < |e| ==> e[j] == fname[k + i + j];
      Some(e)
  }

  /** The name without its extension: the base name that `{ext}` completes. */
  function Stem(fname: string): (r: string)
    ensures GetExtension(fname).Some? ==> r + GetExtension(fname).value == fname
    ensures GetExtension(fname).None? ==> r == fname
  {
    match GetExtension(fname)
    case None => fname
    case Some(e) =>
      assert fname == fname[..|fname| - |e|] + fname[|fname| - |e|..];
      fname[..|fname| - |e|]
  }

  /** No `}` after the stem: the extension is looked for from within the stem. */
  lemma StartWithin(stem: string, rest: string)
    requires '}' !in rest
    ensures Start(stem + rest) <= |stem|
    ensures (stem + rest)[Start(stem + rest)..] == stem[Start(stem + rest)..] + rest
  {
  }

  /** A last part other than `gz` starts the extension at its own dot. */
  lemma SimpleAt(u: string, e: string)
    requires '.' !in e && e != "gz"
    ensures ExtensionAt(u + "." + e) == Some(|u|)
  {
    var t := u + "." + e;
    assert forall j :: |u| < j < |t| ==> t[j] == e[j - |u| - 1];
    LastIndexIs(t, '.', |u|);
    assert t[|u|..] == "." + e;
  }

  /** A last part `gz` after a dotted part starts the extension at the earlier dot. */
  lemma CompoundAt(u: string, a: string)
    requires '.' !in a
    ensures ExtensionAt(u + "." + a + ".gz") == Some(|u|)
  {
    var t := u + "." + a + ".gz";
    var i := |u| + 1 + |a|;
    assert forall j :: |u| < j < i ==> t[j] == a[j - |u| - 1];
    assert t[i] == '.' && t[i + 1] == 'g' && t[i + 2] == 'z';
    LastIndexIs(t, '.', i);
    assert t[i..] == ".gz";
    assert t[..i] == u + "." + a;
    LastIndexIs(t[..i], '.', |u|);
  }

  /** A name whose last part is not `gz` has that part, with its dot, as its extension. */
  lemma SimpleExtension(stem: string, e: string)
    requires '.' !in e && '}' !in e && e != "gz"
    ensures GetExtension(stem + "." + e) == Some("." + e)
  {
    var s := stem + "." + e;
    assert s == stem + ("." + e);
    StartWithin(stem, "." + e);
    var k := Start(s);
    assert s[k..] == stem[k..] + "." + e;
    SimpleAt(stem[k..], e);
    assert s[k + |stem[k..]|..] == "." + e;
  }

  /** A name ending in `.<part>.gz` has both parts as its extension. */
  lemma CompoundExtension(stem: string, a: string)
    requires '.' !in a && '}' !in a
    ensures GetExtension(stem + "." + a + ".gz") == Some("." + a + ".gz")
  {
    var s := stem + "." + a + ".gz";
    assert s == stem + ("." + a + ".gz");
    StartWithin(stem, "." + a + ".gz");
    var k := Start(s);
    assert s[k..] == stem[k..] + "." + a + ".gz";
    CompoundAt(stem[k..], a);
    assert s[k + |stem[k..]|..] == "." + a + ".gz";
  }

  /** A name with no `.` at all has no extension. */
  lemma NoExtension(fname: string)
    requires '.' !in fname
    ensures GetExtension(fname).None?
  {
    var k := Start(fname);
    assert forall j :: 0 <= j < |fname[k..]| ==> fname[k..][j] == fname[k + j];
  }

  /** Text from the last dot on has no other dot. */
  lemma LastPartShape(t: string, i: nat)
    requires LastIndex(t, '.') == Some(i)
    ensures ExtensionShape(t[i..])
  {
    var e := t[i..];
    assert forall m :: 1 <= m < |e| ==> e[m] == t[i + m];
  }

  /** Text from the second-to-last dot on, when the last part is `.gz`, has the two-part shape. */
  lemma CompoundShape(t: string, i: nat, j: nat)
    requires LastIndex(t, '.') == Some(i) && t[i..] == ".gz" && LastIndex(t[..i], '.') == Some(j)
    ensures ExtensionShape(t[j..])
  {
    var e := t[j..];
    assert forall m :: 1 <= m < |e| - 3 ==> e[m] == t[..i][j + m];
    assert |e| - 3 == i - j;
    assert e[|e| - 3..] == t[i..];
  }

  /** Every extension found has one of the two shapes. */
  lemma ExtensionHasShape(fname: string)
    requires GetExtension(fname).Some?
    ensures ExtensionShape(GetExtension(fname).value)
  {
    var t := fname[Start(fname)..];
    var i := LastIndex(t, '.').value;
    assert GetExtension(fname).value == t[ExtensionAt(t).value..];
    if t[i..] == ".gz" && LastIndex(t[..i], '.').Some? {
      CompoundShape(t, i, LastIndex(t[..i], '.').value);
    } else {
      LastPartShape(t, i);
    }
  }
}

=== FILE: extension_examples.dfy ===
/** `get_extension` on the file names the utilities are checked against. */
module ExtensionExamples {
  import opened Outcomes
  import opened Extension

  lemma SimpleCase(s: string, stem: string, e: string, ext: string)
    requires '.' !in e && '}' !in e && e != "gz"
    requires s == stem + "." + e && ext == "." + e
    ensures GetExtension(s) == Some(ext)
  {
    SimpleExtension(stem, e);
  }

  lemma CompoundCase(s: string, stem: string, a: string, ext: string)
    requires '.' !in a && '}' !in a
    requires s == stem + "." + a + ".gz" && ext == "." + a + ".gz"
    ensures GetExtension(s) == Some(ext)
  {
    CompoundExtension(stem, a);
  }

  lemma NiftiExtension(s: string)
    requires s == "T1w.nii"
    ensures GetExtension(s) == Some(".nii")
  {
    SimpleCase(s, "T1w", "nii", ".nii");
  }

  lemma GzipNiftiExtension(s: string)
    requires s == "T1w.nii.gz"
    ensures GetExtension(s) == Some(".nii.gz")
  {
    CompoundCase(s, "T1w", "nii", ".nii.gz");
  }

  lemma TableExtension(s: string)
    requires s == "T1w.tsv"
    ensures GetExtension(s) == Some(".tsv")
  {
    SimpleCase(s, "T1w", "tsv", ".tsv");
  }

  lemma OtherTableExtension(s: string)
    requires s == "test.tsv"
    ensures GetExtension(s) == Some(".tsv")
  {
    SimpleCase(s, "test", "tsv", ".tsv");
  }

  lemma MissingExtension(s: string)
    requires s == "sub-01_T1w"
    ensures GetExtension(s).None?
  {
    NoExtension(s);
  }

  /** Dots earlier in the name are not part of the extension. */
  lemma DottedGzipExtension(s: string)
    requires s == "1.2.3.4.5.6.nii.gz"
    ensures GetExtension(s) == Some(".nii.gz")
  {
    CompoundCase(s, "1.2.3.4.5.6", "nii", ".nii.gz");
  }

  lemma DottedJsonExtension(s: string)
    requires s == "1.2.3.4.5.json"
    ensures GetExtension(s) == Some(".json")
  {
    SimpleCase(s, "1.2.3.4.5", "json", ".json");
  }

  lemma ArchiveExtension(s: string)
    requires s == "test.tar.gz"
    ensures GetExtension(s) == Some(".tar.gz")
  {
    CompoundCase(s, "test", "tar", ".tar.gz");
  }

  /** Dots inside a leading `{...}` field reference are not part of the extension. */
  lemma BracedNameExtension(s: string)
    requires s == "{T1w.info}kajsdfk.nii.gz"
    ensures GetExtension(s) == Some(".nii.gz")
  {
    CompoundCase(s, "{T1w.info}kajsdfk", "nii", ".nii.gz");
  }
}

=== FILE: json.dfy ===
/**
 * The nested dictionaries the BIDS client passes around (contexts, container records,
 * `info.BIDS` blocks), as JSON-like values, with dotted-path lookup and update.
 */
module Json {
  import opened Outcomes
  import opened Text

  /** A Python value as it appears in a container record; `Null` is `None`. */
  datatype Value =
    | Null
    | Bool(b: bool)
    | Int(i: int)
    | Str(s: string)
    | List(items: seq<Value>)
    | Obj(fields: map<string, Value>)

  /** The field path `a.b.c` as its parts `["a", "b", "c"]`. */
  type Path = seq<string>

  /** The value reached by following `path[i..]` from `v`, if every step names a field of an object. */
  function GetFrom(v: Value, path: Path, i: nat): (r: Option<Value>)
    ensures i >= |path| ==> r == Some(v)
    decreases |path| - i
  {
    if i >= |path| then Some(v)
    else match v
      case Obj(m) => if path[i] in m then GetFrom(m[path[i]], path, i + 1) else None
      case _ => None
  }

  function Get(v: Value, path: Path): Option<Value> {
    GetFrom(v, path, 0)
  }

  /** `Get`, with an absent field and `None` both read as `Null`. */
  function GetOrNull(v: Value, path: Path): (r: Value)
    ensures Get(v, path).None? ==> r == Null
  {
    match Get(v, path)
    case None => Null
    case Some(x) => x
  }

  /** The fields of `v` when it is an object, and no fields otherwise. */
  function Fields(v: Value): map<string, Value> {
    if v.Obj? then v.fields else map[]
  }

  /** Store `x` at `path[i..]` below `v`, creating (or replacing non-object values by) objects on the way. */
  function SetFrom(v: Value, path: Path, i: nat, x: Value): Value
    decreases |path| - i
  {
    if i >= |path| then x
    else
      var m := Fields(v);
      var child := if path[i] in m then m[path[i]] else Null;
      Obj(m[path[i] := SetFrom(child, path, i + 1, x)])
  }

  function Set(v: Value, path: Path, x: Value): Value {
    SetFrom(v, path, 0, x)
  }

  /** Reading back a path just written gives the written value. */
  lemma {:induction false} GetSetFrom(v: Value, path: Path, i: nat, x: Value)
    ensures GetFrom(SetFrom(v, path, i, x), path, i) == Some(x)
    decreases |path| - i
  {
    if i < |path| {
      var m := Fields(v);
      var child := if path[i] in m then m[path[i]] else Null;
      GetSetFrom(child, path, i + 1, x);
    }
  }

  lemma GetSet(v: Value, path: Path, x: Value)
    ensures Get(Set(v, path, x), path) == Some(x)
  {
    GetSetFrom(v, path, 0, x);
  }

  /** Paths that part ways at some index: neither is a prefix of the other. */
  predicate Diverge(p: Path, q: Path, i: nat) {
    exists k :: i <= k < |p| && k < |q| && p[k] != q[k] && p[i..k] == q[i..k]
  }

  /** Writing one path leaves every path that parts ways with it unchanged. */
  lemma {:induction false} GetSetOtherFrom(v: Value, p: Path, q: Path, i: nat, x: Value)
    requires Diverge(p, q, i)
    ensures GetFrom(SetFrom(v, p, i, x), q, i) == GetFrom(v, q, i)
    decreases |p| - i
  {
    var k :| i <= k < |p| && k < |q| && p[k] != q[k] && p[i..k] == q[i..k];
    if k > i {
      assert p[i] == p[i..k][0] == q[i..k][0] == q[i];
      assert p[i + 1..k] == p[i..k][1..] == q[i..k][1..] == q[i + 1..k];
      assert Diverge(p, q, i + 1);
      var m := Fields(v);
      var child := if p[i] in m then m[p[i]] else Null;
      GetSetOtherFrom(child, p, q, i + 1, x);
      GetSetSameField(v, p, q, i, x);
    } else {
      GetSetOtherField(v, p, q, i, x);
    }
  }

  /** Writing below one field leaves a path through another field unchanged. */
  lemma GetSetOtherField(v: Value, p: Path, q: Path, i: nat, x: Value)
    requires i < |p| && i < |q| && p[i] != q[i]
    ensures GetFrom(SetFrom(v, p, i, x), q, i) == GetFrom(v, q, i)
  {
  }

  /** Through the field both paths take, a write that leaves the rest of the path unchanged leaves all of it unchanged. */
  lemma GetSetSameField(v: Value, p: Path, q: Path, i: nat, x: Value)
    requires i < |p| && i + 1 < |q| && p[i] == q[i]
    requires var m := Fields(v);
             var child := if p[i] in m then m[p[i]] else Null;
             GetFrom(SetFrom(child, p, i + 1, x), q, i + 1) == GetFrom(child, q, i + 1)
    ensures GetFrom(SetFrom(v, p, i, x), q, i) == GetFrom(v, q, i)
  {
    if !v.Obj? || p[i] !in Fields(v) {
      GetNull(q, i + 1, i + 1);
    }
  }

  /** Below `Null` (or any non-object) only the empty remainder of a path is found. */
  lemma GetNull(q: Path, i: nat, k: nat)
    requires i <= k < |q|
    ensures GetFrom(Null, q, i) == None
  {
  }

  lemma GetSetOther(v: Value, p: Path, q: Path, x: Value)
    requires Diverge(p, q, 0)
    ensures Get(Set(v, p, x), q) == Get(v, q)
  {
    GetSetOtherFrom(v, p, q, 0, x);
  }

  /** Following a path below the point where another path ends is following the rest from there. */
  lemma {:induction false} GetFromShift(x: Value, p: Path, q: Path, j: nat)
    requires j <= |q|
    ensures GetFrom(x, p + q, |p| + j) == GetFrom(x, q, j)
    decreases |q| - j
  {
    if j < |q| {
      assert (p + q)[|p| + j] == q[j];
      match x
      case Obj(m) =>
        if q[j] in m {
          GetFromShift(m[q[j]], p, q, j + 1);
        }
      case _ =>
    }
  }

  lemma {:induction false} GetSetExtendFrom(v: Value, p: Path, i: nat, x: Value, q: Path)
    requires i <= |p|
    ensures GetFrom(SetFrom(v, p, i, x), p + q, i) == GetFrom(x, p + q, |p|)
    decreases |p| - i
  {
    if i < |p| {
      assert (p + q)[i] == p[i];
      var m := Fields(v);
      var child := if p[i] in m then m[p[i]] else Null;
      GetSetExtendFrom(child, p, i + 1, x, q);
    }
  }

  /** Reading below a path just written reads inside the written value. */
  lemma GetSetExtend(v: Value, p: Path, x: Value, q: Path)
    ensures Get(Set(v, p, x), p + q) == Get(x, q)
  {
    GetSetExtendFrom(v, p, 0, x, q);
    GetFromShift(x, p, q, 0);
  }

  /** One level of a double write: the outer object keeps only the second write below it. */
  lemma SetSetStep(v: Value, p: Path, i: nat, x: Value, y: Value)
    requires i < |p|
    requires var child := if p[i] in Fields(v) then Fields(v)[p[i]] else Null;
             SetFrom(SetFrom(child, p, i + 1, x), p, i + 1, y) == SetFrom(child, p, i + 1, y)
    ensures SetFrom(SetFrom(v, p, i, x), p, i, y) == SetFrom(v, p, i, y)
  {
    var m := Fields(v);
    var child := if p[i] in m then m[p[i]] else Null;
    var once := SetFrom(child, p, i + 1, x);
    assert Fields(SetFrom(v, p, i, x)) == m[p[i] := once];
    assert m[p[i] := once][p[i] := SetFrom(once, p, i + 1, y)] == m[p[i] := SetFrom(child, p, i + 1, y)];
  }

  lemma {:induction false} SetSetFrom(v: Value, p: Path, i: nat, x: Value, y: Value)
    ensures SetFrom(SetFrom(v, p, i, x), p, i, y) == SetFrom(v, p, i, y)
    decreases |p| - i
  {
    if i < |p| {
      var child := if p[i] in Fields(v) then Fields(v)[p[i]] else Null;
      SetSetFrom(child, p, i + 1, x, y);
      SetSetStep(v, p, i, x, y);
    }
  }

  /** A second write to a path replaces the first. */
  lemma SetSet(v: Value, p: Path, x: Value, y: Value)
    ensures Set(Set(v, p, x), p, y) == Set(v, p, y)
  {
    SetSetFrom(v, p, 0, x, y);
  }

  /** Python truth of a JSON value: `None`, `False`, `0`, `''`, `[]` and `{}` are false. */
  predicate Truthy(v: Value) {
    match v
    case Null => false
    case Bool(b) => b
    case Int(n) => n != 0
    case Str(s) => s != ""
    case List(items) => |items| > 0
    case Obj(fields) => |fields| > 0
  }

  /** A command-line value that Python reads as set: present and not empty. */
  predicate Given(arg: Option<string>) {
    arg.Some? && arg.value != ""
  }

  // ---------------------------------------------------------------- text of a value

  function IntToString(n: int): (r: string)
    ensures |r| >= 1
  {
    if n < 0 then "-" + NatToString(-n) else NatToString(n)
  }

  /**
   * The text a placeholder is replaced by: `str(value)` for strings, integers and booleans;
   * `None` for an absent, `None`, empty or container value.
   */
  function Scalar(v: Option<Value>): (r: Option<string>)
    ensures r.Some? ==> |r.value| >= 1
    ensures v.Some? && v.value.Str? && v.value.s != "" ==> r == Some(v.value.s)
    ensures v.None? || v == Some(Null) || v == Some(Str("")) ==> r.None?
  {
    match v
    case None => None
    case Some(Str(s)) => if s == "" then None else Some(s)
    case Some(Int(n)) => Some(IntToString(n))
    case Some(Bool(b)) => Some(if b then "True" else "False")
    case Some(_) => None
  }

  /** The text of a value taken verbatim into a field: strings as they are, anything else as `''`. */
  function TextOf(v: Option<Value>): (r: string)
    ensures v.Some? && v.value.Str? ==> r == v.value.s
    ensures !(v.Some? && v.value.Str?) ==> r == ""
  {
    if v.Some? && v.value.Str? then v.value.s else ""
  }
}

=== FILE: legacy_archive.dfy ===
/**
 * `create_bids_hierarchy` of the legacy archive converter, on its test path: walk the
 * project/session/acquisition tree, name one nifti file per usable acquisition, number
 * duplicate names by acquisition time, and add a JSON sidecar for every bold run.
 */
module LegacyArchive {
  import opened Outcomes
  import opened Text
  import opened Patterns
  import opened LegacyNaming
  import Assoc

  // ---------------------------------------------------------------- input tree

  /** One acquisition: `files` and `types` are parallel lists; `created` orders duplicates. */
  datatype Acquisition = Acquisition(
    acqLabel: string,
    created: int,
    files: seq<string>,
    types: seq<string>,
    measurements: seq<string>)

  /** One session; `acquisitions` is `None` when the session dictionary has no such key. */
  datatype Session = Session(
    sessionLabel: string,
    subjectCode: string,
    acquisitions: Option<Assoc.Dict<string, Acquisition>>)

  /** project -> session id -> session. */
  type FlywheelHierarchy = Assoc.Dict<string, Assoc.Dict<string, Session>>

  /**
   * Where a nifti file lives in the input tree: the four names that the source joins into one
   * path (`SourcePath`) and later splits at `/` again. They are kept apart here; `RowsSourcesSplit`
   * shows the split gives them back whenever the ids and file names are plain.
   */
  datatype Source = Source(project: string, session: string, acquisition: string, file: string)

  /** One row of the file lookup: the input file, its acquisition time and its BIDS path. */
  datatype Entry = Entry(source: Source, created: int, target: string)

  // ---------------------------------------------------------------- one acquisition

  /** The folder and file name of an acquisition, and the fieldmap description left behind for later ones. */
  datatype Naming = Naming(dir: string, filename: string, fieldDesc: Option<string>)

  /** The descriptor between the `<participant>_<session>_` head and the extension of a file name. */
  function Descriptor(filename: string, head: string, ext: string): string
    requires |head| + |ext| <= |filename|
  {
    filename[|head|..|filename| - |ext|]
  }

  /** A name built as `head + mid + ext` starts with `head`, ends with `ext` and has `mid` between them. */
  lemma NameParts(head: string, mid: string, ext: string)
    ensures var f := head + mid + ext;
            StartsWith(f, head) && EndsWith(f, ext) && |head| + |ext| <= |f| && Descriptor(f, head, ext) == mid
  {
    var f := head + mid + ext;
    assert f[..|head|] == head;
    assert f[|f| - |ext|..] == ext;
    assert f[|head|..|f| - |ext|] == mid;
  }

  /**
   * The naming branch of one acquisition: `None` for `continue`, a failure for the unassigned
   * fieldmap description, otherwise the folder and the file name before the run rewrite. The
   * folder follows the kind of the acquisition, the name is `<participant>_<session>_<descriptor><ext>`,
   * and only a fieldmap changes the description later fieldmaps inherit.
   */
  function NameAcquisition(participant: string, session: string, acq: Acquisition, ext: string, prior: Option<string>, acqId: string)
    : (r: Result<Option<Naming>, Error>)
    ensures r.Success? && r.value.None? <==> KindOf(acq.measurements) == Unrecognised
    ensures r.Failure? <==> KindOf(acq.measurements) == Fieldmap && FieldmapDesc(acq.acqLabel, prior).None?
    ensures r.Failure? ==> r.error == NoFieldmapDesc(acqId)
    ensures r.Success? && r.value.Some? ==>
      var n := r.value.value;
      var head := participant + "_" + session + "_";
      var kind := KindOf(acq.measurements);
      StartsWith(n.filename, head) && EndsWith(n.filename, ext) && |head| + |ext| <= |n.filename| &&
      (n.dir == "anat" <==> kind == Anat) && (n.dir == "func" <==> kind == Func) && (n.dir == "fmap" <==> kind == Fieldmap) &&
      (kind != Fieldmap ==> n.fieldDesc == prior) &&
      (kind == Fieldmap ==> n.fieldDesc == FieldmapDesc(acq.acqLabel, prior) &&
                            Descriptor(n.filename, head, ext) == n.fieldDesc.value) &&
      (kind == Anat ==> (Descriptor(n.filename, head, ext) == "T2w" <==> "anatomy_t2w" in acq.measurements) &&
                        (Descriptor(n.filename, head, ext) == "T1w" <==> "anatomy_t2w" !in acq.measurements)) &&
      (kind == Func ==> Descriptor(n.filename, head, ext) == FuncTask(acq.acqLabel) + "_" + FuncSuffix(acq.acqLabel) &&
                        (EndsWith(Descriptor(n.filename, head, ext), "_sbref") <==> IsSbref(acq.acqLabel)) &&
                        (EndsWith(Descriptor(n.filename, head, ext), "_bold") <==> !IsSbref(acq.acqLabel)) &&
                        StartsWith(Descriptor(n.filename, head, ext), FuncTask(acq.acqLabel) + "_"))
  {
    var head := participant + "_" + session + "_";
    match KindOf(acq.measurements)
    case Unrecognised => Success(None)
    case Anat =>
      var mid := AnatSuffix(acq.measurements);
      NameParts(head, mid, ext);
      Success(Some(Naming("anat", head + mid + ext, prior)))
    case Func =>
      var mid := FuncTask(acq.acqLabel) + "_" + FuncSuffix(acq.acqLabel);
      NameParts(head, mid, ext);
      FuncDescriptor(FuncTask(acq.acqLabel), acq.acqLabel);
      Success(Some(Naming("func", head + mid + ext, prior)))
    case Fieldmap =>
      match FieldmapDesc(acq.acqLabel, prior)
      case None => Failure(NoFieldmapDesc(acqId))
      case Some(desc) =>
        NameParts(head, desc, ext);
        Success(Some(Naming("fmap", head + desc + ext, Some(desc))))
  }

  /**
   * A functional descriptor `<task>_<suffix>` starts with `<task>_`, ends in `_sbref` exactly for
   * single-band references and in `_bold` exactly for the others.
   */
  lemma FuncDescriptor(task: string, acqLabel: string)
    ensures var mid := task + "_" + FuncSuffix(acqLabel);
            StartsWith(mid, task + "_") && (EndsWith(mid, "_sbref") <==> IsSbref(acqLabel)) &&
            (EndsWith(mid, "_bold") <==> !IsSbref(acqLabel))
  {
    var mid := task + "_" + FuncSuffix(acqLabel);
    assert mid[..|task| + 1] == task + "_";
    if IsSbref(acqLabel) {
      SbrefEnding(task);
    } else {
      BoldEnding(task);
    }
  }

  lemma SbrefEnding(task: string)
    ensures EndsWith(task + "_" + "sbref", "_sbref")
    ensures !EndsWith(task + "_" + "sbref", "_bold")
  {
    var mid := task + "_" + "sbref";
    assert mid[|mid| - 6..] == "_sbref";
    assert mid[|mid| - 1] == 'f';
  }

  lemma BoldEnding(task: string)
    ensures !EndsWith(task + "_" + "bold", "_sbref")
    ensures EndsWith(task + "_" + "bold", "_bold")
  {
    var mid := task + "_" + "bold";
    assert mid[|mid| - 1] == 'd';
    assert mid[|mid| - 5..] == "_bold";
  }

  /** `participant/session/dir/filename`, with every `run<d>` in the file name rewritten to `_run-<d>`. */
  function TargetPath(participant: string, session: string, n: Naming): string {
    participant + "/" + session + "/" + n.dir + "/" + RunRewrite(n.filename)
  }

  /** The target splits back into participant, session, folder and rewritten file name when none of them holds a `/`. */
  lemma TargetPathParts(participant: string, session: string, n: Naming)
    requires '/' !in participant && '/' !in session && '/' !in n.dir && '/' !in RunRewrite(n.filename)
    ensures Split(TargetPath(participant, session, n), '/') == [participant, session, n.dir, RunRewrite(n.filename)]
  {
    var parts := [participant, session, n.dir, RunRewrite(n.filename)];
    assert Join(parts[3..], '/') == parts[3];
    assert Join(parts[2..], '/') == parts[2] + "/" + parts[3];
    assert Join(parts[1..], '/') == parts[1] + "/" + (parts[2] + "/" + parts[3]);
    assert Join(parts, '/') == TargetPath(participant, session, n);
    SplitJoin(parts, '/');
  }

  /**
   * The body of the acquisition loop. It returns the lookup row (if any) and the fieldmap
   * description the next acquisition sees.
   */
  function ProcessAcquisition(project: string, sid: string, sess: Session, acqId: string, acq: Acquisition, prior: Option<string>)
    : (r: Result<(Option<Entry>, Option<string>), Error>)
    ensures "nifti" !in acq.types ==> r == Success((None, prior))
    ensures r.Success? && r.value.0.Some? ==>
      "nifti" in acq.types && KindOf(acq.measurements) != Unrecognised &&
      r.value.0.value.created == acq.created &&
      r.value.0.value.source.acquisition == acqId && r.value.0.value.source.session == sid &&
      r.value.0.value.source.project == project
    ensures ("nifti" in acq.types && |acq.files| == |acq.types| && KindOf(acq.measurements) != Unrecognised &&
             KindOf(acq.measurements) != Fieldmap) ==> r.Success? && r.value.0.Some?
    ensures r.Success? && r.value.0.None? ==> r.value.1 == prior
    ensures r.Failure? ==> r.error == NoNiftiFile(acqId) || r.error == NoFieldmapDesc(acqId)
  {
    if "nifti" !in acq.types then Success((None, prior))
    else
      var name :- LastNiftiFile(acqId, acq.files, acq.types);
      var ext := NiftiExtension(name);
      var participant := MakeBidsSpec("sub-", sess.subjectCode, Label);
      var session := MakeBidsSpec("ses-", sess.sessionLabel, Label);
      var naming :- NameAcquisition(participant, session, acq, ext, prior, acqId);
      match naming
      case None => Success((None, prior))
      case Some(n) =>
        Success((Some(Entry(Source(project, sid, acqId, name), acq.created, TargetPath(participant, session, n))), n.fieldDesc))
  }

  /**
   * A recorded row copies the last NIfTI file of the acquisition, is filed at the target path of
   * the acquisition's name, and passes that name's field description on.
   */
  lemma ProcessAcquisitionRow(project: string, sid: string, sess: Session, acqId: string, acq: Acquisition, prior: Option<string>)
    requires ProcessAcquisition(project, sid, sess, acqId, acq, prior).Success?
    requires ProcessAcquisition(project, sid, sess, acqId, acq, prior).value.0.Some?
    ensures var r := ProcessAcquisition(project, sid, sess, acqId, acq, prior).value;
            var e := r.0.value;
            var participant := MakeBidsSpec("sub-", sess.subjectCode, Label);
            var session := MakeBidsSpec("ses-", sess.sessionLabel, Label);
            LastNiftiFile(acqId, acq.files, acq.types) == Success(e.source.file) &&
            exists n :: NameAcquisition(participant, session, acq, NiftiExtension(e.source.file), prior, acqId) == Success(Some(n)) &&
                        e.target == TargetPath(participant, session, n) && r.1 == n.fieldDesc
  {
    var participant := MakeBidsSpec("sub-", sess.subjectCode, Label);
    var session := MakeBidsSpec("ses-", sess.sessionLabel, Label);
    var file := LastNiftiFile(acqId, acq.files, acq.types).value;
    var n := NameAcquisition(participant, session, acq, NiftiExtension(file), prior, acqId).value.value;
    assert ProcessAcquisition(project, sid, sess, acqId, acq, prior).value.0.value.target == TargetPath(participant, session, n);
  }

  // ---------------------------------------------------------------- the walk

  /** What the walk has gathered so far: the lookup rows, the fieldmap variable and the first hierarchy. */
  datatype Walk = Walk(entries: seq<Entry>, prior: Option<string>, tmp: Hierarchy)

  /** Record one lookup row and insert its path into the first hierarchy, as the loop body does. */
  function Record(w: Walk, e: Option<Entry>, prior: Option<string>): (r: Result<Walk, Error>)
    ensures r.Success? ==> r.value.entries == w.entries + (if e.Some? then [e.value] else [])
    ensures r.Success? ==> r.value.prior == prior
  {
    match e
    case None => Success(Walk(w.entries, prior, w.tmp))
    case Some(entry) =>
      var tmp :- PopulateBidsHierarchy(entry.target, w.tmp);
      Success(Walk(w.entries + [entry], prior, tmp))
  }

  function WalkAcquisitions(project: string, sid: string, sess: Session, acqs: Assoc.Dict<string, Acquisition>, w: Walk)
    : (r: Result<Walk, Error>)
    ensures r.Success? ==> |w.entries| <= |r.value.entries| <= |w.entries| + |acqs|
    ensures r.Success? ==> r.value.entries[..|w.entries|] == w.entries
  {
    if |acqs| == 0 then Success(w)
    else
      var step :- ProcessAcquisition(project, sid, sess, acqs[0].0, acqs[0].1, w.prior);
      var w1 :- Record(w, step.0, step.1);
      var r := WalkAcquisitions(project, sid, sess, acqs[1..], w1);
      if r.Success? then
        assert r.value.entries[..|w1.entries|] == w1.entries;
        assert w1.entries[..|w.entries|] == w.entries;
        r
      else r
  }

  /** Sessions without an `acquisitions` entry are skipped. */
  function WalkSessions(project: string, sessions: Assoc.Dict<string, Session>, w: Walk): (r: Result<Walk, Error>)
    ensures (forall k :: 0 <= k < |sessions| ==> sessions[k].1.acquisitions.None?) ==> r == Success(w)
  {
    if |sessions| == 0 then Success(w)
    else
      var sess := sessions[0].1;
      match sess.acquisitions
      case None => WalkSessions(project, sessions[1..], w)
      case Some(acqs) =>
        var w1 :- WalkAcquisitions(project, sessions[0].0, sess, acqs, w);
        WalkSessions(project, sessions[1..], w1)
  }

  function WalkProjects(fh: FlywheelHierarchy, w: Walk): Result<Walk, Error> {
    if |fh| == 0 then Success(w)
    else
      var w1 :- WalkSessions(fh[0].0, fh[0].1, w);
      WalkProjects(fh[1..], w1)
  }

  // ---------------------------------------------------------------- the walk names each input file once

  /** Every dictionary of the input tree has unique keys, as Python dictionaries do. */
  predicate WellFormed(fh: FlywheelHierarchy) {
    Assoc.UniqueKeys(fh) && forall p :: 0 <= p < |fh| ==> WellFormedSessions(fh[p].1)
  }

  predicate WellFormedSessions(sessions: Assoc.Dict<string, Session>) {
    Assoc.UniqueKeys(sessions) &&
    forall s :: 0 <= s < |sessions| && sessions[s].1.acquisitions.Some? ==>
      Assoc.UniqueKeys(sessions[s].1.acquisitions.value)
  }

  /** Rows appended by an acquisition walk all name the given project and session. */
  predicate InSession(es: seq<Entry>, project: string, sid: string) {
    forall i :: 0 <= i < |es| ==> es[i].source.project == project && es[i].source.session == sid
  }

  predicate InProject(es: seq<Entry>, project: string) {
    forall i :: 0 <= i < |es| ==> es[i].source.project == project
  }

  predicate AcquisitionKeys(es: seq<Entry>, acqs: Assoc.Dict<string, Acquisition>) {
    forall i :: 0 <= i < |es| ==> Assoc.HasKey(acqs, es[i].source.acquisition)
  }

  predicate SessionKeys(es: seq<Entry>, sessions: Assoc.Dict<string, Session>) {
    forall i :: 0 <= i < |es| ==> Assoc.HasKey(sessions, es[i].source.session)
  }

  predicate ProjectKeys(es: seq<Entry>, fh: FlywheelHierarchy) {
    forall i :: 0 <= i < |es| ==> Assoc.HasKey(fh, es[i].source.project)
  }

  /** Two row lists with no input file in common. */
  predicate Disjoint(a: seq<Entry>, b: seq<Entry>) {
    forall i, j :: 0 <= i < |a| && 0 <= j < |b| ==> a[i].source != b[j].source
  }

  lemma DistinctJoin(a: seq<Entry>, b: seq<Entry>)
    requires DistinctSources(a) && DistinctSources(b) && Disjoint(a, b)
    ensures DistinctSources(a + b)
  {
    var c := a + b;
    forall i, j | 0 <= i < j < |c| ensures c[i].source != c[j].source {
      if j < |a| {
        assert c[i] == a[i] && c[j] == a[j];
      } else if i >= |a| {
        assert c[i] == b[i - |a|] && c[j] == b[j - |a|];
      } else {
        assert c[i] == a[i] && c[j] == b[j - |a|];
      }
    }
  }

  /** What one acquisition loop appends. */
  function Appended(w: Walk, r: Walk): seq<Entry>
    requires |w.entries| <= |r.entries|
  {
    r.entries[|w.entries|..]
  }

  /**
   * The acquisition loop of one session appends rows of that session only, each for a
   * different acquisition id of it.
   */
  lemma {:induction false} WalkAcquisitionsDistinct(project: string, sid: string, sess: Session,
                                                    acqs: Assoc.Dict<string, Acquisition>, w: Walk)
    requires Assoc.UniqueKeys(acqs)
    requires WalkAcquisitions(project, sid, sess, acqs, w).Success?
    ensures var r := WalkAcquisitions(project, sid, sess, acqs, w).value;
            var es := Appended(w, r);
            DistinctSources(es) && InSession(es, project, sid) && AcquisitionKeys(es, acqs)
  {
    if |acqs| > 0 {
      var step := ProcessAcquisition(project, sid, sess, acqs[0].0, acqs[0].1, w.prior).value;
      var w1 := Record(w, step.0, step.1).value;
      var r := WalkAcquisitions(project, sid, sess, acqs, w).value;
      assert r == WalkAcquisitions(project, sid, sess, acqs[1..], w1).value;
      Assoc.UniqueKeysTail(acqs);
      WalkAcquisitionsDistinct(project, sid, sess, acqs[1..], w1);
      var rest := Appended(w1, r);
      forall i | 0 <= i < |rest| ensures Assoc.HasKey(acqs, rest[i].source.acquisition) {
        Assoc.HasKeyFromTail(acqs, rest[i].source.acquisition);
      }
      AppendedStep(w, w1, r, step.0, rest);
      if step.0.Some? {
        var e := step.0.value;
        assert e.source.acquisition == acqs[0].0;
        assert Assoc.HasKey(acqs, acqs[0].0);
        DistinctJoin([e], rest);
      }
    }
  }

  /** The rows of a loop are the row of its first step, if any, then those of the remaining steps. */
  lemma AppendedStep(w: Walk, w1: Walk, r: Walk, e: Option<Entry>, rest: seq<Entry>)
    requires w1.entries == w.entries + (if e.Some? then [e.value] else [])
    requires |w1.entries| <= |r.entries| && r.entries[..|w1.entries|] == w1.entries
    requires rest == Appended(w1, r)
    ensures |w.entries| <= |r.entries|
    ensures Appended(w, r) == (if e.Some? then [e.value] else []) + rest
  {
  }

  /** The sessions loop of one project appends rows of that project only, each for a different input file. */
  lemma {:induction false} WalkSessionsDistinct(project: string, sessions: Assoc.Dict<string, Session>, w: Walk)
    requires WellFormedSessions(sessions)
    requires WalkSessions(project, sessions, w).Success?
    ensures var r := WalkSessions(project, sessions, w).value;
            |w.entries| <= |r.entries| && r.entries[..|w.entries|] == w.entries &&
            var es := Appended(w, r);
            DistinctSources(es) && InProject(es, project) && SessionKeys(es, sessions)
  {
    if |sessions| > 0 {
      var r := WalkSessions(project, sessions, w).value;
      Assoc.UniqueKeysTail(sessions);
      assert WellFormedSessions(sessions[1..]) by {
        forall s | 0 <= s < |sessions[1..]| && sessions[1..][s].1.acquisitions.Some?
          ensures Assoc.UniqueKeys(sessions[1..][s].1.acquisitions.value)
        {
          assert sessions[1..][s] == sessions[s + 1];
        }
      }
      match sessions[0].1.acquisitions
      case None =>
        WalkSessionsDistinct(project, sessions[1..], w);
        TailSessionKeys(sessions, Appended(w, r));
      case Some(acqs) =>
        var w1 := WalkAcquisitions(project, sessions[0].0, sessions[0].1, acqs, w).value;
        WalkAcquisitionsDistinct(project, sessions[0].0, sessions[0].1, acqs, w);
        WalkSessionsDistinct(project, sessions[1..], w1);
        var first, rest := Appended(w, w1), Appended(w1, r);
        TailSessionKeys(sessions, rest);
        SessionAppended(w, w1, r);
        SessionDisjoint(sessions, first, rest);
        DistinctJoin(first, rest);
    }
  }

  lemma TailSessionKeys(sessions: Assoc.Dict<string, Session>, es: seq<Entry>)
    requires |sessions| > 0 && SessionKeys(es, sessions[1..])
    ensures SessionKeys(es, sessions)
  {
    forall i | 0 <= i < |es| ensures Assoc.HasKey(sessions, es[i].source.session) {
      Assoc.HasKeyFromTail(sessions, es[i].source.session);
    }
  }

  /** Rows of the first session differ from rows of the later ones: their session ids differ. */
  lemma SessionDisjoint(sessions: Assoc.Dict<string, Session>, first: seq<Entry>, rest: seq<Entry>)
    requires |sessions| > 0 && Assoc.UniqueKeys(sessions)
    requires forall i :: 0 <= i < |first| ==> first[i].source.session == sessions[0].0
    requires SessionKeys(rest, sessions[1..])
    ensures Disjoint(first, rest)
  {
    Assoc.UniqueKeysTail(sessions);
  }

  /** Two loops run one after the other append what each appends, in order. */
  lemma SessionAppended(w: Walk, w1: Walk, r: Walk)
    requires |w.entries| <= |w1.entries| && w1.entries[..|w.entries|] == w.entries
    requires |w1.entries| <= |r.entries| && r.entries[..|w1.entries|] == w1.entries
    ensures |w.entries| <= |r.entries| && r.entries[..|w.entries|] == w.entries
    ensures Appended(w, r) == Appended(w, w1) + Appended(w1, r)
  {
    assert r.entries[..|w.entries|] == r.entries[..|w1.entries|][..|w.entries|];
  }

  /** The whole walk appends rows of the projects of the tree, each for a different input file. */
  lemma {:induction false} WalkProjectsDistinct(fh: FlywheelHierarchy, w: Walk)
    requires WellFormed(fh)
    requires WalkProjects(fh, w).Success?
    ensures var r := WalkProjects(fh, w).value;
            |w.entries| <= |r.entries| && r.entries[..|w.entries|] == w.entries &&
            var es := Appended(w, r);
            DistinctSources(es) && ProjectKeys(es, fh)
  {
    if |fh| > 0 {
      var r := WalkProjects(fh, w).value;
      var w1 := WalkSessions(fh[0].0, fh[0].1, w).value;
      Assoc.UniqueKeysTail(fh);
      assert WellFormed(fh[1..]) by {
        forall p | 0 <= p < |fh[1..]| ensures WellFormedSessions(fh[1..][p].1) {
          assert fh[1..][p] == fh[p + 1];
        }
      }
      WalkSessionsDistinct(fh[0].0, fh[0].1, w);
      WalkProjectsDistinct(fh[1..], w1);
      var first, rest := Appended(w, w1), Appended(w1, r);
      forall i | 0 <= i < |rest| ensures Assoc.HasKey(fh, rest[i].source.project) {
        Assoc.HasKeyFromTail(fh, rest[i].source.project);
      }
      assert Disjoint(first, rest);
      SessionAppended(w, w1, r);
      DistinctJoin(first, rest);
    }
  }

  /** Over a well-formed tree the lookup names every input file once. */
  lemma WalkDistinct(fh: FlywheelHierarchy)
    requires WellFormed(fh)
    requires WalkProjects(fh, Walk([], None, [])).Success?
    ensures DistinctSources(WalkProjects(fh, Walk([], None, [])).value.entries)
  {
    var w := Walk([], None, []);
    WalkProjectsDistinct(fh, w);
    assert Appended(w, WalkProjects(fh, w).value) == WalkProjects(fh, w).value.entries;
  }

  // ---------------------------------------------------------------- the joined input path

  /** An id or file name that joining with `/` and splitting at `/` keep as one part. */
  predicate Plain(x: string) {
    |x| > 0 && '/' !in x
  }

  predicate PlainSource(src: Source) {
    Plain(src.project) && Plain(src.session) && Plain(src.acquisition) && Plain(src.file)
  }

  /**
   * `os.path.join(project, session_id, acq_id, nifti_filename)`: the key of a lookup row, which
   * the duplicate loop and the sidecar loop split at `/` into four names again. For parts that
   * are non-empty and do not start with `/`, as here, `os.path.join` puts one `/` between them.
   */
  function SourcePath(src: Source): string {
    src.project + "/" + src.session + "/" + src.acquisition + "/" + src.file
  }

  /** The joined path of plain parts splits back into exactly those parts. */
  lemma SourcePathParts(src: Source)
    requires PlainSource(src)
    ensures Split(SourcePath(src), '/') == [src.project, src.session, src.acquisition, src.file]
  {
    var parts := [src.project, src.session, src.acquisition, src.file];
    assert Join(parts[3..], '/') == parts[3];
    assert Join(parts[2..], '/') == parts[2] + "/" + parts[3];
    assert Join(parts[1..], '/') == parts[1] + "/" + (parts[2] + "/" + parts[3]);
    assert Join(parts, '/') == SourcePath(src);
    SplitJoin(parts, '/');
  }

  /** A file name holding a `/` makes the joined path split into five parts, and the four-way unpacking raises. */
  lemma SlashInFileName()
    ensures |Split(SourcePath(Source("p", "s", "a", "x/y")), '/')| == 5
  {
    var parts := ["p", "s", "a", "x", "y"];
    assert Join(parts[4..], '/') == "y";
    assert Join(parts[3..], '/') == "x/y";
    assert Join(parts[2..], '/') == "a/x/y";
    assert Join(parts[1..], '/') == "s/a/x/y";
    assert Join(parts, '/') == SourcePath(Source("p", "s", "a", "x/y"));
    SplitJoin(parts, '/');
  }

  /** Every project, session and acquisition id and every file name of the tree is plain, as Flywheel's ids are. */
  predicate PlainTree(fh: FlywheelHierarchy) {
    forall p :: 0 <= p < |fh| ==> Plain(fh[p].0) && PlainSessions(fh[p].1)
  }

  predicate PlainSessions(sessions: Assoc.Dict<string, Session>) {
    forall s :: 0 <= s < |sessions| ==>
      Plain(sessions[s].0) &&
      (sessions[s].1.acquisitions.Some? ==> PlainAcquisitions(sessions[s].1.acquisitions.value))
  }

  predicate PlainAcquisitions(acqs: Assoc.Dict<string, Acquisition>) {
    forall a :: 0 <= a < |acqs| ==> Plain(acqs[a].0) && PlainFiles(acqs[a].1.files)
  }

  predicate PlainFiles(files: seq<string>) {
    forall f :: 0 <= f < |files| ==> Plain(files[f])
  }

  predicate PlainSources(es: seq<Entry>) {
    forall i :: 0 <= i < |es| ==> PlainSource(es[i].source)
  }

  lemma PlainSourcesAppend(es: seq<Entry>, e: Option<Entry>)
    requires PlainSources(es) && (e.Some? ==> PlainSource(e.value.source))
    ensures PlainSources(es + (if e.Some? then [e.value] else []))
  {
  }

  /** The row of one acquisition of a plain tree has a plain source. */
  lemma ProcessAcquisitionPlain(project: string, sid: string, sess: Session, acqId: string, acq: Acquisition, prior: Option<string>)
    requires Plain(project) && Plain(sid) && Plain(acqId) && PlainFiles(acq.files)
    requires ProcessAcquisition(project, sid, sess, acqId, acq, prior).Success?
    requires ProcessAcquisition(project, sid, sess, acqId, acq, prior).value.0.Some?
    ensures PlainSource(ProcessAcquisition(project, sid, sess, acqId, acq, prior).value.0.value.source)
  {
    ProcessAcquisitionRow(project, sid, sess, acqId, acq, prior);
    var e := ProcessAcquisition(project, sid, sess, acqId, acq, prior).value.0.value;
    assert e.source.file in acq.files;
    var k :| 0 <= k < |acq.files| && acq.files[k] == e.source.file;
    assert Plain(acq.files[k]);
  }

  lemma {:induction false} WalkAcquisitionsPlain(project: string, sid: string, sess: Session,
                                                 acqs: Assoc.Dict<string, Acquisition>, w: Walk)
    requires Plain(project) && Plain(sid) && PlainAcquisitions(acqs) && PlainSources(w.entries)
    requires WalkAcquisitions(project, sid, sess, acqs, w).Success?
    ensures PlainSources(WalkAcquisitions(project, sid, sess, acqs, w).value.entries)
  {
    if |acqs| > 0 {
      var step := ProcessAcquisition(project, sid, sess, acqs[0].0, acqs[0].1, w.prior).value;
      var w1 := Record(w, step.0, step.1).value;
      assert Plain(acqs[0].0) && PlainFiles(acqs[0].1.files);
      if step.0.Some? {
        ProcessAcquisitionPlain(project, sid, sess, acqs[0].0, acqs[0].1, w.prior);
      }
      PlainSourcesAppend(w.entries, step.0);
      assert PlainAcquisitions(acqs[1..]) by {
        forall a | 0 <= a < |acqs[1..]| ensures Plain(acqs[1..][a].0) && PlainFiles(acqs[1..][a].1.files) {
          assert acqs[1..][a] == acqs[a + 1];
        }
      }
      WalkAcquisitionsPlain(project, sid, sess, acqs[1..], w1);
    }
  }

  lemma {:induction false} WalkSessionsPlain(project: string, sessions: Assoc.Dict<string, Session>, w: Walk)
    requires Plain(project) && PlainSessions(sessions) && PlainSources(w.entries)
    requires WalkSessions(project, sessions, w).Success?
    ensures PlainSources(WalkSessions(project, sessions, w).value.entries)
  {
    if |sessions| > 0 {
      assert PlainSessions(sessions[1..]) by {
        forall s | 0 <= s < |sessions[1..]|
          ensures Plain(sessions[1..][s].0) &&
                  (sessions[1..][s].1.acquisitions.Some? ==> PlainAcquisitions(sessions[1..][s].1.acquisitions.value))
        {
          assert sessions[1..][s] == sessions[s + 1];
        }
      }
      match sessions[0].1.acquisitions
      case None =>
        WalkSessionsPlain(project, sessions[1..], w);
      case Some(acqs) =>
        WalkAcquisitionsPlain(project, sessions[0].0, sessions[0].1, acqs, w);
        var w1 := WalkAcquisitions(project, sessions[0].0, sessions[0].1, acqs, w).value;
        WalkSessionsPlain(project, sessions[1..], w1);
    }
  }

  lemma {:induction false} WalkProjectsPlain(fh: FlywheelHierarchy, w: Walk)
    requires PlainTree(fh) && PlainSources(w.entries)
    requires WalkProjects(fh, w).Success?
    ensures PlainSources(WalkProjects(fh, w).value.entries)
  {
    if |fh| > 0 {
      assert PlainTree(fh[1..]) by {
        forall p | 0 <= p < |fh[1..]| ensures Plain(fh[1..][p].0) && PlainSessions(fh[1..][p].1) {
          assert fh[1..][p] == fh[p + 1];
        }
      }
      WalkSessionsPlain(fh[0].0, fh[0].1, w);
      WalkProjectsPlain(fh[1..], WalkSessions(fh[0].0, fh[0].1, w).value);
    }
  }

  /**
   * Over a tree of plain ids and file names, the joined input path of every lookup row splits
   * back into that row's project, session, acquisition and file, so the four-way unpacking of
   * the duplicate loop and of the sidecar loop succeeds and names the row's own ids.
   */
  lemma RowsSourcesSplit(fh: FlywheelHierarchy)
    requires PlainTree(fh) && Rows(fh).Success?
    ensures forall i :: 0 <= i < |Rows(fh).value| ==>
              var src := Rows(fh).value[i].source;
              Split(SourcePath(src), '/') == [src.project, src.session, src.acquisition, src.file]
  {
    var w := WalkProjects(fh, Walk([], None, [])).value;
    WalkProjectsPlain(fh, Walk([], None, []));
    var rows := Rows(fh).value;
    assert rows == Renumber(w.entries, FolderLists(w.tmp));
    forall i | 0 <= i < |rows|
      ensures Split(SourcePath(rows[i].source), '/') ==
              [rows[i].source.project, rows[i].source.session, rows[i].source.acquisition, rows[i].source.file]
    {
      assert rows[i].source == w.entries[i].source;
      SourcePathParts(rows[i].source);
    }
  }

  // ---------------------------------------------------------------- duplicates

  function Count(xs: seq<string>, x: string): (n: nat)
    ensures n <= |xs|
    ensures n == 0 <==> x !in xs
  {
    if |xs| == 0 then 0 else (if xs[0] == x then 1 else 0) + Count(xs[1..], x)
  }

  /** `[x for x in set(files) if files.count(x) > 1]`. */
  function Duplicates(files: seq<string>): (r: set<string>)
    ensures forall x :: x in r <==> x in files && Count(files, x) > 1
  {
    set x | x in files && Count(files, x) > 1
  }

  /** Positions, in lookup order, of the rows whose file name is one of `dups`. */
  function DuplicatePositions(lookup: seq<Entry>, dups: set<string>, from: nat): (r: seq<nat>)
    requires from <= |lookup|
    ensures forall i :: 0 <= i < |r| ==> from <= r[i] < |lookup| && Basename(lookup[r[i]].target) in dups
    ensures forall i, j :: 0 <= i < j < |r| ==> r[i] < r[j]
    ensures forall p :: from <= p < |lookup| && Basename(lookup[p].target) in dups ==> p in r
    decreases |lookup| - from
  {
    if from == |lookup| then []
    else
      var rest := DuplicatePositions(lookup, dups, from + 1);
      if Basename(lookup[from].target) in dups then [from] + rest else rest
  }

  // ---------------------------------------------------------------- stable sort by acquisition time

  predicate InBounds(lookup: seq<Entry>, ps: seq<nat>) {
    forall i :: 0 <= i < |ps| ==> ps[i] < |lookup|
  }

  /** Ordered by `created`, ties by position: what a stable sort of ascending positions yields. */
  predicate CreatedOrder(lookup: seq<Entry>, ps: seq<nat>)
    requires InBounds(lookup, ps)
  {
    forall i, j :: 0 <= i < j < |ps| ==> Before(lookup, ps[i], ps[j])
  }

  /** Row `a` sorts before row `b`: created earlier, or at the same time and earlier in the lookup. */
  predicate Before(lookup: seq<Entry>, a: nat, b: nat)
    requires a < |lookup| && b < |lookup|
  {
    lookup[a].created < lookup[b].created || (lookup[a].created == lookup[b].created && a < b)
  }

  /** Insert `x` before the first element created strictly later. */
  function Insert(lookup: seq<Entry>, sorted: seq<nat>, x: nat): (r: seq<nat>)
    requires InBounds(lookup, sorted) && x < |lookup|
    ensures InBounds(lookup, r)
    ensures multiset(r) == multiset(sorted) + multiset{x}
    ensures |r| == |sorted| + 1
  {
    if |sorted| == 0 then [x]
    else if lookup[sorted[0]].created > lookup[x].created then [x] + sorted
    else
      var rest := Insert(lookup, sorted[1..], x);
      assert sorted == [sorted[0]] + sorted[1..];
      [sorted[0]] + rest
  }

  lemma {:induction false} InsertOrder(lookup: seq<Entry>, sorted: seq<nat>, x: nat)
    requires InBounds(lookup, sorted) && x < |lookup|
    requires CreatedOrder(lookup, sorted)
    requires forall i :: 0 <= i < |sorted| ==> sorted[i] < x
    ensures CreatedOrder(lookup, Insert(lookup, sorted, x))
  {
    if |sorted| == 0 {
      ConsOrder(lookup, x, []);
    } else if lookup[sorted[0]].created > lookup[x].created {
      forall i | 0 <= i < |sorted| ensures Before(lookup, x, sorted[i]) {
        if i > 0 {
          assert Before(lookup, sorted[0], sorted[i]);
        }
      }
      ConsOrder(lookup, x, sorted);
    } else {
      var tail := sorted[1..];
      assert CreatedOrder(lookup, tail) by {
        forall i, j | 0 <= i < j < |tail| ensures Before(lookup, tail[i], tail[j]) {
          assert tail[i] == sorted[i + 1] && tail[j] == sorted[j + 1];
        }
      }
      InsertOrder(lookup, tail, x);
      var rest := Insert(lookup, tail, x);
      forall i | 0 <= i < |rest| ensures Before(lookup, sorted[0], rest[i]) {
        InsertFrom(lookup, tail, x, i);
        if rest[i] != x {
          var k :| 0 <= k < |tail| && tail[k] == rest[i];
          assert Before(lookup, sorted[0], sorted[k + 1]);
        }
      }
      ConsOrder(lookup, sorted[0], rest);
    }
  }

  /** Every position of an insertion is the inserted one or one that was there. */
  lemma InsertFrom(lookup: seq<Entry>, sorted: seq<nat>, x: nat, i: nat)
    requires InBounds(lookup, sorted) && x < |lookup| && i < |sorted| + 1
    ensures var r := Insert(lookup, sorted, x); r[i] == x || exists k :: 0 <= k < |sorted| && sorted[k] == r[i]
  {
    var r := Insert(lookup, sorted, x);
    assert r[i] in multiset(r);
    if r[i] != x {
      assert r[i] in multiset(sorted);
      assert r[i] in sorted;
    }
  }

  /** A row that sorts before every row of an ordered list can head it. */
  lemma ConsOrder(lookup: seq<Entry>, h: nat, rest: seq<nat>)
    requires h < |lookup| && InBounds(lookup, rest) && CreatedOrder(lookup, rest)
    requires forall i :: 0 <= i < |rest| ==> Before(lookup, h, rest[i])
    ensures InBounds(lookup, [h] + rest) && CreatedOrder(lookup, [h] + rest)
  {
    var ps := [h] + rest;
    forall i, j | 0 <= i < j < |ps| ensures Before(lookup, ps[i], ps[j]) {
      assert ps[j] == rest[j - 1];
      if i > 0 {
        assert ps[i] == rest[i - 1];
      }
    }
  }

  /** `created.sort(key=lambda x: x[0])` over the positions, a stable insertion sort. */
  function SortByCreated(lookup: seq<Entry>, ps: seq<nat>): (r: seq<nat>)
    requires InBounds(lookup, ps)
    ensures InBounds(lookup, r)
    ensures multiset(r) == multiset(ps)
    ensures |r| == |ps|
  {
    if |ps| == 0 then []
    else
      assert ps == ps[..|ps| - 1] + [ps[|ps| - 1]];
      Insert(lookup, SortByCreated(lookup, ps[..|ps| - 1]), ps[|ps| - 1])
  }

  /** Sorting ascending positions orders them by acquisition time, ties kept in lookup order. */
  lemma {:induction false} SortByCreatedOrder(lookup: seq<Entry>, ps: seq<nat>)
    requires InBounds(lookup, ps)
    requires forall i, j :: 0 <= i < j < |ps| ==> ps[i] < ps[j]
    ensures CreatedOrder(lookup, SortByCreated(lookup, ps))
  {
    if |ps| > 0 {
      var init := ps[..|ps| - 1];
      SortByCreatedOrder(lookup, init);
      var s := SortByCreated(lookup, init);
      forall i | 0 <= i < |s| ensures s[i] < ps[|ps| - 1] {
        assert s[i] in multiset(init);
        assert s[i] in init;
      }
      InsertOrder(lookup, s, ps[|ps| - 1]);
    }
  }

  // ---------------------------------------------------------------- assigning run numbers

  /** The first row whose input file is `src` (the search loop over `files_lookup`). */
  function FirstWithSource(lookup: seq<Entry>, src: Source): (r: Option<nat>)
    ensures r.Some? ==> r.value < |lookup| && lookup[r.value].source == src &&
                        forall j :: 0 <= j < r.value ==> lookup[j].source != src
    ensures r.None? ==> forall j :: 0 <= j < |lookup| ==> lookup[j].source != src
  {
    if |lookup| == 0 then None
    else if lookup[0].source == src then Some(0)
    else match FirstWithSource(lookup[1..], src)
      case None => None
      case Some(k) => Some(k + 1)
  }

  function Rename(e: Entry, k: nat): Entry {
    Entry(e.source, e.created, RunInsert(e.target, k))
  }

  /** `for idx in range(len(created))`: the row found for the `idx`-th sorted file gets run `idx + 1`. */
  function AssignRuns(lookup: seq<Entry>, order: seq<nat>, idx: nat): (r: seq<Entry>)
    requires InBounds(lookup, order) && idx <= |order|
    ensures |r| == |lookup|
    ensures forall i :: 0 <= i < |r| ==> r[i].source == lookup[i].source && r[i].created == lookup[i].created
    decreases |order| - idx
  {
    if idx == |order| then lookup
    else
      match FirstWithSource(lookup, lookup[order[idx]].source)
      case None => lookup
      case Some(q) => AssignRuns(lookup[q := Rename(lookup[q], idx + 1)], order, idx + 1)
  }

  predicate DistinctSources(lookup: seq<Entry>) {
    forall i, j :: 0 <= i < j < |lookup| ==> lookup[i].source != lookup[j].source
  }

  /** With distinct input files, the `k`-th row of the order gets run `k + 1` and every other row is untouched. */
  lemma {:induction false} AssignRunsEffect(lookup: seq<Entry>, order: seq<nat>, idx: nat)
    requires InBounds(lookup, order) && idx <= |order|
    requires DistinctSources(lookup)
    requires forall i, j :: 0 <= i < j < |order| ==> order[i] != order[j]
    ensures var r := AssignRuns(lookup, order, idx);
      (forall k :: idx <= k < |order| ==> r[order[k]] == Rename(lookup[order[k]], k + 1)) &&
      (forall i :: 0 <= i < |lookup| && (forall k :: idx <= k < |order| ==> order[k] != i) ==> r[i] == lookup[i])
    decreases |order| - idx
  {
    if idx < |order| {
      var q := order[idx];
      assert FirstWithSource(lookup, lookup[q].source) == Some(q);
      var next := lookup[q := Rename(lookup[q], idx + 1)];
      assert DistinctSources(next) by {
        assert forall i :: 0 <= i < |next| ==> next[i].source == lookup[i].source;
      }
      AssignRunsEffect(next, order, idx + 1);
      var r := AssignRuns(lookup, order, idx);
      assert r == AssignRuns(next, order, idx + 1);
      forall k | idx <= k < |order| ensures r[order[k]] == Rename(lookup[order[k]], k + 1) {
        if k > idx {
          assert next[order[k]] == lookup[order[k]];
        } else {
          assert forall k' :: idx + 1 <= k' < |order| ==> order[k'] != q;
        }
      }
    }
  }

  /** The renumbering of one sub/ses/dir folder whose first-pass file list is `files`. */
  function RenumberFolder(lookup: seq<Entry>, files: seq<string>): (r: seq<Entry>)
    ensures |r| == |lookup|
    ensures forall i :: 0 <= i < |r| ==> r[i].source == lookup[i].source && r[i].created == lookup[i].created
  {
    var positions := DuplicatePositions(lookup, Duplicates(files), 0);
    var order := SortByCreated(lookup, positions);
    AssignRuns(lookup, order, 0)
  }

  /** The `k`-th row of `order` is renamed with run `k + 1`. */
  predicate NumberedInOrder(lookup: seq<Entry>, order: seq<nat>, r: seq<Entry>)
    requires InBounds(lookup, order) && |r| == |lookup|
  {
    forall k :: 0 <= k < |order| ==> r[order[k]] == Rename(lookup[order[k]], k + 1)
  }

  /** Every row whose file name is not among `dups` is as it was. */
  predicate KeptOutside(lookup: seq<Entry>, dups: set<string>, r: seq<Entry>)
    requires |r| == |lookup|
  {
    forall i :: 0 <= i < |lookup| && Basename(lookup[i].target) !in dups ==> r[i] == lookup[i]
  }

  /**
   * Every row whose file name occurs more than once in the folder (in any duplicate group) is
   * numbered 1..n in creation order; all other rows are unchanged.
   */
  lemma RenumberFolderEffect(lookup: seq<Entry>, files: seq<string>)
    requires DistinctSources(lookup)
    ensures var positions := DuplicatePositions(lookup, Duplicates(files), 0);
      var order := SortByCreated(lookup, positions);
      var r := RenumberFolder(lookup, files);
      multiset(order) == multiset(positions) &&
      CreatedOrder(lookup, order) &&
      NumberedInOrder(lookup, order, r) &&
      KeptOutside(lookup, Duplicates(files), r)
  {
    var positions := DuplicatePositions(lookup, Duplicates(files), 0);
    var order := SortByCreated(lookup, positions);
    SortByCreatedOrder(lookup, positions);
    PermutationOfAscending(positions, order);
    AssignRunsEffect(lookup, order, 0);
    forall i | 0 <= i < |lookup| && Basename(lookup[i].target) !in Duplicates(files)
      ensures forall k :: 0 <= k < |order| ==> order[k] != i
    {
      forall k | 0 <= k < |order| ensures order[k] != i {
        var j :| 0 <= j < |positions| && positions[j] == order[k];
      }
    }
  }

  /** A reordering of ascending positions holds each of them once. */
  lemma PermutationOfAscending(ps: seq<nat>, order: seq<nat>)
    requires multiset(order) == multiset(ps)
    requires forall i, j :: 0 <= i < j < |ps| ==> ps[i] < ps[j]
    ensures forall k :: 0 <= k < |order| ==> order[k] in ps
    ensures forall i, j :: 0 <= i < j < |order| ==> order[i] != order[j]
  {
    forall k | 0 <= k < |order| ensures order[k] in ps {
      assert order[k] in multiset(order);
    }
    forall i, j | 0 <= i < j < |order| ensures order[i] != order[j] {
      if order[i] == order[j] {
        CountTwice(order, i, j);
        AscendingOnce(ps, order[i]);
        assert false;
      }
    }
  }

  lemma CountTwice(s: seq<nat>, i: nat, j: nat)
    requires i < j < |s| && s[i] == s[j]
    ensures multiset(s)[s[i]] >= 2
  {
    var a, b := s[..j], s[j..];
    assert s == a + b;
    assert s[i] == a[i] && s[j] == b[0];
    assert multiset(a)[s[i]] >= 1 && multiset(b)[s[i]] >= 1;
  }

  lemma {:induction false} AscendingOnce(s: seq<nat>, x: nat)
    requires forall i, j :: 0 <= i < j < |s| ==> s[i] < s[j]
    ensures multiset(s)[x] <= 1
  {
    if |s| > 0 {
      var rest := s[1..];
      assert s == [s[0]] + rest;
      AscendingOnce(rest, x);
      if s[0] == x {
        assert x !in rest by {
          forall k | 0 <= k < |rest| ensures rest[k] != x {
            assert rest[k] == s[k + 1];
          }
        }
      }
    }
  }

  /** The file lists of the first hierarchy, in dictionary order (participant, then session, then folder). */
  function FolderLists(h: Hierarchy): seq<seq<string>> {
    if |h| == 0 then [] else SessionFolderLists(h[0].1) + FolderLists(h[1..])
  }

  function SessionFolderLists(sessions: Assoc.Dict<string, Assoc.Dict<string, seq<string>>>): seq<seq<string>> {
    if |sessions| == 0 then []
    else
      seq(|sessions[0].1|, i requires 0 <= i < |sessions[0].1| => sessions[0].1[i].1) + SessionFolderLists(sessions[1..])
  }

  /** The duplicate pass: each folder of the first hierarchy renumbers the current lookup in turn. */
  function Renumber(lookup: seq<Entry>, folders: seq<seq<string>>): (r: seq<Entry>)
    decreases |folders|
    ensures |r| == |lookup|
    ensures forall i :: 0 <= i < |r| ==> r[i].source == lookup[i].source && r[i].created == lookup[i].created
  {
    if |folders| == 0 then lookup else Renumber(RenumberFolder(lookup, folders[0]), folders[1..])
  }

  /** The passes of `a + b` are those of `a`, then those of `b`. */
  lemma {:induction false} RenumberSplit(lookup: seq<Entry>, a: seq<seq<string>>, b: seq<seq<string>>)
    ensures Renumber(lookup, a + b) == Renumber(Renumber(lookup, a), b)
    decreases |a|
  {
    if |a| > 0 {
      assert (a + b)[0] == a[0] && (a + b)[1..] == a[1..] + b;
      RenumberSplit(RenumberFolder(lookup, a[0]), a[1..], b);
    } else {
      assert a + b == b;
    }
  }

  /**
   * The `k`-th pass works on the lookup the earlier passes left, the later passes continue from
   * its result, and the input files stay distinct throughout.
   */
  lemma RenumberPass(lookup: seq<Entry>, folders: seq<seq<string>>, k: nat)
    requires k < |folders|
    ensures var before := Renumber(lookup, folders[..k]);
            Renumber(lookup, folders) == Renumber(RenumberFolder(before, folders[k]), folders[k + 1..]) &&
            (DistinctSources(lookup) ==> DistinctSources(before))
  {
    assert folders == folders[..k] + folders[k..];
    RenumberSplit(lookup, folders[..k], folders[k..]);
    assert folders[k..][0] == folders[k] && folders[k..][1..] == folders[k + 1..];
  }

  // ---------------------------------------------------------------- sidecars

  /** The JSON written next to a bold run: `{'info': {'RepetitionTime': 123}, 'TaskName': ...}`. */
  datatype Sidecar = Sidecar(repetitionTime: int, taskName: string)

  /** The returned lookup: nifti rows pair an input file with a path, sidecar rows a JSON value with a path. */
  datatype LookupItem = NiftiItem(source: Source, target: string) | SidecarItem(meta: Sidecar, target: string)

  /** `re.search('task-[a-zA-Z0-9]+', path)`. */
  const TaskPattern: Pattern := [Branch(Literal("task-"), Some(Alnum))]

  /** The text after `task-` in the leftmost `task-<alphanumerics>` of the path. */
  function TaskNameOf(path: string): (r: Option<string>)
    ensures r.Some? ==> |r.value| >= 1 && All(r.value, IsAlnum) && Contains(path, "task-" + r.value)
  {
    match Search(TaskPattern, path)
    case None => None
    case Some((i, n)) =>
      TaskMatchShape(path, i, n);
      Some(path[i + 5..i + n])
  }

  /** A match of the task pattern is `task-` and then a non-empty alphanumeric word. */
  lemma TaskMatchShape(path: string, i: nat, n: nat)
    requires i <= |path| && MatchAt(TaskPattern, path, i) == Some(n)
    ensures 5 < n && i + n <= |path|
    ensures var t := path[i + 5..i + n]; All(t, IsAlnum) && OccursAt(path, "task-" + t, i)
  {
    LiteralRunShape("task-", Alnum, path, i, n);
    var t := path[i + 5..i + n];
    assert forall q :: 0 <= q < |t| ==> t[q] == path[i + 5 + q];
    assert path[i..i + n] == path[i..i + 5] + t;
  }

  /** The alphanumeric run after the leftmost `task-` that is followed by one. */
  lemma TaskNameAfterPrefix(a: string, v: string, b: string)
    requires |v| >= 1 && All(v, IsAlnum)
    requires |b| == 0 || !IsAlnum(b[0])
    requires forall j :: 0 <= j < |a| ==> !OccursAt(a + "task-" + v + b, "task-", j)
    ensures TaskNameOf(a + "task-" + v + b) == Some(v)
  {
    var s := a + "task-" + v + b;
    forall j | 0 <= j < |a| ensures MatchAt(TaskPattern, s, j).None? {
      NoTaskAt(s, j);
    }
    LiteralRunAt(TaskPattern, "task-", Alnum, a, v, b);
    SearchFinds(TaskPattern, s, |a|, 5 + |v|);
    assert s[|a| + 5..|a| + 5 + |v|] == v;
  }

  /** Where `task-` does not occur, the task pattern does not match. */
  lemma NoTaskAt(s: string, j: nat)
    requires j <= |s| && !OccursAt(s, "task-", j)
    ensures MatchAt(TaskPattern, s, j).None?
  {
    assert MatchAt(TaskPattern, s, j) == BranchAt(TaskPattern[0], s, j);
    FixedLiteral("task-", s, j);
  }

  /**
   * `re.sub(r'(.nii.gz|.nii)', '.json', path)` as written: each `.` is an unescaped wildcard,
   * so any character followed by `nii` is rewritten, not only the extension.
   */
  const JsonPatternAsWritten: Pattern :=
    [Branch([Dot, Lit('n'), Lit('i'), Lit('i'), Dot, Lit('g'), Lit('z')], None),
     Branch([Dot, Lit('n'), Lit('i'), Lit('i')], None)]

  function JsonNameAsWritten(path: string): string {
    Sub(JsonPatternAsWritten, [Text(".json")], path)
  }

  /** The evidently intended pattern, with escaped dots: `(\.nii\.gz|\.nii)`. */
  const JsonPattern: Pattern :=
    [Branch(Literal(".nii.gz"), None), Branch(Literal(".nii"), None)]

  function JsonName(path: string): string {
    Sub(JsonPattern, [Text(".json")], path)
  }

  /** Which of the two sidecar namings a conversion uses: the script's line, or the escaped pattern. */
  datatype SidecarNaming = AsWritten | Escaped

  function SidecarPath(naming: SidecarNaming, path: string): string {
    match naming
    case AsWritten => JsonNameAsWritten(path)
    case Escaped => JsonName(path)
  }

  /** With escaped dots, a dot-free stem keeps its text and only the extension becomes `.json`. */
  lemma JsonNameReplacesExtension(stem: string)
    requires '.' !in stem
    ensures JsonName(stem + ".nii") == stem + ".json"
    ensures JsonName(stem + ".nii.gz") == stem + ".json"
  {
    JsonStem(stem, ".nii");
    JsonStem(stem, ".nii.gz");
    JsonTail(".nii");
    JsonTail(".nii.gz");
  }

  lemma JsonStem(stem: string, ext: string)
    requires '.' !in stem && |ext| >= 1 && ext[0] == '.'
    ensures JsonName(stem + ext) == stem + JsonName(ext)
  {
    forall j | 0 <= j < |stem| ensures MatchAt(JsonPattern, stem + ext, j).None? {
      LiteralsMatchAt([".nii.gz", ".nii"], stem + ext, j);
      assert Literals([".nii.gz", ".nii"]) == JsonPattern;
      assert (stem + ext)[j] == stem[j];
    }
    SubPrefix(JsonPattern, [Text(".json")], stem, ext);
  }

  lemma JsonTail(ext: string)
    requires ext == ".nii" || ext == ".nii.gz"
    ensures JsonName(ext) == ".json"
  {
    assert Literals([".nii.gz", ".nii"]) == JsonPattern;
    LiteralsMatchAt([".nii.gz", ".nii"], ext, 0);
    assert ext[0..|ext|] == ext;
    assert OccursAt(ext, ext, 0);
    if ext == ".nii" {
      assert !OccursAt(ext, ".nii.gz", 0);
    }
    assert MatchAt(JsonPattern, ext + "", 0) == Some(|ext|);
    assert ext + "" == ext;
    SubLeadingMatch(JsonPattern, [Text(".json")], ext, "");
  }

  /** As written, no match can start where the next character is not `n`. */
  lemma NoWildNiiAt(s: string, j: nat)
    requires j + 1 < |s| && s[j + 1] != 'n'
    ensures MatchAt(JsonPatternAsWritten, s, j).None?
  {
    var p := JsonPatternAsWritten;
    MatchAtFirstBranch(p, s, j);
    assert !InClass(s[j + 1], p[0].fixed[1]);
    assert !InClass(s[j + 1], p[1].fixed[1]);
  }

  /** As written, any non-newline character followed by `nii` matches the short alternative. */
  lemma WildNiiLeading(m: string, t: string)
    requires |m| == 4 && m[0] != '\n' && m[1] == 'n' && m[2] == 'i' && m[3] == 'i'
    requires 'g' !in t
    ensures MatchAt(JsonPatternAsWritten, m + t, 0) == Some(4)
  {
    var p := JsonPatternAsWritten;
    var s := m + t;
    assert BranchAt(p[0], s, 0).None? by {
      if |s| >= 7 {
        assert s[5] == t[1];
        assert !InClass(s[5], p[0].fixed[5]);
      }
    }
    assert FixedAt(p[1].fixed, s, 0) by {
      forall q | 0 <= q < 4 ensures InClass(s[q], p[1].fixed[q]) {
        assert s[q] == m[q];
      }
    }
    assert MatchAt(p, s, 0) == MatchAt(p[1..], s, 0);
  }

  /** As written, a task label starting with `nii` is rewritten too: `..._task-niiback_bold.nii` gives `..._task.jsonback_bold.json`. */
  lemma JsonNameAsWrittenRewritesLabel(a: string, b: string)
    requires 'n' !in a && 'n' !in b && 'g' !in b
    ensures JsonNameAsWritten(a + "-nii" + b + ".nii") == a + ".json" + b + ".json"
  {
    var tail := b + ".nii";
    assert a + "-nii" + b + ".nii" == a + ("-nii" + tail);
    AsWrittenLabel(a, tail);
    AsWrittenExtension(b);
  }

  /** As written, a stem without `n` keeps its text and the `-nii` after it becomes `.json`. */
  lemma AsWrittenLabel(a: string, tail: string)
    requires 'n' !in a && 'g' !in tail
    ensures JsonNameAsWritten(a + ("-nii" + tail)) == a + ".json" + JsonNameAsWritten(tail)
  {
    var p := JsonPatternAsWritten;
    var rep := [Text(".json")];
    var rest := "-nii" + tail;
    forall j | 0 <= j < |a| ensures MatchAt(p, a + rest, j).None? {
      assert (a + rest)[j + 1] == if j + 1 < |a| then a[j + 1] else '-';
      NoWildNiiAt(a + rest, j);
    }
    SubPrefix(p, rep, a, rest);
    WildNiiLeading("-nii", tail);
    SubLeadingMatch(p, rep, "-nii", tail);
    assert Expand(rep, "-nii") == ".json";
  }

  /** As written, a stem without `n` or `g` followed by `.nii` gets `.json`. */
  lemma AsWrittenExtension(b: string)
    requires 'n' !in b && 'g' !in b
    ensures JsonNameAsWritten(b + ".nii") == b + ".json"
  {
    var p := JsonPatternAsWritten;
    var rep := [Text(".json")];
    forall j | 0 <= j < |b| ensures MatchAt(p, b + ".nii", j).None? {
      assert (b + ".nii")[j + 1] == if j + 1 < |b| then b[j + 1] else '.';
      NoWildNiiAt(b + ".nii", j);
    }
    SubPrefix(p, rep, b, ".nii");
    WildNiiLeading(".nii", "");
    assert ".nii" + "" == ".nii";
    SubLeadingMatch(p, rep, ".nii", "");
    assert Expand(rep, ".nii") == ".json";
  }

  /** Every item is a sidecar with the repetition time of 123 that the script writes. */
  predicate Sidecars(items: seq<LookupItem>) {
    forall k :: 0 <= k < |items| ==> items[k].SidecarItem? && items[k].meta.repetitionTime == 123
  }

  lemma SidecarsCons(x: LookupItem, items: seq<LookupItem>)
    requires x.SidecarItem? && x.meta.repetitionTime == 123 && Sidecars(items)
    ensures Sidecars([x] + items)
  {
    var xs := [x] + items;
    forall k | 0 <= k < |xs| ensures xs[k].SidecarItem? && xs[k].meta.repetitionTime == 123 {
      if k > 0 {
        assert xs[k] == items[k - 1];
      }
    }
  }

  /** The targets that get a sidecar: those containing `_bold.nii`, in lookup order. */
  function BoldTargets(rows: seq<Entry>): (r: seq<string>)
    ensures |r| <= |rows|
    ensures forall k :: 0 <= k < |r| ==> Contains(r[k], "_bold.nii")
    ensures (forall k :: 0 <= k < |rows| ==> !Contains(rows[k].target, "_bold.nii")) ==> r == []
  {
    if |rows| == 0 then []
    else
      var rest := BoldTargets(rows[1..]);
      assert forall k :: 1 <= k < |rows| ==> rows[k] == rows[1..][k - 1];
      if Contains(rows[0].target, "_bold.nii") then [rows[0].target] + rest else rest
  }

  /** The sidecar written for the bold target `b`: repetition time 123 and the task read from the path. */
  predicate SidecarFor(item: LookupItem, b: string, naming: SidecarNaming) {
    TaskNameOf(b).Some? && item == SidecarItem(Sidecar(123, TaskNameOf(b).value), SidecarPath(naming, b))
  }

  /** `items` are the sidecars of `bolds`, one each and in the same order. */
  predicate SidecarsOf(items: seq<LookupItem>, bolds: seq<string>, naming: SidecarNaming) {
    |items| == |bolds| && forall k :: 0 <= k < |items| ==> SidecarFor(items[k], bolds[k], naming)
  }

  lemma SidecarsOfCons(item: LookupItem, items: seq<LookupItem>, b: string, bolds: seq<string>, naming: SidecarNaming)
    requires SidecarFor(item, b, naming) && SidecarsOf(items, bolds, naming)
    ensures SidecarsOf([item] + items, [b] + bolds, naming)
  {
    var xs, bs := [item] + items, [b] + bolds;
    forall k | 0 <= k < |xs| ensures SidecarFor(xs[k], bs[k], naming) {
      if k > 0 {
        assert xs[k] == items[k - 1] && bs[k] == bolds[k - 1];
      }
    }
  }

  /** Sidecars written this way all carry the repetition time 123. */
  lemma SidecarsOfTimes(items: seq<LookupItem>, bolds: seq<string>, naming: SidecarNaming)
    requires SidecarsOf(items, bolds, naming)
    ensures Sidecars(items)
  {
    forall k | 0 <= k < |items| ensures items[k].SidecarItem? && items[k].meta.repetitionTime == 123 {
      assert SidecarFor(items[k], bolds[k], naming);
    }
  }

  // ---------------------------------------------------------------- the returned hierarchy

  /** The path splits into participant/session/folder/file, as `populate_bids_hierarchy` needs. */
  predicate FourParts(path: string) {
    |Split(path, '/')| == 4
  }

  /** The file names the paths put under `p/s/d`, in order; a path that does not split in four puts none. */
  function Filed(paths: seq<string>, p: string, s: string, d: string): seq<string> {
    if |paths| == 0 then []
    else
      var parts := Split(paths[0], '/');
      (if |parts| == 4 && parts[0] == p && parts[1] == s && parts[2] == d then [parts[3]] else []) +
      Filed(paths[1..], p, s, d)
  }

  lemma {:induction false} FiledAppend(a: seq<string>, b: seq<string>, p: string, s: string, d: string)
    ensures Filed(a + b, p, s, d) == Filed(a, p, s, d) + Filed(b, p, s, d)
  {
    if |a| > 0 {
      assert (a + b)[0] == a[0] && (a + b)[1..] == a[1..] + b;
      FiledAppend(a[1..], b, p, s, d);
    } else {
      assert a + b == b;
    }
  }

  /** `h1` is `h` with the file names of `paths` appended under their folders, in order. */
  ghost predicate Extends(h1: Hierarchy, h: Hierarchy, paths: seq<string>) {
    forall p, s, d :: FilesAt(h1, p, s, d) == FilesAt(h, p, s, d) + Filed(paths, p, s, d)
  }

  lemma ExtendsOne(path: string, h: Hierarchy)
    requires PopulateBidsHierarchy(path, h).Success?
    ensures Extends(PopulateBidsHierarchy(path, h).value, h, [path])
  {
    var parts := Split(path, '/');
    var h1 := PopulateBidsHierarchy(path, h).value;
    forall p, s, d ensures FilesAt(h1, p, s, d) == FilesAt(h, p, s, d) + Filed([path], p, s, d) {
      assert Filed([path], p, s, d) == (if (p, s, d) == (parts[0], parts[1], parts[2]) then [parts[3]] else []);
    }
  }

  lemma ExtendsThen(h: Hierarchy, h1: Hierarchy, h2: Hierarchy, a: seq<string>, b: seq<string>)
    requires Extends(h1, h, a) && Extends(h2, h1, b)
    ensures Extends(h2, h, a + b)
  {
    forall p, s, d ensures FilesAt(h2, p, s, d) == FilesAt(h, p, s, d) + Filed(a + b, p, s, d) {
      FiledAppend(a, b, p, s, d);
      AppendThen(FilesAt(h, p, s, d), FilesAt(h1, p, s, d), FilesAt(h2, p, s, d),
                 Filed(a, p, s, d), Filed(b, p, s, d), Filed(a + b, p, s, d));
    }
  }

  lemma AppendThen(x: seq<string>, y: seq<string>, z: seq<string>, a: seq<string>, b: seq<string>, c: seq<string>)
    requires y == x + a && z == y + b && c == a + b
    ensures z == x + c
  {
  }

  /** The target paths of the rows, in order. */
  function Targets(rows: seq<Entry>): (r: seq<string>)
    ensures |r| == |rows| && forall k :: 0 <= k < |rows| ==> r[k] == rows[k].target
  {
    seq(|rows|, k requires 0 <= k < |rows| => rows[k].target)
  }

  /** Appending a sidecar item's path and then the rest's extends `h` by all of their paths. */
  lemma ExtendsCons(item: LookupItem, rest: seq<LookupItem>, h: Hierarchy, h1: Hierarchy, h2: Hierarchy)
    requires PopulateBidsHierarchy(item.target, h) == Success(h1)
    requires Extends(h2, h1, ItemTargets(rest))
    ensures Extends(h2, h, ItemTargets([item] + rest))
  {
    ExtendsOne(item.target, h);
    ExtendsThen(h, h1, h2, [item.target], ItemTargets(rest));
    ItemTargetsAppend([item], rest);
  }

  lemma ItemTargetsAppend(a: seq<LookupItem>, b: seq<LookupItem>)
    ensures ItemTargets(a + b) == ItemTargets(a) + ItemTargets(b)
  {
  }

  /** The paths of the lookup items, in order. */
  function ItemTargets(items: seq<LookupItem>): (r: seq<string>)
    ensures |r| == |items| && forall k :: 0 <= k < |items| ==> r[k] == items[k].target
  {
    seq(|items|, k requires 0 <= k < |items| => items[k].target)
  }

  /** Every bold target has a task label, and its sidecar path splits in four. */
  predicate Nameable(bolds: seq<string>, naming: SidecarNaming) {
    forall k :: 0 <= k < |bolds| ==> TaskNameOf(bolds[k]).Some? && FourParts(SidecarPath(naming, bolds[k]))
  }

  lemma NameableCons(b: string, bolds: seq<string>, naming: SidecarNaming)
    ensures Nameable([b] + bolds, naming) <==>
            TaskNameOf(b).Some? && FourParts(SidecarPath(naming, b)) && Nameable(bolds, naming)
  {
    var xs := [b] + bolds;
    assert xs[0] == b;
    assert forall k :: 1 <= k < |xs| ==> xs[k] == bolds[k - 1];
    if Nameable(bolds, naming) && TaskNameOf(b).Some? && FourParts(SidecarPath(naming, b)) {
      forall k | 0 <= k < |xs| ensures TaskNameOf(xs[k]).Some? && FourParts(SidecarPath(naming, xs[k])) {
        if k > 0 {
          assert xs[k] == bolds[k - 1];
        }
      }
    }
    if Nameable(xs, naming) {
      forall k | 0 <= k < |bolds| ensures TaskNameOf(bolds[k]).Some? && FourParts(SidecarPath(naming, bolds[k])) {
        assert bolds[k] == xs[k + 1];
      }
    }
  }

  /**
   * The sidecar loop over the original rows: every path containing `_bold.nii` gets a JSON
   * row whose task name is read from the path and whose path is the sidecar name; a bold
   * path without a task label raises.
   */
  function AddSidecars(rows: seq<Entry>, h: Hierarchy, naming: SidecarNaming): (r: Result<(Hierarchy, seq<LookupItem>), Error>)
    ensures r.Success? <==> Nameable(BoldTargets(rows), naming)
    ensures r.Success? ==> SidecarsOf(r.value.1, BoldTargets(rows), naming)
    ensures r.Success? ==> Extends(r.value.0, h, ItemTargets(r.value.1))
    ensures (exists k :: 0 <= k < |BoldTargets(rows)| && TaskNameOf(BoldTargets(rows)[k]).None?) ==> r.Failure?
    ensures (forall k :: 0 <= k < |rows| ==> !Contains(rows[k].target, "_bold.nii")) ==> r == Success((h, []))
  {
    if |rows| == 0 then Success((h, []))
    else
      var b := rows[0].target;
      if !Contains(b, "_bold.nii") then AddSidecars(rows[1..], h, naming)
      else
        NameableCons(b, BoldTargets(rows[1..]), naming);
        match TaskNameOf(b)
        case None => Failure(NoTaskLabel(b))
        case Some(task) =>
          var json := SidecarPath(naming, b);
          var h1 :- PopulateBidsHierarchy(json, h);
          var rest :- AddSidecars(rows[1..], h1, naming);
          var item := SidecarItem(Sidecar(123, task), json);
          SidecarsOfCons(item, rest.1, b, BoldTargets(rows[1..]), naming);
          ExtendsCons(item, rest.1, h, h1, rest.0);
          Success((rest.0, [item] + rest.1))
  }

  /** The loop then reaches the rows it appended; one that again looks like a bold path raises. */
  function RevisitSidecars(items: seq<LookupItem>): (r: Result<(), Error>)
    ensures r.Success? <==> forall k :: 0 <= k < |items| ==> !Contains(items[k].target, "_bold.nii")
  {
    if |items| == 0 then Success(())
    else if Contains(items[0].target, "_bold.nii") then Failure(SidecarRevisited(items[0].target))
    else RevisitSidecars(items[1..])
  }

  // ---------------------------------------------------------------- the whole conversion

  /**
   * The hierarchy loop over the lookup: every target's file name is appended under its folder,
   * in lookup order; a target that does not split in four raises.
   */
  function PopulateAll(rows: seq<Entry>, h: Hierarchy): (r: Result<Hierarchy, Error>)
    ensures r.Success? <==> forall k :: 0 <= k < |rows| ==> FourParts(rows[k].target)
    ensures r.Success? ==> Extends(r.value, h, Targets(rows))
  {
    if |rows| == 0 then Success(h)
    else
      var first := PopulateBidsHierarchy(rows[0].target, h);
      if first.Failure? then
        FourPartsCons(rows);
        Failure(first.error)
      else
        var r := PopulateAll(rows[1..], first.value);
        FourPartsCons(rows);
        if r.Success? then
          ExtendsOne(rows[0].target, h);
          ExtendsThen(h, first.value, r.value, [rows[0].target], Targets(rows[1..]));
          TargetsCons(rows);
          r
        else r
  }

  lemma FourPartsCons(rows: seq<Entry>)
    requires |rows| > 0
    ensures (forall k :: 0 <= k < |rows| ==> FourParts(rows[k].target)) <==>
            FourParts(rows[0].target) && forall k :: 0 <= k < |rows[1..]| ==> FourParts(rows[1..][k].target)
  {
    assert forall k :: 1 <= k < |rows| ==> rows[k] == rows[1..][k - 1];
  }

  lemma TargetsCons(rows: seq<Entry>)
    requires |rows| > 0
    ensures Targets(rows) == [rows[0].target] + Targets(rows[1..])
  {
  }

  function NiftiItems(rows: seq<Entry>): (r: seq<LookupItem>)
    ensures |r| == |rows|
    ensures forall k :: 0 <= k < |rows| ==> r[k] == NiftiItem(rows[k].source, rows[k].target)
  {
    seq(|rows|, k requires 0 <= k < |rows| => NiftiItem(rows[k].source, rows[k].target))
  }

  /** The lookup after the duplicate pass: the walk's rows, renumbered folder by folder of the first hierarchy. */
  function Rows(fh: FlywheelHierarchy): Result<seq<Entry>, Error> {
    var w :- WalkProjects(fh, Walk([], None, []));
    Success(Renumber(w.entries, FolderLists(w.tmp)))
  }

  /**
   * `create_bids_hierarchy(fw, hierarchy, test_bool=True)`: the final hierarchy and the lookup,
   * nifti rows first (renumbered) and then one sidecar row per bold run. The script names
   * sidecars `AsWritten`; `Escaped` is the conversion with the intended pattern.
   */
  function CreateBidsHierarchy(fh: FlywheelHierarchy, naming: SidecarNaming): (r: Result<(Hierarchy, seq<LookupItem>), Error>)
    ensures Rows(fh).Failure? ==> r.Failure?
    ensures r.Success? ==>
      var rows := Rows(fh).value;
      var items := r.value.1;
      Rows(fh).Success? && |rows| <= |items| && items[..|rows|] == NiftiItems(rows) &&
      SidecarsOf(items[|rows|..], BoldTargets(rows), naming) && Sidecars(items[|rows|..]) &&
      forall k :: |rows| <= k < |items| ==> !Contains(items[k].target, "_bold.nii")
    ensures Rows(fh).Success? ==> (r.Success? <==> Convertible(Rows(fh).value, naming))
    ensures r.Success? ==> forall p, s, d :: FilesAt(r.value.0, p, s, d) == Filed(ItemTargets(r.value.1), p, s, d)
  {
    var rows :- Rows(fh);
    ConversionSucceeds(rows, naming);
    var h :- PopulateAll(rows, []);
    var sidecars :- AddSidecars(rows, h, naming);
    var _ :- RevisitSidecars(sidecars.1);
    var items := NiftiItems(rows) + sidecars.1;
    SidecarsOfTimes(sidecars.1, BoldTargets(rows), naming);
    HierarchyOfItems(rows, h, sidecars.0, sidecars.1);
    assert items[..|rows|] == NiftiItems(rows) && items[|rows|..] == sidecars.1;
    Success((sidecars.0, items))
  }

  /**
   * When the conversion of `rows` succeeds: every target splits into four parts, every bold
   * target has a task label and a four-part sidecar path, and no sidecar path looks like a bold path.
   */
  predicate Convertible(rows: seq<Entry>, naming: SidecarNaming) {
    var bolds := BoldTargets(rows);
    (forall k :: 0 <= k < |rows| ==> FourParts(rows[k].target)) &&
    Nameable(bolds, naming) &&
    forall k :: 0 <= k < |bolds| ==> !Contains(SidecarPath(naming, bolds[k]), "_bold.nii")
  }

  /** The three loops of the conversion all succeed exactly when the rows are convertible. */
  lemma ConversionSucceeds(rows: seq<Entry>, naming: SidecarNaming)
    ensures (PopulateAll(rows, []).Success? &&
             AddSidecars(rows, PopulateAll(rows, []).value, naming).Success? &&
             RevisitSidecars(AddSidecars(rows, PopulateAll(rows, []).value, naming).value.1).Success?)
            <==> Convertible(rows, naming)
  {
    var pop := PopulateAll(rows, []);
    if pop.Success? {
      var sc := AddSidecars(rows, pop.value, naming);
      if sc.Success? {
        SidecarPathsClean(sc.value.1, BoldTargets(rows), naming);
      }
    }
  }

  /** The revisit of the sidecar rows raises exactly when some bold target's sidecar path looks like a bold path. */
  lemma SidecarPathsClean(items: seq<LookupItem>, bolds: seq<string>, naming: SidecarNaming)
    requires SidecarsOf(items, bolds, naming)
    ensures (forall k :: 0 <= k < |items| ==> !Contains(items[k].target, "_bold.nii")) <==>
            (forall k :: 0 <= k < |bolds| ==> !Contains(SidecarPath(naming, bolds[k]), "_bold.nii"))
  {
    assert forall k :: 0 <= k < |items| ==> SidecarFor(items[k], bolds[k], naming);
  }

  /** Populating from the empty hierarchy with the rows and then the sidecars files exactly the lookup's targets. */
  lemma HierarchyOfItems(rows: seq<Entry>, h: Hierarchy, h2: Hierarchy, sidecars: seq<LookupItem>)
    requires Extends(h, [], Targets(rows)) && Extends(h2, h, ItemTargets(sidecars))
    ensures forall p, s, d :: FilesAt(h2, p, s, d) == Filed(ItemTargets(NiftiItems(rows) + sidecars), p, s, d)
  {
    ExtendsThen([], h, h2, Targets(rows), ItemTargets(sidecars));
    ItemTargetsAppend(NiftiItems(rows), sidecars);
    assert ItemTargets(NiftiItems(rows)) == Targets(rows);
    forall p, s, d ensures FilesAt([], p, s, d) == [] {
    }
  }

  /**
   * Over a well-formed tree, each pass of the duplicate loop numbers the duplicates of its
   * folder 1..n in creation order and leaves every other row as it was, and the final lookup
   * is what the later passes make of that result.
   */
  lemma ConversionPass(fh: FlywheelHierarchy, k: nat)
    requires WellFormed(fh)
    requires WalkProjects(fh, Walk([], None, [])).Success?
    requires k < |FolderLists(WalkProjects(fh, Walk([], None, [])).value.tmp)|
    ensures var w := WalkProjects(fh, Walk([], None, [])).value;
            var folders := FolderLists(w.tmp);
            var before := Renumber(w.entries, folders[..k]);
            var positions := DuplicatePositions(before, Duplicates(folders[k]), 0);
            var order := SortByCreated(before, positions);
            var after := RenumberFolder(before, folders[k]);
            multiset(order) == multiset(positions) &&
            CreatedOrder(before, order) &&
            NumberedInOrder(before, order, after) &&
            KeptOutside(before, Duplicates(folders[k]), after) &&
            Rows(fh) == Success(Renumber(after, folders[k + 1..]))
  {
    var w := WalkProjects(fh, Walk([], None, [])).value;
    var folders := FolderLists(w.tmp);
    WalkDistinct(fh);
    RenumberPass(w.entries, folders, k);
    RenumberFolderEffect(Renumber(w.entries, folders[..k]), folders[k]);
  }
}

=== FILE: legacy_naming.dfy ===
/**
 * Naming rules of the legacy archive converter (`create_archive_funcs.py`): label and index
 * normalisation, the nested participant/session/subdir hierarchy, and the per-acquisition
 * choice of folder and file name for anatomical, functional and fieldmap images.
 */
module LegacyNaming {
  import opened Outcomes
  import opened Text
  import opened Patterns
  import Assoc

  // ---------------------------------------------------------------- make_bids_spec

  /** A BIDS label holds alphanumerics only; a BIDS index holds digits only. */
  datatype LabelType = Label | Index

  function Allowed(t: LabelType): char -> bool {
    match t
    case Label => IsAlnum
    case Index => IsDigit
  }

  function AllowedClass(t: LabelType): Class {
    match t
    case Label => Alnum
    case Index => Digit
  }

  /** The test `re.match(desc + '[0-9a-zA-Z]+$', v)` (or `'[0-9]+$'` for an index). */
  predicate AlreadyBids(desc: string, v: string, t: LabelType) {
    MatchesToEnd(Branch(Literal(desc), Some(AllowedClass(t))), v)
  }

  /** One or more allowed characters, optionally followed by one final newline, which Python's `$` also accepts. */
  predicate ConformingTail(tail: string, t: LabelType) {
    (|tail| >= 1 && All(tail, Allowed(t))) ||
    (|tail| >= 2 && tail[|tail| - 1] == '\n' && All(tail[..|tail| - 1], Allowed(t)))
  }

  lemma ClassAllowed(t: LabelType)
    ensures forall c :: InClass(c, AllowedClass(t)) <==> Allowed(t)(c)
    ensures !Allowed(t)('\n')
  {
  }

  /** `desc` followed by a conforming tail passes the regular-expression test. */
  lemma ConformingMatches(desc: string, v: string, t: LabelType)
    requires StartsWith(v, desc) && ConformingTail(v[|desc|..], t)
    ensures AlreadyBids(desc, v, t)
  {
    var b := Branch(Literal(desc), Some(AllowedClass(t)));
    ClassAllowed(t);
    FixedLiteral(desc, v, 0);
    assert v[0..|desc|] == v[..|desc|];
    var tail := v[|desc|..];
    var n := RunFrom(v, |desc|, AllowedClass(t));
    assert forall q :: 0 <= q < |tail| ==> tail[q] == v[|desc| + q];
    if |tail| >= 1 && All(tail, Allowed(t)) {
      assert n == |tail|;
    } else {
      assert tail[|tail| - 1] == '\n';
      var init := tail[..|tail| - 1];
      assert forall q :: 0 <= q < |init| ==> init[q] == v[|desc| + q];
      assert n == |tail| - 1;
    }
    assert BranchAt(b, v, 0) == Some(|desc| + n);
  }

  /** What passes the regular-expression test is `desc` followed by a conforming tail. */
  lemma MatchConforms(desc: string, v: string, t: LabelType)
    requires AlreadyBids(desc, v, t)
    ensures StartsWith(v, desc) && ConformingTail(v[|desc|..], t)
  {
    var b := Branch(Literal(desc), Some(AllowedClass(t)));
    ClassAllowed(t);
    FixedLiteral(desc, v, 0);
    assert v[0..|desc|] == v[..|desc|];
    var tail := v[|desc|..];
    var n := RunFrom(v, |desc|, AllowedClass(t));
    assert BranchAt(b, v, 0) == Some(|desc| + n) && n >= 1;
    assert forall q :: 0 <= q < |tail| ==> tail[q] == v[|desc| + q];
    if |desc| + n == |v| - 1 {
      var init := tail[..|tail| - 1];
      assert forall q :: 0 <= q < |init| ==> init[q] == v[|desc| + q];
    }
  }

  /** The regular-expression test accepts exactly `desc` followed by a conforming tail. */
  lemma AlreadyBidsIff(desc: string, v: string, t: LabelType)
    ensures AlreadyBids(desc, v, t) <==> StartsWith(v, desc) && ConformingTail(v[|desc|..], t)
  {
    if AlreadyBids(desc, v, t) {
      MatchConforms(desc, v, t);
    }
    if StartsWith(v, desc) && ConformingTail(v[|desc|..], t) {
      ConformingMatches(desc, v, t);
    }
  }

  /**
   * `make_bids_spec(desc, v, label_type)`: `v` itself when it already conforms, otherwise
   * `desc` followed by the allowed characters of `v` in order.
   */
  function MakeBidsSpec(desc: string, v: string, t: LabelType): (r: string)
    ensures StartsWith(r, desc)
    ensures AlreadyBids(desc, v, t) ==> r == v
    ensures !AlreadyBids(desc, v, t) ==> r[|desc|..] == Keep(v, Allowed(t))
    ensures Keep(v, Allowed(t)) != "" ==> AlreadyBids(desc, r, t)
  {
    AlreadyBidsIff(desc, v, t);
    var extracted := Keep(v, Allowed(t));
    var r := if AlreadyBids(desc, v, t) then v else desc + extracted;
    AlreadyBidsIff(desc, r, t);
    assert r == desc + extracted ==> r[|desc|..] == extracted && r[..|desc|] == desc;
    r
  }

  /**
   * Normalising twice equals normalising once, unless nothing allowed was left to extract.
   * Stated for ASCII text, where the character classes are Python's own.
   */
  lemma MakeBidsSpecIdempotent(desc: string, v: string, t: LabelType)
    requires All(desc, IsAscii) && All(v, IsAscii)
    requires AlreadyBids(desc, v, t) || Keep(v, Allowed(t)) != ""
    ensures MakeBidsSpec(desc, MakeBidsSpec(desc, v, t), t) == MakeBidsSpec(desc, v, t)
  {
  }

  /** A value with nothing allowed in it normalises to the bare prefix: `_` becomes `sub-`. */
  lemma MakeBidsSpecNothingAllowed()
    ensures MakeBidsSpec("sub-", "_", Label) == "sub-"
  {
    assert !StartsWith("_", "sub-");
    AlreadyBidsIff("sub-", "_", Label);
    assert Keep("_", IsAlnum) == "";
  }

  /** ...and the bare prefix then normalises to `sub-sub`, so idempotence needs its condition. */
  /** A bare prefix never conforms: its allowed characters are appended to it. */
  lemma MakeBidsSpecBare(desc: string, t: LabelType)
    ensures MakeBidsSpec(desc, desc, t) == desc + Keep(desc, Allowed(t))
  {
    assert desc[|desc|..] == "";
    assert !ConformingTail("", t);
    AlreadyBidsIff(desc, desc, t);
  }

  lemma KeepDropsLast(s: string, c: char, p: char -> bool)
    requires All(s, p) && !p(c)
    ensures Keep(s + [c], p) == s
  {
    KeepConcat(s, [c], p);
  }

  /** A bare entity prefix such as `sub-` becomes the prefix followed by its own name: `sub-sub`. */
  lemma MakeBidsSpecBarePrefix(name: string)
    requires All(name, IsAlnum)
    ensures MakeBidsSpec(name + "-", name + "-", Label) == name + "-" + name
  {
    MakeBidsSpecBare(name + "-", Label);
    KeepDropsLast(name, '-', IsAlnum);
  }

  // ---------------------------------------------------------------- populate_bids_hierarchy

  /** participant -> session -> subdir -> file names, each level in insertion order. */
  type Hierarchy = Assoc.Dict<string, Assoc.Dict<string, Assoc.Dict<string, seq<string>>>>

  /** The file list under participant/session/subdir, empty when a level is absent. */
  function FilesAt(h: Hierarchy, p: string, s: string, d: string): seq<string> {
    var sessions := Assoc.Get(h, p).GetOr([]);
    var dirs := Assoc.Get(sessions, s).GetOr([]);
    Assoc.Get(dirs, d).GetOr([])
  }

  /** What the original program raises, as a value. */
  datatype Error =
    | PathParts(path: string)            // ValueError: a path that does not split into four parts
    | NoNiftiFile(acquisition: string)   // IndexError: the file list is shorter than the type list
    | NoFieldmapDesc(acquisition: string) // NameError: a fieldmap description was never assigned
    | NoTaskLabel(path: string)          // AttributeError: no `task-<label>` in a bold path
    | SidecarRevisited(path: string)     // AttributeError: an appended sidecar entry looks like a bold path

  /**
   * `populate_bids_hierarchy(path, h)`: split `path` into participant/session/subdir/filename,
   * create the missing levels and append the filename to the subdir list.
   */
  function PopulateBidsHierarchy(path: string, h: Hierarchy): (r: Result<Hierarchy, Error>)
    ensures r.Failure? <==> |Split(path, '/')| != 4
    ensures r.Failure? ==> r.error == PathParts(path)
    ensures r.Success? ==>
      var parts := Split(path, '/');
      FilesAt(r.value, parts[0], parts[1], parts[2]) == FilesAt(h, parts[0], parts[1], parts[2]) + [parts[3]] &&
      (forall p, s, d :: (p, s, d) != (parts[0], parts[1], parts[2]) ==> FilesAt(r.value, p, s, d) == FilesAt(h, p, s, d)) &&
      Assoc.Keys(r.value) == Assoc.Keys(h) + (if Assoc.HasKey(h, parts[0]) then [] else [parts[0]])
  {
    var parts := Split(path, '/');
    if |parts| != 4 then Failure(PathParts(path))
    else
      var p, s, d, f := parts[0], parts[1], parts[2], parts[3];
      var sessions := Assoc.Get(h, p).GetOr([]);
      var dirs := Assoc.Get(sessions, s).GetOr([]);
      var files := Assoc.Get(dirs, d).GetOr([]);
      var r := Assoc.Put(h, p, Assoc.Put(sessions, s, Assoc.Put(dirs, d, files + [f])));
      PopulateFrame(h, p, s, d, f);
      Success(r)
  }

  lemma PopulateFrame(h: Hierarchy, p: string, s: string, d: string, f: string)
    ensures
      var sessions := Assoc.Get(h, p).GetOr([]);
      var dirs := Assoc.Get(sessions, s).GetOr([]);
      var files := Assoc.Get(dirs, d).GetOr([]);
      var r := Assoc.Put(h, p, Assoc.Put(sessions, s, Assoc.Put(dirs, d, files + [f])));
      FilesAt(r, p, s, d) == FilesAt(h, p, s, d) + [f] &&
      forall p', s', d' :: (p', s', d') != (p, s, d) ==> FilesAt(r, p', s', d') == FilesAt(h, p', s', d')
  {
    var sessions := Assoc.Get(h, p).GetOr([]);
    var dirs := Assoc.Get(sessions, s).GetOr([]);
    var files := Assoc.Get(dirs, d).GetOr([]);
    var dirs' := Assoc.Put(dirs, d, files + [f]);
    var sessions' := Assoc.Put(sessions, s, dirs');
    var r := Assoc.Put(h, p, sessions');
    Assoc.GetPut(h, p, sessions', p);
    Assoc.GetPut(sessions, s, dirs', s);
    Assoc.GetPut(dirs, d, files + [f], d);
    forall p', s', d' | (p', s', d') != (p, s, d)
      ensures FilesAt(r, p', s', d') == FilesAt(h, p', s', d')
    {
      Assoc.GetPut(h, p, sessions', p');
      if p' == p {
        Assoc.GetPut(sessions, s, dirs', s');
        if s' == s {
          Assoc.GetPut(dirs, d, files + [f], d');
        }
      }
    }
  }

  // ---------------------------------------------------------------- choosing the nifti file

  /** Index of the last element equal to `x`. */
  function LastIndexOf(xs: seq<string>, x: string): (r: Option<nat>)
    ensures r.Some? ==> r.value < |xs| && xs[r.value] == x && forall j :: r.value < j < |xs| ==> xs[j] != x
    ensures r.None? <==> x !in xs
  {
    if |xs| == 0 then None
    else if xs[|xs| - 1] == x then Some(|xs| - 1)
    else LastIndexOf(xs[..|xs| - 1], x)
  }

  /**
   * `files[::-1][types[::-1].index('nifti')]`: the two lists are aligned from their ends, so the
   * chosen file is the one paired with the last `nifti` type; a too-short file list raises.
   */
  function LastNiftiFile(acqId: string, files: seq<string>, types: seq<string>): (r: Result<string, Error>)
    requires "nifti" in types
    ensures |files| == |types| ==> r.Success?
    ensures |files| == |types| ==> exists k :: 0 <= k < |types| && types[k] == "nifti" && r.value == files[k] &&
                                             forall j :: k < j < |types| ==> types[j] != "nifti"
    ensures r.Failure? ==> r.error == NoNiftiFile(acqId)
    ensures r.Success? ==> r.value in files
  {
    var last := LastIndexOf(types, "nifti").value;
    var fromEnd := |types| - 1 - last;
    if fromEnd < |files| then Success(files[|files| - 1 - fromEnd]) else Failure(NoNiftiFile(acqId))
  }

  /**
   * The extension chosen for the nifti file. The `.nii.gz` assignment is always overwritten by the
   * following independent `if`, so every name containing `.nii` gets `.nii`.
   */
  function NiftiExtension(name: string): (r: string)
    ensures r == ".nii" || r == "NONONONO"
  {
    if Contains(name, ".nii") then ".nii" else "NONONONO"
  }

  /** A compressed `.nii.gz` file is still given the extension `.nii`; `.nii.gz` is never produced. */
  lemma NiftiExtensionDropsGz(base: string)
    ensures NiftiExtension(base + ".nii.gz") == ".nii"
    ensures NiftiExtension(base + ".nii") == ".nii"
  {
    ContainsSelf(".nii");
    ContainsInfix(base, ".nii", ".gz", ".nii");
    ContainsInfix(base, ".nii", "", ".nii");
    ContainsSelf(".nii");
    assert base + ".nii" + "" == base + ".nii";
    assert base + ".nii" + ".gz" == base + ".nii.gz";
  }

  /** Any other name gets the placeholder extension. */
  lemma NiftiExtensionOther(name: string)
    ensures NiftiExtension(name) == "NONONONO" <==> !Contains(name, ".nii")
  {
  }

  // ---------------------------------------------------------------- what kind of image

  datatype Kind = Anat | Func | Fieldmap | Unrecognised

  /** The branch taken by the measurement tests, in source order. */
  function KindOf(measurements: seq<string>): (k: Kind)
    ensures k == Anat <==> "anatomy_t1w" in measurements || "anatomy_t2w" in measurements
    ensures k == Func <==> k != Anat && "functional" in measurements
    ensures k == Fieldmap <==> k != Anat && k != Func && "field_map" in measurements
  {
    if "anatomy_t1w" in measurements || "anatomy_t2w" in measurements then Anat
    else if "functional" in measurements then Func
    else if "field_map" in measurements then Fieldmap
    else Unrecognised
  }

  function DirName(k: Kind): string {
    match k
    case Anat => "anat"
    case Func => "func"
    case Fieldmap => "fmap"
    case Unrecognised => ""
  }

  // ---------------------------------------------------------------- anatomical

  /** `T1w`, overwritten by `T2w` when both measurements are present. */
  function AnatSuffix(measurements: seq<string>): (r: string)
    requires KindOf(measurements) == Anat
    ensures r == "T2w" <==> "anatomy_t2w" in measurements
    ensures r == "T1w" <==> "anatomy_t2w" !in measurements
  {
    var first := if "anatomy_t1w" in measurements then "T1w" else "";
    if "anatomy_t2w" in measurements then "T2w" else first
  }

  // ---------------------------------------------------------------- functional

  /** `re.compile('sbref', re.IGNORECASE)`. */
  const SbrefPattern: Pattern := [Branch(LiteralNoCase("sbref"), None)]

  /** `task-rest` when the lower-cased label mentions `rest`, otherwise the label normalised as a task label. */
  function TaskName(acqLabel: string): (r: string)
    ensures StartsWith(r, "task-")
    ensures Contains(Lower(acqLabel), "rest") ==> r == "task-rest"
    ensures !Contains(Lower(acqLabel), "rest") ==> r == MakeBidsSpec("task-", acqLabel, Label)
  {
    if Contains(Lower(acqLabel), "rest") then "task-rest" else MakeBidsSpec("task-", acqLabel, Label)
  }

  predicate IsSbref(acqLabel: string) {
    Contains(Lower(acqLabel), "sbref")
  }

  /** The task entity of a functional file: every case-insensitive `sbref` is removed from single-band references. */
  function FuncTask(acqLabel: string): (r: string)
    ensures !IsSbref(acqLabel) ==> r == TaskName(acqLabel)
    ensures IsSbref(acqLabel) ==> r == Sub(SbrefPattern, [], TaskName(acqLabel))
  {
    if IsSbref(acqLabel) then Sub(SbrefPattern, [], TaskName(acqLabel)) else TaskName(acqLabel)
  }

  function FuncSuffix(acqLabel: string): (r: string)
    ensures r == "sbref" <==> IsSbref(acqLabel)
    ensures r == "bold" <==> !IsSbref(acqLabel)
  {
    if IsSbref(acqLabel) then "sbref" else "bold"
  }

  /** A case-insensitive `sbref` starts at `j`. */
  predicate SbrefAt(s: string, j: int) {
    0 <= j && j + 5 <= |s| && Lower(s[j..j + 5]) == "sbref"
  }

  lemma SbrefMatchAt(s: string, j: nat)
    requires j <= |s|
    ensures MatchAt(SbrefPattern, s, j).Some? <==> SbrefAt(s, j)
    ensures MatchAt(SbrefPattern, s, j).Some? ==> MatchAt(SbrefPattern, s, j).value == 5
  {
    var ks := LiteralNoCase("sbref");
    assert MatchAt(SbrefPattern, s, j) == BranchAt(SbrefPattern[0], s, j);
    if j + 5 <= |s| {
      if FixedAt(ks, s, j) {
        forall q | 0 <= q < 5 ensures Lower(s[j..j + 5])[q] == "sbref"[q] {
          assert InClass(s[j + q], ks[q]);
        }
      }
      if Lower(s[j..j + 5]) == "sbref" {
        forall q | 0 <= q < 5 ensures InClass(s[j + q], ks[q]) {
          assert Lower(s[j..j + 5])[q] == "sbref"[q];
        }
      }
    }
  }

  lemma NoSbrefMatchBefore(a: string, rest: string)
    requires forall j :: 0 <= j < |a| ==> !SbrefAt(a + rest, j)
    ensures forall j :: 0 <= j < |a| ==> MatchAt(SbrefPattern, a + rest, j).None?
  {
    forall j | 0 <= j < |a| ensures MatchAt(SbrefPattern, a + rest, j).None? {
      SbrefMatchAt(a + rest, j);
    }
  }

  lemma SbrefLeadingMatch(m: string, b: string)
    requires Lower(m) == "sbref"
    ensures MatchAt(SbrefPattern, m + b, 0) == Some(5)
  {
    SbrefMatchAt(m + b, 0);
    assert (m + b)[0..5] == m;
  }

  /** Removing one `sbref`: the text before it is kept and the match disappears. */
  lemma RemoveSbref(a: string, m: string, b: string)
    requires Lower(m) == "sbref"
    requires forall j :: 0 <= j < |a| ==> !SbrefAt(a + (m + b), j)
    ensures Sub(SbrefPattern, [], a + (m + b)) == a + Sub(SbrefPattern, [], b)
  {
    NoSbrefMatchBefore(a, m + b);
    SubPrefix(SbrefPattern, [], a, m + b);
    RemoveLeadingSbref(m, b);
  }

  lemma RemoveLeadingSbref(m: string, b: string)
    requires Lower(m) == "sbref"
    ensures Sub(SbrefPattern, [], m + b) == Sub(SbrefPattern, [], b)
  {
    SbrefLeadingMatch(m, b);
    SubLeadingMatch(SbrefPattern, [], m, b);
  }

  /** A text with no case-insensitive `sbref` anywhere is left as it is. */
  lemma NoSbrefKept(t: string)
    requires forall j :: 0 <= j < |t| ==> !SbrefAt(t, j)
    ensures Sub(SbrefPattern, [], t) == t
  {
    forall j | 0 <= j < |t| ensures MatchAt(SbrefPattern, t, j).None? {
      SbrefMatchAt(t, j);
    }
  }

  /**
   * The task of a single-band reference whose task entity holds one case-insensitive `sbref` is
   * that entity with the `sbref` cut out.
   */
  lemma FuncTaskDropsSbref(acqLabel: string, a: string, m: string, b: string)
    requires IsSbref(acqLabel)
    requires TaskName(acqLabel) == a + (m + b) && Lower(m) == "sbref"
    requires forall j :: 0 <= j < |a| ==> !SbrefAt(a + (m + b), j)
    requires forall j :: 0 <= j < |b| ==> !SbrefAt(b, j)
    ensures FuncTask(acqLabel) == a + b
  {
    RemoveSbref(a, m, b);
    NoSbrefKept(b);
  }

  /** A task entity without any case-insensitive `sbref` is the functional task, single-band reference or not. */
  lemma FuncTaskKeepsPlain(acqLabel: string)
    requires forall j :: 0 <= j < |TaskName(acqLabel)| ==> !SbrefAt(TaskName(acqLabel), j)
    ensures FuncTask(acqLabel) == TaskName(acqLabel)
  {
    NoSbrefKept(TaskName(acqLabel));
  }

  // ---------------------------------------------------------------- fieldmaps

  const DirTokens: seq<string> := ["AP", "PA", "LR", "RL"]

  /** `re.search('AP|PA|LR|RL', label)`: four two-letter alternatives, case-sensitive. */
  const DirPattern: Pattern := Literals(DirTokens)

  /** A direction token starts at `j`. */
  predicate DirAt(s: string, j: int) {
    0 <= j && j + 2 <= |s| && s[j..j + 2] in DirTokens
  }

  lemma DirMatchAt(s: string, j: nat)
    requires j <= |s|
    ensures MatchAt(DirPattern, s, j).Some? <==> DirAt(s, j)
    ensures MatchAt(DirPattern, s, j).Some? ==> MatchAt(DirPattern, s, j).value == 2
  {
    LiteralsMatchAt(DirTokens, s, j);
    if DirAt(s, j) {
      var k :| 0 <= k < |DirTokens| && DirTokens[k] == s[j..j + 2];
      assert OccursAt(s, DirTokens[k], j);
    }
  }

  /** The direction label of a spin-echo fieldmap: the leftmost direction token, or `unknown`. */
  function DirLabel(acqLabel: string): (r: string)
    ensures r == "unknown" || r in DirTokens
    ensures r != "unknown" ==> exists i :: DirAt(acqLabel, i) && r == acqLabel[i..i + 2] &&
                                            forall j :: 0 <= j < i ==> !DirAt(acqLabel, j)
    ensures r == "unknown" <==> forall j :: !DirAt(acqLabel, j)
  {
    match Search(DirPattern, acqLabel)
    case Some((i, n)) =>
      DirMatchAt(acqLabel, i);
      assert forall j :: 0 <= j < i ==> !DirAt(acqLabel, j) by {
        forall j | 0 <= j < i ensures !DirAt(acqLabel, j) {
          DirMatchAt(acqLabel, j);
        }
      }
      assert acqLabel[i..i + n] != "unknown";
      acqLabel[i..i + n]
    case None =>
      assert forall j :: !DirAt(acqLabel, j) by {
        forall j | DirAt(acqLabel, j) ensures false {
          DirMatchAt(acqLabel, j);
        }
      }
      "unknown"
  }

  /**
   * The fieldmap description: `phasediff`, else `magnitude` for `mag`, otherwise whatever the
   * variable held from an earlier acquisition (`prior`); a spin-echo label then overrides all of
   * them with `dir-<X>_epi`. `None` is the source's unassigned variable.
   */
  function FieldmapDesc(acqLabel: string, prior: Option<string>): (r: Option<string>)
    ensures Contains(Lower(acqLabel), "spinecho") ==> r == Some("dir-" + DirLabel(acqLabel) + "_epi")
    ensures !Contains(Lower(acqLabel), "spinecho") && Contains(Lower(acqLabel), "phasediff") ==> r == Some("phasediff")
    ensures !Contains(Lower(acqLabel), "spinecho") && !Contains(Lower(acqLabel), "phasediff") && Contains(Lower(acqLabel), "mag") ==>
              r == Some("magnitude")
    ensures r.None? <==> (prior.None? && !Contains(Lower(acqLabel), "spinecho") &&
                          !Contains(Lower(acqLabel), "phasediff") && !Contains(Lower(acqLabel), "mag"))
  {
    var low := Lower(acqLabel);
    var desc := if Contains(low, "phasediff") then Some("phasediff")
                else if Contains(low, "mag") then Some("magnitude")
                else prior;
    if Contains(low, "spinecho") then Some("dir-" + DirLabel(acqLabel) + "_epi") else desc
  }

  // ---------------------------------------------------------------- run tokens

  /** `re.sub(r'(run)(\d)', r'_\1-\2', name)`. */
  const RunPattern: Pattern := [Branch(Literal("run") + [Digit], None)]
  const RunReplacement: seq<Piece> := [Text("_"), Group(0, 3), Text("-"), Group(3, 1)]

  function RunRewrite(name: string): string {
    Sub(RunPattern, RunReplacement, name)
  }

  /** `run` followed by a digit starts at `j`. */
  predicate RunTokenAt(s: string, j: nat) {
    OccursAt(s, "run", j) && j + 3 < |s| && IsDigit(s[j + 3])
  }

  lemma RunMatchAt(s: string, j: nat)
    requires j <= |s|
    ensures MatchAt(RunPattern, s, j).Some? <==> RunTokenAt(s, j)
    ensures MatchAt(RunPattern, s, j).Some? ==> MatchAt(RunPattern, s, j).value == 4
  {
    var ks := Literal("run") + [Digit];
    FixedLiteral("run", s, j);
    if FixedAt(ks, s, j) {
      assert FixedAt(Literal("run"), s, j) by {
        forall q | 0 <= q < 3 ensures InClass(s[j + q], Literal("run")[q]) {
          assert ks[q] == Literal("run")[q];
        }
      }
      assert InClass(s[j + 3], ks[3]);
    }
    if RunTokenAt(s, j) {
      assert FixedAt(Literal("run"), s, j);
      forall q | 0 <= q < 4 ensures InClass(s[j + q], ks[q]) {
        if q < 3 {
          assert ks[q] == Literal("run")[q];
        }
      }
    }
  }

  /** Without any `run<digit>` token an ASCII name is left as it is. */
  lemma RunRewriteNoToken(name: string)
    requires All(name, IsAscii)
    requires forall j :: 0 <= j < |name| ==> !RunTokenAt(name, j)
    ensures RunRewrite(name) == name
  {
    forall j | 0 <= j < |name| ensures MatchAt(RunPattern, name, j).None? {
      RunMatchAt(name, j);
    }
  }

  lemma NoRunMatchBefore(a: string, d: char, b: string)
    requires forall j :: 0 <= j < |a| ==> !RunTokenAt(a, j)
    ensures forall j :: 0 <= j < |a| ==> MatchAt(RunPattern, a + ("run" + [d] + b), j).None?
  {
    var s := a + ("run" + [d] + b);
    forall j | 0 <= j < |a| ensures MatchAt(RunPattern, s, j).None? {
      RunMatchAt(s, j);
      if j + 4 <= |a| {
        assert s[j..j + 3] == a[j..j + 3] && s[j + 3] == a[j + 3];
        assert RunTokenAt(s, j) == RunTokenAt(a, j);
      } else {
        assert s[|a|] == 'r';
        assert OccursAt(s, "run", j) ==> s[j] == 'r' && s[j + 1] == 'u' && s[j + 2] == 'n' by {
          if OccursAt(s, "run", j) {
            assert s[j..j + 3][0] == 'r' && s[j..j + 3][1] == 'u' && s[j..j + 3][2] == 'n';
          }
        }
        assert !RunTokenAt(s, j);
      }
    }
  }

  lemma RunLeadingMatch(d: char, b: string)
    requires IsDigit(d)
    ensures MatchAt(RunPattern, "run" + [d] + b, 0) == Some(4)
  {
    var s := "run" + [d] + b;
    RunMatchAt(s, 0);
    assert s[0..3] == "run";
  }

  lemma ExpandRun(d: char)
    ensures Expand(RunReplacement, "run" + [d]) == "_run-" + [d]
  {
    var m := "run" + [d];
    assert m[0..3] == "run" && m[3..4] == [d];
    calc {
      Expand(RunReplacement, m);
      "_" + Expand(RunReplacement[1..], m);
      "_" + "run" + Expand(RunReplacement[2..], m);
      "_" + "run" + "-" + Expand(RunReplacement[3..], m);
      "_" + "run" + "-" + [d] + Expand(RunReplacement[4..], m);
    }
  }

  /** The leftmost `run<d>` becomes `_run-<d>`; the ASCII text before it is kept and rewriting continues after it. */
  lemma RunRewriteToken(a: string, d: char, b: string)
    requires IsDigit(d)
    requires All(a, IsAscii)
    requires forall j :: 0 <= j < |a| ==> !RunTokenAt(a, j)
    ensures RunRewrite(a + "run" + [d] + b) == a + "_run-" + [d] + RunRewrite(b)
  {
    RunRewriteLeading(a, d, b);
  }

  /** `RunRewriteToken` over the model's character classes, for any text before the token. */
  lemma RunRewriteLeading(a: string, d: char, b: string)
    requires IsDigit(d)
    requires forall j :: 0 <= j < |a| ==> !RunTokenAt(a, j)
    ensures RunRewrite(a + "run" + [d] + b) == a + "_run-" + [d] + RunRewrite(b)
  {
    var m := "run" + [d];
    assert a + "run" + [d] + b == a + (m + b);
    assert m + b == "run" + [d] + b;
    NoRunMatchBefore(a, d, b);
    SubPrefix(RunPattern, RunReplacement, a, m + b);
    RunLeadingMatch(d, b);
    SubLeadingMatch(RunPattern, RunReplacement, m, b);
    ExpandRun(d);
  }

  // ---------------------------------------------------------------- renumbering suffixes

  const SuffixTokens: seq<string> := ["_T1w", "_bold", "_sbref"]

  /** `re.sub(r'(_T1w|_bold|_sbref)', r'_run-%d\1' % k, path)`. */
  const SuffixPattern: Pattern := Literals(SuffixTokens)

  function RunInsert(path: string, k: nat): string {
    Sub(SuffixPattern, [Text("_run-" + NatToString(k)), Whole], path)
  }

  /** One of the renumbered suffixes starts at `j`. */
  predicate SuffixAt(s: string, j: int) {
    OccursAt(s, "_T1w", j) || OccursAt(s, "_bold", j) || OccursAt(s, "_sbref", j)
  }

  /** No suffix starts before position `n`. */
  predicate NoSuffixBefore(s: string, n: int) {
    forall j :: 0 <= j < n ==> !SuffixAt(s, j)
  }

  lemma SuffixMatchAt(s: string, j: nat)
    requires j <= |s|
    ensures MatchAt(SuffixPattern, s, j).Some? <==> SuffixAt(s, j)
  {
    LiteralsMatchAt(SuffixTokens, s, j);
    if SuffixAt(s, j) {
      if OccursAt(s, "_T1w", j) {
        assert OccursAt(s, SuffixTokens[0], j);
      } else if OccursAt(s, "_bold", j) {
        assert OccursAt(s, SuffixTokens[1], j);
      } else {
        assert OccursAt(s, SuffixTokens[2], j);
      }
    }
  }

  /** A path without `_T1w`, `_bold` or `_sbref` is not renumbered. */
  lemma RunInsertOtherSuffix(path: string, k: nat)
    requires NoSuffixBefore(path, |path|)
    ensures RunInsert(path, k) == path
  {
    forall j | 0 <= j < |path| ensures MatchAt(SuffixPattern, path, j).None? {
      SuffixMatchAt(path, j);
    }
  }

  /** A suffix at the start of the text is matched whole. */
  lemma SuffixLeadingMatch(suffix: string, b: string)
    requires suffix in SuffixTokens
    ensures MatchAt(SuffixPattern, suffix + b, 0) == Some(|suffix|)
  {
    LiteralsMatchAt(SuffixTokens, suffix + b, 0);
    assert (suffix + b)[0..|suffix|] == suffix;
    assert OccursAt(suffix + b, suffix, 0);
    var q :| 0 <= q < |SuffixTokens| && OccursAt(suffix + b, SuffixTokens[q], 0) &&
             MatchAt(SuffixPattern, suffix + b, 0).value == |SuffixTokens[q]|;
    assert SuffixTokens[q][1] == (suffix + b)[1] == suffix[1];
  }

  /** The replacement puts `_run-<k>` before the matched suffix. */
  lemma ExpandRunSuffix(k: nat, suffix: string)
    ensures Expand([Text("_run-" + NatToString(k)), Whole], suffix) == "_run-" + NatToString(k) + suffix
  {
    var rep := [Text("_run-" + NatToString(k)), Whole];
    assert Expand(rep, suffix) == "_run-" + NatToString(k) + Expand(rep[1..], suffix);
    assert Expand(rep[1..], suffix) == suffix + Expand(rep[2..], suffix);
  }

  /** No suffix before the first one: the text ahead of it is copied. */
  lemma RunInsertPrefix(a: string, rest: string, k: nat)
    requires NoSuffixBefore(a + rest, |a|)
    ensures RunInsert(a + rest, k) == a + RunInsert(rest, k)
  {
    forall j | 0 <= j < |a| ensures MatchAt(SuffixPattern, a + rest, j).None? {
      SuffixMatchAt(a + rest, j);
    }
    SubPrefix(SuffixPattern, [Text("_run-" + NatToString(k)), Whole], a, rest);
  }

  /** A suffix at the start, with none after it, gets `_run-<k>` inserted before it. */
  lemma RunInsertLeading(suffix: string, b: string, k: nat)
    requires suffix in SuffixTokens
    requires NoSuffixBefore(b, |b|)
    ensures RunInsert(suffix + b, k) == "_run-" + NatToString(k) + suffix + b
  {
    SuffixLeadingMatch(suffix, b);
    SubLeadingMatch(SuffixPattern, [Text("_run-" + NatToString(k)), Whole], suffix, b);
    RunInsertOtherSuffix(b, k);
    ExpandRunSuffix(k, suffix);
  }

  /** The first suffix occurrence gets `_run-<k>` inserted right before it. */
  lemma RunInsertSuffix(a: string, suffix: string, b: string, k: nat)
    requires suffix in SuffixTokens
    requires NoSuffixBefore(a + suffix + b, |a|)
    requires NoSuffixBefore(b, |b|)
    ensures RunInsert(a + suffix + b, k) == a + "_run-" + NatToString(k) + suffix + b
  {
    JoinAssoc(a, suffix, b);
    RunInsertPrefix(a, suffix + b, k);
    RunInsertLeading(suffix, b, k);
    JoinAssoc(a, "_run-" + NatToString(k) + suffix, b);
    JoinAssoc(a, "_run-" + NatToString(k), suffix);
  }
}

=== FILE: outcomes.dfy ===
/** Failure-compatible wrappers shared by every module of the model. */
module Outcomes {

  /** A value that may be absent: a missing dictionary key, a failed regular-expression search. */
  datatype Option<+T> = None | Some(value: T) {

    predicate IsFailure() {
      None?
    }

    function PropagateFailure<U>(): Option<U>
      requires None?
    {
      None
    }

    function Extract(): T
      requires Some?
    {
      value
    }

    function GetOr(default: T): T {
      match this
      case Some(v) => v
      case None => default
    }
  }

  /** Either a value or the error the original program would raise (or exit with). */
  datatype Result<+R, +E> = Success(value: R) | Failure(error: E) {

    predicate IsFailure() {
      Failure?
    }

    function PropagateFailure<U>(): Result<U, E>
      requires Failure?
    {
      Failure(error)
    }

    function Extract(): R
      requires Success?
    {
      value
    }
  }
}

=== FILE: patterns.dfy ===
/**
 * The small fragment of Python's `re` module the program relies on: alternations of
 * fixed character classes optionally ending in one greedy `+` run, with leftmost-first
 * searching and left-to-right non-overlapping substitution.
 */
module Patterns {
  import opened Outcomes
  import opened Text

  /** One character position of a pattern. */
  datatype Class =
    | Lit(c: char)      // the character itself
    | NoCase(c: char)   // the character, ignoring ASCII case (`re.IGNORECASE`)
    | Dot               // `.`: any character except a newline
    | Digit             // `\d`
    | NonDigit          // `\D`
    | Alnum             // `[a-zA-Z0-9]`
    | NonAlnum          // `[^a-zA-Z0-9]`
    | Upper             // `[A-Z]`

  predicate InClass(c: char, k: Class) {
    match k
    case Lit(d) => c == d
    case NoCase(d) => LowerChar(c) == LowerChar(d)
    case Dot => c != '\n'
    case Digit => IsDigit(c)
    case NonDigit => !IsDigit(c)
    case Alnum => IsAlnum(c)
    case NonAlnum => !IsAlnum(c)
    case Upper => IsUpper(c)
  }

  /** One alternative: a fixed sequence of classes, then optionally a greedy `+` run of one class. */
  datatype Branch = Branch(fixed: seq<Class>, run: Option<Class>)

  /** Alternatives tried left to right at each position; the first that matches wins. */
  type Pattern = seq<Branch>

  /** Every alternative consumes at least one character, so substitution always advances. */
  predicate NonEmpty(p: Pattern) {
    forall k :: 0 <= k < |p| ==> |p[k].fixed| >= 1 || p[k].run.Some?
  }

  /** The pattern that matches the text `t` literally. */
  function Literal(t: string): (r: seq<Class>)
    ensures |r| == |t|
    ensures forall j :: 0 <= j < |t| ==> r[j] == Lit(t[j])
  {
    seq(|t|, j requires 0 <= j < |t| => Lit(t[j]))
  }

  /** The case-insensitive pattern for the text `t`. */
  function LiteralNoCase(t: string): (r: seq<Class>)
    ensures |r| == |t|
    ensures forall j :: 0 <= j < |t| ==> r[j] == NoCase(t[j])
  {
    seq(|t|, j requires 0 <= j < |t| => NoCase(t[j]))
  }

  /** The alternation `t1|t2|...` of literal texts. */
  function Literals(ts: seq<string>): (p: Pattern)
    ensures |p| == |ts|
    ensures forall k :: 0 <= k < |ts| ==> p[k] == Branch(Literal(ts[k]), None)
  {
    seq(|ts|, k requires 0 <= k < |ts| => Branch(Literal(ts[k]), None))
  }

  /** The classes `ks` match `s` position by position from index `i`. */
  predicate FixedAt(ks: seq<Class>, s: string, i: nat) {
    i + |ks| <= |s| && forall j :: 0 <= j < |ks| ==> InClass(s[i + j], ks[j])
  }

  lemma FixedLiteral(t: string, s: string, i: nat)
    ensures FixedAt(Literal(t), s, i) <==> OccursAt(s, t, i)
  {
    if FixedAt(Literal(t), s, i) {
      assert s[i..i + |t|] == t by {
        forall j | 0 <= j < |t| ensures s[i..i + |t|][j] == t[j] {
          assert InClass(s[i + j], Literal(t)[j]);
        }
      }
    }
    if OccursAt(s, t, i) {
      forall j | 0 <= j < |t| ensures InClass(s[i + j], Literal(t)[j]) {
        assert s[i..i + |t|][j] == t[j];
      }
    }
  }

  /** The length of the longest run of `k` characters starting at `i`. */
  function RunFrom(s: string, i: nat, k: Class): (n: nat)
    requires i <= |s|
    ensures i + n <= |s|
    ensures forall j :: i <= j < i + n ==> InClass(s[j], k)
    ensures i + n < |s| ==> !InClass(s[i + n], k)
    decreases |s| - i
  {
    if i < |s| && InClass(s[i], k) then 1 + RunFrom(s, i + 1, k) else 0
  }

  /** A run of `m` characters of class `k` that ends the string or is followed by another class is the whole run. */
  lemma RunFromExact(s: string, i: nat, k: Class, m: nat)
    requires i + m <= |s|
    requires forall j :: i <= j < i + m ==> InClass(s[j], k)
    requires i + m == |s| || !InClass(s[i + m], k)
    ensures RunFrom(s, i, k) == m
  {
    var n := RunFrom(s, i, k);
    if n != m {
      assert false;
    }
  }

  /** The length of the match of one alternative at `i`, if it matches there. */
  function BranchAt(b: Branch, s: string, i: nat): (r: Option<nat>)
    requires i <= |s|
    ensures r.Some? ==> i + r.value <= |s| && r.value >= |b.fixed|
    ensures r.Some? && b.run.None? ==> r.value == |b.fixed|
    ensures r.Some? && b.run.Some? ==> r.value > |b.fixed|
    ensures r.Some? <==> (FixedAt(b.fixed, s, i) &&
                          (b.run.Some? ==> i + |b.fixed| < |s| && InClass(s[i + |b.fixed|], b.run.value)))
  {
    if FixedAt(b.fixed, s, i) then
      match b.run
      case None => Some(|b.fixed|)
      case Some(k) =>
        var n := RunFrom(s, i + |b.fixed|, k);
        if n == 0 then None else Some(|b.fixed| + n)
    else None
  }

  /** Python's match of the whole alternation at `i`: the first alternative that matches decides. */
  function MatchAt(p: Pattern, s: string, i: nat): (r: Option<nat>)
    requires i <= |s|
    ensures r.Some? ==> i + r.value <= |s|
    ensures r.Some? && NonEmpty(p) ==> r.value >= 1
  {
    if |p| == 0 then None
    else
      match BranchAt(p[0], s, i)
      case Some(n) => Some(n)
      case None => MatchAt(p[1..], s, i)
  }

  /** The pattern `w` then `k+` matches `w + v` behind `a` when `v` is a non-empty run of `k` that `b` does not continue. */
  lemma LiteralRunAt(p: Pattern, w: string, k: Class, a: string, v: string, b: string)
    requires p == [Branch(Literal(w), Some(k))]
    requires |v| >= 1 && forall j :: 0 <= j < |v| ==> InClass(v[j], k)
    requires |b| == 0 || !InClass(b[0], k)
    ensures MatchAt(p, a + w + v + b, |a|) == Some(|w| + |v|)
  {
    LiteralRunParts(w, k, a, v, b);
    LiteralRunMatch(w, k, a + w + v + b, |a|, |v|);
  }

  /** Where `a + w + v + b` has `w` at `|a|`, followed by the run `v` that `b` does not continue. */
  lemma LiteralRunParts(w: string, k: Class, a: string, v: string, b: string)
    requires forall j :: 0 <= j < |v| ==> InClass(v[j], k)
    requires |b| == 0 || !InClass(b[0], k)
    ensures var s := a + w + v + b;
            OccursAt(s, w, |a|) &&
            (forall q :: |a| + |w| <= q < |a| + |w| + |v| ==> InClass(s[q], k)) &&
            (|a| + |w| + |v| == |s| || !InClass(s[|a| + |w| + |v|], k))
  {
    var s := a + w + v + b;
    var i := |a| + |w|;
    assert s[|a|..i] == w;
    forall q | i <= q < i + |v|
      ensures InClass(s[q], k)
    {
      assert s[q] == v[q - i];
    }
    if |b| > 0 {
      assert s[i + |v|] == b[0];
    }
  }

  /** `w` at `i` followed by a maximal run of `m >= 1` characters of class `k`: the pattern `w` then `k+` matches both. */
  lemma LiteralRunMatch(w: string, k: Class, s: string, i: nat, m: nat)
    requires i + |w| + m <= |s| && m >= 1
    requires OccursAt(s, w, i)
    requires forall q :: i + |w| <= q < i + |w| + m ==> InClass(s[q], k)
    requires i + |w| + m == |s| || !InClass(s[i + |w| + m], k)
    ensures MatchAt([Branch(Literal(w), Some(k))], s, i) == Some(|w| + m)
  {
    var p := [Branch(Literal(w), Some(k))];
    assert MatchAt(p, s, i) == BranchAt(p[0], s, i);
    FixedLiteral(w, s, i);
    RunFromExact(s, i + |w|, k, m);
  }

  /** A match of `w` then `k+` is `w` followed by a non-empty run of `k`. */
  lemma LiteralRunShape(w: string, k: Class, s: string, i: nat, n: nat)
    requires i <= |s| && MatchAt([Branch(Literal(w), Some(k))], s, i) == Some(n)
    ensures |w| < n && i + n <= |s| && OccursAt(s, w, i)
    ensures forall q :: i + |w| <= q < i + n ==> InClass(s[q], k)
  {
    var p := [Branch(Literal(w), Some(k))];
    assert MatchAt(p, s, i) == BranchAt(p[0], s, i);
    FixedLiteral(w, s, i);
  }

  /** The alternation matches exactly when some alternative does, and then with the length of the first such. */
  lemma {:induction false} MatchAtFirstBranch(p: Pattern, s: string, i: nat)
    requires i <= |s|
    ensures MatchAt(p, s, i).Some? <==> exists k :: 0 <= k < |p| && BranchAt(p[k], s, i).Some?
    ensures MatchAt(p, s, i).Some? ==>
      exists k :: 0 <= k < |p| && BranchAt(p[k], s, i) == MatchAt(p, s, i) &&
                  forall k' :: 0 <= k' < k ==> BranchAt(p[k'], s, i).None?
  {
    if |p| > 0 && BranchAt(p[0], s, i).None? {
      MatchAtFirstBranch(p[1..], s, i);
      assert forall k :: 1 <= k < |p| ==> p[k] == p[1..][k - 1];
      if MatchAt(p, s, i).Some? {
        var k :| 0 <= k < |p[1..]| && BranchAt(p[1..][k], s, i) == MatchAt(p, s, i) &&
                 forall k' :: 0 <= k' < k ==> BranchAt(p[1..][k'], s, i).None?;
        assert BranchAt(p[k + 1], s, i) == MatchAt(p, s, i);
      }
    }
  }

  /** An alternation of literal texts matches where one of them occurs, with the length of the first that does. */
  lemma {:induction false} LiteralsMatchAt(ts: seq<string>, s: string, i: nat)
    requires i <= |s|
    ensures MatchAt(Literals(ts), s, i).Some? <==> exists k :: 0 <= k < |ts| && OccursAt(s, ts[k], i)
    ensures MatchAt(Literals(ts), s, i).Some? ==>
      exists k :: 0 <= k < |ts| && OccursAt(s, ts[k], i) && MatchAt(Literals(ts), s, i).value == |ts[k]|
  {
    if |ts| > 0 {
      assert Literals(ts)[1..] == Literals(ts[1..]);
      FixedLiteral(ts[0], s, i);
      LiteralsMatchAt(ts[1..], s, i);
      assert forall k :: 1 <= k < |ts| ==> ts[k] == ts[1..][k - 1];
      if MatchAt(Literals(ts[1..]), s, i).Some? && !OccursAt(s, ts[0], i) {
        var k :| 0 <= k < |ts[1..]| && OccursAt(s, ts[1..][k], i) && MatchAt(Literals(ts[1..]), s, i).value == |ts[1..][k]|;
        assert OccursAt(s, ts[k + 1], i);
      }
    }
  }

  /** `re.search(p, s)` from index `from`: the leftmost position where the pattern matches, with its length. */
  function SearchFrom(p: Pattern, s: string, from: nat): (r: Option<(nat, nat)>)
    requires from <= |s|
    ensures r.Some? ==> from <= r.value.0 <= |s| && MatchAt(p, s, r.value.0) == Some(r.value.1)
    ensures r.Some? ==> forall j :: from <= j < r.value.0 ==> MatchAt(p, s, j).None?
    ensures r.None? ==> forall j :: from <= j <= |s| ==> MatchAt(p, s, j).None?
    decreases |s| - from
  {
    match MatchAt(p, s, from)
    case Some(n) => Some((from, n))
    case None => if from == |s| then None else SearchFrom(p, s, from + 1)
  }

  function Search(p: Pattern, s: string): (r: Option<(nat, nat)>)
    ensures r.Some? ==> r.value.0 + r.value.1 <= |s| && MatchAt(p, s, r.value.0) == Some(r.value.1)
    ensures r.Some? ==> forall j :: 0 <= j < r.value.0 ==> MatchAt(p, s, j).None?
    ensures r.Some? <==> exists j :: 0 <= j <= |s| && MatchAt(p, s, j).Some?
  {
    var r := SearchFrom(p, s, 0);
    assert r.Some? ==> MatchAt(p, s, r.value.0).Some?;
    r
  }

  /** The leftmost match is the one `re.search` reports. */
  lemma SearchFromFinds(p: Pattern, s: string, from: nat, i: nat, n: nat)
    requires from <= i <= |s| && MatchAt(p, s, i) == Some(n)
    requires forall j :: from <= j < i ==> MatchAt(p, s, j).None?
    ensures SearchFrom(p, s, from) == Some((i, n))
  {
    var r := SearchFrom(p, s, from);
    if r != Some((i, n)) {
      assert false;
    }
  }

  lemma SearchFinds(p: Pattern, s: string, i: nat, n: nat)
    requires i <= |s| && MatchAt(p, s, i) == Some(n)
    requires forall j :: 0 <= j < i ==> MatchAt(p, s, j).None?
    ensures Search(p, s) == Some((i, n))
  {
    SearchFromFinds(p, s, 0, i, n);
  }

  // ---------------------------------------------------------------- re.IGNORECASE

  /** A class under `re.IGNORECASE`: a literal character also matches its other ASCII case. */
  function IgnoreCaseClass(k: Class): Class {
    if k.Lit? then NoCase(k.c) else k
  }

  /** A character of the class is one of the class ignoring case; a literal then matches its other case too. */
  lemma IgnoreCaseClassWidens(c: char, k: Class)
    ensures InClass(c, k) ==> InClass(c, IgnoreCaseClass(k))
    ensures k.Lit? ==> (InClass(c, IgnoreCaseClass(k)) <==> LowerChar(c) == LowerChar(k.c))
  {
  }

  function IgnoreCaseBranch(b: Branch): (r: Branch)
    ensures |r.fixed| == |b.fixed| && r.run == b.run
    ensures forall j :: 0 <= j < |b.fixed| ==> r.fixed[j] == IgnoreCaseClass(b.fixed[j])
  {
    Branch(seq(|b.fixed|, j requires 0 <= j < |b.fixed| => IgnoreCaseClass(b.fixed[j])), b.run)
  }

  /** The pattern compiled with `re.IGNORECASE`: every literal character of every alternative ignores case. */
  function IgnoreCase(p: Pattern): (r: Pattern)
    ensures |r| == |p|
    ensures forall k :: 0 <= k < |p| ==> r[k] == IgnoreCaseBranch(p[k])
  {
    seq(|p|, k requires 0 <= k < |p| => IgnoreCaseBranch(p[k]))
  }

  /** Ignoring case only widens an alternative: where it matched before, it still matches. */
  lemma IgnoreCaseBranchWidens(b: Branch, s: string, i: nat)
    requires i <= |s| && BranchAt(b, s, i).Some?
    ensures BranchAt(IgnoreCaseBranch(b), s, i).Some?
  {
    var r := IgnoreCaseBranch(b);
    forall j | 0 <= j < |r.fixed| ensures InClass(s[i + j], r.fixed[j]) {
      assert InClass(s[i + j], b.fixed[j]);
      IgnoreCaseClassWidens(s[i + j], b.fixed[j]);
    }
  }

  /** Where an alternative `t` matches ignoring case, the text there lower-cases like `t`. */
  lemma IgnoreCaseLiteralAt(ts: seq<string>, k: nat, s: string, i: nat)
    requires k < |ts| && i <= |s| && BranchAt(IgnoreCase(Literals(ts))[k], s, i).Some?
    ensures i + |ts[k]| <= |s| && forall q :: 0 <= q < |ts[k]| ==> LowerChar(s[i + q]) == LowerChar(ts[k][q])
  {
    var b := IgnoreCase(Literals(ts))[k];
    forall q | 0 <= q < |ts[k]| ensures LowerChar(s[i + q]) == LowerChar(ts[k][q]) {
      assert b.fixed[q] == NoCase(ts[k][q]);
      assert InClass(s[i + q], b.fixed[q]);
    }
  }

  /** Ignoring case only widens a pattern: wherever it matched case-sensitively, it matches. */
  lemma IgnoreCaseWidens(p: Pattern, s: string, i: nat)
    requires i <= |s| && MatchAt(p, s, i).Some?
    ensures MatchAt(IgnoreCase(p), s, i).Some?
  {
    MatchAtFirstBranch(p, s, i);
    var k :| 0 <= k < |p| && BranchAt(p[k], s, i).Some?;
    IgnoreCaseBranchWidens(p[k], s, i);
    MatchAtFirstBranch(IgnoreCase(p), s, i);
  }

  /** A case-sensitive search that finds something finds something ignoring case too. */
  lemma SearchIgnoreCaseWidens(p: Pattern, s: string)
    requires Search(p, s).Some?
    ensures Search(IgnoreCase(p), s).Some?
  {
    var (i, _) := Search(p, s).value;
    IgnoreCaseWidens(p, s, i);
  }

  /** The text `re.search` reports as the match, if any. */
  function SearchText(p: Pattern, s: string): (r: Option<string>)
    ensures r.Some? ==> Contains(s, r.value)
  {
    match Search(p, s)
    case None => None
    case Some((i, n)) =>
      assert OccursAt(s, s[i..i + n], i);
      Some(s[i..i + n])
  }

  /** One piece of a replacement template. */
  datatype Piece =
    | Text(t: string)               // literal text
    | Group(start: nat, len: nat)   // a fixed-width group of the match, `\1`
    | Whole                         // the whole match, `\0` (or a group spanning it)
    | LowerWhole                    // the whole match lower-cased

  function ExpandPiece(piece: Piece, m: string): string {
    match piece
    case Text(t) => t
    case Group(a, n) => if a + n <= |m| then m[a..a + n] else ""
    case Whole => m
    case LowerWhole => Lower(m)
  }

  /** The replacement text for the match `m`. */
  function Expand(rep: seq<Piece>, m: string): string {
    if |rep| == 0 then "" else ExpandPiece(rep[0], m) + Expand(rep[1..], m)
  }

  /**
   * Where matches start and how long they are: entry `i` is the match at `i`, if any. Every
   * match is non-empty and ends inside the string.
   */
  predicate ValidTable(t: seq<Option<nat>>, s: string) {
    |t| == |s| && forall i :: 0 <= i < |t| && t[i].Some? ==> 1 <= t[i].value <= |s| - i
  }

  /** The match table of the pattern over `s`. */
  function Matches(p: Pattern, s: string): (t: seq<Option<nat>>)
    requires NonEmpty(p)
    ensures ValidTable(t, s)
  {
    MatchesFrom(p, s, 0)
  }

  /** The entries of the match table from index `i` on. */
  function MatchesFrom(p: Pattern, s: string, i: nat): (t: seq<Option<nat>>)
    requires NonEmpty(p) && i <= |s|
    ensures |t| == |s| - i
    ensures forall k :: 0 <= k < |t| && t[k].Some? ==> 1 <= t[k].value <= |s| - i - k
    decreases |s| - i
  {
    if i == |s| then [] else [MatchAt(p, s, i)] + MatchesFrom(p, s, i + 1)
  }

  lemma {:induction false} MatchesFromIndex(p: Pattern, s: string, i: nat, k: nat)
    requires NonEmpty(p) && i <= k < |s|
    ensures MatchesFrom(p, s, i)[k - i] == MatchAt(p, s, k)
    decreases k - i
  {
    if i < k {
      MatchesFromIndex(p, s, i + 1, k);
    }
  }

  /** Entry `k` of the table is the match at `k`. */
  lemma MatchesIndex(p: Pattern, s: string, k: nat)
    requires NonEmpty(p) && k < |s|
    ensures Matches(p, s)[k] == MatchAt(p, s, k)
  {
    MatchesFromIndex(p, s, 0, k);
  }

  /** The scan of `re.sub` over a match table: replace each match by `f` of it, copy every other character. */
  function SubTable(t: seq<Option<nat>>, f: string -> string, s: string, from: nat): string
    requires ValidTable(t, s) && from <= |s|
    decreases |s| - from
  {
    if from == |s| then ""
    else
      match t[from]
      case Some(n) => f(s[from..from + n]) + SubTable(t, f, s, from + n)
      case None => [s[from]] + SubTable(t, f, s, from + 1)
  }

  /** The replacement template as a function of the match. */
  function Expansion(rep: seq<Piece>): string -> string {
    m => Expand(rep, m)
  }

  /** `re.sub(p, rep, s[from..])`: scan left to right, replacing each match and copying every other character. */
  function SubFrom(p: Pattern, rep: seq<Piece>, s: string, from: nat): string
    requires NonEmpty(p)
    requires from <= |s|
  {
    SubTable(Matches(p, s), Expansion(rep), s, from)
  }

  function Sub(p: Pattern, rep: seq<Piece>, s: string): (r: string)
    requires NonEmpty(p)
    ensures (forall j :: 0 <= j < |s| ==> MatchAt(p, s, j).None?) ==> r == s
  {
    SubNoMatch(p, rep, s);
    SubFrom(p, rep, s, 0)
  }

  lemma SubNoMatch(p: Pattern, rep: seq<Piece>, s: string)
    requires NonEmpty(p)
    ensures (forall j :: 0 <= j < |s| ==> MatchAt(p, s, j).None?) ==> SubFrom(p, rep, s, 0) == s
  {
    if forall j :: 0 <= j < |s| ==> MatchAt(p, s, j).None? {
      SubSkip(p, rep, s, 0, |s|);
    }
  }

  /** Characters where no match starts are copied unchanged. */
  lemma {:induction false} TableSkip(t: seq<Option<nat>>, f: string -> string, s: string, from: nat, to: nat)
    requires ValidTable(t, s)
    requires from <= to <= |s|
    requires forall j :: from <= j < to ==> t[j].None?
    ensures SubTable(t, f, s, from) == s[from..to] + SubTable(t, f, s, to)
    decreases |s| - from
  {
    if from < to {
      var c, mid, rest := [s[from]], s[from + 1..to], SubTable(t, f, s, to);
      TableSkip(t, f, s, from + 1, to);
      TableCopyStep(t, f, s, from);
      JoinAssoc(c, mid, rest);
      assert s[from..to] == c + mid;
    }
  }

  /** Where the table holds no match, the character is copied and the scan moves on. */
  lemma TableCopyStep(t: seq<Option<nat>>, f: string -> string, s: string, from: nat)
    requires ValidTable(t, s) && from < |s| && t[from].None?
    ensures SubTable(t, f, s, from) == [s[from]] + SubTable(t, f, s, from + 1)
  {
  }

  lemma SubSkip(p: Pattern, rep: seq<Piece>, s: string, from: nat, to: nat)
    requires NonEmpty(p)
    requires from <= to <= |s|
    requires forall j :: from <= j < to ==> MatchAt(p, s, j).None?
    ensures SubFrom(p, rep, s, from) == s[from..to] + SubFrom(p, rep, s, to)
  {
    forall j | from <= j < to ensures Matches(p, s)[j].None? {
      MatchesIndex(p, s, j);
    }
    TableSkip(Matches(p, s), Expansion(rep), s, from, to);
  }

  /** A match at `from` is replaced and the scan resumes after it. */
  lemma SubMatch(p: Pattern, rep: seq<Piece>, s: string, from: nat, n: nat)
    requires NonEmpty(p)
    requires from < |s| && MatchAt(p, s, from) == Some(n)
    ensures from + n <= |s|
    ensures SubFrom(p, rep, s, from) == Expand(rep, s[from..from + n]) + SubFrom(p, rep, s, from + n)
  {
    MatchesIndex(p, s, from);
  }

  /** Where no match starts, the character is copied and the scan moves on. */
  lemma SubCopy(p: Pattern, rep: seq<Piece>, s: string, from: nat)
    requires NonEmpty(p)
    requires from < |s| && MatchAt(p, s, from).None?
    ensures SubFrom(p, rep, s, from) == [s[from]] + SubFrom(p, rep, s, from + 1)
  {
    MatchesIndex(p, s, from);
  }

  /** Python's `re.match(b + '$', s)` for one alternative: it matches from the start up to the end, or up to a final newline. */
  predicate MatchesToEnd(b: Branch, s: string) {
    var m := BranchAt(b, s, 0);
    m.Some? && (m.value == |s| || (m.value == |s| - 1 && s[|s| - 1] == '\n'))
  }

  // ---------------------------------------------------------------- matching only looks forward

  lemma {:induction false} RunFromShift(x: string, y: string, i: nat, j: nat, k: Class)
    requires j <= |y| && i == |x| + j
    ensures RunFrom(x + y, i, k) == RunFrom(y, j, k)
    decreases |y| - j
  {
    if j < |y| {
      assert (x + y)[i] == y[j];
      RunFromShift(x, y, i + 1, j + 1, k);
    }
  }

  /** Matching at `i` of `x + y` is matching at `j` of `y`: a match never looks behind its start. */
  lemma MatchAtShift(p: Pattern, x: string, y: string, i: nat, j: nat)
    requires j <= |y| && i == |x| + j
    ensures MatchAt(p, x + y, i) == MatchAt(p, y, j)
  {
    forall b: Branch ensures BranchAt(b, x + y, i) == BranchAt(b, y, j) {
      assert FixedAt(b.fixed, x + y, i) <==> FixedAt(b.fixed, y, j) by {
        if i + |b.fixed| <= |x + y| {
          assert forall q :: i <= q < i + |b.fixed| ==> (x + y)[q] == y[q - |x|];
        }
      }
      if b.run.Some? && j + |b.fixed| <= |y| {
        RunFromShift(x, y, i + |b.fixed|, j + |b.fixed|, b.run.value);
      }
    }
    MatchAtBranchwise(p, x + y, i, y, j);
  }

  lemma {:induction false} MatchAtBranchwise(p: Pattern, s: string, i: nat, t: string, j: nat)
    requires i <= |s| && j <= |t|
    requires forall b: Branch :: BranchAt(b, s, i) == BranchAt(b, t, j)
    ensures MatchAt(p, s, i) == MatchAt(p, t, j)
  {
    if |p| > 0 {
      MatchAtBranchwise(p[1..], s, i, t, j);
    }
  }

  /** Scans over two tables and texts that agree past an offset `d` agree from the same place on. */
  lemma {:induction false} TableShift(t: seq<Option<nat>>, u: seq<Option<nat>>, f: string -> string,
                                      s: string, r: string, d: nat, i: nat, j: nat)
    requires ValidTable(t, s) && ValidTable(u, r)
    requires |s| == d + |r| && j <= |r| && i == d + j
    requires forall q :: d <= q < |s| ==> t[q] == u[q - d]
    requires forall q :: d <= q < |s| ==> s[q] == r[q - d]
    ensures SubTable(t, f, s, i) == SubTable(u, f, r, j)
    decreases |r| - j
  {
    if j < |r| {
      var n := Advance(u, j);
      assert j + n <= |r|;
      TableShift(t, u, f, s, r, d, i + n, j + n);
      ShiftStep(t, u, f, s, r, d, i, j);
    }
  }

  /** How far a scan moves on from `j`: past the match there, else past one character. */
  function Advance(u: seq<Option<nat>>, j: nat): nat
    requires j < |u|
  {
    if u[j].Some? then u[j].value else 1
  }

  /** One step of `TableShift`: scans that agree after corresponding places agree from them. */
  lemma ShiftStep(t: seq<Option<nat>>, u: seq<Option<nat>>, f: string -> string,
                  s: string, r: string, d: nat, i: nat, j: nat)
    requires ValidTable(t, s) && ValidTable(u, r)
    requires |s| == d + |r| && j < |r| && i == d + j && j + Advance(u, j) <= |r|
    requires forall q :: d <= q < |s| ==> t[q] == u[q - d]
    requires forall q :: d <= q < |s| ==> s[q] == r[q - d]
    requires SubTable(t, f, s, i + Advance(u, j)) == SubTable(u, f, r, j + Advance(u, j))
    ensures SubTable(t, f, s, i) == SubTable(u, f, r, j)
  {
    assert t[i] == u[j] && s[i] == r[j];
    if u[j].Some? {
      ShiftMatchStep(t, u, f, s, r, d, i, j, u[j].value);
    } else {
      ShiftCopyStep(t, u, f, s, r, i, j);
    }
  }

  /** The same copied character in front of scans that agree gives scans that agree. */
  lemma ShiftCopyStep(t: seq<Option<nat>>, u: seq<Option<nat>>, f: string -> string, s: string, r: string, i: nat, j: nat)
    requires ValidTable(t, s) && ValidTable(u, r)
    requires i < |s| && j < |r| && t[i].None? && u[j].None? && s[i] == r[j]
    requires SubTable(t, f, s, i + 1) == SubTable(u, f, r, j + 1)
    ensures SubTable(t, f, s, i) == SubTable(u, f, r, j)
  {
    TableCopyStep(t, f, s, i);
    TableCopyStep(u, f, r, j);
  }

  /** The same match at corresponding places, in front of scans that agree, gives scans that agree. */
  lemma ShiftMatchStep(t: seq<Option<nat>>, u: seq<Option<nat>>, f: string -> string,
                       s: string, r: string, d: nat, i: nat, j: nat, n: nat)
    requires ValidTable(t, s) && ValidTable(u, r)
    requires |s| == d + |r| && j < |r| && i == d + j
    requires t[i] == Some(n) && u[j] == Some(n)
    requires forall q :: d <= q < |s| ==> s[q] == r[q - d]
    requires SubTable(t, f, s, i + n) == SubTable(u, f, r, j + n)
    ensures SubTable(t, f, s, i) == SubTable(u, f, r, j)
  {
    TableMatchStep(t, f, s, i, n);
    TableMatchStep(u, f, r, j, n);
    SliceShift(s, r, d, i, j, n);
  }

  lemma SliceShift(s: string, r: string, d: nat, i: nat, j: nat, n: nat)
    requires |s| == d + |r| && i == d + j && j + n <= |r|
    requires forall q :: d <= q < |s| ==> s[q] == r[q - d]
    ensures s[i..i + n] == r[j..j + n]
  {
    var a, b := s[i..i + n], r[j..j + n];
    forall k | 0 <= k < n ensures a[k] == b[k] {
      assert s[i + k] == r[i + k - d];
    }
  }

  /** Where the table holds a match, it is replaced and the scan resumes after it. */
  lemma TableMatchStep(t: seq<Option<nat>>, f: string -> string, s: string, from: nat, n: nat)
    requires ValidTable(t, s) && from < |s| && t[from] == Some(n)
    ensures from + n <= |s|
    ensures SubTable(t, f, s, from) == f(s[from..from + n]) + SubTable(t, f, s, from + n)
  {
  }

  /** `TableShift` from the end of `x` in `x + y`. */
  lemma TableShiftAll(t: seq<Option<nat>>, u: seq<Option<nat>>, f: string -> string, x: string, y: string)
    requires ValidTable(t, x + y) && ValidTable(u, y)
    requires forall q :: |x| <= q < |x + y| ==> t[q] == u[q - |x|] && (x + y)[q] == y[q - |x|]
    ensures SubTable(t, f, x + y, |x|) == SubTable(u, f, y, 0)
  {
    TableShift(t, u, f, x + y, y, |x|, |x|, 0);
  }

  /** The match table of `x + y` past `x` is the table of `y`. */
  lemma MatchesShift(p: Pattern, x: string, y: string)
    requires NonEmpty(p)
    ensures forall q :: |x| <= q < |x + y| ==> Matches(p, x + y)[q] == Matches(p, y)[q - |x|] && (x + y)[q] == y[q - |x|]
  {
    forall q | |x| <= q < |x + y| ensures Matches(p, x + y)[q] == Matches(p, y)[q - |x|] {
      MatchesIndex(p, x + y, q);
      MatchesIndex(p, y, q - |x|);
      MatchAtShift(p, x, y, q, q - |x|);
    }
  }

  /** Substitution from `|x|` of `x + y` is substitution over `y`. */
  lemma SubFromShift(p: Pattern, rep: seq<Piece>, x: string, y: string)
    requires NonEmpty(p)
    ensures SubFrom(p, rep, x + y, |x|) == SubFrom(p, rep, y, 0)
  {
    var t, u := Matches(p, x + y), Matches(p, y);
    MatchesShift(p, x, y);
    TableShiftAll(t, u, Expansion(rep), x, y);
  }

  /** A prefix in which no match starts passes through substitution unchanged. */
  lemma SubPrefix(p: Pattern, rep: seq<Piece>, a: string, b: string)
    requires NonEmpty(p)
    requires forall j :: 0 <= j < |a| ==> MatchAt(p, a + b, j).None?
    ensures Sub(p, rep, a + b) == a + Sub(p, rep, b)
  {
    SubSkip(p, rep, a + b, 0, |a|);
    assert (a + b)[0..|a|] == a;
    SubFromShift(p, rep, a, b);
  }

  /** A match at the very start is replaced, and substitution continues on the rest. */
  lemma SubLeadingMatch(p: Pattern, rep: seq<Piece>, m: string, b: string)
    requires NonEmpty(p)
    requires |m| >= 1 && MatchAt(p, m + b, 0) == Some(|m|)
    ensures Sub(p, rep, m + b) == Expand(rep, m) + Sub(p, rep, b)
  {
    var s := m + b;
    assert s[0..|m|] == m;
    SubMatch(p, rep, s, 0, |m|);
    SubFromShift(p, rep, m, b);
    assert SubFrom(p, rep, s, |m|) == SubFrom(p, rep, b, 0);
    assert Sub(p, rep, s) == SubFrom(p, rep, s, 0);
  }
}

=== FILE: project_label.dfy ===
/**
 * `handle_project_label` of the upload client: where a BIDS directory tree, read into nested
 * dictionaries (each directory a dictionary whose `files` entry lists its files), is placed in
 * Flywheel. A tree whose top holds `sub-` directories is one project's contents and needs the
 * project label from the command line; a tree whose one top directory holds them is a project
 * and is named after it unless the command line renames it. Source data may be dropped, and
 * the upload may be narrowed to one subject and one of its sessions.
 */
module ProjectLabel {
  import opened Outcomes
  import opened Text
  import opened Json

  /** One directory's entries: sub-directories as objects, `files` as a list. */
  type Tree = map<string, Value>

  /** The empty file list a directory made up by the upload gets. */
  const NoFiles: Value := List([])

  predicate IsSubject(key: string) {
    StartsWith(key, "sub-")
  }

  predicate HasSubject(tree: Tree) {
    exists key :: key in tree && IsSubject(key)
  }

  /** `key` is the one entry at the top of `tree`, and it is a directory holding subjects. */
  predicate ProjectDir(tree: Tree, key: string) {
    tree.Keys == {key} && key != "files" && tree[key].Obj? && HasSubject(tree[key].fields)
  }

  /** What the top of the tree is. */
  datatype Level = SubjectLevel | ProjectLevel(project: string) | Undetermined

  lemma SingleKey(keys: set<string>)
    requires |keys| == 1
    ensures forall a, b :: a in keys && b in keys ==> a == b
  {
    forall a, b | a in keys && b in keys ensures a == b {
      assert |keys - {a}| == 0;
      assert b in keys - {a} || b == a;
    }
  }

  function LevelOf(tree: Tree): (l: Level)
    ensures l == SubjectLevel <==> HasSubject(tree)
    ensures l.ProjectLevel? ==> !HasSubject(tree) && ProjectDir(tree, l.project)
  {
    if HasSubject(tree) then SubjectLevel
    else
      if |tree| == 1 then
        SingleKey(tree.Keys);
        var key :| key in tree;
        if key != "files" && tree[key].Obj? && HasSubject(tree[key].fields) then ProjectLevel(key) else Undetermined
      else Undetermined
  }

  /** The level is undetermined exactly when the top holds no subject and is no project directory. */
  lemma LevelUndetermined(tree: Tree)
    ensures LevelOf(tree) == Undetermined <==> !HasSubject(tree) && forall key :: key in tree ==> !ProjectDir(tree, key)
  {
    if !HasSubject(tree) && LevelOf(tree) == Undetermined {
      forall key | key in tree ensures !ProjectDir(tree, key) {
        if ProjectDir(tree, key) {
          SingleKey(tree.Keys);
        }
      }
    }
  }

  /** A project directory is the level's project. */
  lemma ProjectLevelOf(tree: Tree, key: string)
    requires !HasSubject(tree) && ProjectDir(tree, key)
    ensures LevelOf(tree) == ProjectLevel(key)
  {
    SingleKey(tree.Keys);
  }

  // ---------------------------------------------------------------- placing the tree

  /** The project label, the project's contents, and the directory the upload is read from. */
  datatype Placed = Placed(project: string, content: Tree, rootdir: string)

  /**
   * The project a tree is uploaded to. At subject level the command-line label is needed, the
   * top's own files are not uploaded, and the root moves up to the parent directory; at
   * project level the command-line label, if given, replaces the directory's name.
   */
  function Place(tree: Tree, cli: Option<string>, rootdir: string): (r: Result<Placed, string>)
    ensures r.Failure? <==> LevelOf(tree) == Undetermined || (HasSubject(tree) && !Given(cli))
    ensures r.Success? && Given(cli) ==> r.value.project == cli.value
    ensures r.Success? && HasSubject(tree) ==>
              r.value.content.Keys == tree.Keys + {"files"} && r.value.content["files"] == NoFiles &&
              (forall key :: key in tree && key != "files" ==> r.value.content[key] == tree[key]) &&
              r.value.rootdir == Dirname(rootdir)
    ensures r.Success? && !HasSubject(tree) ==>
              (exists key :: ProjectDir(tree, key) && r.value.content == tree[key].fields &&
                 r.value.project == (if Given(cli) then cli.value else key) && r.value.rootdir == rootdir)
  {
    match LevelOf(tree)
    case SubjectLevel =>
      if Given(cli) then Success(Placed(cli.value, tree["files" := NoFiles], Dirname(rootdir)))
      else Failure("project label cannot be determined: the tree is one project's contents")
    case ProjectLevel(key) =>
      Success(Placed(if Given(cli) then cli.value else key, tree[key].fields, rootdir))
    case Undetermined =>
      Failure("project label cannot be determined: no project directory holds subjects")
  }

  /** The contents without `sourcedata`, unless source data is uploaded too. */
  function DropSource(content: Tree, includeSource: bool): (r: Tree)
    ensures r.Keys == if includeSource then content.Keys else content.Keys - {"sourcedata"}
    ensures forall key :: key in r ==> r[key] == content[key]
  {
    if includeSource then content else content - {"sourcedata"}
  }

  /** The session asked for is one the subject directory holds. */
  predicate HasSession(subject: Value, session: string) {
    subject.Obj? && session in subject.fields
  }

  /**
   * The contents narrowed to one subject, and inside it to one session; each directory kept
   * only for the narrowing gets an empty file list. Asking for a subject or session the tree
   * lacks is an error.
   */
  function Select(content: Tree, subject: Option<string>, session: Option<string>): (r: Result<Tree, string>)
    ensures r.Failure? <==> (Given(subject) &&
              (subject.value !in content || (Given(session) && !HasSession(content[subject.value], session.value))))
    ensures r.Success? && !Given(subject) ==> r.value == content
    ensures r.Success? && Given(subject) ==>
              r.value.Keys == {subject.value, "files"} && r.value["files"] == NoFiles
    ensures r.Success? && Given(subject) && subject.value != "files" && !Given(session) ==>
              r.value[subject.value] == content[subject.value]
    ensures r.Success? && Given(subject) && subject.value != "files" && Given(session) && session.value != "files" ==>
              r.value[subject.value].Obj? && r.value[subject.value].fields.Keys == {session.value, "files"} &&
              r.value[subject.value].fields[session.value] == content[subject.value].fields[session.value] &&
              r.value[subject.value].fields["files"] == NoFiles
  {
    if !Given(subject) then Success(content)
    else if subject.value !in content then Failure("subject " + subject.value + " not found")
    else
      var sub := content[subject.value];
      if !Given(session) then Success(map[subject.value := sub, "files" := NoFiles])
      else if !HasSession(sub, session.value) then Failure("session " + session.value + " not found")
      else
        var narrowed := Obj(map[session.value := sub.fields[session.value], "files" := NoFiles]);
        Success(map[subject.value := narrowed, "files" := NoFiles])
  }

  /** The tree to upload, under its project label, and the directory its paths are relative to. */
  datatype Upload = Upload(tree: Tree, rootdir: string)

  function HandleProjectLabel(tree: Tree, cli: Option<string>, rootdir: string, includeSource: bool,
                              subject: Option<string>, session: Option<string>): (r: Result<Upload, string>)
    ensures r.Success? <==> (Place(tree, cli, rootdir).Success? &&
              Select(DropSource(Place(tree, cli, rootdir).value.content, includeSource), subject, session).Success?)
    ensures r.Success? ==> |r.value.tree| == 1 && Place(tree, cli, rootdir).value.project in r.value.tree
    ensures r.Success? ==> r.value.rootdir == Place(tree, cli, rootdir).value.rootdir
  {
    var placed :- Place(tree, cli, rootdir);
    var content :- Select(DropSource(placed.content, includeSource), subject, session);
    Success(Upload(map[placed.project := Obj(content)], placed.rootdir))
  }

  // ---------------------------------------------------------------- properties

  /** A project tree uploaded whole, under its own name, comes back unchanged. */
  lemma ProjectUnchanged(tree: Tree, rootdir: string, includeSource: bool, key: string)
    requires !HasSubject(tree) && ProjectDir(tree, key)
    requires includeSource || "sourcedata" !in tree[key].fields
    ensures HandleProjectLabel(tree, None, rootdir, includeSource, None, None) == Success(Upload(tree, rootdir))
  {
    ProjectLevelOf(tree, key);
    assert DropSource(tree[key].fields, includeSource) == tree[key].fields;
    assert map[key := Obj(tree[key].fields)] == tree;
  }

  /** A command-line label renames the project directory; its contents are uploaded as they are. */
  lemma ProjectRenamed(tree: Tree, cli: string, rootdir: string, includeSource: bool, key: string)
    requires !HasSubject(tree) && ProjectDir(tree, key) && cli != ""
    requires includeSource || "sourcedata" !in tree[key].fields
    ensures HandleProjectLabel(tree, Some(cli), rootdir, includeSource, None, None) ==
            Success(Upload(map[cli := tree[key]], rootdir))
  {
    ProjectLevelOf(tree, key);
    assert DropSource(tree[key].fields, includeSource) == tree[key].fields;
  }

  /**
   * A subject-level tree is wrapped in a project named on the command line: every directory
   * is kept, the top's files are not uploaded, and the paths are read from the parent directory.
   */
  lemma SubjectWrapped(tree: Tree, cli: string, rootdir: string, includeSource: bool)
    requires HasSubject(tree) && cli != ""
    requires includeSource || "sourcedata" !in tree
    ensures HandleProjectLabel(tree, Some(cli), rootdir, includeSource, None, None) ==
            Success(Upload(map[cli := Obj(tree["files" := NoFiles])], Dirname(rootdir)))
  {
    assert DropSource(tree["files" := NoFiles], includeSource) == tree["files" := NoFiles];
  }

  /** Without the flag, `sourcedata` is not uploaded and everything else of the project is. */
  lemma SourceDropped(tree: Tree, cli: Option<string>, rootdir: string)
    requires HandleProjectLabel(tree, cli, rootdir, false, None, None).Success?
    ensures var r := HandleProjectLabel(tree, cli, rootdir, false, None, None).value;
            var placed := Place(tree, cli, rootdir).value;
            r.tree[placed.project].Obj? &&
            r.tree[placed.project].fields.Keys == placed.content.Keys - {"sourcedata"} &&
            forall key :: key in placed.content && key != "sourcedata" ==>
              r.tree[placed.project].fields[key] == placed.content[key]
  {
  }

  /** The project label cannot be determined: the upload stops. */
  lemma Undeterminable(tree: Tree, cli: Option<string>, rootdir: string, includeSource: bool,
                       subject: Option<string>, session: Option<string>)
    requires (!HasSubject(tree) && forall key :: key in tree ==> !ProjectDir(tree, key)) ||
             (HasSubject(tree) && !Given(cli))
    ensures HandleProjectLabel(tree, cli, rootdir, includeSource, subject, session).Failure?
  {
    LevelUndetermined(tree);
  }

  /** Narrowing adds no entry but the file lists. */
  lemma SelectAvoids(content: Tree, subject: Option<string>, session: Option<string>, key: string)
    requires Select(content, subject, session).Success?
    requires key !in content && key != "files"
    ensures key !in Select(content, subject, session).value
  {
  }

  /**
   * Uploading what was placed once more, with no label or narrowing, changes nothing, unless
   * the project's label is `files` or reads as a subject, or no subject is left in it.
   */
  lemma HandleTwice(tree: Tree, cli: Option<string>, rootdir: string, includeSource: bool,
                    subject: Option<string>, session: Option<string>, r: Upload, project: string)
    requires HandleProjectLabel(tree, cli, rootdir, includeSource, subject, session) == Success(r)
    requires project in r.tree && project != "files" && !IsSubject(project) && HasSubject(r.tree[project].fields)
    ensures HandleProjectLabel(r.tree, None, r.rootdir, includeSource, None, None) == Success(r)
  {
    var placed := Place(tree, cli, rootdir).value;
    var kept := DropSource(placed.content, includeSource);
    var content := Select(kept, subject, session).value;
    assert r.tree == map[placed.project := Obj(content)];
    if !includeSource {
      SelectAvoids(kept, subject, session, "sourcedata");
    }
    ProjectUnchanged(r.tree, r.rootdir, includeSource, project);
  }
}

=== FILE: project_label_examples.dfy ===
/**
 * The upload client's placements of a directory tree. The directories' own contents are left
 * as parameters: placing a tree never looks inside its sub-directories, so each example holds
 * for whatever files `code1`, `sub-01` or `ses-02` hold.
 */
module ProjectLabelExamples {
  import opened Outcomes
  import opened Text
  import opened Json
  import opened ProjectLabel

  /** A dataset's top directory: its files, two code directories and subject `sub-01`. */
  function Dataset(files: Value, code1: Value, code2: Value, sub1: Value): Tree {
    map["files" := files, "code1" := code1, "code2" := code2, "sub-01" := sub1]
  }

  lemma DatasetHasSubject(files: Value, code1: Value, code2: Value, sub1: Value)
    ensures HasSubject(Dataset(files, code1, code2, sub1))
  {
    assert IsSubject("sub-01");
  }

  /** A key whose `i`th character differs from the subject prefix's is no subject. */
  lemma NotSubjectAt(key: string, i: nat)
    requires i < 4 && i < |key| && key[i] != "sub-"[i]
    ensures !IsSubject(key)
  {
    if |key| >= 4 {
      assert key[..4][i] == key[i];
    }
  }

  /** A group directory above the project: no label can be determined. */
  lemma GroupFails(project: Tree, rootdir: string)
    ensures HandleProjectLabel(map["group_id" := Obj(map["project_label" := Obj(project)])], None, rootdir, false, None, None).Failure?
  {
    var tree := map["group_id" := Obj(map["project_label" := Obj(project)])];
    NotSubjectAt("group_id", 0);
    NotSubjectAt("project_label", 0);
    assert !HasSubject(map["project_label" := Obj(project)]);
    assert !HasSubject(tree);
    Undeterminable(tree, None, rootdir, false, None, None);
  }

  /** A project directory with no label given is uploaded as it is. */
  lemma ProjectWithoutLabel(files: Value, code1: Value, code2: Value, sub1: Value)
    ensures var tree := map["project_label" := Obj(Dataset(files, code1, code2, sub1))];
            HandleProjectLabel(tree, None, "/root", false, None, None) == Success(Upload(tree, "/root"))
  {
    DatasetHasSubject(files, code1, code2, sub1);
    NotSubjectAt("project_label", 0);
    ProjectUnchanged(map["project_label" := Obj(Dataset(files, code1, code2, sub1))], "/root", false, "project_label");
  }

  /** A project directory with a label given is renamed. */
  lemma ProjectWithLabel(files: Value, code1: Value, code2: Value, sub1: Value)
    ensures HandleProjectLabel(map["project_label" := Obj(Dataset(files, code1, code2, sub1))],
                               Some("new_project_label"), "/root", false, None, None) ==
            Success(Upload(map["new_project_label" := Obj(Dataset(files, code1, code2, sub1))], "/root"))
  {
    DatasetHasSubject(files, code1, code2, sub1);
    NotSubjectAt("project_label", 0);
    ProjectRenamed(map["project_label" := Obj(Dataset(files, code1, code2, sub1))], "new_project_label", "/root", false, "project_label");
  }

  /** A project's contents with no label given: no label can be determined. */
  lemma SubjectsWithoutLabel(files: Value, code1: Value, code2: Value, sub1: Value, rootdir: string)
    ensures HandleProjectLabel(Dataset(files, code1, code2, sub1), None, rootdir, false, None, None).Failure?
  {
    DatasetHasSubject(files, code1, code2, sub1);
  }

  /** A project's contents with a label given: wrapped under it, files emptied, read from the parent. */
  lemma SubjectsWithLabel(files: Value, code1: Value, code2: Value, sub1: Value, rootdir: string)
    ensures HandleProjectLabel(Dataset(files, code1, code2, sub1), Some("new_project_label"), rootdir, false, None, None) ==
            Success(Upload(map["new_project_label" := Obj(Dataset(NoFiles, code1, code2, sub1))], Dirname(rootdir)))
  {
    DatasetHasSubject(files, code1, code2, sub1);
    SubjectWrapped(Dataset(files, code1, code2, sub1), "new_project_label", rootdir, false);
    FilesEmptied(files, code1, code2, sub1);
  }

  lemma FilesEmptied(files: Value, code1: Value, code2: Value, sub1: Value)
    ensures Dataset(files, code1, code2, sub1)["files" := NoFiles] == Dataset(NoFiles, code1, code2, sub1)
  {
  }

  /** A subject directory `/<dir>/<name>`, such as `/root/sub-01`, is read from `/<dir>`. */
  lemma TopParent(dir: string, name: string)
    requires dir != "" && '/' !in dir && '/' !in name
    ensures Dirname("/" + dir + "/" + name) == "/" + dir
  {
    DirnameOfChild("/" + dir, name);
    assert ("/" + dir)[1] == dir[0];
    assert !Slashes("/" + dir);
    assert TrimRight("/" + dir, '/') == "/" + dir;
  }

  /** A tree of files alone: no label can be determined. */
  lemma FilesOnlyFails(files: Value, rootdir: string)
    ensures HandleProjectLabel(map["files" := files], None, rootdir, false, None, None).Failure?
  {
    NotSubjectAt("files", 0);
    assert !HasSubject(map["files" := files]);
  }

  /** A project whose dataset also holds `sourcedata`. */
  function WithSource(files: Value, code1: Value, code2: Value, sub1: Value, source: Value): Tree {
    map["project_label" := Obj(Dataset(files, code1, code2, sub1)["sourcedata" := source])]
  }

  /** Source data is uploaded with the flag set, and dropped without it. */
  lemma SourceData(files: Value, code1: Value, code2: Value, sub1: Value, source: Value)
    ensures HandleProjectLabel(WithSource(files, code1, code2, sub1, source), None, "/root", true, None, None) ==
            Success(Upload(WithSource(files, code1, code2, sub1, source), "/root"))
    ensures HandleProjectLabel(WithSource(files, code1, code2, sub1, source), None, "/root", false, None, None) ==
            Success(Upload(map["project_label" := Obj(Dataset(files, code1, code2, sub1))], "/root"))
  {
    var tree := WithSource(files, code1, code2, sub1, source);
    DatasetHasSubject(files, code1, code2, sub1);
    assert "sub-01" in tree["project_label"].fields;
    NotSubjectAt("project_label", 0);
    ProjectUnchanged(tree, "/root", true, "project_label");
    ProjectLevelOf(tree, "project_label");
    assert DropSource(tree["project_label"].fields, false) == Dataset(files, code1, code2, sub1);
  }

  /** A dataset with subjects `sub-02` and `sub-01`. */
  function TwoSubjects(files: Value, code1: Value, code2: Value, sub2: Value, sub1: Value): Tree {
    map["files" := files, "code1" := code1, "code2" := code2, "sub-02" := sub2, "sub-01" := sub1]
  }

  /** Asking for a subject the tree lacks stops the upload. */
  lemma SubjectNotFound(files: Value, code1: Value, code2: Value, sub1: Value, rootdir: string)
    ensures HandleProjectLabel(Dataset(files, code1, code2, sub1), Some("new_project_label"), rootdir, false,
                               Some("sub-03"), None).Failure?
  {
    DatasetHasSubject(files, code1, code2, sub1);
  }

  /** Asking for one subject uploads that subject alone. */
  lemma SingleSubject(files: Value, code1: Value, code2: Value, sub2: Value, sub1: Value, rootdir: string)
    ensures HandleProjectLabel(TwoSubjects(files, code1, code2, sub2, sub1), Some("new_project_label"), rootdir, false,
                               Some("sub-02"), None) ==
            Success(Upload(map["new_project_label" := Obj(map["sub-02" := sub2, "files" := NoFiles])], Dirname(rootdir)))
  {
    var tree := TwoSubjects(files, code1, code2, sub2, sub1);
    assert "sub-02" in tree && IsSubject("sub-02");
    var content := tree["files" := NoFiles];
    SubjectsPlaced(tree, "new_project_label", rootdir);
    assert DropSource(content, false) == content;
    assert content["sub-02"] == sub2;
  }

  /** A tree of subjects with a label given is wrapped under the label. */
  lemma SubjectsPlaced(tree: Tree, cli: string, rootdir: string)
    requires HasSubject(tree) && cli != ""
    ensures Place(tree, Some(cli), rootdir) == Success(Placed(cli, tree["files" := NoFiles], Dirname(rootdir)))
  {
  }

  /** A subject holding sessions `ses-01` and `ses-02`. */
  function Sessions(ses1: Value, ses2: Value): Value {
    Obj(map["ses-01" := ses1, "ses-02" := ses2])
  }

  /** Asking for a session the subject lacks stops the upload. */
  lemma SessionNotFound(files: Value, code1: Value, code2: Value, ses1: Value, ses2: Value, rootdir: string)
    ensures HandleProjectLabel(Dataset(files, code1, code2, Sessions(ses1, ses2)), Some("new_project_label"), rootdir, false,
                               Some("sub-01"), Some("ses-03")).Failure?
  {
    DatasetHasSubject(files, code1, code2, Sessions(ses1, ses2));
  }

  /** Asking for one session of one subject uploads that session alone. */
  lemma SingleSession(files: Value, code1: Value, code2: Value, ses1: Value, ses2: Value, rootdir: string)
    ensures HandleProjectLabel(Dataset(files, code1, code2, Sessions(ses1, ses2)), Some("new_project_label"), rootdir, false,
                               Some("sub-01"), Some("ses-02")) ==
            Success(Upload(map["new_project_label" :=
                      Obj(map["sub-01" := Obj(map["ses-02" := ses2, "files" := NoFiles]), "files" := NoFiles])], Dirname(rootdir)))
  {
    var tree := Dataset(files, code1, code2, Sessions(ses1, ses2));
    DatasetHasSubject(files, code1, code2, Sessions(ses1, ses2));
    var content := tree["files" := NoFiles];
    SubjectsPlaced(tree, "new_project_label", rootdir);
    assert DropSource(content, false) == content;
    assert content["sub-01"] == Sessions(ses1, ses2);
  }

  /** A project directory with two subjects and a label given is placed under that label. */
  lemma ProjectOfTwoSubjects(files: Value, sub1: Value, sub2: Value)
    ensures HandleProjectLabel(map["7t_trt_reduced" := Obj(map["files" := files, "sub-01" := sub1, "sub-02" := sub2])],
                               Some("new_project_label"), "/root", false, None, None) ==
            Success(Upload(map["new_project_label" := Obj(map["files" := files, "sub-01" := sub1, "sub-02" := sub2])], "/root"))
  {
    var tree := map["7t_trt_reduced" := Obj(map["files" := files, "sub-01" := sub1, "sub-02" := sub2])];
    assert IsSubject("sub-01");
    NotSubjectAt("7t_trt_reduced", 0);
    ProjectRenamed(tree, "new_project_label", "/root", false, "7t_trt_reduced");
  }
}

=== FILE: resolver.dfy ===
/**
 * `process_string_template`: expand `<required>`, `{deferred}` and `[optional]` parts of a
 * naming template against a context. The template string is taken already split into its
 * parts; `Render` gives back the string.
 */
module Resolver {
  import opened Outcomes
  import opened Text
  import opened Json

  /** One part of a template: literal text, `<a.b>` or `{a.b}`. */
  datatype Piece = Lit(text: string) | Required(path: Path) | Deferred(path: Path)

  /** Text outside brackets, or one flat `[...]` segment. */
  datatype Group = Plain(pieces: seq<Piece>) | Optional(pieces: seq<Piece>)

  type Template = seq<Group>

  function RenderPiece(p: Piece): string {
    match p
    case Lit(t) => t
    case Required(path) => "<" + Join(path, '.') + ">"
    case Deferred(path) => "{" + Join(path, '.') + "}"
  }

  function RenderPieces(ps: seq<Piece>): string
    decreases |ps|
  {
    if |ps| == 0 then "" else RenderPiece(ps[0]) + RenderPieces(ps[1..])
  }

  /** The template string the parts were read from. */
  function Render(t: Template): string
    decreases |t|
  {
    if |t| == 0 then ""
    else
      var g := t[0];
      (if g.Plain? then RenderPieces(g.pieces) else "[" + RenderPieces(g.pieces) + "]") + Render(t[1..])
  }

  // ---------------------------------------------------------------- entity prefixes

  /** The number of alphanumeric characters immediately before index `j`. */
  function AlnumRunBefore(t: string, j: nat): (n: nat)
    requires j <= |t|
    ensures n <= j
  {
    if j == 0 || !IsAlnum(t[j - 1]) then 0 else 1 + AlnumRunBefore(t, j - 1)
  }

  /** The run is maximal: alphanumerics all the way, and a non-alphanumeric (or the start) before it. */
  lemma {:induction false} AlnumRun(t: string, j: nat)
    requires j <= |t|
    ensures forall k :: j - AlnumRunBefore(t, j) <= k < j ==> IsAlnum(t[k])
    ensures AlnumRunBefore(t, j) < j ==> !IsAlnum(t[j - AlnumRunBefore(t, j) - 1])
  {
    if j > 0 && IsAlnum(t[j - 1]) {
      AlnumRun(t, j - 1);
    }
  }

  /** The `label-` that ends a literal, such as `sub-` in `sub-` or `ses-` in `_ses-`; empty if there is none. */
  function EntityPrefix(t: string): (e: string)
    ensures EndsWith(t, e)
  {
    if |t| == 0 || t[|t| - 1] != '-' then ""
    else
      var n := AlnumRunBefore(t, |t| - 1);
      if n == 0 then "" else t[|t| - 1 - n..]
  }

  /** A non-empty entity prefix is an alphanumeric label followed by a dash. */
  lemma EntityPrefixShape(t: string)
    ensures var e := EntityPrefix(t);
      e != "" ==> |e| >= 2 && e[|e| - 1] == '-' && All(e[..|e| - 1], IsAlnum)
  {
    if |t| > 0 && t[|t| - 1] == '-' {
      AlnumRun(t, |t| - 1);
      var e := EntityPrefix(t);
      assert e != "" ==> e[..|e| - 1] == t[|t| - 1 - AlnumRunBefore(t, |t| - 1)..|t| - 1];
    }
  }

  /** The entity prefix of `pre + word + "-"` is `word + "-"` when `word` is alphanumeric and `pre` does not end in an alphanumeric. */
  lemma EntityPrefixOfLabel(pre: string, word: string)
    requires |word| >= 1 && All(word, IsAlnum)
    requires |pre| == 0 || !IsAlnum(pre[|pre| - 1])
    ensures EntityPrefix(pre + word + "-") == word + "-"
  {
    LabelRun(pre, word);
    EntityPrefixOfRun(pre + word + "-", |word|);
    LabelSuffix(pre, word);
  }

  lemma LabelSuffix(pre: string, word: string)
    ensures (pre + word + "-")[|pre|..] == word + "-"
  {
    assert pre + word + "-" == pre + (word + "-");
  }

  /** The alphanumeric run before the dash of `pre + word + "-"` is exactly `word`. */
  lemma LabelRun(pre: string, word: string)
    requires |word| >= 1 && All(word, IsAlnum)
    requires |pre| == 0 || !IsAlnum(pre[|pre| - 1])
    ensures AlnumRunBefore(pre + word + "-", |pre| + |word|) == |word|
  {
    var t := pre + word + "-";
    assert t[|pre|..|pre| + |word|] == word;
    if |pre| > 0 {
      assert t[|pre| - 1] == pre[|pre| - 1];
    }
    AlnumRunBeforeExact(t, |pre| + |word|, |word|);
  }

  /** A dash after a run of `n > 0` alphanumerics makes those characters and the dash the entity prefix. */
  lemma EntityPrefixOfRun(t: string, n: nat)
    requires |t| > 0 && t[|t| - 1] == '-'
    requires AlnumRunBefore(t, |t| - 1) == n && n > 0
    ensures EntityPrefix(t) == t[|t| - 1 - n..]
  {
  }

  /** A run of `m` alphanumerics ending before `j`, with none before it, is the whole run. */
  lemma {:induction false} AlnumRunBeforeExact(t: string, j: nat, m: nat)
    requires m <= j <= |t|
    requires All(t[j - m..j], IsAlnum)
    requires j == m || !IsAlnum(t[j - m - 1])
    ensures AlnumRunBefore(t, j) == m
    decreases m
  {
    if m > 0 {
      var run := t[j - m..j];
      assert IsAlnum(t[j - 1]) by {
        assert t[j - 1] == run[m - 1];
      }
      assert t[j - 1 - (m - 1)..j - 1] == run[..m - 1];
      var head := run[..m - 1];
      forall i | 0 <= i < m - 1
        ensures IsAlnum(head[i])
      {
        assert head[i] == run[i];
      }
      AlnumRunBeforeExact(t, j - 1, m - 1);
    }
  }

  /** A value that already carries the entity prefix written before it, like `sub-01` after `sub-`. */
  predicate Prefixed(t: string, v: string) {
    EntityPrefix(t) != "" && StartsWith(v, EntityPrefix(t))
  }

  /** A value that carries an entity prefix contains a dash, so a value without one never does. */
  lemma PrefixedHasDash(t: string, v: string)
    ensures Prefixed(t, v) ==> '-' in v
  {
    if Prefixed(t, v) {
      EntityPrefixShape(t);
      var e := EntityPrefix(t);
      assert v[|e| - 1] == e[|e| - 1];
    }
  }

  // ---------------------------------------------------------------- resolution

  /** The value of a placeholder; `None` when it is absent, `None`, empty or a container. */
  function Lookup(p: Piece, ctx: Value): (r: Option<string>)
    requires !p.Lit?
  {
    Scalar(Get(ctx, p.path))
  }

  /** A literal loses its trailing entity prefix when the value written after it already starts with it. */
  function LitText(t: string, next: Option<string>): (r: string)
    ensures r == t || r + EntityPrefix(t) == t
    ensures next.Some? && Prefixed(t, next.value) ==> r + EntityPrefix(t) == t && |r| < |t|
  {
    if next.Some? && Prefixed(t, next.value) then
      var e := EntityPrefix(t);
      assert t[..|t| - |e|] + e == t;
      t[..|t| - |e|]
    else t
  }

  /** The value of the placeholder at `i`, if the part there is a placeholder that has one. */
  function NextValue(ps: seq<Piece>, i: nat, ctx: Value): Option<string> {
    if i < |ps| && !ps[i].Lit? then Lookup(ps[i], ctx) else None
  }

  /** The text of the part at `i`, `None` for a placeholder without a value. */
  function PieceText(ps: seq<Piece>, i: nat, ctx: Value): Option<string>
    requires i < |ps|
  {
    match ps[i]
    case Lit(t) => Some(LitText(t, NextValue(ps, i + 1, ctx)))
    case _ => Lookup(ps[i], ctx)
  }

  /** Outside brackets: each part's text, or the placeholder verbatim when it has no value. */
  function PlainText(ps: seq<Piece>, i: nat, ctx: Value): string
    requires i <= |ps|
    decreases |ps| - i
  {
    if i == |ps| then ""
    else
      PieceText(ps, i, ctx).GetOr(RenderPiece(ps[i])) + PlainText(ps, i + 1, ctx)
  }

  /** Inside brackets: the concatenated texts, or nothing as soon as one placeholder has no value. */
  function OptionalText(ps: seq<Piece>, i: nat, ctx: Value): (r: Option<string>)
    requires i <= |ps|
    decreases |ps| - i
  {
    if i == |ps| then Some("")
    else
      var head := PieceText(ps, i, ctx);
      var rest := OptionalText(ps, i + 1, ctx);
      if head.None? || rest.None? then None else Some(head.value + rest.value)
  }

  /** Every part from `i` on has a text. */
  predicate AllFound(ps: seq<Piece>, i: nat, ctx: Value)
    requires i <= |ps|
  {
    forall k :: i <= k < |ps| ==> PieceText(ps, k, ctx).Some?
  }

  /** An optional segment is dropped exactly when one of its placeholders has no value. */
  lemma {:induction false} OptionalTextFound(ps: seq<Piece>, i: nat, ctx: Value)
    requires i <= |ps|
    ensures OptionalText(ps, i, ctx).Some? <==> AllFound(ps, i, ctx)
    decreases |ps| - i
  {
    if i < |ps| {
      OptionalTextFound(ps, i + 1, ctx);
      OptionalTextStep(ps, i, ctx);
      AllFoundStep(ps, i, ctx);
    }
  }

  lemma OptionalTextStep(ps: seq<Piece>, i: nat, ctx: Value)
    requires i < |ps|
    ensures OptionalText(ps, i, ctx).Some? <==> PieceText(ps, i, ctx).Some? && OptionalText(ps, i + 1, ctx).Some?
  {
  }

  lemma AllFoundStep(ps: seq<Piece>, i: nat, ctx: Value)
    requires i < |ps|
    ensures AllFound(ps, i, ctx) <==> PieceText(ps, i, ctx).Some? && AllFound(ps, i + 1, ctx)
  {
  }

  function GroupText(g: Group, ctx: Value): string {
    match g
    case Plain(ps) => PlainText(ps, 0, ctx)
    case Optional(ps) => OptionalText(ps, 0, ctx).GetOr("")
  }

  /** `process_string_template(template, context)`. */
  function Resolve(t: Template, ctx: Value): string
    decreases |t|
  {
    if |t| == 0 then "" else GroupText(t[0], ctx) + Resolve(t[1..], ctx)
  }

  // ---------------------------------------------------------------- properties

  /** Groups resolve independently: dropping one optional segment leaves the rest of the text alone. */
  lemma {:induction false} ResolveConcat(a: Template, b: Template, ctx: Value)
    ensures Resolve(a + b, ctx) == Resolve(a, ctx) + Resolve(b, ctx)
    decreases |a|
  {
    if |a| > 0 {
      assert (a + b)[0] == a[0];
      assert (a + b)[1..] == a[1..] + b;
      ResolveConcat(a[1..], b, ctx);
      var g := GroupText(a[0], ctx);
      assert Resolve(a + b, ctx) == g + (Resolve(a[1..], ctx) + Resolve(b, ctx));
      assert g + (Resolve(a[1..], ctx) + Resolve(b, ctx)) == (g + Resolve(a[1..], ctx)) + Resolve(b, ctx);
    } else {
      assert a + b == b;
    }
  }

  /** An optional segment with a placeholder that has no value contributes nothing. */
  lemma OptionalDropped(ps: seq<Piece>, ctx: Value, k: nat)
    requires k < |ps| && !ps[k].Lit? && Lookup(ps[k], ctx).None?
    ensures GroupText(Optional(ps), ctx) == ""
  {
    assert PieceText(ps, k, ctx).None?;
    OptionalTextFound(ps, 0, ctx);
  }

  /** An optional segment whose placeholders all have values is its plain text with the brackets removed. */
  lemma {:induction false} OptionalKept(ps: seq<Piece>, i: nat, ctx: Value)
    requires i <= |ps|
    requires forall k :: i <= k < |ps| && !ps[k].Lit? ==> Lookup(ps[k], ctx).Some?
    ensures OptionalText(ps, i, ctx) == Some(PlainText(ps, i, ctx))
    decreases |ps| - i
  {
    if i < |ps| {
      OptionalKept(ps, i + 1, ctx);
      assert PieceText(ps, i, ctx).Some?;
    }
  }

  /** Outside brackets a placeholder without a value stays in the output exactly as written. */
  lemma PlainVerbatim(ps: seq<Piece>, i: nat, ctx: Value)
    requires i < |ps| && !ps[i].Lit? && Lookup(ps[i], ctx).None?
    ensures PlainText(ps, i, ctx) == RenderPiece(ps[i]) + PlainText(ps, i + 1, ctx)
  {
  }

  /** The text a part stands for when every value is present and no prefix repeats: a reference definition. */
  function Substituted(ps: seq<Piece>, ctx: Value): string
    decreases |ps|
  {
    if |ps| == 0 then ""
    else
      (match ps[0]
       case Lit(t) => t
       case _ => Lookup(ps[0], ctx).GetOr(RenderPiece(ps[0]))) + Substituted(ps[1..], ctx)
  }

  /** No literal is followed by a value that repeats its entity prefix. */
  predicate NoRepeatedPrefix(ps: seq<Piece>, ctx: Value) {
    forall i :: 0 <= i < |ps| - 1 && ps[i].Lit? && !ps[i + 1].Lit? && Lookup(ps[i + 1], ctx).Some? ==>
      !Prefixed(ps[i].text, Lookup(ps[i + 1], ctx).value)
  }

  /** Without repeated prefixes, plain text is plain substitution. */
  lemma {:induction false} PlainIsSubstitution(ps: seq<Piece>, i: nat, ctx: Value)
    requires i <= |ps|
    requires NoRepeatedPrefix(ps, ctx)
    ensures PlainText(ps, i, ctx) == Substituted(ps[i..], ctx)
    decreases |ps| - i
  {
    if i < |ps| {
      PlainIsSubstitution(ps, i + 1, ctx);
      PlainStep(ps, i, ctx);
    }
  }

  /** One part of `PlainIsSubstitution`: a part in front of text that is plain substitution. */
  lemma PlainStep(ps: seq<Piece>, i: nat, ctx: Value)
    requires i < |ps| && NoRepeatedPrefix(ps, ctx)
    requires PlainText(ps, i + 1, ctx) == Substituted(ps[i + 1..], ctx)
    ensures PlainText(ps, i, ctx) == Substituted(ps[i..], ctx)
  {
    assert ps[i..][1..] == ps[i + 1..] && ps[i..][0] == ps[i];
    if ps[i].Lit? {
      LitUnprefixed(ps, i, ctx);
    }
  }

  /** Without repeated prefixes a literal is kept whole. */
  lemma LitUnprefixed(ps: seq<Piece>, i: nat, ctx: Value)
    requires i < |ps| && ps[i].Lit? && NoRepeatedPrefix(ps, ctx)
    ensures PieceText(ps, i, ctx) == Some(ps[i].text)
  {
    var next := NextValue(ps, i + 1, ctx);
    if next.Some? {
      assert !Prefixed(ps[i].text, Lookup(ps[i + 1], ctx).value);
    }
  }

  /** A literal followed by a value that starts with the literal's entity prefix: the prefix is written once. */
  lemma PrefixWrittenOnce(t: string, p: Piece, rest: seq<Piece>, ctx: Value)
    requires !p.Lit? && Lookup(p, ctx).Some? && Prefixed(t, Lookup(p, ctx).value)
    ensures PlainText([Lit(t)] + [p] + rest, 0, ctx) ==
            t[..|t| - |EntityPrefix(t)|] + Lookup(p, ctx).value + PlainText([Lit(t)] + [p] + rest, 2, ctx)
  {
    var ps := [Lit(t)] + [p] + rest;
    var v := Lookup(p, ctx).value;
    var head := t[..|t| - |EntityPrefix(t)|];
    assert ps[0] == Lit(t) && ps[1] == p;
    assert NextValue(ps, 1, ctx) == Some(v);
    assert PieceText(ps, 0, ctx) == Some(head);
    assert PieceText(ps, 1, ctx) == Some(v);
    assert PlainText(ps, 1, ctx) == v + PlainText(ps, 2, ctx);
    JoinAssoc(head, v, PlainText(ps, 2, ctx));
  }

  /** The concatenation of a list of texts. */
  function Concat(ts: seq<string>): string
    decreases |ts|
  {
    if |ts| == 0 then "" else ts[0] + Concat(ts[1..])
  }

  /** The parts from `i` on have the texts `ts`, one each. */
  predicate KnownTexts(ps: seq<Piece>, i: nat, ctx: Value, ts: seq<string>)
    requires i <= |ps| && |ts| == |ps| - i
    decreases |ps| - i
  {
    i == |ps| || (PieceText(ps, i, ctx) == Some(ts[0]) && KnownTexts(ps, i + 1, ctx, ts[1..]))
  }

  /** A part's text in front of the texts known after it. */
  lemma KnownTextsCons(ps: seq<Piece>, i: nat, ctx: Value, t: string, ts: seq<string>)
    requires i < |ps| && |ts| == |ps| - i - 1
    requires PieceText(ps, i, ctx) == Some(t) && KnownTexts(ps, i + 1, ctx, ts)
    ensures KnownTexts(ps, i, ctx, [t] + ts)
  {
    assert ([t] + ts)[1..] == ts;
  }

  /** Outside brackets, parts with known texts give their concatenation. */
  lemma {:induction false} PlainTexts(ps: seq<Piece>, i: nat, ctx: Value, ts: seq<string>)
    requires i <= |ps| && |ts| == |ps| - i
    requires KnownTexts(ps, i, ctx, ts)
    ensures PlainText(ps, i, ctx) == Concat(ts)
    decreases |ps| - i
  {
    if i < |ps| {
      PlainTexts(ps, i + 1, ctx, ts[1..]);
      PlainTextStep(ps, i, ctx, ts);
    }
  }

  lemma PlainTextStep(ps: seq<Piece>, i: nat, ctx: Value, ts: seq<string>)
    requires i < |ps| && |ts| == |ps| - i
    requires KnownTexts(ps, i, ctx, ts)
    requires PlainText(ps, i + 1, ctx) == Concat(ts[1..])
    ensures PlainText(ps, i, ctx) == Concat(ts)
  {
  }

  /** Inside brackets, parts with known texts give their concatenation, and the segment is kept. */
  lemma {:induction false} OptionalTexts(ps: seq<Piece>, i: nat, ctx: Value, ts: seq<string>)
    requires i <= |ps| && |ts| == |ps| - i
    requires KnownTexts(ps, i, ctx, ts)
    ensures OptionalText(ps, i, ctx) == Some(Concat(ts))
    decreases |ps| - i
  {
    if i < |ps| {
      OptionalTexts(ps, i + 1, ctx, ts[1..]);
      OptionalTextsStep(ps, i, ctx, ts);
    }
  }

  lemma OptionalTextsStep(ps: seq<Piece>, i: nat, ctx: Value, ts: seq<string>)
    requires i < |ps| && |ts| == |ps| - i
    requires KnownTexts(ps, i, ctx, ts)
    requires OptionalText(ps, i + 1, ctx) == Some(Concat(ts[1..]))
    ensures OptionalText(ps, i, ctx) == Some(Concat(ts))
  {
  }

  /** A template's text is the concatenation of its groups' texts. */
  lemma {:induction false} ResolveGroups(t: Template, ctx: Value, ts: seq<string>)
    requires |ts| == |t|
    requires forall k :: 0 <= k < |t| ==> GroupText(t[k], ctx) == ts[k]
    ensures Resolve(t, ctx) == Concat(ts)
    decreases |t|
  {
    if |t| > 0 {
      ResolveGroups(t[1..], ctx, ts[1..]);
    }
  }
}

=== FILE: resolver_examples.dfy ===
/** The naming-template cases of the BIDS client's test suite, stated over the resolver. */
module ResolverExamples {
  import opened Outcomes
  import opened Text
  import opened Json
  import opened Resolver

  /** The file context shared by the cases, with the given subject, session, file and extension. */
  function FileContext(subject: Value, session: Value, file: Value, ext: Value): Value {
    Obj(map[
      "container_type" := Str("file"),
      "parent_container_type" := Str("project"),
      "project" := Obj(map["label" := Str("project123")]),
      "subject" := subject,
      "session" := session,
      "acquisition" := Obj(map["label" := Str("acq222")]),
      "file" := file,
      "ext" := ext])
  }

  const SubjectCode: Path := ["subject", "code"]
  const SessionLabel: Path := ["session", "label"]
  const AcquisitionLabel: Path := ["acquisition", "label"]

  // ---------------------------------------------------------------- unfolding steps

  lemma SinglePlain(ps: seq<Piece>, ctx: Value)
    ensures Resolve([Plain(ps)], ctx) == PlainText(ps, 0, ctx)
  {
    assert [Plain(ps)][1..] == [];
  }

  lemma ConcatTwo(a: string, b: string)
    ensures Concat([a, b]) == a + b
  {
    assert [a, b][1..] == [b];
    assert [b][1..] == [];
    assert Concat([b]) == b + Concat([]);
    assert Concat([a, b]) == a + Concat([b]);
  }

  lemma ConcatThree(a: string, b: string, c: string)
    ensures Concat([a, b, c]) == a + (b + c)
  {
    assert [a, b, c][1..] == [b, c];
    ConcatTwo(b, c);
  }

  lemma ConcatFour(a: string, b: string, c: string, d: string)
    ensures Concat([a, b, c, d]) == a + (b + (c + d))
  {
    assert [a, b, c, d][1..] == [b, c, d];
    ConcatThree(b, c, d);
  }

  lemma ConcatFive(a: string, b: string, c: string, d: string, e: string)
    ensures Concat([a, b, c, d, e]) == a + (b + (c + (d + e)))
  {
    assert [a, b, c, d, e][1..] == [b, c, d, e];
    ConcatFour(b, c, d, e);
  }

  lemma ConcatSeven(a: string, b: string, c: string, d: string, e: string, f: string, g: string)
    ensures Concat([a, b, c, d, e, f, g]) == a + (b + (c + (d + (e + (f + g)))))
  {
    assert [a, b, c, d, e, f, g][1..] == [b, c, d, e, f, g];
    assert [b, c, d, e, f, g][1..] == [c, d, e, f, g];
    ConcatFive(c, d, e, f, g);
  }

  lemma KnownTwo(ps: seq<Piece>, ctx: Value, a: string, b: string)
    requires |ps| == 2 && PieceText(ps, 0, ctx) == Some(a) && PieceText(ps, 1, ctx) == Some(b)
    ensures KnownTexts(ps, 0, ctx, [a, b])
  {
    KnownTextsCons(ps, 1, ctx, b, []);
    KnownTextsCons(ps, 0, ctx, a, [b]);
  }

  lemma PlainTwoTexts(ps: seq<Piece>, ctx: Value, a: string, b: string)
    requires |ps| == 2 && PieceText(ps, 0, ctx) == Some(a) && PieceText(ps, 1, ctx) == Some(b)
    ensures PlainText(ps, 0, ctx) == a + b
  {
    KnownTwo(ps, ctx, a, b);
    PlainTexts(ps, 0, ctx, [a, b]);
    ConcatTwo(a, b);
  }

  lemma OptionalTwoTexts(ps: seq<Piece>, ctx: Value, a: string, b: string)
    requires |ps| == 2 && PieceText(ps, 0, ctx) == Some(a) && PieceText(ps, 1, ctx) == Some(b)
    ensures OptionalText(ps, 0, ctx) == Some(a + b)
  {
    KnownTwo(ps, ctx, a, b);
    OptionalTexts(ps, 0, ctx, [a, b]);
    ConcatTwo(a, b);
  }

  lemma KnownFour(ps: seq<Piece>, ctx: Value, a: string, b: string, c: string, d: string)
    requires |ps| == 4
    requires PieceText(ps, 0, ctx) == Some(a) && PieceText(ps, 1, ctx) == Some(b)
    requires PieceText(ps, 2, ctx) == Some(c) && PieceText(ps, 3, ctx) == Some(d)
    ensures KnownTexts(ps, 0, ctx, [a, b, c, d])
  {
    KnownTextsCons(ps, 3, ctx, d, []);
    KnownTextsCons(ps, 2, ctx, c, [d]);
    KnownTextsCons(ps, 1, ctx, b, [c, d]);
    KnownTextsCons(ps, 0, ctx, a, [b, c, d]);
  }

  lemma PlainFourTexts(ps: seq<Piece>, ctx: Value, a: string, b: string, c: string, d: string)
    requires |ps| == 4
    requires PieceText(ps, 0, ctx) == Some(a) && PieceText(ps, 1, ctx) == Some(b)
    requires PieceText(ps, 2, ctx) == Some(c) && PieceText(ps, 3, ctx) == Some(d)
    ensures PlainText(ps, 0, ctx) == a + (b + (c + d))
  {
    KnownFour(ps, ctx, a, b, c, d);
    PlainTexts(ps, 0, ctx, [a, b, c, d]);
    ConcatFour(a, b, c, d);
  }

  lemma KnownFive(ps: seq<Piece>, ctx: Value, a: string, b: string, c: string, d: string, e: string)
    requires |ps| == 5
    requires PieceText(ps, 0, ctx) == Some(a) && PieceText(ps, 1, ctx) == Some(b) && PieceText(ps, 2, ctx) == Some(c)
    requires PieceText(ps, 3, ctx) == Some(d) && PieceText(ps, 4, ctx) == Some(e)
    ensures KnownTexts(ps, 0, ctx, [a, b, c, d, e])
  {
    KnownTextsCons(ps, 4, ctx, e, []);
    KnownTextsCons(ps, 3, ctx, d, [e]);
    KnownTextsCons(ps, 2, ctx, c, [d, e]);
    KnownTextsCons(ps, 1, ctx, b, [c, d, e]);
    KnownTextsCons(ps, 0, ctx, a, [b, c, d, e]);
  }

  lemma PlainFiveTexts(ps: seq<Piece>, ctx: Value, a: string, b: string, c: string, d: string, e: string)
    requires |ps| == 5
    requires PieceText(ps, 0, ctx) == Some(a) && PieceText(ps, 1, ctx) == Some(b) && PieceText(ps, 2, ctx) == Some(c)
    requires PieceText(ps, 3, ctx) == Some(d) && PieceText(ps, 4, ctx) == Some(e)
    ensures PlainText(ps, 0, ctx) == a + (b + (c + (d + e)))
  {
    KnownFive(ps, ctx, a, b, c, d, e);
    PlainTexts(ps, 0, ctx, [a, b, c, d, e]);
    ConcatFive(a, b, c, d, e);
  }

  lemma ResolveTwo(g: Group, h: Group, ctx: Value)
    ensures Resolve([g, h], ctx) == GroupText(g, ctx) + GroupText(h, ctx)
  {
    ResolveGroups([g, h], ctx, [GroupText(g, ctx), GroupText(h, ctx)]);
    ConcatTwo(GroupText(g, ctx), GroupText(h, ctx));
  }

  lemma ResolveThree(g: Group, h: Group, i: Group, ctx: Value)
    ensures Resolve([g, h, i], ctx) == GroupText(g, ctx) + (GroupText(h, ctx) + GroupText(i, ctx))
  {
    var ts := [GroupText(g, ctx), GroupText(h, ctx), GroupText(i, ctx)];
    var t := [g, h, i];
    forall k | 0 <= k < |t| ensures GroupText(t[k], ctx) == ts[k] {
      if k == 0 {} else if k == 1 {} else {}
    }
    ResolveGroups(t, ctx, ts);
    ConcatThree(ts[0], ts[1], ts[2]);
  }

  /** A placeholder's text is its looked-up value. */
  lemma ValueText(ps: seq<Piece>, i: nat, ctx: Value, v: Option<string>)
    requires i < |ps| && !ps[i].Lit? && Lookup(ps[i], ctx) == v
    ensures PieceText(ps, i, ctx) == v
  {
  }

  /** A literal is kept whole when the value after it does not repeat its entity prefix. */
  lemma LitKept(ps: seq<Piece>, i: nat, ctx: Value, t: string, v: Option<string>)
    requires i + 1 < |ps| && ps[i] == Lit(t) && !ps[i + 1].Lit? && Lookup(ps[i + 1], ctx) == v
    requires v.None? || !Prefixed(t, v.value)
    ensures PieceText(ps, i, ctx) == Some(t)
  {
  }

  /** A literal before a placeholder holding a label without a dash is kept whole. */
  lemma KeptBeforeLabel(ps: seq<Piece>, i: nat, ctx: Value, t: string, v: string)
    requires i + 1 < |ps| && ps[i] == Lit(t) && !ps[i + 1].Lit?
    requires Get(ctx, ps[i + 1].path) == Some(Str(v)) && v != "" && '-' !in v
    ensures PieceText(ps, i, ctx) == Some(t)
  {
    PrefixedHasDash(t, v);
    TextLookup(ps[i + 1], ctx, v);
    LitKept(ps, i, ctx, t, Some(v));
  }

  /** A placeholder whose field holds a non-empty string looks up that string. */
  lemma TextLookup(p: Piece, ctx: Value, v: string)
    requires !p.Lit? && Get(ctx, p.path) == Some(Str(v)) && v != ""
    ensures Lookup(p, ctx) == Some(v)
  {
  }

  /** A literal before another literal, or at the end, is kept whole. */
  lemma LitAlone(ps: seq<Piece>, i: nat, ctx: Value, t: string)
    requires i < |ps| && ps[i] == Lit(t) && (i + 1 == |ps| || ps[i + 1].Lit?)
    ensures PieceText(ps, i, ctx) == Some(t)
  {
  }

  /** A literal loses its entity prefix when the value after it already carries it. */
  lemma LitTrimmed(ps: seq<Piece>, i: nat, ctx: Value, t: string, v: string, r: string)
    requires i + 1 < |ps| && ps[i] == Lit(t) && !ps[i + 1].Lit? && Lookup(ps[i + 1], ctx) == Some(v)
    requires Prefixed(t, v) && r + EntityPrefix(t) == t
    ensures PieceText(ps, i, ctx) == Some(r)
  {
    assert LitText(t, Some(v)) + EntityPrefix(t) == t;
  }

  // ---------------------------------------------------------------- sub-<subject.code>_ses-<session.label>_bold.nii.gz

  /** `sub-<subject.code>_ses-<session.label>_bold.nii.gz` */
  const BoldPieces: seq<Piece> :=
    [Lit("sub-"), Required(SubjectCode), Lit("_ses-"), Required(SessionLabel), Lit("_bold.nii.gz")]

  /** The context has the given subject code and session label. */
  predicate HasCodeAndLabel(ctx: Value, code: string, lbl: string) {
    Get(ctx, SubjectCode) == Some(Str(code)) && Get(ctx, SessionLabel) == Some(Str(lbl))
  }

  lemma BoldCodeText(ctx: Value, code: string, lbl: string)
    requires HasCodeAndLabel(ctx, code, lbl) && code != ""
    ensures PieceText(BoldPieces, 1, ctx) == Some(code)
  {
    ValueText(BoldPieces, 1, ctx, Some(code));
  }

  lemma BoldLabelText(ctx: Value, code: string, lbl: string)
    requires HasCodeAndLabel(ctx, code, lbl) && lbl != ""
    ensures PieceText(BoldPieces, 3, ctx) == Some(lbl)
  {
    ValueText(BoldPieces, 3, ctx, Some(lbl));
  }

  lemma BoldSubText(ctx: Value, code: string, lbl: string)
    requires HasCodeAndLabel(ctx, code, lbl) && code != "" && '-' !in code
    ensures PieceText(BoldPieces, 0, ctx) == Some("sub-")
  {
    KeptBeforeLabel(BoldPieces, 0, ctx, "sub-", code);
  }

  lemma BoldSesText(ctx: Value, code: string, lbl: string)
    requires HasCodeAndLabel(ctx, code, lbl) && lbl != "" && '-' !in lbl
    ensures PieceText(BoldPieces, 2, ctx) == Some("_ses-")
  {
    KeptBeforeLabel(BoldPieces, 2, ctx, "_ses-", lbl);
  }

  lemma BoldTailText(ctx: Value)
    ensures PieceText(BoldPieces, 4, ctx) == Some("_bold.nii.gz")
  {
    LitAlone(BoldPieces, 4, ctx, "_bold.nii.gz");
  }

  /** Values without a dash are written into the name as they are, between the literal parts. */
  lemma BoldSubstituted(ctx: Value, code: string, lbl: string)
    requires HasCodeAndLabel(ctx, code, lbl) && code != "" && lbl != "" && '-' !in code && '-' !in lbl
    ensures Resolve([Plain(BoldPieces)], ctx) == "sub-" + (code + ("_ses-" + (lbl + "_bold.nii.gz")))
  {
    BoldSubText(ctx, code, lbl);
    BoldCodeText(ctx, code, lbl);
    BoldSesText(ctx, code, lbl);
    BoldLabelText(ctx, code, lbl);
    BoldTailText(ctx);
    PlainFiveTexts(BoldPieces, ctx, "sub-", code, "_ses-", lbl, "_bold.nii.gz");
    SinglePlain(BoldPieces, ctx);
  }

  lemma SubPrefixTrimmed(code: string)
    requires StartsWith(code, "sub-")
    ensures LitText("sub-", Some(code)) == ""
  {
    EntityPrefixOfLabel("", "sub");
    assert "" + "sub" + "-" == "sub-";
  }

  lemma SubPrefixedText(ctx: Value, code: string, lbl: string)
    requires HasCodeAndLabel(ctx, code, lbl) && StartsWith(code, "sub-")
    ensures PieceText(BoldPieces, 0, ctx) == Some("")
  {
    assert NextValue(BoldPieces, 1, ctx) == Some(code);
    SubPrefixTrimmed(code);
  }

  lemma SesPrefixedText(ctx: Value, code: string, lbl: string)
    requires HasCodeAndLabel(ctx, code, lbl) && StartsWith(lbl, "ses-")
    ensures PieceText(BoldPieces, 2, ctx) == Some("_")
  {
    EntityPrefixOfLabel("_", "ses");
    assert "_" + "ses" + "-" == "_ses-";
    LitTrimmed(BoldPieces, 2, ctx, "_ses-", lbl, "_");
  }

  /** Values that already start with `sub-` and `ses-` replace those literal prefixes instead of following them. */
  lemma BoldPrefixesNotDoubled(ctx: Value, code: string, lbl: string)
    requires HasCodeAndLabel(ctx, code, lbl) && StartsWith(code, "sub-") && StartsWith(lbl, "ses-")
    ensures Resolve([Plain(BoldPieces)], ctx) == "" + (code + ("_" + (lbl + "_bold.nii.gz")))
  {
    SubPrefixedText(ctx, code, lbl);
    BoldCodeText(ctx, code, lbl);
    SesPrefixedText(ctx, code, lbl);
    BoldLabelText(ctx, code, lbl);
    BoldTailText(ctx);
    PlainFiveTexts(BoldPieces, ctx, "", code, "_", lbl, "_bold.nii.gz");
    SinglePlain(BoldPieces, ctx);
  }

  function RequiredContext(): Value {
    FileContext(Obj(map["code" := Str("00123")]), Obj(map["label" := Str("session444")]), Null, Null)
  }

  /** Every `<a.b>` is replaced by its value and the literal text is kept. */
  lemma RequiredResolved()
    ensures Resolve([Plain(BoldPieces)], RequiredContext()) == "sub-00123_ses-session444_bold.nii.gz"
  {
    RequiredValues();
    BoldSubstituted(RequiredContext(), "00123", "session444");
    RequiredName();
  }

  lemma RequiredValues()
    ensures HasCodeAndLabel(RequiredContext(), "00123", "session444")
  {
  }

  lemma RequiredName()
    ensures "sub-" + ("00123" + ("_ses-" + ("session444" + "_bold.nii.gz"))) == "sub-00123_ses-session444_bold.nii.gz"
  {
  }

  function PrefixedContext(): Value {
    FileContext(Obj(map["code" := Str("sub-01")]), Obj(map["label" := Str("ses-001")]), Null, Null)
  }

  /** Code `sub-01` and session `ses-001` give `sub-01_ses-001_bold.nii.gz`, not `sub-sub-01_...`. */
  lemma PrefixNotDoubled()
    ensures Resolve([Plain(BoldPieces)], PrefixedContext()) == "sub-01_ses-001_bold.nii.gz"
  {
    PrefixedValues();
    BoldPrefixesNotDoubled(PrefixedContext(), "sub-01", "ses-001");
    PrefixedName();
  }

  lemma PrefixedValues()
    ensures HasCodeAndLabel(PrefixedContext(), "sub-01", "ses-001")
    ensures StartsWith("sub-01", "sub-") && StartsWith("ses-001", "ses-")
  {
  }

  lemma PrefixedName()
    ensures "" + ("sub-01" + ("_" + ("ses-001" + "_bold.nii.gz"))) == "sub-01_ses-001_bold.nii.gz"
  {
  }

  // ---------------------------------------------------------------- [sub-<subject.code>]_ses-<session.label>_acq-<acquisition.label>_bold.nii.gz

  const OptionalSubject: seq<Piece> := [Lit("sub-"), Required(SubjectCode)]
  const OptionalRest: seq<Piece> :=
    [Lit("_ses-"), Required(SessionLabel), Lit("_acq-"), Required(AcquisitionLabel), Lit("_bold.nii.gz")]

  /** `[sub-<subject.code>]_ses-<session.label>_acq-<acquisition.label>_bold.nii.gz` */
  const OptionalSubjectName: Template := [Optional(OptionalSubject), Plain(OptionalRest)]

  /** The context has the given session and acquisition labels. */
  predicate HasLabels(ctx: Value, lbl: string, acq: string) {
    Get(ctx, SessionLabel) == Some(Str(lbl)) && Get(ctx, AcquisitionLabel) == Some(Str(acq))
  }

  lemma RestSesText(ctx: Value, lbl: string, acq: string)
    requires HasLabels(ctx, lbl, acq) && lbl != "" && '-' !in lbl
    ensures PieceText(OptionalRest, 0, ctx) == Some("_ses-")
  {
    KeptBeforeLabel(OptionalRest, 0, ctx, "_ses-", lbl);
  }

  lemma RestLabelText(ctx: Value, lbl: string, acq: string)
    requires HasLabels(ctx, lbl, acq) && lbl != ""
    ensures PieceText(OptionalRest, 1, ctx) == Some(lbl)
  {
    ValueText(OptionalRest, 1, ctx, Some(lbl));
  }

  lemma RestAcqText(ctx: Value, lbl: string, acq: string)
    requires HasLabels(ctx, lbl, acq) && acq != "" && '-' !in acq
    ensures PieceText(OptionalRest, 2, ctx) == Some("_acq-")
  {
    KeptBeforeLabel(OptionalRest, 2, ctx, "_acq-", acq);
  }

  lemma RestAcqLabelText(ctx: Value, lbl: string, acq: string)
    requires HasLabels(ctx, lbl, acq) && acq != ""
    ensures PieceText(OptionalRest, 3, ctx) == Some(acq)
  {
    ValueText(OptionalRest, 3, ctx, Some(acq));
  }

  lemma RestTailText(ctx: Value)
    ensures PieceText(OptionalRest, 4, ctx) == Some("_bold.nii.gz")
  {
    LitAlone(OptionalRest, 4, ctx, "_bold.nii.gz");
  }

  /** Without a subject code the `[sub-...]` segment disappears and the rest is substituted as usual. */
  lemma OptionalSubjectDropped(ctx: Value, lbl: string, acq: string)
    requires Lookup(OptionalSubject[1], ctx).None?
    requires HasLabels(ctx, lbl, acq) && lbl != "" && acq != "" && '-' !in lbl && '-' !in acq
    ensures Resolve(OptionalSubjectName, ctx) == "_ses-" + (lbl + ("_acq-" + (acq + "_bold.nii.gz")))
  {
    OptionalDropped(OptionalSubject, ctx, 1);
    RestSesText(ctx, lbl, acq);
    RestLabelText(ctx, lbl, acq);
    RestAcqText(ctx, lbl, acq);
    RestAcqLabelText(ctx, lbl, acq);
    RestTailText(ctx);
    PlainFiveTexts(OptionalRest, ctx, "_ses-", lbl, "_acq-", acq, "_bold.nii.gz");
    ResolveTwo(Optional(OptionalSubject), Plain(OptionalRest), ctx);
  }

  function NoneSubjectContext(): Value {
    FileContext(Obj(map["code" := Null]), Obj(map["label" := Str("session444")]), Null, Null)
  }

  lemma NoneSubjectValues()
    ensures Lookup(OptionalSubject[1], NoneSubjectContext()).None?
    ensures HasLabels(NoneSubjectContext(), "session444", "acq222")
  {
  }

  lemma NoneSubjectName()
    ensures "_ses-" + ("session444" + ("_acq-" + ("acq222" + "_bold.nii.gz"))) == "_ses-session444_acq-acq222_bold.nii.gz"
  {
  }

  /** A `None` subject code drops `[sub-<subject.code>]` and keeps everything else. */
  lemma OptionalSegmentDropped()
    ensures Resolve(OptionalSubjectName, NoneSubjectContext()) == "_ses-session444_acq-acq222_bold.nii.gz"
  {
    NoneSubjectValues();
    OptionalSubjectDropped(NoneSubjectContext(), "session444", "acq222");
    NoneSubjectName();
  }

  // ---------------------------------------------------------------- sub-<subject.code>[_ses-<session.label>][_acq-{file.info.BIDS.Acq}]...

  /** `{file.info.BIDS.<key>}` */
  function FileBids(key: string): Path {
    ["file", "info", "BIDS", key]
  }

  /** `[_<entity>-{file.info.BIDS.<key>}]` */
  function OptionalEntity(entity: string, key: string): Group {
    Optional([Lit("_" + entity + "-"), Deferred(FileBids(key))])
  }

  const Entities: seq<(string, string)> := [("acq", "Acq"), ("ce", "Ce"), ("rec", "Rec"), ("run", "Run"), ("mod", "Mod")]

  /** `[_acq-{file.info.BIDS.Acq}][_ce-{file.info.BIDS.Ce}][_rec-{file.info.BIDS.Rec}][_run-{file.info.BIDS.Run}][_mod-{file.info.BIDS.Mod}]` */
  const EntitySegments: Template := seq(|Entities|, k requires 0 <= k < |Entities| => OptionalEntity(Entities[k].0, Entities[k].1))

  const SubjectPieces: seq<Piece> := [Lit("sub-"), Required(SubjectCode)]
  const SessionPieces: seq<Piece> := [Lit("_ses-"), Required(SessionLabel)]

  /** `sub-<subject.code>[_ses-<session.label>]` followed by the five optional entities. */
  const FullOptional: Template := [Plain(SubjectPieces), Optional(SessionPieces)] + EntitySegments

  lemma SubjectText(ctx: Value, code: string)
    requires Get(ctx, SubjectCode) == Some(Str(code)) && code != "" && '-' !in code
    ensures GroupText(Plain(SubjectPieces), ctx) == "sub-" + code
  {
    KeptBeforeLabel(SubjectPieces, 0, ctx, "sub-", code);
    ValueText(SubjectPieces, 1, ctx, Some(code));
    PlainTwoTexts(SubjectPieces, ctx, "sub-", code);
  }

  lemma SessionText(ctx: Value, lbl: string)
    requires Get(ctx, SessionLabel) == Some(Str(lbl)) && lbl != "" && '-' !in lbl
    ensures GroupText(Optional(SessionPieces), ctx) == "_ses-" + lbl
  {
    KeptBeforeLabel(SessionPieces, 0, ctx, "_ses-", lbl);
    ValueText(SessionPieces, 1, ctx, Some(lbl));
    OptionalTwoTexts(SessionPieces, ctx, "_ses-", lbl);
  }

  /** Groups that all come out empty give an empty text. */
  lemma {:induction false} ResolveAllEmpty(t: Template, ctx: Value)
    requires forall k :: 0 <= k < |t| ==> GroupText(t[k], ctx) == ""
    ensures Resolve(t, ctx) == ""
    decreases |t|
  {
    if |t| > 0 {
      ResolveAllEmpty(t[1..], ctx);
    }
  }

  /** When the file carries no BIDS entities every optional entity segment is dropped. */
  lemma EntitySegmentsDropped(ctx: Value)
    requires forall key :: Get(ctx, FileBids(key)).None?
    ensures Resolve(EntitySegments, ctx) == ""
  {
    forall k | 0 <= k < |EntitySegments| ensures GroupText(EntitySegments[k], ctx) == "" {
      var ps := EntitySegments[k].pieces;
      assert Lookup(ps[1], ctx).None?;
      OptionalDropped(ps, ctx, 1);
    }
    ResolveAllEmpty(EntitySegments, ctx);
  }

  /** Only `sub-<code>_ses-<label>` is left when none of the optional entities has a value. */
  lemma FullOptionalDropped(ctx: Value, code: string, lbl: string)
    requires HasCodeAndLabel(ctx, code, lbl) && code != "" && lbl != "" && '-' !in code && '-' !in lbl
    requires forall key :: Get(ctx, FileBids(key)).None?
    ensures Resolve(FullOptional, ctx) == "sub-" + code + ("_ses-" + lbl)
  {
    SubjectText(ctx, code);
    SessionText(ctx, lbl);
    ResolveTwo(Plain(SubjectPieces), Optional(SessionPieces), ctx);
    EntitySegmentsDropped(ctx);
    ResolveConcat([Plain(SubjectPieces), Optional(SessionPieces)], EntitySegments, ctx);
  }

  function ClassifiedContext(): Value {
    FileContext(Obj(map["code" := Str("123")]), Obj(map["label" := Str("456")]),
      Obj(map["classification" := Obj(map["Measurement" := Str("T1"), "Intent" := Str("Structural")])]),
      Str(".nii.gz"))
  }

  lemma ClassifiedValues()
    ensures HasCodeAndLabel(ClassifiedContext(), "123", "456")
    ensures forall key :: Get(ClassifiedContext(), FileBids(key)).None?
  {
    var ctx := ClassifiedContext();
    forall key ensures Get(ctx, FileBids(key)).None? {
      assert Get(ctx, FileBids(key)) == GetFrom(ctx.fields["file"], FileBids(key), 1);
      assert "info" !in ctx.fields["file"].fields;
    }
  }

  /** Missing optional entities vanish: only `sub-123_ses-456` is left. */
  lemma FullOptionalResolved()
    ensures Resolve(FullOptional, ClassifiedContext()) == "sub-123_ses-456"
  {
    ClassifiedValues();
    FullOptionalDropped(ClassifiedContext(), "123", "456");
    ClassifiedName();
  }

  lemma ClassifiedName()
    ensures "sub-" + "123" + ("_ses-" + "456") == "sub-123_ses-456"
  {
  }

  // ---------------------------------------------------------------- sub-<subject.code>[_ses-<session.label>]_task-{file.info.BIDS.Task}_bold{ext}

  const TaskPieces: seq<Piece> := [Lit("_task-"), Deferred(FileBids("Task")), Lit("_bold"), Deferred(["ext"])]

  /** `sub-<subject.code>[_ses-<session.label>]_task-{file.info.BIDS.Task}_bold{ext}` */
  const FuncFilename: Template := [Plain(SubjectPieces), Optional(SessionPieces), Plain(TaskPieces)]

  /** The task label and the extension the functional name reads. */
  predicate HasTaskAndExt(ctx: Value, task: string, ext: string) {
    Get(ctx, FileBids("Task")) == Some(Str(task)) && Get(ctx, ["ext"]) == Some(Str(ext))
  }

  lemma TaskLitText(ctx: Value, task: string, ext: string)
    requires HasTaskAndExt(ctx, task, ext) && task != "" && '-' !in task
    ensures PieceText(TaskPieces, 0, ctx) == Some("_task-")
  {
    KeptBeforeLabel(TaskPieces, 0, ctx, "_task-", task);
  }

  lemma TaskValueText(ctx: Value, task: string, ext: string)
    requires HasTaskAndExt(ctx, task, ext) && task != ""
    ensures PieceText(TaskPieces, 1, ctx) == Some(task)
  {
    ValueText(TaskPieces, 1, ctx, Some(task));
  }

  lemma BoldLitText(ctx: Value, task: string, ext: string)
    requires HasTaskAndExt(ctx, task, ext) && ext != "" && '-' !in ext
    ensures PieceText(TaskPieces, 2, ctx) == Some("_bold")
  {
    KeptBeforeLabel(TaskPieces, 2, ctx, "_bold", ext);
  }

  lemma ExtValueText(ctx: Value, task: string, ext: string)
    requires HasTaskAndExt(ctx, task, ext) && ext != ""
    ensures PieceText(TaskPieces, 3, ctx) == Some(ext)
  {
    ValueText(TaskPieces, 3, ctx, Some(ext));
  }

  lemma TaskText(ctx: Value, task: string, ext: string)
    requires HasTaskAndExt(ctx, task, ext)
    requires task != "" && ext != "" && '-' !in task && '-' !in ext
    ensures GroupText(Plain(TaskPieces), ctx) == "_task-" + (task + ("_bold" + ext))
  {
    TaskLitText(ctx, task, ext);
    TaskValueText(ctx, task, ext);
    BoldLitText(ctx, task, ext);
    ExtValueText(ctx, task, ext);
    PlainFourTexts(TaskPieces, ctx, "_task-", task, "_bold", ext);
  }

  /** `{file.info.BIDS.Task}` and `{ext}` are filled from the context like `<...>` values. */
  lemma DeferredSubstituted(ctx: Value, code: string, lbl: string, task: string, ext: string)
    requires HasCodeAndLabel(ctx, code, lbl) && code != "" && lbl != "" && '-' !in code && '-' !in lbl
    requires HasTaskAndExt(ctx, task, ext)
    requires task != "" && ext != "" && '-' !in task && '-' !in ext
    ensures Resolve(FuncFilename, ctx) == "sub-" + code + ("_ses-" + lbl + ("_task-" + (task + ("_bold" + ext))))
  {
    SubjectText(ctx, code);
    SessionText(ctx, lbl);
    TaskText(ctx, task, ext);
    ResolveThree(Plain(SubjectPieces), Optional(SessionPieces), Plain(TaskPieces), ctx);
  }

  function FuncContext(): Value {
    FileContext(Obj(map["code" := Str("001")]), Obj(map["label" := Str("session444")]),
      Obj(map["name" := Str("bold.nii.gz"),
              "info" := Obj(map["BIDS" := Obj(map["Task" := Str("test123"), "Modality" := Str("bold")])])]),
      Str(".nii.gz"))
  }

  lemma FuncValues()
    ensures HasCodeAndLabel(FuncContext(), "001", "session444")
    ensures HasTaskAndExt(FuncContext(), "test123", ".nii.gz")
  {
    var ctx := FuncContext();
    assert Get(ctx, FileBids("Task")) == GetFrom(ctx.fields["file"], FileBids("Task"), 1);
  }

  lemma FuncTail()
    ensures "_task-" + ("test123" + ("_bold" + ".nii.gz")) == "_task-test123_bold.nii.gz"
  {
  }

  lemma FuncHead()
    ensures "sub-" + "001" == "sub-001" && "_ses-" + "session444" == "_ses-session444"
  {
  }

  lemma FuncName()
    ensures "sub-" + "001" + ("_ses-" + "session444" + ("_task-" + ("test123" + ("_bold" + ".nii.gz"))))
            == "sub-001_ses-session444_task-test123_bold.nii.gz"
  {
    FuncTail();
    FuncHead();
    FuncJoin();
  }

  lemma FuncJoin()
    ensures "sub-001" + ("_ses-session444" + "_task-test123_bold.nii.gz") == "sub-001_ses-session444_task-test123_bold.nii.gz"
  {
  }

  /** The functional file name of the test suite: `sub-001_ses-session444_task-test123_bold.nii.gz`. */
  lemma DeferredFilled()
    ensures Resolve(FuncFilename, FuncContext()) == "sub-001_ses-session444_task-test123_bold.nii.gz"
  {
    FuncValues();
    DeferredSubstituted(FuncContext(), "001", "session444", "test123", ".nii.gz");
    FuncName();
  }

  // ---------------------------------------------------------------- sub-<subject.code>_ses-<session.label>, code missing

  /** `sub-<subject.code>_ses-<session.label>` */
  const SubSesPieces: seq<Piece> := [Lit("sub-"), Required(SubjectCode), Lit("_ses-"), Required(SessionLabel)]

  lemma SubjectCodeRendered()
    ensures RenderPiece(Required(SubjectCode)) == "<subject.code>"
  {
    assert Join(SubjectCode, '.') == "subject" + "." + Join(["code"], '.');
  }

  /** Outside brackets a required value that is missing stays in the name as written. */
  lemma RequiredMissingVerbatim(ctx: Value, lbl: string)
    requires Lookup(SubSesPieces[1], ctx).None?
    requires Get(ctx, SessionLabel) == Some(Str(lbl)) && lbl != "" && '-' !in lbl
    ensures Resolve([Plain(SubSesPieces)], ctx) == "sub-" + ("<subject.code>" + ("_ses-" + (lbl + "")))
  {
    var ps := SubSesPieces;
    SesTail(ctx, lbl);
    ValueText(ps, 1, ctx, None);
    LitKept(ps, 0, ctx, "sub-", None);
    SubjectCodeRendered();
    PlainVerbatim(ps, 1, ctx);
    assert PlainText(ps, 0, ctx) == "sub-" + PlainText(ps, 1, ctx);
    SinglePlain(ps, ctx);
  }

  /** The `_ses-<session.label>` end of the name, with the label present. */
  lemma SesTail(ctx: Value, lbl: string)
    requires Get(ctx, SessionLabel) == Some(Str(lbl)) && lbl != "" && '-' !in lbl
    ensures PlainText(SubSesPieces, 2, ctx) == "_ses-" + (lbl + "")
  {
    var ps := SubSesPieces;
    TextLookup(ps[3], ctx, lbl);
    ValueText(ps, 3, ctx, Some(lbl));
    KeptBeforeLabel(ps, 2, ctx, "_ses-", lbl);
    assert PlainText(ps, 3, ctx) == lbl + "";
  }

  function MissingContext(subject: Value): Value {
    FileContext(subject, Obj(map["label" := Str("session444")]), Null, Null)
  }

  lemma MissingValues(subject: Value)
    requires subject == Obj(map[]) || subject == Obj(map["code" := Null])
    ensures Lookup(SubSesPieces[1], MissingContext(subject)).None?
    ensures Get(MissingContext(subject), SessionLabel) == Some(Str("session444"))
  {
  }

  /** A subject without `code`, or with `code` set to `None`, leaves `<subject.code>` in the name. */
  lemma RequiredLeftVerbatim(subject: Value)
    requires subject == Obj(map[]) || subject == Obj(map["code" := Null])
    ensures Resolve([Plain(SubSesPieces)], MissingContext(subject)) == "sub-<subject.code>_ses-session444"
  {
    MissingValues(subject);
    RequiredMissingVerbatim(MissingContext(subject), "session444");
    MissingName();
  }

  lemma MissingName()
    ensures "sub-" + ("<subject.code>" + ("_ses-" + ("session444" + ""))) == "sub-<subject.code>_ses-session444"
  {
  }
}

=== FILE: rules.dfy ===
/**
 * `templates.Rule`: a `where` condition tested against a context, and the `initialize`
 * derivations that fill a BIDS block once the rule is chosen (`$switch`, `$take` with a
 * `$format` pipeline, naming templates, captures and run indices).
 */
module Rules {
  import opened Outcomes
  import opened Text
  import opened Json
  import opened Patterns
  import Resolver

  // ---------------------------------------------------------------- where conditions

  /** The regular expressions the rules use; none of them can match the empty string. */
  type Pat = p: Pattern | NonEmpty(p) witness []

  /** The condition placed on one context field. */
  datatype Match =
    | Equals(v: Value)         // a literal: equality, or membership when the field holds a list
    | Regex(p: Pattern)        // `$regex`: the pattern occurs somewhere in the field's text, ignoring case
    | In(items: seq<Value>)    // `$in`: some listed item is `in` the field's value
    | Not(m: Match)            // `$not`: the nested condition fails
    | Exists(present: bool)    // `$exists`: the field is (or is not) set

  /** Python's `item in container`: a substring of a string, an element of a list, a key of a dict. */
  predicate PyIn(item: Value, container: Value) {
    match container
    case Str(s) => item.Str? && Contains(s, item.s)
    case List(xs) => item in xs
    case Obj(m) => item.Str? && item.s in m
    case _ => false
  }

  /** `any(item in v for item in items)`, scanned left to right. */
  function AnyIn(items: seq<Value>, v: Value): (r: bool)
    ensures r <==> exists k :: 0 <= k < |items| && PyIn(items[k], v)
  {
    if |items| == 0 then false
    else if PyIn(items[0], v) then true
    else
      var r := AnyIn(items[1..], v);
      assert forall k :: 1 <= k < |items| ==> items[k] == items[1..][k - 1];
      r
  }

  /** The value `v` of a field (`Null` when it is absent) satisfies the condition `m`. */
  predicate Holds(m: Match, v: Value) {
    match m
    case Equals(x) => if v.List? then x in v.items else v == x
    case Regex(p) => v.Str? && Search(IgnoreCase(p), v.s).Some?
    case In(items) => AnyIn(items, v)
    case Not(n) => !Holds(n, v)
    case Exists(b) => (v != Null) == b
  }

  /** The pairs of a `where` block, all of which must hold. */
  type Where = seq<(Path, Match)>

  /** `Rule.test`: every condition of the block holds on the field it names. */
  function Test(w: Where, ctx: Value): (r: bool)
    ensures r <==> forall k :: 0 <= k < |w| ==> Holds(w[k].1, GetOrNull(ctx, w[k].0))
  {
    if |w| == 0 then true
    else if !Holds(w[0].1, GetOrNull(ctx, w[0].0)) then false
    else
      var r := Test(w[1..], ctx);
      assert forall k :: 1 <= k < |w| ==> w[k] == w[1..][k - 1];
      r
  }

  /** A block holds on a context exactly when both of its halves do: the conditions are AND-ed in any grouping. */
  lemma {:induction false} TestSplit(a: Where, b: Where, ctx: Value)
    ensures Test(a + b, ctx) <==> Test(a, ctx) && Test(b, ctx)
  {
    assert forall k :: 0 <= k < |a| ==> (a + b)[k] == a[k];
    assert forall k :: 0 <= k < |b| ==> (a + b)[|a| + k] == b[k];
    if Test(a, ctx) && Test(b, ctx) {
      forall k | 0 <= k < |a + b| ensures Holds((a + b)[k].1, GetOrNull(ctx, (a + b)[k].0)) {
        if k >= |a| {
          assert (a + b)[k] == b[k - |a|];
        }
      }
    }
  }

  // ---------------------------------------------------------------- $switch

  /** One entry of `$cases`: `{$eq, $value}` or `{$default: True, $value}`. */
  datatype Case = Case(eq: Value, result: Value) | Default(result: Value)

  /** Every element of `a` occurs in `b`. */
  function Within(a: seq<Value>, b: seq<Value>): (r: bool)
    ensures r <==> forall x :: x in a ==> x in b
  {
    if |a| == 0 then true
    else
      var r := a[0] in b && Within(a[1..], b);
      assert forall x :: x in a ==> x == a[0] || x in a[1..];
      r
  }

  /** The two lists hold the same elements, ignoring order and repetition (`set(a) == set(b)`). */
  predicate SameElements(a: seq<Value>, b: seq<Value>) {
    Within(a, b) && Within(b, a)
  }

  /** Whether a case's `$eq` selects the `$on` value: sets for two lists, membership for a list and a scalar. */
  predicate CaseMatches(on: Value, eq: Value) {
    if on.List? && eq.List? then SameElements(on.items, eq.items)
    else if on.List? then eq in on.items
    else if eq.List? then on in eq.items
    else on == eq
  }

  predicate Selects(c: Case, on: Value) {
    c.Default? || CaseMatches(on, c.eq)
  }

  /** `$switch`: the `$value` of the first case that selects `on`, if any does. */
  function SwitchValue(on: Value, cases: seq<Case>): (r: Option<Value>)
    ensures r.None? <==> forall k :: 0 <= k < |cases| ==> !Selects(cases[k], on)
    ensures r.Some? ==> exists k :: 0 <= k < |cases| && Selects(cases[k], on) && r.value == cases[k].result &&
                                    forall j :: 0 <= j < k ==> !Selects(cases[j], on)
  {
    if |cases| == 0 then None
    else if Selects(cases[0], on) then Some(cases[0].result)
    else
      var r := SwitchValue(on, cases[1..]);
      assert forall k :: 1 <= k < |cases| ==> cases[k] == cases[1..][k - 1];
      if r.Some? then
        var k :| 0 <= k < |cases[1..]| && Selects(cases[1..][k], on) && r.value == cases[1..][k].result &&
                 forall j :: 0 <= j < k ==> !Selects(cases[1..][j], on);
        assert Selects(cases[k + 1], on) && forall j :: 0 <= j < k + 1 ==> !Selects(cases[j], on);
        r
      else r
  }

  /** Case selection on a list sees only the list's elements. */
  lemma CaseMatchesSameElements(a: seq<Value>, b: seq<Value>, c: Case)
    requires SameElements(a, b)
    ensures Selects(c, List(a)) <==> Selects(c, List(b))
  {
  }

  /** A `$switch` on a list gives the same result for any ordering (or repetition) of the list. */
  lemma {:induction false} SwitchIgnoresOrder(a: seq<Value>, b: seq<Value>, cases: seq<Case>)
    requires SameElements(a, b)
    ensures SwitchValue(List(a), cases) == SwitchValue(List(b), cases)
  {
    if |cases| > 0 {
      CaseMatchesSameElements(a, b, cases[0]);
      SwitchIgnoresOrder(a, b, cases[1..]);
    }
  }

  // ---------------------------------------------------------------- $format

  /** One `$format` step. */
  datatype Format =
    | Replace(p: Pat, text: string)   // `{$replace: {$pattern, $replacement}}`
    | LowerMatches(p: Pat)            // `{$lower: {$pattern}}`: lower-case every match
    | LowerAll                        // `{$lower: True}`

  function ApplyFormat(f: Format, s: string): (r: string)
    ensures f.LowerAll? ==> |r| == |s| && forall i :: 0 <= i < |s| ==> r[i] == LowerChar(s[i])
    ensures !f.LowerAll? && (forall j :: 0 <= j < |s| ==> MatchAt(f.p, s, j).None?) ==> r == s
  {
    match f
    case Replace(p, t) => Sub(p, [Patterns.Text(t)], s)
    case LowerMatches(p) => Sub(p, [LowerWhole], s)
    case LowerAll => Lower(s)
  }

  /** The steps of a `$format` list, applied left to right. */
  function ApplyFormats(fs: seq<Format>, s: string): string {
    if |fs| == 0 then s else ApplyFormats(fs[1..], ApplyFormat(fs[0], s))
  }

  /** A pipeline split in two runs the first part, then the second on its output. */
  lemma {:induction false} FormatsCompose(a: seq<Format>, b: seq<Format>, s: string)
    ensures ApplyFormats(a + b, s) == ApplyFormats(b, ApplyFormats(a, s))
  {
    if |a| > 0 {
      assert (a + b)[0] == a[0];
      assert (a + b)[1..] == a[1..] + b;
      FormatsCompose(a[1..], b, ApplyFormat(a[0], s));
    } else {
      assert a + b == b;
    }
  }

  lemma ExpandLowerWhole(m: string)
    ensures Expand([LowerWhole], m) == Lower(m)
  {
    assert Expand([LowerWhole][1..], m) == "";
  }

  /** Two texts of one length whose characters lower-case alike, position by position. */
  predicate FoldsLike(a: string, b: string)
    decreases |a|
  {
    |a| == |b| && (|a| == 0 || (LowerChar(a[0]) == LowerChar(b[0]) && FoldsLike(a[1..], b[1..])))
  }

  /** Folding alike is lower-casing to the same text. */
  lemma {:induction false} FoldsLikeLower(a: string, b: string)
    ensures FoldsLike(a, b) <==> |a| == |b| && Lower(a) == Lower(b)
    decreases |a|
  {
    if |a| > 0 && |a| == |b| {
      FoldsLikeLower(a[1..], b[1..]);
      LowerFirst(a);
      LowerFirst(b);
      ConsEqual(LowerChar(a[0]), Lower(a[1..]), LowerChar(b[0]), Lower(b[1..]));
    }
  }

  lemma LowerFirst(a: string)
    requires |a| > 0
    ensures Lower(a) == [LowerChar(a[0])] + Lower(a[1..])
  {
    LowerConcat([a[0]], a[1..]);
    assert a == [a[0]] + a[1..];
  }

  lemma ConsEqual(x: char, xs: string, y: char, ys: string)
    ensures [x] + xs == [y] + ys <==> x == y && xs == ys
  {
    if [x] + xs == [y] + ys {
      assert ([x] + xs)[0] == x && ([y] + ys)[0] == y;
      assert ([x] + xs)[1..] == xs && ([y] + ys)[1..] == ys;
    }
  }

  /** A lower-cased text folds like the text. */
  lemma {:induction false} LoweredFoldsLike(m: string)
    ensures FoldsLike(Lower(m), m)
  {
    LowerIdempotent(m);
    FoldsLikeLower(Lower(m), m);
  }

  /** Lower-casing the matches of a pattern keeps the length and the case-folded text of the string. */
  lemma {:induction false} LowerMatchesFoldsLikeInput(p: Pat, s: string, from: nat)
    requires from <= |s|
    ensures FoldsLike(SubFrom(p, [LowerWhole], s, from), s[from..])
    decreases |s| - from
  {
    if from < |s| {
      var m := MatchAt(p, s, from);
      if m.Some? {
        LowerMatchesFoldsLikeInput(p, s, from + m.value);
        FoldMatch(p, s, from, m.value);
      } else {
        LowerMatchesFoldsLikeInput(p, s, from + 1);
        FoldCopy(p, s, from);
      }
    }
  }

  /** A lower-cased match in front of a tail that folds like the input's folds like the input. */
  lemma FoldMatch(p: Pat, s: string, from: nat, n: nat)
    requires from < |s| && MatchAt(p, s, from) == Some(n)
    requires FoldsLike(SubFrom(p, [LowerWhole], s, from + n), s[from + n..])
    ensures FoldsLike(SubFrom(p, [LowerWhole], s, from), s[from..])
  {
    var m := s[from..from + n];
    SubMatch(p, [LowerWhole], s, from, n);
    ExpandLowerWhole(m);
    LoweredFoldsLike(m);
    FoldStep(Lower(m), m, SubFrom(p, [LowerWhole], s, from + n), s[from + n..]);
    assert s[from..] == m + s[from + n..];
  }

  /** A copied character in front of a tail that folds like the input's folds like the input. */
  lemma FoldCopy(p: Pat, s: string, from: nat)
    requires from < |s| && MatchAt(p, s, from).None?
    requires FoldsLike(SubFrom(p, [LowerWhole], s, from + 1), s[from + 1..])
    ensures FoldsLike(SubFrom(p, [LowerWhole], s, from), s[from..])
  {
    SubCopy(p, [LowerWhole], s, from);
    FoldStep([s[from]], [s[from]], SubFrom(p, [LowerWhole], s, from + 1), s[from + 1..]);
    assert s[from..] == [s[from]] + s[from + 1..];
  }

  /** Texts that fold alike, followed by texts that fold alike, fold alike. */
  lemma {:induction false} FoldStep(a: string, b: string, rest: string, tail: string)
    requires FoldsLike(a, b) && FoldsLike(rest, tail)
    ensures FoldsLike(a + rest, b + tail)
    decreases |a|
  {
    if |a| == 0 {
      assert a + rest == rest && b + tail == tail;
    } else {
      FoldStep(a[1..], b[1..], rest, tail);
      assert (a + rest)[1..] == a[1..] + rest;
      assert (b + tail)[1..] == b[1..] + tail;
    }
  }

  /** `$lower` with a pattern changes only letter case: lower-casing afterwards gives what lower-casing the input gives. */
  lemma LowerMatchesThenLowerAll(p: Pat, s: string)
    ensures |ApplyFormat(LowerMatches(p), s)| == |s|
    ensures ApplyFormats([LowerMatches(p), LowerAll], s) == ApplyFormats([LowerAll], s)
  {
    LowerMatchesFoldsLikeInput(p, s, 0);
    assert s[0..] == s;
    FoldsLikeLower(ApplyFormat(LowerMatches(p), s), s);
    assert [LowerMatches(p), LowerAll][1..] == [LowerAll];
  }

  /** Lower-casing the whole string twice is lower-casing it once. */
  lemma LowerAllIdempotent(s: string)
    ensures ApplyFormats([LowerAll, LowerAll], s) == ApplyFormats([LowerAll], s)
  {
    LowerIdempotent(s);
    assert [LowerAll, LowerAll][1..] == [LowerAll];
  }

  // ---------------------------------------------------------------- run counters

  /** Counter key: the session label and the acquisition label with its run marker removed. */
  type CounterKey = (string, string)

  /** The last run index handed out for each key in the current traversal. */
  type Counters = map<CounterKey, nat>

  /** `RunCounterMap`: the next index for `key`, starting at 1, and the counters after handing it out. */
  function NextRun(counters: Counters, key: CounterKey): (r: (nat, Counters))
    ensures r.0 == (if key in counters then counters[key] else 0) + 1
    ensures r.1.Keys == counters.Keys + {key} && r.1[key] == r.0
    ensures forall k :: k in counters && k != key ==> r.1[k] == counters[k]
  {
    var n := (if key in counters then counters[key] else 0) + 1;
    (n, counters[key := n])
  }

  /** The label token asking for an automatically assigned run index. */
  const RunMarker := "run+"

  /** `run-\d+`: a run index written out in the label; the capture drops the four-character `run-`. */
  const RunNumber: Pat := [Branch(Literal("run-"), Some(Digit))]

  // ---------------------------------------------------------------- initialize

  /** How one property of the BIDS block is derived. */
  datatype Derivation =
    | Const(v: Value)                           // a literal value
    | Fill(t: Resolver.Template)                // a naming template, resolved against the context
    | Take(path: Path, formats: seq<Format>)    // `$take` a field, then its `$format` steps
    | Switch(on: Path, cases: seq<Case>)        // `$switch`
    | Capture(path: Path, p: Pat, skip: nat)    // the first match in a field, minus its `skip`-character lead-in
    | RunIndex(path: Path)                      // the next run index for the run marker, else the written-out one

  /** The text taken from a field: `''` for an absent or `None` value, formatted text for a string. */
  function TakeValue(v: Value, fs: seq<Format>): (r: Value)
    ensures r != Null
    ensures r.Str? <==> v.Str? || v == Null
    ensures !r.Str? ==> r == v
  {
    match v
    case Null => Str("")
    case Str(s) => Str(ApplyFormats(fs, s))
    case _ => v
  }

  /** Every format step keeps the empty text empty. */
  lemma {:induction false} FormatsKeepEmpty(fs: seq<Format>)
    ensures ApplyFormats(fs, "") == ""
  {
    if |fs| > 0 {
      assert ApplyFormat(fs[0], "") == "";
      FormatsKeepEmpty(fs[1..]);
    }
  }

  /**
   * Taking a field with a list of format steps is taking it with the first part of the list and
   * then taking that value with the rest: `''` for a missing field is kept by every step, text
   * runs through the whole pipeline, and any other value passes through untouched.
   */
  lemma TakeComposes(v: Value, a: seq<Format>, b: seq<Format>)
    ensures TakeValue(v, a + b) == TakeValue(TakeValue(v, a), b)
  {
    match v
    case Null => FormatsKeepEmpty(b);
    case Str(s) => FormatsCompose(a, b, s);
    case _ =>
  }

  /** Taking a field without format steps gives the field itself, with `''` for a missing one. */
  lemma TakeUnformatted(v: Value)
    ensures TakeValue(v, []) == (if v == Null then Str("") else v)
  {
  }

  /** The text of the first match of `p` in `v`, less its first `skip` characters; `''` without a match. */
  function CaptureText(v: Value, p: Pat, skip: nat): (r: string)
    ensures |r| <= (if v.Str? then |v.s| else 0)
    ensures r != "" ==> v.Str? && Contains(v.s, r)
  {
    if !v.Str? then ""
    else match Search(p, v.s)
      case None => ""
      case Some((i, n)) =>
        if skip <= n then
          assert OccursAt(v.s, v.s[i + skip..i + n], i + skip);
          v.s[i + skip..i + n]
        else ""
  }

  /**
   * A capture is the leftmost match, less its lead-in: when `p` first matches at `i` with length
   * `n`, the capture is the text from `i + skip` to `i + n`.
   */
  lemma CaptureLeftmost(p: Pat, s: string, skip: nat, i: nat, n: nat)
    requires i <= |s| && MatchAt(p, s, i) == Some(n)
    requires forall j :: 0 <= j < i ==> MatchAt(p, s, j).None?
    requires skip <= n
    ensures CaptureText(Str(s), p, skip) == s[i + skip..i + n]
  {
    SearchFinds(p, s, i, n);
  }

  /** Where the pattern matches nowhere, and for a value that is not text, the capture is empty. */
  lemma CaptureAbsent(p: Pat, v: Value, skip: nat)
    requires v.Str? ==> forall j :: 0 <= j <= |v.s| ==> MatchAt(p, v.s, j).None?
    ensures CaptureText(v, p, skip) == ""
  {
  }

  /** One derivation's value, and the counters after it (only `RunIndex` advances them). */
  function Derive(d: Derivation, ctx: Value, counters: Counters): (r: (Value, Counters))
    ensures !d.RunIndex? ==> r.1 == counters
    ensures d.RunIndex? ==> r.1.Keys >= counters.Keys
  {
    match d
    case Const(v) => (v, counters)
    case Fill(t) => (Str(Resolver.Resolve(t, ctx)), counters)
    case Take(path, fs) => (TakeValue(GetOrNull(ctx, path), fs), counters)
    case Switch(on, cases) => (SwitchValue(GetOrNull(ctx, on), cases).GetOr(Null), counters)
    case Capture(path, p, skip) => (Str(CaptureText(GetOrNull(ctx, path), p, skip)), counters)
    case RunIndex(path) =>
      var name := TextOf(Get(ctx, path));
      if EndsWith(name, RunMarker) then
        var key := (TextOf(Get(ctx, ["session", "label"])), name[..|name| - |RunMarker|]);
        var (n, next) := NextRun(counters, key);
        (Str(NatToString(n)), next)
      else (Str(CaptureText(Str(name), RunNumber, 4)), counters)
  }

  /** A capture reads the text of its field. */
  lemma DeriveCapture(path: Path, p: Pat, skip: nat, ctx: Value, counters: Counters, name: string)
    requires Get(ctx, path) == Some(Str(name))
    ensures Derive(Capture(path, p, skip), ctx, counters) == (Str(CaptureText(Str(name), p, skip)), counters)
  {
  }

  /** A label without the run marker gives the run index written in it, and no counter moves. */
  lemma DeriveWrittenRun(path: Path, ctx: Value, counters: Counters, name: string)
    requires Get(ctx, path) == Some(Str(name)) && !EndsWith(name, RunMarker)
    ensures Derive(RunIndex(path), ctx, counters) == (Str(CaptureText(Str(name), RunNumber, 4)), counters)
  {
  }

  /** The property names of an `initialize` block or a template definition, in declared order. */
  function Names<T>(init: seq<(string, T)>): (ns: seq<string>)
    ensures |ns| == |init| && forall k :: 0 <= k < |init| ==> ns[k] == init[k].0
  {
    seq(|init|, k requires 0 <= k < |init| => init[k].0)
  }

  /** `initializeProperties`: derive each property in declared order and write it into the block. */
  function Initialize(init: seq<(string, Derivation)>, ctx: Value, block: map<string, Value>, counters: Counters)
    : (r: (map<string, Value>, Counters))
    ensures r.0.Keys == block.Keys + set n | n in Names(init)
    decreases |init|
  {
    if |init| == 0 then (block, counters)
    else
      var (v, next) := Derive(init[0].1, ctx, counters);
      var r := Initialize(init[1..], ctx, block[init[0].0 := v], next);
      assert Names(init) == [init[0].0] + Names(init[1..]);
      r
  }

  /** A property no later step writes keeps the value its own step derived. */
  lemma {:induction false} InitializeKeeps(init: seq<(string, Derivation)>, ctx: Value, block: map<string, Value>,
                                           counters: Counters, key: string)
    requires key in block
    requires forall k :: 0 <= k < |init| ==> init[k].0 != key
    ensures Initialize(init, ctx, block, counters).0[key] == block[key]
    decreases |init|
  {
    if |init| > 0 {
      var (v, next) := Derive(init[0].1, ctx, counters);
      assert forall k :: 0 <= k < |init[1..]| ==> init[1..][k] == init[k + 1];
      InitializeKeeps(init[1..], ctx, block[init[0].0 := v], next, key);
    }
  }

  /** A one-step `initialize` block writes that step's value over the block. */
  lemma InitializeSingle(name: string, d: Derivation, ctx: Value, block: map<string, Value>, counters: Counters)
    ensures Initialize([(name, d)], ctx, block, counters).0 == block[name := Derive(d, ctx, counters).0]
  {
    var init := [(name, d)];
    assert init[1..] == [];
  }

  /** A property holds what its own step derived when no later step writes it; only run indices depend on earlier steps. */
  lemma {:induction false} InitializeAt(init: seq<(string, Derivation)>, ctx: Value, block: map<string, Value>,
                                        counters: Counters, k: nat)
    requires k < |init|
    requires forall j :: k < j < |init| ==> init[j].0 != init[k].0
    requires forall j :: 0 <= j < k ==> !init[j].1.RunIndex?
    ensures Initialize(init, ctx, block, counters).0[init[k].0] == Derive(init[k].1, ctx, counters).0
    decreases |init|
  {
    var (v, next) := Derive(init[0].1, ctx, counters);
    assert forall j :: 0 <= j < |init[1..]| ==> init[1..][j] == init[j + 1];
    if k == 0 {
      InitializeKeeps(init[1..], ctx, block[init[0].0 := v], next, init[0].0);
    } else {
      InitializeAt(init[1..], ctx, block[init[0].0 := v], next, k - 1);
    }
  }

  // ---------------------------------------------------------------- rules and selection

  /** One template of the catalog; `uploadOnly` rules apply only when the caller is uploading. */
  datatype Rule = Rule(template: string, where: Where, init: seq<(string, Derivation)>, uploadOnly: bool)

  predicate Applies(rule: Rule, ctx: Value, upload: bool) {
    (upload || !rule.uploadOnly) && Test(rule.where, ctx)
  }

  /** The index of the first rule that applies, scanning from `i`. */
  function SelectFrom(rules: seq<Rule>, ctx: Value, upload: bool, i: nat): (r: Option<nat>)
    requires i <= |rules|
    ensures r.Some? ==> i <= r.value < |rules| && Applies(rules[r.value], ctx, upload)
    ensures r.Some? ==> forall j :: i <= j < r.value ==> !Applies(rules[j], ctx, upload)
    ensures r.None? ==> forall j :: i <= j < |rules| ==> !Applies(rules[j], ctx, upload)
    decreases |rules| - i
  {
    if i == |rules| then None
    else if Applies(rules[i], ctx, upload) then Some(i)
    else SelectFrom(rules, ctx, upload, i + 1)
  }

  /** The first rule, in catalog order, that applies to the context. */
  function Select(rules: seq<Rule>, ctx: Value, upload: bool): (r: Option<nat>)
    ensures r.Some? ==> r.value < |rules| && Applies(rules[r.value], ctx, upload)
    ensures r.Some? ==> forall j :: 0 <= j < r.value ==> !Applies(rules[j], ctx, upload)
    ensures r.None? <==> forall j :: 0 <= j < |rules| ==> !Applies(rules[j], ctx, upload)
  {
    SelectFrom(rules, ctx, upload, 0)
  }

  /**
   * When the last rule alone is reserved for uploads, uploading changes the choice only where
   * no other rule applies, and then picks that last rule.
   */
  lemma UploadAddsLast(rules: seq<Rule>, ctx: Value)
    requires |rules| >= 1 && rules[|rules| - 1].uploadOnly
    requires forall j :: 0 <= j < |rules| - 1 ==> !rules[j].uploadOnly
    ensures Select(rules, ctx, false) == if Select(rules, ctx, true) == Some(|rules| - 1) then None else Select(rules, ctx, true)
  {
    match Select(rules, ctx, true)
    case Some(k) =>
      if k < |rules| - 1 {
        SelectIs(rules, ctx, false, k);
      }
    case None =>
  }

  /** Selection is exactly "the first that applies": this pins down its result. */
  lemma SelectIs(rules: seq<Rule>, ctx: Value, upload: bool, k: nat)
    requires k < |rules| && Applies(rules[k], ctx, upload)
    requires forall j :: 0 <= j < k ==> !Applies(rules[j], ctx, upload)
    ensures Select(rules, ctx, upload) == Some(k)
  {
  }
}

=== FILE: rules_examples.dfy ===
/** The rule behaviour the template tests pin down, on their own contexts and rules. */
module RuleExamples {
  import opened Outcomes
  import opened Text
  import opened Json
  import opened Patterns
  import opened Rules

  // ---------------------------------------------------------------- $switch on a scalar

  const ScalarCases: seq<Case> := [
    Case(Str("foo"), Str("found_foo")),
    Case(Str("bar"), Str("found_bar")),
    Default(Str("found_nothing"))
  ]

  function SwitchInit(cases: seq<Case>): seq<(string, Derivation)> {
    [("Property", Switch(["value"], cases))]
  }

  /** `initializeProperties` with one `$switch` property writes the switch's value for the context `{'value': v}`. */
  lemma SwitchOnValue(cases: seq<Case>, v: Value)
    ensures Initialize(SwitchInit(cases), Obj(map["value" := v]), map[], map[]).0
            == map["Property" := SwitchValue(v, cases).GetOr(Null)]
  {
    var ctx := Obj(map["value" := v]);
    InitializeSingle("Property", Switch(["value"], cases), ctx, map[], map[]);
    assert GetOrNull(ctx, ["value"]) == v;
  }

  /** The first case whose `$eq` equals the value wins; an unmatched value takes the default. */
  lemma ScalarSwitch()
    ensures SwitchValue(Str("foo"), ScalarCases) == Some(Str("found_foo"))
    ensures SwitchValue(Str("bar"), ScalarCases) == Some(Str("found_bar"))
    ensures SwitchValue(Str("something_else"), ScalarCases) == Some(Str("found_nothing"))
  {
  }

  // ---------------------------------------------------------------- $switch on a list

  const ListCases: seq<Case> := [
    Case(List([Str("a"), Str("b"), Str("c")]), Str("match1")),
    Case(List([Str("a"), Str("d")]), Str("match2")),
    Default(Str("no_match"))
  ]

  /** Lists match as sets: a reordering of the first case's list selects it. */
  lemma ListSwitchReordered()
    ensures SwitchValue(List([Str("c"), Str("b"), Str("a")]), ListCases) == Some(Str("match1"))
  {
  }

  lemma ListSwitchSecond()
    ensures SwitchValue(List([Str("a"), Str("d")]), ListCases) == Some(Str("match2"))
  {
  }

  /** A strict subset of a case's list does not select it. */
  lemma ListSwitchSubset()
    ensures SwitchValue(List([Str("a"), Str("b")]), ListCases) == Some(Str("no_match"))
  {
    assert Str("c") !in [Str("a"), Str("b")];
  }

  /** A strict superset of a case's list does not select it either. */
  lemma ListSwitchSuperset()
    ensures SwitchValue(List([Str("a"), Str("b"), Str("c"), Str("d")]), ListCases) == Some(Str("no_match"))
  {
    assert Str("d") !in [Str("a"), Str("b"), Str("c")];
    assert Str("b") !in [Str("a"), Str("d")];
  }

  // ---------------------------------------------------------------- $format

  /** `[A-Z]+` */
  const UpperRun: Pat := [Branch([], Some(Upper))]

  /** The literal pattern `EW`. */
  const EW: Pat := [Branch(Literal("EW"), None)]

  predicate NoUpper(a: string) {
    forall j :: 0 <= j < |a| ==> !IsUpper(a[j])
  }

  /** Text without capitals passes through `[A-Z]+` substitution unchanged. */
  lemma NoUpperUnchanged(rep: seq<Piece>, a: string, b: string)
    requires NoUpper(a)
    ensures Sub(UpperRun, rep, a + b) == a + Sub(UpperRun, rep, b)
  {
    forall j | 0 <= j < |a| ensures MatchAt(UpperRun, a + b, j).None? {
      assert (a + b)[j] == a[j];
    }
    SubPrefix(UpperRun, rep, a, b);
  }

  lemma NoUpperAll(rep: seq<Piece>, a: string)
    requires NoUpper(a)
    ensures Sub(UpperRun, rep, a) == a
  {
    forall j | 0 <= j < |a| ensures MatchAt(UpperRun, a, j).None? { }
  }

  /** A run of capitals followed by a non-capital (or the end) is a maximal `[A-Z]+` match. */
  lemma UpperMatch(m: string, b: string)
    requires NoUpper(b)
    requires |m| >= 1 && forall j :: 0 <= j < |m| ==> IsUpper(m[j])
    ensures MatchAt(UpperRun, m + b, 0) == Some(|m|)
  {
    var s := m + b;
    assert forall j :: 0 <= j < |m| ==> InClass(s[j], Upper);
    assert |b| > 0 ==> !InClass(s[|m|], Upper);
    assert RunFrom(s, 0, Upper) == |m|;
  }

  /** `[A-Z]+` replaces the one run of capitals between two capital-free texts. */
  lemma UpperReplace(rep: seq<Piece>, a: string, m: string, b: string)
    requires NoUpper(a) && NoUpper(b)
    requires |m| >= 1 && forall j :: 0 <= j < |m| ==> IsUpper(m[j])
    ensures Sub(UpperRun, rep, a + m + b) == a + Expand(rep, m) + b
  {
    assert a + m + b == a + (m + b);
    NoUpperUnchanged(rep, a, m + b);
    UpperMatch(m, b);
    SubLeadingMatch(UpperRun, rep, m, b);
    NoUpperAll(rep, b);
  }

  lemma ExpandText(t: string, m: string)
    ensures Expand([Patterns.Text(t)], m) == t
  {
    assert Expand([Patterns.Text(t)][1..], m) == "";
  }

  /** No match of a literal pattern starts where its first character is absent. */
  lemma LiteralAbsent(t: string, a: string, b: string)
    requires |t| >= 1 && t[0] !in a
    ensures forall j :: 0 <= j < |a| ==> MatchAt([Branch(Literal(t), None)], a + b, j).None?
  {
    forall j | 0 <= j < |a| ensures MatchAt([Branch(Literal(t), None)], a + b, j).None? {
      assert (a + b)[j] == a[j];
      assert !InClass((a + b)[j], Literal(t)[0]);
    }
  }

  /** `$lower` with a literal pattern lower-cases its one occurrence. */
  lemma LowerLiteral(t: string, a: string, b: string)
    requires |t| >= 1 && t[0] !in a && t[0] !in b
    ensures Sub([Branch(Literal(t), None)], [LowerWhole], a + t + b) == a + Lower(t) + b
  {
    var p := [Branch(Literal(t), None)];
    assert a + t + b == a + (t + b);
    LiteralAbsent(t, a, t + b);
    SubPrefix(p, [LowerWhole], a, t + b);
    assert OccursAt(t + b, t, 0);
    FixedLiteral(t, t + b, 0);
    SubLeadingMatch(p, [LowerWhole], t, b);
    ExpandLowerWhole(t);
    LiteralAbsent(t, b, "");
    assert b + "" == b;
  }

  const FirstFormats: seq<Format> := [Replace(UpperRun, "NEW"), LowerMatches(EW)]
  const SecondFormats: seq<Format> := [Replace(UpperRun, "UPPER_12_key"), LowerAll]

  /** `[A-Z]+` replaced in `the_OLD_string`. */
  lemma ReplaceOld(s: string, t: string)
    requires s == "the_OLD_string"
    requires |t| >= 1
    ensures ApplyFormat(Replace(UpperRun, t), s) == "the_" + t + "_string"
  {
    assert s == "the_" + "OLD" + "_string";
    UpperReplace([Patterns.Text(t)], "the_", "OLD", "_string");
    ExpandText(t, "OLD");
  }

  lemma LowerNew(s: string)
    requires s == "the_" + "NEW" + "_string"
    ensures ApplyFormat(LowerMatches(EW), s) == "the_New_string"
  {
    NewSplit(s);
    LowerLiteral("EW", "the_N", "_string");
    LowerEW();
  }

  lemma NewSplit(s: string)
    requires s == "the_" + "NEW" + "_string"
    ensures s == "the_N" + "EW" + "_string" && 'E' !in "the_N" && 'E' !in "_string"
  {
  }

  lemma LowerEW()
    ensures "the_N" + Lower("EW") + "_string" == "the_New_string"
  {
    assert Lower("EW") == "ew";
  }

  lemma FirstPipeline(s: string)
    requires s == "the_OLD_string"
    ensures ApplyFormats(FirstFormats, s) == "the_New_string"
  {
    ReplaceOld(s, "NEW");
    var t := ApplyFormat(FirstFormats[0], s);
    LowerNew(t);
    assert FirstFormats[1..] == [LowerMatches(EW)];
    assert ApplyFormats(FirstFormats, s) == ApplyFormats([LowerMatches(EW)], t);
  }

  lemma LowerUpperKey(t: string)
    requires t == "the_" + "UPPER_12_key" + "_string"
    ensures ApplyFormat(LowerAll, t) == "the_upper_12_key_string"
  {
    LowerConcat("the_" + "UPPER_12_key", "_string");
    LowerConcat("the_", "UPPER_12_key");
    assert Lower("UPPER_12_key") == "upper_12_key";
    assert Lower("the_") == "the_";
    assert Lower("_string") == "_string";
  }

  lemma SecondPipeline(s: string)
    requires s == "the_OLD_string"
    ensures ApplyFormats(SecondFormats, s) == "the_upper_12_key_string"
  {
    ReplaceOld(s, "UPPER_12_key");
    var t := ApplyFormat(SecondFormats[0], s);
    LowerUpperKey(t);
    assert SecondFormats[1..] == [LowerAll];
    assert ApplyFormats(SecondFormats, s) == ApplyFormats([LowerAll], t);
  }

  /** `$take` the field `value`, then run the `$format` steps left to right. */
  lemma TakeOnValue(fs: seq<Format>, s: string)
    ensures Initialize([("Property", Take(["value"], fs))], Obj(map["value" := Str(s)]), map[], map[]).0
            == map["Property" := Str(ApplyFormats(fs, s))]
  {
    var init := [("Property", Take(["value"], fs))];
    assert init[1..] == [];
  }

  /** `the_OLD_string` becomes `the_New_string` under the first rule and `the_upper_12_key_string` under the second. */
  lemma FormatExamples(s: string)
    requires s == "the_OLD_string"
    ensures Initialize([("Property", Take(["value"], FirstFormats))], Obj(map["value" := Str(s)]), map[], map[]).0
            == map["Property" := Str("the_New_string")]
    ensures Initialize([("Property", Take(["value"], SecondFormats))], Obj(map["value" := Str(s)]), map[], map[]).0
            == map["Property" := Str("the_upper_12_key_string")]
  {
    TakeOnValue(FirstFormats, s);
    FirstPipeline(s);
    TakeOnValue(SecondFormats, s);
    SecondPipeline(s);
  }

  // ---------------------------------------------------------------- where conditions

  /** `$regex: topup` finds the word anywhere in the field. */
  lemma RegexAnywhere()
    ensures Test([(["x"], Regex(Literals(["topup"])))], Obj(map["x" := Str("string_with topup in it")]))
  {
    var s := "string_with topup in it";
    assert OccursAt(s, "topup", 12);
    LiteralsMatchAt(["topup"], s, 12);
    IgnoreCaseWidens(Literals(["topup"]), s, 12);
    assert MatchAt(IgnoreCase(Literals(["topup"])), s, 12).Some?;
  }

  /** `$regex` ignores case: `topup` is found in `TOPUP`. */
  lemma RegexIgnoresCase()
    ensures Test([(["x"], Regex(Literals(["topup"])))], Obj(map["x" := Str("string_with TOPUP in it")]))
  {
    var s := "string_with TOPUP in it";
    var p := IgnoreCase(Literals(["topup"]));
    var b := p[0];
    assert s[12..17] == "TOPUP";
    forall j | 0 <= j < 5 ensures InClass(s[12 + j], b.fixed[j]) {
      assert b.fixed[j] == NoCase("topup"[j]);
    }
    assert MatchAt(p, s, 12) == BranchAt(b, s, 12);
    assert MatchAt(p, s, 12).Some?;
  }

  const NestedContext: Value := Obj(map["x" := Obj(map["l" := Str("string_with topup in it")])])

  /** `$in` on a string field is substring search; on a dict it tests the keys, so no listed word is found. */
  lemma InString()
    ensures Test([(["x", "l"], In([Str("topup"), Str("something_else")]))], NestedContext)
    ensures !Test([(["x"], In([Str("not_topup"), Str("something_else")]))], NestedContext)
  {
    assert OccursAt("string_with topup in it", "topup", 12);
  }

  /** `$not` turns the `$in` test around. */
  lemma NotIn()
    ensures !Test([(["x"], Not(In([Str("Value")])))], Obj(map["x" := Str("Value")]))
    ensures Test([(["x"], Not(In([Str("Value")])))], Obj(map["x" := Str("Something")]))
  {
    ContainsSelf("Value");
    ContainsHead("Something", "Value");
  }
}

=== FILE: text.dfy ===
/** Character classes and string helpers with Python `str` semantics, restricted to ASCII. */
module Text {
  import opened Outcomes

  predicate IsDigit(c: char) { '0' <= c <= '9' }
  predicate IsUpper(c: char) { 'A' <= c <= 'Z' }
  predicate IsLower(c: char) { 'a' <= c <= 'z' }
  predicate IsAlnum(c: char) { IsDigit(c) || IsUpper(c) || IsLower(c) }

  /** Within ASCII the classes above agree with Python's Unicode `str.isdigit`, `str.isalnum` and `\d`. */
  predicate IsAscii(c: char) { c as int < 128 }

  /** Every character of `s` satisfies `p`. */
  predicate All(s: string, p: char -> bool) {
    forall i :: 0 <= i < |s| ==> p(s[i])
  }

  /** Concatenation regrouped, for proofs that build a string piece by piece. */
  lemma JoinAssoc(a: string, b: string, c: string)
    ensures a + (b + c) == (a + b) + c
  {
  }

  predicate StartsWith(s: string, prefix: string) {
    |prefix| <= |s| && s[..|prefix|] == prefix
  }

  predicate EndsWith(s: string, suffix: string) {
    |suffix| <= |s| && s[|s| - |suffix|..] == suffix
  }

  // ---------------------------------------------------------------- case

  function LowerChar(c: char): char {
    if IsUpper(c) then (c as int + 32) as char else c
  }

  /** `str.lower()` on ASCII letters; every other character is kept. */
  function Lower(s: string): (r: string)
    ensures |r| == |s|
    ensures forall i :: 0 <= i < |s| ==> r[i] == LowerChar(s[i])
    ensures forall i :: 0 <= i < |s| ==> !IsUpper(r[i])
  {
    seq(|s|, i requires 0 <= i < |s| => LowerChar(s[i]))
  }

  lemma LowerIdempotent(s: string)
    ensures Lower(Lower(s)) == Lower(s)
  {
  }

  lemma LowerConcat(a: string, b: string)
    ensures Lower(a + b) == Lower(a) + Lower(b)
  {
    assert forall i :: 0 <= i < |a + b| ==> Lower(a + b)[i] == (Lower(a) + Lower(b))[i];
  }

  // ---------------------------------------------------------------- filtering

  /** The characters of `s` that satisfy `p`, in their original order. */
  function Keep(s: string, p: char -> bool): (r: string)
    ensures |r| <= |s|
    ensures All(r, p)
    ensures All(s, p) ==> r == s
    ensures (forall i :: 0 <= i < |s| ==> !p(s[i])) ==> r == ""
  {
    if |s| == 0 then ""
    else (if p(s[0]) then [s[0]] else []) + Keep(s[1..], p)
  }

  lemma {:induction false} KeepConcat(a: string, b: string, p: char -> bool)
    ensures Keep(a + b, p) == Keep(a, p) + Keep(b, p)
    decreases |a|
  {
    if |a| == 0 {
      assert a + b == b;
    } else {
      assert (a + b)[0] == a[0] && (a + b)[1..] == a[1..] + b;
      KeepConcat(a[1..], b, p);
      var head := if p(a[0]) then [a[0]] else [];
      assert Keep(a + b, p) == head + Keep(a[1..] + b, p);
      assert Keep(a, p) == head + Keep(a[1..], p);
    }
  }

  /** Keeping is idempotent: the kept characters all pass again. */
  lemma KeepIdempotent(s: string, p: char -> bool)
    ensures Keep(Keep(s, p), p) == Keep(s, p)
  {
  }

  // ---------------------------------------------------------------- substring search

  /** `p` occurs in `s` starting at index `i`. */
  predicate OccursAt(s: string, p: string, i: int) {
    0 <= i && i + |p| <= |s| && s[i..i + |p|] == p
  }

  /** Python's `p in s` for strings. */
  predicate Contains(s: string, p: string) {
    exists i :: 0 <= i <= |s| - |p| && OccursAt(s, p, i)
  }

  /** The leftmost occurrence of `p` in `s` at or after `from` (`str.find`). */
  function FindFrom(s: string, p: string, from: nat): (r: Option<nat>)
    requires from <= |s|
    ensures r.Some? ==> from <= r.value && OccursAt(s, p, r.value)
    ensures r.Some? ==> forall j :: from <= j < r.value ==> !OccursAt(s, p, j)
    ensures r.None? ==> forall j :: from <= j ==> !OccursAt(s, p, j)
    decreases |s| - from
  {
    if from + |p| > |s| then None
    else if s[from..from + |p|] == p then Some(from)
    else if from == |s| then None
    else FindFrom(s, p, from + 1)
  }

  function Find(s: string, p: string): (r: Option<nat>)
    ensures r.Some? <==> Contains(s, p)
    ensures r.Some? ==> OccursAt(s, p, r.value)
    ensures r.Some? ==> forall j :: 0 <= j < r.value ==> !OccursAt(s, p, j)
  {
    FindFrom(s, p, 0)
  }

  /** A string contains itself, and every string contains the empty string. */
  lemma ContainsSelf(s: string)
    ensures Contains(s, s)
    ensures Contains(s, "")
  {
    assert OccursAt(s, s, 0);
    assert OccursAt(s, "", 0);
  }

  lemma ContainsPrefix(s: string, p: string)
    requires StartsWith(s, p)
    ensures Contains(s, p)
  {
    assert OccursAt(s, p, 0);
  }

  lemma ContainsSuffix(s: string, p: string)
    requires EndsWith(s, p)
    ensures Contains(s, p)
  {
    assert OccursAt(s, p, |s| - |p|);
  }

  /** An occurrence inside a part is an occurrence inside the whole. */
  lemma ContainsInfix(a: string, m: string, b: string, p: string)
    requires Contains(m, p)
    ensures Contains(a + m + b, p)
  {
    var i :| 0 <= i <= |m| - |p| && OccursAt(m, p, i);
    assert (a + m + b)[|a| + i..|a| + i + |p|] == m[i..i + |p|];
    assert OccursAt(a + m + b, p, |a| + i);
  }

  /** A string that contains `p` contains its first character. */
  lemma ContainsHead(s: string, p: string)
    requires |p| >= 1
    ensures Contains(s, p) ==> p[0] in s
  {
    if Contains(s, p) {
      var i :| 0 <= i <= |s| - |p| && OccursAt(s, p, i);
      assert s[i] == s[i..i + |p|][0] == p[0];
    }
  }

  // ---------------------------------------------------------------- split and join

  /** `sep.join(parts)`. */
  function Join(parts: seq<string>, sep: char): string {
    if |parts| == 0 then ""
    else if |parts| == 1 then parts[0]
    else parts[0] + [sep] + Join(parts[1..], sep)
  }

  /** `s.split(sep)` for a one-character separator: never empty, the pieces never contain `sep`. */
  function Split(s: string, sep: char): (r: seq<string>)
    ensures |r| >= 1
    ensures forall k :: 0 <= k < |r| ==> sep !in r[k]
    ensures Join(r, sep) == s
  {
    if |s| == 0 then [""]
    else
      var rest := Split(s[1..], sep);
      if s[0] == sep then
        assert [s[0]] + s[1..] == s;
        [""] + rest
      else
        JoinConsFirst(s[0], rest, sep);
        assert [s[0]] + s[1..] == s;
        [[s[0]] + rest[0]] + rest[1..]
  }

  lemma JoinConsFirst(c: char, parts: seq<string>, sep: char)
    requires |parts| >= 1
    ensures Join([[c] + parts[0]] + parts[1..], sep) == [c] + Join(parts, sep)
  {
    var q := [[c] + parts[0]] + parts[1..];
    assert q[1..] == parts[1..];
  }

  /** Splitting undoes joining when no part contains the separator. */
  lemma {:induction false} SplitJoin(parts: seq<string>, sep: char)
    requires |parts| >= 1
    requires forall k :: 0 <= k < |parts| ==> sep !in parts[k]
    ensures Split(Join(parts, sep), sep) == parts
    decreases |parts|, |parts[0]|
  {
    if |parts[0]| == 0 {
      if |parts| == 1 {
      } else {
        var s := Join(parts, sep);
        assert s == [sep] + Join(parts[1..], sep);
        assert s[1..] == Join(parts[1..], sep);
        SplitJoin(parts[1..], sep);
        assert parts == [""] + parts[1..];
      }
    } else {
      var c := parts[0][0];
      var q := [parts[0][1..]] + parts[1..];
      assert q[1..] == parts[1..];
      assert sep !in q[0];
      SplitJoin(q, sep);
      var s := Join(parts, sep);
      JoinConsFirst(c, q, sep);
      assert [c] + q[0] == parts[0];
      assert [[c] + q[0]] + q[1..] == parts;
      assert s == [c] + Join(q, sep);
      assert s[1..] == Join(q, sep);
    }
  }

  /** `os.path.basename` on a `/`-separated path: the text after the last `/`. */
  function Basename(path: string): (r: string)
    ensures '/' !in r
    ensures EndsWith(path, r)
  {
    var parts := Split(path, '/');
    JoinEndsWithLast(parts, '/');
    parts[|parts| - 1]
  }

  lemma {:induction false} JoinEndsWithLast(parts: seq<string>, sep: char)
    requires |parts| >= 1
    ensures EndsWith(Join(parts, sep), parts[|parts| - 1])
    decreases |parts|
  {
    if |parts| > 1 {
      JoinEndsWithLast(parts[1..], sep);
      var j := Join(parts[1..], sep);
      var last := parts[|parts| - 1];
      assert last == parts[1..][|parts[1..]| - 1];
      assert Join(parts, sep) == (parts[0] + [sep]) + j;
      assert (parts[0] + [sep] + j)[|parts[0] + [sep] + j| - |last|..] == j[|j| - |last|..];
    }
  }

  /** The position of the last `c` in `s`. */
  function LastIndex(s: string, c: char): (r: Option<nat>)
    ensures r.None? <==> c !in s
    ensures r.Some? ==> r.value < |s| && s[r.value] == c && c !in s[r.value + 1..]
  {
    if |s| == 0 then None
    else if s[|s| - 1] == c then Some(|s| - 1)
    else
      var r := LastIndex(s[..|s| - 1], c);
      assert r.Some? ==> s[r.value + 1..] == s[..|s| - 1][r.value + 1..] + [s[|s| - 1]];
      assert s == s[..|s| - 1] + [s[|s| - 1]];
      r
  }

  /** `s` with every trailing `c` removed. */
  function TrimRight(s: string, c: char): (r: string)
    ensures |r| <= |s| && s[..|r|] == r
    ensures |r| == 0 || r[|r| - 1] != c
    ensures forall i :: |r| <= i < |s| ==> s[i] == c
  {
    if |s| > 0 && s[|s| - 1] == c then TrimRight(s[..|s| - 1], c) else s
  }

  predicate Slashes(s: string) {
    All(s, c => c == '/')
  }

  /**
   * Python's `os.path.dirname`: everything up to the last `/`, with the trailing slashes
   * removed unless nothing but slashes is left.
   */
  function Dirname(path: string): (r: string)
    ensures |r| <= |path| && path[..|r|] == r
    ensures '/' !in path ==> r == ""
  {
    match LastIndex(path, '/')
    case None => ""
    case Some(i) =>
      var head := path[..i + 1];
      if Slashes(head) then head else TrimRight(head, '/')
  }

  /** The directory of `parent/name` is `parent`, less its trailing slashes, or the root. */
  lemma DirnameOfChild(parent: string, name: string)
    requires '/' !in name
    ensures Dirname(parent + "/" + name) == if Slashes(parent) then parent + "/" else TrimRight(parent, '/')
  {
    var path := parent + "/" + name;
    assert path[|parent|] == '/';
    assert path[|parent| + 1..] == name;
    var i := LastIndex(path, '/').value;
    var head := path[..|parent| + 1];
    assert head == parent + "/";
    if !Slashes(parent) {
      var k :| 0 <= k < |parent| && parent[k] != '/';
      assert head[k] != '/';
      assert TrimRight(head, '/') == TrimRight(parent, '/');
    }
  }

  // ---------------------------------------------------------------- decimal numbers

  function DigitChar(d: nat): char
    requires d < 10
  {
    ('0' as int + d) as char
  }

  function DigitValue(c: char): nat
    requires IsDigit(c)
  {
    c as int - '0' as int
  }

  /** `'%d' % n` for a non-negative integer. */
  function NatToString(n: nat): (r: string)
    ensures |r| >= 1 && All(r, IsDigit)
    ensures r[0] == '0' <==> n == 0
  {
    if n < 10 then [DigitChar(n)] else NatToString(n / 10) + [DigitChar(n % 10)]
  }

  /** The value of a non-empty string of decimal digits (`int(s)`). */
  function DigitsValue(s: string): nat
    requires All(s, IsDigit)
  {
    if |s| == 0 then 0 else 10 * DigitsValue(s[..|s| - 1]) + DigitValue(s[|s| - 1])
  }

  /** Formatting a number and reading it back gives the number. */
  lemma {:induction false} DigitsValueOfNatToString(n: nat)
    ensures DigitsValue(NatToString(n)) == n
  {
    if n >= 10 {
      var r := NatToString(n);
      assert r[..|r| - 1] == NatToString(n / 10);
      DigitsValueOfNatToString(n / 10);
    }
  }

  /** Reading digits without a leading zero and formatting them back gives the digits. */
  lemma {:induction false} NatToStringOfDigitsValue(s: string)
    requires |s| >= 1 && All(s, IsDigit)
    requires s[0] == '0' ==> |s| == 1
    ensures NatToString(DigitsValue(s)) == s
    decreases |s|
  {
    if |s| > 1 {
      var init := s[..|s| - 1];
      assert init[0] == s[0];
      NatToStringOfDigitsValue(init);
      var n := DigitsValue(s);
      assert n / 10 == DigitsValue(init) && n % 10 == DigitValue(s[|s| - 1]);
      assert s == init + [s[|s| - 1]];
    }
  }

  // ---------------------------------------------------------------- Python repr

  function HexDigit(d: nat): char
    requires d < 16
  {
    if d < 10 then DigitChar(d) else ('a' as int + d - 10) as char
  }

  /** The escape of one character inside a `repr` quoted with `quote`. */
  function EscapeChar(c: char, quote: char): string {
    if c == '\\' then "\\\\"
    else if c == quote then ['\\', quote]
    else if c == '\n' then "\\n"
    else if c == '\r' then "\\r"
    else if c == '\t' then "\\t"
    else if c as int < 0x20 || c as int == 0x7f then
      ['\\', 'x', HexDigit(c as int / 16), HexDigit(c as int % 16)]
    else [c]
  }

  function Escape(s: string, quote: char): string {
    if |s| == 0 then "" else EscapeChar(s[0], quote) + Escape(s[1..], quote)
  }

  /** A character that `repr` writes as itself whichever quote it picks. */
  predicate Plain(c: char) {
    c != '\\' && c != '\'' && c != '"' && 0x20 <= c as int && c as int != 0x7f
  }

  /** Python's `repr` of a string: single quotes unless the text has a `'` and no `"`. */
  function Repr(s: string): (r: string)
    ensures |r| >= 2
    ensures All(s, Plain) ==> r == "'" + s + "'"
  {
    var quote := if '\'' in s && '"' !in s then '"' else '\'';
    EscapePlain(s, quote);
    [quote] + Escape(s, quote) + [quote]
  }

  lemma {:induction false} EscapePlain(s: string, quote: char)
    requires quote == '\'' || quote == '"'
    ensures All(s, Plain) ==> Escape(s, quote) == s
  {
    if |s| > 0 && All(s, Plain) {
      assert All(s[1..], Plain);
      EscapePlain(s[1..], quote);
      assert s == [s[0]] + s[1..];
    }
  }
}

=== FILE: upload.dfy ===
/**
 * Upload-side helpers that read BIDS metadata back out of file names on disk
 * (`upload_bids.py`): the acquisition label a file is uploaded under, the BIDS
 * block filled in from the file's name, the pairing of a JSON sidecar with its
 * data file, and the typing of the cells of a `.tsv` table.
 *
 * A BIDS file name is a run of `_`-separated parts (`sub-01`, `task-rest`, the
 * final suffix `bold`) followed by an extension that starts at the first `.`.
 */
module Upload {
  import opened Outcomes
  import opened Text
  import opened Json

  // ---------------------------------------------------------------- file names

  /** The text of `s` before the first `c` (`s.split(c)[0]`). */
  function UpTo(s: string, c: char): (r: string)
    ensures |r| <= |s| && r == s[..|r|]
    ensures c !in r
    ensures |r| < |s| ==> s[|r|] == c
  {
    if |s| == 0 || s[0] == c then ""
    else
      var rest := UpTo(s[1..], c);
      assert [s[0]] + s[1..] == s;
      [s[0]] + rest
  }

  /** The name without its extension. */
  function Stem(name: string): string {
    UpTo(name, '.')
  }

  /** The extension: everything from the first `.` on, or nothing. */
  function Extension(name: string): (e: string)
    ensures Stem(name) + e == name
    ensures e == "" || e[0] == '.'
  {
    name[|Stem(name)|..]
  }

  /** The `_`-separated parts of the stem. */
  function Parts(name: string): (ps: seq<string>)
    ensures |ps| >= 1
    ensures forall k :: 0 <= k < |ps| ==> '_' !in ps[k] && '.' !in ps[k]
  {
    var ps := Split(Stem(name), '_');
    forall k | 0 <= k < |ps| ensures '.' !in ps[k] {
      JoinHasParts(ps, '_', k);
    }
    ps
  }

  /** Parts and an extension from which a BIDS name can be put together and read back. */
  predicate Shaped(parts: seq<string>, ext: string) {
    |parts| >= 1 &&
    (forall k :: 0 <= k < |parts| ==> '_' !in parts[k] && '.' !in parts[k]) &&
    (ext == "" || ext[0] == '.')
  }

  /** The name with the given parts and extension. */
  function Compose(parts: seq<string>, ext: string): string {
    Join(parts, '_') + ext
  }

  /** Every character of a part is a character of the joined text. */
  lemma {:induction false} JoinHasParts(parts: seq<string>, sep: char, k: nat)
    requires k < |parts|
    ensures forall c :: c in parts[k] ==> c in Join(parts, sep)
  {
    if |parts| > 1 {
      if k > 0 {
        JoinHasParts(parts[1..], sep, k - 1);
      }
    }
  }

  /** A character in no part and not the separator is not in the joined text. */
  lemma {:induction false} JoinAvoids(parts: seq<string>, sep: char, c: char)
    requires c != sep
    requires forall k :: 0 <= k < |parts| ==> c !in parts[k]
    ensures c !in Join(parts, sep)
  {
    if |parts| > 1 {
      JoinAvoids(parts[1..], sep, c);
    }
  }

  /** The text before the first `c` of `a + b`, when `a` has no `c` and `b` starts with one. */
  lemma UpToJoined(a: string, b: string, c: char)
    requires c !in a
    requires b == "" || b[0] == c
    ensures UpTo(a + b, c) == a
  {
    assert (a + b)[..|a|] == a;
  }

  /** Reading a put-together name gives back its parts and its extension. */
  lemma Decompose(parts: seq<string>, ext: string)
    requires Shaped(parts, ext)
    ensures Stem(Compose(parts, ext)) == Join(parts, '_')
    ensures Parts(Compose(parts, ext)) == parts
    ensures Extension(Compose(parts, ext)) == ext
  {
    JoinAvoids(parts, '_', '.');
    UpToJoined(Join(parts, '_'), ext, '.');
    SplitJoin(parts, '_');
  }

  // ---------------------------------------------------------------- entities

  /** A BIDS label is alphanumeric; an index is a non-negative integer written in digits. */
  datatype Kind = Label | Index

  predicate Allowed(kind: Kind, c: char) {
    match kind
    case Label => IsAlnum(c)
    case Index => IsDigit(c)
  }

  /** The value of `part` when it is the entity `key-<value>` with a non-empty value of the right kind. */
  function ValueOf(part: string, key: string, kind: Kind): (r: Option<string>)
    ensures r.Some? <==> StartsWith(part, key + "-") && |part| > |key| + 1 &&
                         forall i :: |key| + 1 <= i < |part| ==> Allowed(kind, part[i])
    ensures r.Some? ==> part == key + "-" + r.value && |r.value| >= 1
  {
    var n := |key| + 1;
    if StartsWith(part, key + "-") && |part| > n && forall i :: n <= i < |part| ==> Allowed(kind, part[i])
    then Some(part[n..])
    else None
  }

  /** The value of the first part that is the entity `key`. */
  function FindEntity(parts: seq<string>, key: string, kind: Kind): Option<string> {
    if |parts| == 0 then None
    else if ValueOf(parts[0], key, kind).Some? then ValueOf(parts[0], key, kind)
    else FindEntity(parts[1..], key, kind)
  }

  /** The entity found is that of the first part carrying it. */
  lemma {:induction false} FindEntityFirst(parts: seq<string>, key: string, kind: Kind, k: nat)
    requires k < |parts| && ValueOf(parts[k], key, kind).Some?
    requires forall j :: 0 <= j < k ==> ValueOf(parts[j], key, kind).None?
    ensures FindEntity(parts, key, kind) == ValueOf(parts[k], key, kind)
  {
    if k > 0 {
      FindEntityFirst(parts[1..], key, kind, k - 1);
    }
  }

  /** No entity is found exactly when no part carries it. */
  lemma {:induction false} FindEntityNone(parts: seq<string>, key: string, kind: Kind)
    ensures FindEntity(parts, key, kind).None? <==>
            forall j :: 0 <= j < |parts| ==> ValueOf(parts[j], key, kind).None?
  {
    if |parts| > 0 {
      FindEntityNone(parts[1..], key, kind);
      assert forall j :: 1 <= j < |parts| ==> parts[j] == parts[1..][j - 1];
    }
  }

  /** A rendered entity reads back as its value. */
  lemma ValueOfRendered(key: string, value: string, kind: Kind)
    requires |value| >= 1 && forall i :: 0 <= i < |value| ==> Allowed(kind, value[i])
    ensures ValueOf(key + "-" + value, key, kind) == Some(value)
  {
    var part := key + "-" + value;
    assert forall i :: |key| + 1 <= i < |part| ==> part[i] == value[i - |key| - 1];
    assert part[..|key| + 1] == key + "-";
  }

  /** In `x-y` with no `-` in `x`, the first `-` follows `x`. */
  lemma FirstDash(x: string, y: string)
    requires '-' !in x
    ensures (x + "-" + y)[|x|] == '-'
    ensures forall i :: 0 <= i < |x| ==> (x + "-" + y)[i] != '-'
  {
    assert forall i :: 0 <= i < |x| ==> (x + "-" + y)[i] == x[i];
  }

  /** A rendered entity is read only under its own key, when neither key holds a `-`. */
  lemma ValueOfOwnKey(other: string, value: string, key: string, kind: Kind)
    requires '-' !in other && '-' !in key
    ensures ValueOf(other + "-" + value, key, kind).Some? ==> key == other
  {
    var part := other + "-" + value;
    if StartsWith(part, key + "-") {
      assert part[..|key| + 1] == key + "-";
      assert part == key + "-" + part[|key| + 1..];
      FirstDash(other, value);
      FirstDash(key, part[|key| + 1..]);
      assert |key| == |other|;
      assert key == part[..|key|] == other;
    }
  }

  /** The entity `key` of a file name, looked for in the parts after the first. */
  function Entity(name: string, key: string, kind: Kind): Option<string> {
    FindEntity(Parts(name)[1..], key, kind)
  }

  /** The suffix of a file name: its last part, when there is more than one and it is alphanumeric. */
  function Suffix(name: string, ext: string): (r: Option<string>)
    ensures r.Some? ==> |r.value| >= 1 && All(r.value, IsAlnum) && EndsWith(name, "_" + r.value + ext)
  {
    if !EndsWith(name, ext) then None
    else
      var stem := name[..|name| - |ext|];
      var ps := Split(stem, '_');
      var last := ps[|ps| - 1];
      if |ps| >= 2 && |last| >= 1 && All(last, IsAlnum) then
        JoinEndsWithLast(ps, '_');
        SuffixFollowsSeparator(ps, '_');
        Some(last)
      else None
  }

  /** The last of two or more joined parts comes right after a separator. */
  lemma {:induction false} SuffixFollowsSeparator(parts: seq<string>, sep: char)
    requires |parts| >= 2
    ensures EndsWith(Join(parts, sep), [sep] + parts[|parts| - 1])
  {
    if |parts| == 2 {
      assert Join(parts, sep) == parts[0] + ([sep] + parts[1]);
    } else {
      SuffixFollowsSeparator(parts[1..], sep);
      assert Join(parts, sep) == (parts[0] + [sep]) + Join(parts[1..], sep);
    }
  }

  /** The suffix of a put-together name is its last part. */
  lemma SuffixComposed(parts: seq<string>, ext: string)
    requires Shaped(parts, ext) && |parts| >= 2
    requires |parts[|parts| - 1]| >= 1 && All(parts[|parts| - 1], IsAlnum)
    ensures Suffix(Compose(parts, ext), ext) == Some(parts[|parts| - 1])
  {
    var name := Compose(parts, ext);
    assert name[..|name| - |ext|] == Join(parts, '_');
    SplitJoin(parts, '_');
  }

  // ---------------------------------------------------------------- fill_in_properties

  /** The BIDS block keys read from a name's entities, with the entity key and its kind. */
  const Entities: map<string, (string, Kind)> := map[
    "Acq" := ("acq", Label), "Ce" := ("ce", Label), "Rec" := ("rec", Label),
    "Run" := ("run", Index), "Mod" := ("mod", Label), "Task" := ("task", Label),
    "Echo" := ("echo", Index), "Dir" := ("dir", Label), "Recording" := ("recording", Label)]

  /** The value the name gives block key `k`, or the present value when the name gives none. */
  function FillKey(k: string, v: Value, name: string, ext: string, folder: string): Value {
    if k == "Filename" then Str(name)
    else if k == "Folder" then Str(folder)
    else if k == "Modality" then
      match Suffix(name, ext)
      case Some(m) => Str(m)
      case None => v
    else if k in Entities then
      match Entity(name, Entities[k].0, Entities[k].1)
      case Some(e) => Str(e)
      case None => v
    else v
  }

  /**
   * The block's keys filled in from the file name: every key the name gives a value for, except
   * that without `overwrite` a key already holding a true value keeps it. No key is added.
   */
  function FillBlock(block: map<string, Value>, name: string, ext: string, folder: string,
                     overwrite: bool): (r: map<string, Value>)
    ensures r.Keys == block.Keys
    ensures forall k :: k in block && !overwrite && Truthy(block[k]) ==> r[k] == block[k]
  {
    map k | k in block :: if !overwrite && Truthy(block[k]) then block[k] else FillKey(k, block[k], name, ext, folder)
  }

  /** Filling a key a second time from the same name changes nothing. */
  lemma FillKeyTwice(k: string, v: Value, name: string, ext: string, folder: string)
    ensures FillKey(k, FillKey(k, v, name, ext, folder), name, ext, folder) == FillKey(k, v, name, ext, folder)
  {
  }

  /** Filling a block a second time from the same name changes nothing. */
  lemma FillBlockIdempotent(block: map<string, Value>, name: string, ext: string, folder: string, overwrite: bool)
    ensures FillBlock(FillBlock(block, name, ext, folder, overwrite), name, ext, folder, overwrite) ==
            FillBlock(block, name, ext, folder, overwrite)
  {
    var once := FillBlock(block, name, ext, folder, overwrite);
    var twice := FillBlock(once, name, ext, folder, overwrite);
    forall k | k in block ensures twice[k] == once[k] {
      FillKeyTwice(k, block[k], name, ext, folder);
    }
  }

  // ---------------------------------------------------------------- names rendered from entities

  /** Text that can stand inside one part of a name. */
  predicate InPart(s: string) {
    '_' !in s && '.' !in s
  }

  /** The parts `key-value` of a list of entities, in order. */
  function Render(es: seq<(string, string)>): (ps: seq<string>)
    ensures |ps| == |es|
  {
    if |es| == 0 then [] else [es[0].0 + "-" + es[0].1] + Render(es[1..])
  }

  /** The value of the first entity with the given key. */
  function Lookup(es: seq<(string, string)>, key: string): Option<string> {
    if |es| == 0 then None else if es[0].0 == key then Some(es[0].1) else Lookup(es[1..], key)
  }

  /** Keys without `-`, keys and values that fit in a part. */
  predicate Renderable(es: seq<(string, string)>) {
    forall i :: 0 <= i < |es| ==> '-' !in es[i].0 && InPart(es[i].0) && InPart(es[i].1)
  }

  /** Every value given under `key` is non-empty and of the right kind. */
  predicate Typed(es: seq<(string, string)>, key: string, kind: Kind) {
    forall i :: 0 <= i < |es| && es[i].0 == key ==>
      |es[i].1| >= 1 && forall c :: 0 <= c < |es[i].1| ==> Allowed(kind, es[i].1[c])
  }

  /** `<lead>_<key>-<value>_..._<suffix><ext>`: a BIDS name from its leading part, entities, suffix and extension. */
  function EntityName(lead: string, es: seq<(string, string)>, suffix: string, ext: string): string {
    Compose([lead] + Render(es) + [suffix], ext)
  }

  /** Parts without a `-` carry no entity. */
  lemma {:induction false} FindEntityNoDash(parts: seq<string>, key: string, kind: Kind)
    requires forall k :: 0 <= k < |parts| ==> '-' !in parts[k]
    ensures FindEntity(parts, key, kind).None?
  {
    if |parts| > 0 {
      FindEntityNoDash(parts[1..], key, kind);
    }
  }

  /** Reading rendered entities finds the value of the first entity with the key. */
  lemma {:induction false} FindRendered(es: seq<(string, string)>, tail: seq<string>, key: string, kind: Kind)
    requires Renderable(es) && Typed(es, key, kind) && '-' !in key
    ensures FindEntity(Render(es) + tail, key, kind) ==
            match Lookup(es, key) case Some(v) => Some(v) case None => FindEntity(tail, key, kind)
  {
    if |es| > 0 {
      var parts := Render(es) + tail;
      assert parts[0] == es[0].0 + "-" + es[0].1;
      assert parts[1..] == Render(es[1..]) + tail;
      if es[0].0 == key {
        ValueOfRendered(key, es[0].1, kind);
      } else {
        ValueOfOwnKey(es[0].0, es[0].1, key, kind);
        FindRendered(es[1..], tail, key, kind);
      }
    } else {
      assert Render(es) + tail == tail;
    }
  }

  /** The parts of a rendered name fit in parts, so the name reads back part for part. */
  lemma RenderedShaped(lead: string, es: seq<(string, string)>, suffix: string, ext: string)
    requires InPart(lead) && Renderable(es) && InPart(suffix) && (ext == "" || ext[0] == '.')
    ensures Shaped([lead] + Render(es) + [suffix], ext)
  {
    var parts := [lead] + Render(es) + [suffix];
    forall k | 0 <= k < |parts| ensures InPart(parts[k]) {
      if 1 <= k < |parts| - 1 {
        RenderedInPart(es, k - 1);
        assert parts[k] == Render(es)[k - 1];
      }
    }
  }

  lemma {:induction false} RenderedInPart(es: seq<(string, string)>, i: nat)
    requires Renderable(es) && i < |es|
    ensures Render(es)[i] == es[i].0 + "-" + es[i].1 && InPart(Render(es)[i])
  {
    if i > 0 {
      RenderedInPart(es[1..], i - 1);
    }
  }

  /** The entity `key` of a rendered name is the first value rendered under it. */
  lemma EntityOfRendered(lead: string, es: seq<(string, string)>, suffix: string, ext: string, key: string, kind: Kind)
    requires InPart(lead) && Renderable(es) && InPart(suffix) && (ext == "" || ext[0] == '.')
    requires '-' !in suffix && '-' !in key && Typed(es, key, kind)
    ensures Entity(EntityName(lead, es, suffix, ext), key, kind) == Lookup(es, key)
  {
    var parts := [lead] + Render(es) + [suffix];
    RenderedShaped(lead, es, suffix, ext);
    Decompose(parts, ext);
    assert parts[1..] == Render(es) + [suffix];
    FindRendered(es, [suffix], key, kind);
    FindEntityNoDash([suffix], key, kind);
  }

  /** The value a key of a block is filled with from a rendered name, read off the entities. */
  function Rendered(k: string, v: Value, name: string, es: seq<(string, string)>, suffix: string, folder: string): Value {
    if k == "Filename" then Str(name)
    else if k == "Folder" then Str(folder)
    else if k == "Modality" then Str(suffix)
    else if k in Entities then
      match Lookup(es, Entities[k].0)
      case Some(x) => Str(x)
      case None => v
    else v
  }

  /** The entities are typed as the block keys that read them require. */
  predicate TypedForBlock(es: seq<(string, string)>) {
    forall i :: 0 <= i < |es| ==>
      |es[i].1| >= 1 && All(es[i].1, IsAlnum) && (es[i].0 in IndexKeys ==> All(es[i].1, IsDigit))
  }

  /** The entities whose values are indices. */
  const IndexKeys: set<string> := {"run", "echo"}

  lemma EntityKinds(k: string)
    requires k in Entities
    ensures Entities[k].1 == Index <==> Entities[k].0 in IndexKeys
  {
  }

  lemma TypedForKey(es: seq<(string, string)>, k: string)
    requires TypedForBlock(es) && k in Entities
    ensures Typed(es, Entities[k].0, Entities[k].1)
  {
    EntityKinds(k);
  }

  /** One key filled from a rendered name takes the value read off the entities. */
  lemma FillKeyRendered(k: string, v: Value, lead: string, es: seq<(string, string)>, suffix: string,
                        ext: string, folder: string)
    requires InPart(lead) && Renderable(es) && InPart(suffix) && (ext == "" || ext[0] == '.')
    requires '-' !in suffix && |suffix| >= 1 && All(suffix, IsAlnum) && TypedForBlock(es)
    ensures var name := EntityName(lead, es, suffix, ext);
            FillKey(k, v, name, ext, folder) == Rendered(k, v, name, es, suffix, folder)
  {
    var parts := [lead] + Render(es) + [suffix];
    RenderedShaped(lead, es, suffix, ext);
    if k == "Modality" {
      SuffixComposed(parts, ext);
    } else if k in Entities {
      TypedForKey(es, k);
      EntityOfRendered(lead, es, suffix, ext, Entities[k].0, Entities[k].1);
    }
  }

  /**
   * Filling a block from a name rendered from entities: every key open to filling gets the name,
   * the folder, the suffix, or the first value rendered under its entity; the rest stay.
   */
  lemma FillBlockRendered(block: map<string, Value>, lead: string, es: seq<(string, string)>, suffix: string,
                          ext: string, folder: string, overwrite: bool)
    requires InPart(lead) && Renderable(es) && InPart(suffix) && (ext == "" || ext[0] == '.')
    requires '-' !in suffix && |suffix| >= 1 && All(suffix, IsAlnum) && TypedForBlock(es)
    ensures var name := EntityName(lead, es, suffix, ext);
            FillBlock(block, name, ext, folder, overwrite) ==
            map k | k in block :: if !overwrite && Truthy(block[k]) then block[k] else Rendered(k, block[k], name, es, suffix, folder)
  {
    var name := EntityName(lead, es, suffix, ext);
    forall k | k in block ensures FillKey(k, block[k], name, ext, folder) == Rendered(k, block[k], name, es, suffix, folder) {
      FillKeyRendered(k, block[k], lead, es, suffix, ext, folder);
    }
  }

  /**
   * `fill_in_properties`: the context's file block filled in from the file's name and the
   * context's extension, returned as `{BIDS: block}`; `None` when the context lacks the name,
   * the extension or an object block.
   */
  function FillInProperties(context: Value, folder: string, overwrite: bool): (r: Option<Value>)
    ensures r.Some? <==> Get(context, ["file", "name"]).Some? && Get(context, ["file", "name"]).value.Str? &&
                         Get(context, ["ext"]).Some? && Get(context, ["ext"]).value.Str? &&
                         Get(context, ["file", "info", "BIDS"]).Some? && Get(context, ["file", "info", "BIDS"]).value.Obj?
    ensures r.Some? ==> r.value.Obj? && r.value.fields.Keys == {"BIDS"} && r.value.fields["BIDS"].Obj? &&
                        r.value.fields["BIDS"].fields.Keys == Get(context, ["file", "info", "BIDS"]).value.fields.Keys
  {
    match (Get(context, ["file", "name"]), Get(context, ["ext"]), Get(context, ["file", "info", "BIDS"]))
    case (Some(Str(name)), Some(Str(ext)), Some(Obj(block))) =>
      Some(Obj(map["BIDS" := Obj(FillBlock(block, name, ext, folder, overwrite))]))
    case _ => None
  }

  // ---------------------------------------------------------------- determine_acquisition_label

  /** Parts naming the subject, the session or the recording; they do not belong in a label. */
  predicate Identifying(part: string) {
    StartsWith(part, "sub-") || StartsWith(part, "ses-") || StartsWith(part, "recording-")
  }

  /** Suffixes of data that shares its acquisition with the image of the same task. */
  const SharedSuffixes: set<string> := {"bold", "events", "physio", "stim"}

  /** The parts that are not identifying, in order. */
  function Descriptive(parts: seq<string>): seq<string> {
    if |parts| == 0 then []
    else (if Identifying(parts[0]) then [] else [parts[0]]) + Descriptive(parts[1..])
  }

  /** The descriptive parts are exactly the parts that do not identify. */
  lemma {:induction false} DescriptiveMembers(parts: seq<string>)
    ensures forall p :: p in Descriptive(parts) <==> p in parts && !Identifying(p)
  {
    if |parts| > 0 {
      DescriptiveMembers(parts[1..]);
      assert parts == [parts[0]] + parts[1..];
    }
  }

  /** The parts without a final shared suffix. */
  function DropShared(parts: seq<string>): (r: seq<string>)
    ensures r == parts || (|parts| >= 1 && r == parts[..|parts| - 1] && parts[|parts| - 1] in SharedSuffixes)
  {
    if |parts| >= 1 && parts[|parts| - 1] in SharedSuffixes then parts[..|parts| - 1] else parts
  }

  /**
   * `determine_acquisition_label`: under the `Flywheel` hierarchy, the file's stem without its
   * subject, session and recording entities and without a shared suffix; otherwise the folder.
   */
  function AcquisitionLabel(folder: string, fname: string, hierarchy: string): (acq: string)
    ensures hierarchy != "Flywheel" ==> acq == folder
    ensures hierarchy == "Flywheel" ==> '.' !in acq
  {
    if hierarchy == "Flywheel" then
      var kept := DropShared(Descriptive(Parts(fname)));
      DescriptiveMembers(Parts(fname));
      assert forall k :: 0 <= k < |kept| ==> kept[k] in Descriptive(Parts(fname));
      JoinAvoids(kept, '_', '.');
      Join(kept, '_')
    else folder
  }

  /**
   * The Flywheel label reads the name's parts only: the extension plays no part, and the
   * label's own parts are the non-identifying parts of the name, a final shared suffix dropped.
   */
  lemma FlywheelLabel(folder: string, parts: seq<string>, ext: string)
    requires Shaped(parts, ext)
    ensures var acq := AcquisitionLabel(folder, Compose(parts, ext), "Flywheel");
            && acq == AcquisitionLabel(folder, Join(parts, '_'), "Flywheel")
            && acq == Join(DropShared(Descriptive(parts)), '_')
            && (|DropShared(Descriptive(parts))| >= 1 ==>
                  forall p :: p in Split(acq, '_') ==> p in parts && !Identifying(p))
  {
    Decompose(parts, ext);
    Decompose(parts, "");
    assert Compose(parts, "") == Join(parts, '_');
    var kept := DropShared(Descriptive(parts));
    if |kept| >= 1 {
      DescriptiveMembers(parts);
      assert forall k :: 0 <= k < |kept| ==> kept[k] in Descriptive(parts);
      SplitJoin(kept, '_');
    }
  }

  // ---------------------------------------------------------------- compare_json_to_file

  /** Extensions of data files that JSON sidecars describe. */
  const DataExtensions: set<string> := {".nii", ".nii.gz", ".tsv.gz"}

  /**
   * `compare_json_to_file`: the data file is an image or a compressed table, and every part of
   * the sidecar's name (entities and suffix) is a part of the data file's name.
   */
  predicate Describes(json: string, data: string) {
    Extension(data) in DataExtensions && forall p :: p in Parts(json) ==> p in Parts(data)
  }

  /** On put-together names, the pairing compares the parts as sets. */
  lemma DescribesComposed(jparts: seq<string>, jext: string, dparts: seq<string>, dext: string)
    requires Shaped(jparts, jext) && Shaped(dparts, dext)
    ensures Describes(Compose(jparts, jext), Compose(dparts, dext)) <==>
            dext in DataExtensions && forall p :: p in jparts ==> p in dparts
  {
    Decompose(jparts, jext);
    Decompose(dparts, dext);
  }

  /** A sidecar describing a file also describes every file with more parts and the same extension. */
  lemma DescribesMore(json: string, data: string, more: string)
    requires Describes(json, data)
    requires Extension(more) == Extension(data)
    requires forall p :: p in Parts(data) ==> p in Parts(more)
    ensures Describes(json, more)
  {
  }

  /** A part of the sidecar missing from the data file breaks the pairing. */
  lemma MissingPartBreaks(jparts: seq<string>, jext: string, dparts: seq<string>, dext: string, k: nat)
    requires Shaped(jparts, jext) && Shaped(dparts, dext)
    requires k < |jparts| && jparts[k] !in dparts
    ensures !Describes(Compose(jparts, jext), Compose(dparts, dext))
  {
    DescribesComposed(jparts, jext, dparts, dext);
  }

  // ---------------------------------------------------------------- convert_dtype

  /** `int(s)` on an optional sign followed by decimal digits; `None` for any other text. */
  function ReadInt(s: string): (r: Option<int>)
    ensures r.Some? && r.value < 0 ==> |s| >= 2 && s[0] == '-'
  {
    if |s| >= 2 && (s[0] == '-' || s[0] == '+') && All(s[1..], IsDigit) then
      var n: int := DigitsValue(s[1..]);
      Some(if s[0] == '-' then -n else n)
    else if |s| >= 1 && All(s, IsDigit) then Some(DigitsValue(s))
    else None
  }

  /** Every integer reads back from its decimal text. */
  lemma ReadIntToString(n: int)
    ensures ReadInt(IntToString(n)) == Some(n)
  {
    if n < 0 {
      var s := IntToString(n);
      assert s[1..] == NatToString(-n);
      DigitsValueOfNatToString(-n);
    } else {
      DigitsValueOfNatToString(n);
    }
  }

  /** Canonical decimal text (no sign `+`, no leading zero, no `-0`) is the text of what it reads as. */
  lemma ReadIntCanonical(s: string)
    requires ReadInt(s).Some?
    requires s[0] != '+' && (s[0] == '-' ==> s[1] != '0') && (s[0] == '0' ==> |s| == 1)
    ensures IntToString(ReadInt(s).value) == s
  {
    if s[0] == '-' {
      NatToStringOfDigitsValue(s[1..]);
      assert "-" + s[1..] == s;
    } else {
      NatToStringOfDigitsValue(s);
    }
  }

  /** One cell of a data row: `F` and `M` spelled out, integer text as an integer, other text as is. */
  function ConvertCell(s: string): (v: Value)
    ensures v.Int? <==> ReadInt(s).Some?
    ensures v.Str? ==> v.s == s || (s == "F" && v.s == "female") || (s == "M" && v.s == "male")
  {
    if s == "F" then Str("female")
    else if s == "M" then Str("male")
    else match ReadInt(s)
      case Some(n) => Int(n)
      case None => Str(s)
  }

  /** `convert_dtype`: the header row kept as text, every later row converted cell by cell. */
  function ConvertRows(rows: seq<seq<string>>): (r: seq<seq<Value>>)
    ensures |r| == |rows|
    ensures forall i :: 0 <= i < |rows| ==> |r[i]| == |rows[i]|
    ensures |rows| >= 1 ==> forall j :: 0 <= j < |rows[0]| ==> r[0][j] == Str(rows[0][j])
    ensures forall i, j :: 1 <= i < |rows| && 0 <= j < |rows[i]| ==> r[i][j] == ConvertCell(rows[i][j])
  {
    seq(|rows|, i requires 0 <= i < |rows| =>
      seq(|rows[i]|, j requires 0 <= j < |rows[i]| =>
        if i == 0 then Str(rows[0][j]) else ConvertCell(rows[i][j])))
  }

  /** Converting keeps every integer of a data row: its text becomes the integer again. */
  lemma ConvertIntegerCell(n: int)
    ensures ConvertCell(IntToString(n)) == Int(n)
  {
    ReadIntToString(n);
    assert IntToString(n) != "F" && IntToString(n) != "M" by {
      if n < 0 { assert IntToString(n)[0] == '-'; } else { assert IsDigit(IntToString(n)[0]); }
    }
  }
}

=== FILE: upload_examples.dfy ===
/**
 * The upload helpers on the file names and tables of the upload test suite. A file name is
 * written as `Compose(parts, ext)`: its `_`-separated parts, then its extension. Where a test
 * fixes a subject, a session or a task, the lemma holds for every choice of them.
 */
module UploadExamples {
  import opened Outcomes
  import opened Text
  import opened Json
  import opened Upload

  /** Text that can stand inside one part of a name. */
  predicate Piece(s: string) {
    '_' !in s && '.' !in s
  }

  predicate Ext(ext: string) {
    ext == "" || ext[0] == '.'
  }

  // ---------------------------------------------------------------- acquisition labels

  /** Under the BIDS hierarchy the folder is the label. */
  lemma LabelFromFolder()
    ensures AcquisitionLabel("anat", Compose(["sub-01", "ses-01", "T1w"], ".nii.gz"), "BIDS") == "anat"
  {
  }

  /** The Flywheel label of a put-together name, from its parts. */
  lemma FlywheelExample(folder: string, parts: seq<string>, ext: string, expected: string)
    requires Shaped(parts, ext)
    requires Join(DropShared(Descriptive(parts)), '_') == expected
    ensures AcquisitionLabel(folder, Compose(parts, ext), "Flywheel") == expected
  {
    Decompose(parts, ext);
  }

  /** The parts of a subject's and session's file, after the two identifying parts. */
  function Named(subject: string, session: string, rest: seq<string>): seq<string> {
    ["sub-" + subject, "ses-" + session] + rest
  }

  lemma NamedShaped(subject: string, session: string, rest: seq<string>, ext: string)
    requires Piece(subject) && Piece(session) && Ext(ext)
    requires forall k :: 0 <= k < |rest| ==> Piece(rest[k])
    ensures Shaped(Named(subject, session, rest), ext)
  {
    var parts := Named(subject, session, rest);
    assert forall k :: 2 <= k < |parts| ==> parts[k] == rest[k - 2];
  }

  lemma NamedDescriptive(subject: string, session: string, rest: seq<string>)
    ensures Descriptive(Named(subject, session, rest)) == Descriptive(rest)
  {
    var parts := Named(subject, session, rest);
    assert Identifying(parts[0]) && Identifying(parts[1]);
    assert parts[1..][1..] == rest;
  }

  /** A subject's and session's anatomical image is uploaded under its suffix, whatever the subject and session. */
  lemma LabelOfAnatomy(subject: string, session: string, ext: string)
    requires Piece(subject) && Piece(session) && Ext(ext)
    ensures AcquisitionLabel("anat", Compose(Named(subject, session, ["T1w"]), ext), "Flywheel") == "T1w"
  {
    NamedShaped(subject, session, ["T1w"], ext);
    NamedDescriptive(subject, session, ["T1w"]);
    assert Descriptive(["T1w"]) == ["T1w"];
    FlywheelExample("anat", Named(subject, session, ["T1w"]), ext, "T1w");
  }

  lemma TaskDescriptive(task: string, suffix: string)
    requires !Identifying(suffix)
    ensures Descriptive(["task-" + task, suffix]) == ["task-" + task, suffix]
  {
    var rest := ["task-" + task, suffix];
    assert !Identifying(rest[0]) by { assert rest[0][0] == 't'; }
    assert Descriptive(rest[1..]) == [suffix];
  }

  /**
   * A task file is uploaded under `task-<task>`, followed by its suffix unless that is shared
   * with the task's image (`bold`, `events`, `physio`, `stim`).
   */
  lemma LabelOfTask(folder: string, subject: string, session: string, task: string, suffix: string, ext: string)
    requires Piece(subject) && Piece(session) && Piece(task) && Piece(suffix) && Ext(ext)
    requires !Identifying(suffix)
    ensures AcquisitionLabel(folder, Compose(Named(subject, session, ["task-" + task, suffix]), ext), "Flywheel") ==
            if suffix in SharedSuffixes then "task-" + task else "task-" + task + "_" + suffix
  {
    var rest := ["task-" + task, suffix];
    NamedShaped(subject, session, rest, ext);
    NamedDescriptive(subject, session, rest);
    TaskDescriptive(task, suffix);
    FlywheelExample(folder, Named(subject, session, rest), ext,
                    if suffix in SharedSuffixes then "task-" + task else "task-" + task + "_" + suffix);
  }

  lemma RecordingDescriptive(task: string, recording: string, suffix: string)
    requires !Identifying(suffix)
    ensures Descriptive(["task-" + task, "recording-" + recording, suffix]) == ["task-" + task, suffix]
  {
    var rest := ["task-" + task, "recording-" + recording, suffix];
    assert !Identifying(rest[0]) by { assert rest[0][0] == 't'; }
    assert Identifying(rest[1]);
    assert Descriptive(rest[2..]) == [suffix];
    assert Descriptive(rest[1..]) == [suffix];
  }

  /** The recording entity of a physiological or stimulus file plays no part in its label. */
  lemma LabelOfRecording(folder: string, subject: string, session: string, task: string, recording: string,
                         suffix: string, ext: string)
    requires Piece(subject) && Piece(session) && Piece(task) && Piece(recording) && Piece(suffix) && Ext(ext)
    requires suffix in SharedSuffixes
    ensures AcquisitionLabel(folder, Compose(Named(subject, session, ["task-" + task, "recording-" + recording, suffix]), ext),
                             "Flywheel") == "task-" + task
  {
    var rest := ["task-" + task, "recording-" + recording, suffix];
    NamedShaped(subject, session, rest, ext);
    NamedDescriptive(subject, session, rest);
    assert !Identifying(suffix);
    RecordingDescriptive(task, recording, suffix);
    FlywheelExample(folder, Named(subject, session, rest), ext, "task-" + task);
  }

  // ---------------------------------------------------------------- sidecars

  /** A sidecar whose parts all occur in the data file's parts describes it. */
  lemma PairExample(jparts: seq<string>, dparts: seq<string>, dext: string)
    requires Shaped(jparts, ".json") && Shaped(dparts, dext)
    requires dext in DataExtensions
    requires forall p :: p in jparts ==> p in dparts
    ensures Describes(Compose(jparts, ".json"), Compose(dparts, dext))
  {
    DescribesComposed(jparts, ".json", dparts, dext);
  }

  lemma PiecesShaped(parts: seq<string>, ext: string)
    requires |parts| >= 1 && Ext(ext)
    requires forall k :: 0 <= k < |parts| ==> Piece(parts[k])
    ensures Shaped(parts, ext)
  {
  }

  /** A task sidecar describes the image of every subject, session and run of that task and acquisition. */
  lemma SidecarOfRuns(subject: string, session: string, run: string)
    requires Piece(subject) && Piece(session) && Piece(run)
    ensures Describes(Compose(["task-rest", "acq-fullbrain", "bold"], ".json"),
                      Compose(Named(subject, session, ["task-rest", "acq-fullbrain", "run-" + run, "bold"]), ".nii.gz"))
  {
    var rest := ["task-rest", "acq-fullbrain", "run-" + run, "bold"];
    NamedShaped(subject, session, rest, ".nii.gz");
    PiecesShaped(["task-rest", "acq-fullbrain", "bold"], ".json");
    PairExample(["task-rest", "acq-fullbrain", "bold"], Named(subject, session, rest), ".nii.gz");
  }

  /** A sidecar with exactly the image's parts describes it. */
  lemma SidecarOfSameParts(subject: string, session: string, run: string)
    requires Piece(subject) && Piece(session) && Piece(run)
    ensures Describes(Compose(Named(subject, session, ["run-" + run, "phasediff"]), ".json"),
                      Compose(Named(subject, session, ["run-" + run, "phasediff"]), ".nii.gz"))
  {
    var parts := Named(subject, session, ["run-" + run, "phasediff"]);
    NamedShaped(subject, session, ["run-" + run, "phasediff"], ".nii.gz");
    NamedShaped(subject, session, ["run-" + run, "phasediff"], ".json");
    PairExample(parts, parts, ".nii.gz");
  }

  /** A physiological sidecar describes the compressed table of every subject and session. */
  lemma SidecarOfTable(subject: string, session: string)
    requires Piece(subject) && Piece(session)
    ensures Describes(Compose(["task-rest", "acq-prefrontal", "physio"], ".json"),
                      Compose(Named(subject, session, ["task-rest", "acq-prefrontal", "physio"]), ".tsv.gz"))
  {
    var rest := ["task-rest", "acq-prefrontal", "physio"];
    NamedShaped(subject, session, rest, ".tsv.gz");
    PiecesShaped(rest, ".json");
    PairExample(rest, Named(subject, session, rest), ".tsv.gz");
  }

  /** A sidecar of another suffix does not describe the image, whatever the runs. */
  lemma SidecarOfOtherSuffix(subject: string, session: string, jrun: string, run: string)
    requires Piece(subject) && Piece(session) && Piece(jrun) && Piece(run)
    ensures !Describes(Compose(["task-rest", "acq-fullbrain", "run-" + jrun, "physio"], ".json"),
                       Compose(Named(subject, session, ["task-rest", "acq-fullbrain", "run-" + run, "bold"]), ".nii.gz"))
  {
    var jparts := ["task-rest", "acq-fullbrain", "run-" + jrun, "physio"];
    var rest := ["task-rest", "acq-fullbrain", "run-" + run, "bold"];
    var dparts := Named(subject, session, rest);
    NamedShaped(subject, session, rest, ".nii.gz");
    PiecesShaped(jparts, ".json");
    assert dparts[0][0] == 's' && dparts[1][0] == 's' && dparts[4][0] == 'r';
    assert jparts[3] !in dparts;
    MissingPartBreaks(jparts, ".json", dparts, ".nii.gz", 3);
  }

  /** A sidecar of another acquisition does not describe the file, whatever the suffixes and extension. */
  lemma SidecarOfOtherAcquisition(subject: string, session: string, run: string, jsuffix: string, dsuffix: string,
                                  dext: string)
    requires Piece(subject) && Piece(session) && Piece(run) && Piece(jsuffix) && Piece(dsuffix) && Ext(dext)
    requires '-' !in dsuffix
    ensures !Describes(Compose(["task-rest", "acq-prefrontal", jsuffix], ".json"),
                       Compose(Named(subject, session, ["task-rest", "acq-fullbrain", "run-" + run, dsuffix]), dext))
  {
    var jparts := ["task-rest", "acq-prefrontal", jsuffix];
    var rest := ["task-rest", "acq-fullbrain", "run-" + run, dsuffix];
    var dparts := Named(subject, session, rest);
    NamedShaped(subject, session, rest, dext);
    PiecesShaped(jparts, ".json");
    assert dparts[0][0] == 's' && dparts[1][0] == 's' && dparts[4][0] == 'r' && jparts[1][3] == '-';
    assert jparts[1] !in dparts;
    MissingPartBreaks(jparts, ".json", dparts, dext, 1);
  }

  /** A sidecar of another run does not describe the image. */
  lemma SidecarOfOtherRun(subject: string, session: string, jrun: string, run: string)
    requires Piece(subject) && Piece(session) && Piece(jrun) && Piece(run) && jrun != run
    ensures !Describes(Compose(Named(subject, session, ["run-" + jrun, "phasediff"]), ".json"),
                       Compose(Named(subject, session, ["run-" + run, "phasediff"]), ".nii.gz"))
  {
    var jparts := Named(subject, session, ["run-" + jrun, "phasediff"]);
    var dparts := Named(subject, session, ["run-" + run, "phasediff"]);
    NamedShaped(subject, session, ["run-" + jrun, "phasediff"], ".json");
    NamedShaped(subject, session, ["run-" + run, "phasediff"], ".nii.gz");
    assert ("run-" + jrun)[4..] == jrun && ("run-" + run)[4..] == run;
    assert dparts[0][0] == 's' && dparts[1][0] == 's' && jparts[2][0] == 'r';
    assert jparts[2] !in dparts;
    MissingPartBreaks(jparts, ".json", dparts, ".nii.gz", 2);
  }

  /** A sidecar does not describe an uncompressed table, even one with the same parts. */
  lemma SidecarOfPlainTable(subject: string, session: string, run: string)
    requires Piece(subject) && Piece(session) && Piece(run)
    ensures !Describes(Compose(Named(subject, session, ["run-" + run, "phasediff"]), ".json"),
                       Compose(Named(subject, session, ["run-" + run, "phasediff"]), ".tsv"))
  {
    var parts := Named(subject, session, ["run-" + run, "phasediff"]);
    NamedShaped(subject, session, ["run-" + run, "phasediff"], ".json");
    NamedShaped(subject, session, ["run-" + run, "phasediff"], ".tsv");
    DescribesComposed(parts, ".json", parts, ".tsv");
  }

  // ---------------------------------------------------------------- filling in a block

  /** The empty block of an anatomical file with contrast, reconstruction, run and modifier keys. */
  const AnatBlock: map<string, Value> := map[
    "Ce" := Str(""), "Rec" := Str(""), "Run" := Str(""), "Mod" := Str(""),
    "Modality" := Str(""), "Folder" := Str(""), "Filename" := Str("")]

  const AnatEntities: seq<(string, string)> := [
    ("ses", "01"), ("acq", "01"), ("ce", "label1"), ("rec", "label2"), ("run", "01"), ("mod", "label3")]

  /** One entity that renders into its own name part and has a value the block accepts. */
  predicate Fits(e: (string, string)) {
    '-' !in e.0 && InPart(e.0) && InPart(e.1) &&
    |e.1| >= 1 && All(e.1, IsAlnum) && (e.0 in IndexKeys ==> All(e.1, IsDigit))
  }

  lemma AllFit(es: seq<(string, string)>)
    requires forall i :: 0 <= i < |es| ==> Fits(es[i])
    ensures Renderable(es) && TypedForBlock(es)
  {
  }

  /** A key or value of letters and digits alone is one name part. */
  lemma AlnumPart(s: string)
    requires All(s, IsAlnum)
    ensures '-' !in s && InPart(s)
  {
    forall i | 0 <= i < |s| ensures s[i] != '-' && s[i] != '_' && s[i] != '.' {
      assert IsAlnum(s[i]);
    }
  }

  /** A key outside the indices whose value is letters and digits fits. */
  lemma LabelFits(key: string, value: string)
    requires All(key, IsAlnum) && |value| >= 1 && All(value, IsAlnum) && key != "run" && key != "echo"
    ensures Fits((key, value))
  {
    AlnumPart(key);
    AlnumPart(value);
  }

  /** An index key whose value is digits fits. */
  lemma IndexFits(key: string, value: string)
    requires All(key, IsAlnum) && |value| >= 1 && All(value, IsDigit)
    ensures Fits((key, value))
  {
    assert All(value, IsAlnum);
    AlnumPart(key);
    AlnumPart(value);
  }

  lemma AnatEntitiesFit()
    ensures Renderable(AnatEntities) && TypedForBlock(AnatEntities)
  {
    IndexFits("ses", "01");
    IndexFits("acq", "01");
    LabelFits("ce", "label1");
    LabelFits("rec", "label2");
    IndexFits("run", "01");
    LabelFits("mod", "label3");
    AllFit(AnatEntities);
  }

  /** A block filled from a rendered name is the expected block when every key is as expected. */
  lemma FillExample(block: map<string, Value>, lead: string, es: seq<(string, string)>, suffix: string,
                    ext: string, folder: string, overwrite: bool, expected: map<string, Value>)
    requires InPart(lead) && Renderable(es) && InPart(suffix) && Ext(ext)
    requires '-' !in suffix && |suffix| >= 1 && All(suffix, IsAlnum) && TypedForBlock(es)
    requires expected.Keys == block.Keys
    requires forall k :: k in block ==>
               expected[k] == if !overwrite && Truthy(block[k]) then block[k]
                              else Rendered(k, block[k], EntityName(lead, es, suffix, ext), es, suffix, folder)
    ensures FillBlock(block, EntityName(lead, es, suffix, ext), ext, folder, overwrite) == expected
  {
    FillBlockRendered(block, lead, es, suffix, ext, folder, overwrite);
  }

  lemma AnatRendered(name: string)
    ensures Rendered("Ce", Str(""), name, AnatEntities, "T1w", "anat") == Str("label1")
    ensures Rendered("Rec", Str(""), name, AnatEntities, "T1w", "anat") == Str("label2")
  {
  }

  lemma AnatRenderedIndex(name: string)
    ensures Rendered("Run", Str(""), name, AnatEntities, "T1w", "anat") == Str("01")
    ensures Rendered("Mod", Str(""), name, AnatEntities, "T1w", "anat") == Str("label3")
  {
  }

  /** The filled anatomical block, key by key. */
  function AnatFilled(name: string): map<string, Value> {
    map["Ce" := Str("label1"), "Rec" := Str("label2"), "Run" := Str("01"), "Mod" := Str("label3"),
        "Modality" := Str("T1w"), "Folder" := Str("anat"), "Filename" := Str(name)]
  }

  lemma AnatExpected(name: string)
    ensures forall k :: k in AnatBlock ==> AnatFilled(name)[k] == Rendered(k, AnatBlock[k], name, AnatEntities, "T1w", "anat")
  {
    AnatRendered(name);
    AnatRenderedIndex(name);
  }

  /** Every key of an empty anatomical block is filled from the name, for every subject. */
  lemma FillAnatomy(subject: string)
    requires InPart(subject)
    ensures var name := EntityName("sub-" + subject, AnatEntities, "T1w", ".nii.gz");
            FillBlock(AnatBlock, name, ".nii.gz", "anat", true) == AnatFilled(name)
  {
    var name := EntityName("sub-" + subject, AnatEntities, "T1w", ".nii.gz");
    AnatEntitiesFit();
    AnatExpected(name);
    FillExample(AnatBlock, "sub-" + subject, AnatEntities, "T1w", ".nii.gz", "anat", true, AnatFilled(name));
  }

  /** A functional file with task, reconstruction, run and echo keys. */
  const FuncBlock: map<string, Value> := map[
    "Task" := Str(""), "Rec" := Str(""), "Run" := Str(""), "Echo" := Str(""),
    "Modality" := Str(""), "Folder" := Str(""), "Filename" := Str("")]

  const FuncEntities: seq<(string, string)> := [
    ("ses", "01"), ("task", "label1"), ("acq", "01"), ("rec", "label2"), ("run", "01"), ("echo", "2")]

  function FuncFilled(name: string): map<string, Value> {
    map["Task" := Str("label1"), "Rec" := Str("label2"), "Run" := Str("01"), "Echo" := Str("2"),
        "Modality" := Str("bold"), "Folder" := Str("func"), "Filename" := Str(name)]
  }

  lemma FuncEntitiesFit()
    ensures Renderable(FuncEntities) && TypedForBlock(FuncEntities)
  {
    IndexFits("ses", "01");
    LabelFits("task", "label1");
    IndexFits("acq", "01");
    LabelFits("rec", "label2");
    IndexFits("run", "01");
    IndexFits("echo", "2");
    AllFit(FuncEntities);
  }

  lemma FuncRendered(name: string)
    ensures Rendered("Task", Str(""), name, FuncEntities, "bold", "func") == Str("label1")
    ensures Rendered("Rec", Str(""), name, FuncEntities, "bold", "func") == Str("label2")
  {
  }

  lemma FuncRenderedIndex(name: string)
    ensures Rendered("Run", Str(""), name, FuncEntities, "bold", "func") == Str("01")
    ensures Rendered("Echo", Str(""), name, FuncEntities, "bold", "func") == Str("2")
  {
  }

  lemma FuncExpected(name: string)
    ensures forall k :: k in FuncBlock ==> FuncFilled(name)[k] == Rendered(k, FuncBlock[k], name, FuncEntities, "bold", "func")
  {
    FuncRendered(name);
    FuncRenderedIndex(name);
  }

  /** Every key of an empty functional block, the echo index among them, is filled from the name. */
  lemma FillFunctional(subject: string)
    requires InPart(subject)
    ensures var name := EntityName("sub-" + subject, FuncEntities, "bold", ".nii");
            FillBlock(FuncBlock, name, ".nii", "func", true) == FuncFilled(name)
  {
    var name := EntityName("sub-" + subject, FuncEntities, "bold", ".nii");
    FuncEntitiesFit();
    FuncExpected(name);
    FillExample(FuncBlock, "sub-" + subject, FuncEntities, "bold", ".nii", "func", true, FuncFilled(name));
  }

  /** A dicom archive's block with a run and a folder already given. */
  const DicomBlock: map<string, Value> := map[
    "Ce" := Str(""), "Rec" := Str(""), "Run" := Str("03"), "Mod" := Str(""),
    "Modality" := Str(""), "Folder" := Str("sourcedata"), "Filename" := Str("")]

  function DicomFilled(name: string): map<string, Value> {
    map["Ce" := Str("label1"), "Rec" := Str("label2"), "Run" := Str("03"), "Mod" := Str("label3"),
        "Modality" := Str("T1w"), "Folder" := Str("sourcedata"), "Filename" := Str(name)]
  }

  lemma DicomExpected(name: string)
    ensures forall k :: k in DicomBlock ==>
              DicomFilled(name)[k] == if Truthy(DicomBlock[k]) then DicomBlock[k]
                                      else Rendered(k, DicomBlock[k], name, AnatEntities, "T1w", "anat")
  {
    forall k | k in DicomBlock
      ensures DicomFilled(name)[k] == if Truthy(DicomBlock[k]) then DicomBlock[k]
                                      else Rendered(k, DicomBlock[k], name, AnatEntities, "T1w", "anat")
    {
      DicomGiven();
      if k == "Ce" || k == "Rec" {
        AnatRendered(name);
      } else if k == "Run" || k == "Mod" {
        AnatRenderedIndex(name);
      }
    }
  }

  /** The run and the folder are the only keys given a value. */
  lemma DicomGiven()
    ensures forall k :: k in DicomBlock ==> (Truthy(DicomBlock[k]) <==> k == "Run" || k == "Folder")
  {
  }

  /** Without overwriting, the given run and folder stay and the empty keys are filled. */
  lemma FillDicom(subject: string)
    requires InPart(subject)
    ensures var name := EntityName("sub-" + subject, AnatEntities, "T1w", ".dcm.zip");
            FillBlock(DicomBlock, name, ".dcm.zip", "anat", false) == DicomFilled(name)
  {
    var name := EntityName("sub-" + subject, AnatEntities, "T1w", ".dcm.zip");
    AnatEntitiesFit();
    DicomExpected(name);
    FillExample(DicomBlock, "sub-" + subject, AnatEntities, "T1w", ".dcm.zip", "anat", false, DicomFilled(name));
  }

  /** The block of a file with a run key only. */
  const RunBlock: map<string, Value> := map[
    "Run" := Str(""), "Modality" := Str(""), "Folder" := Str(""), "Filename" := Str("")]

  function RunFilled(name: string, run: string, suffix: string, folder: string): map<string, Value> {
    map["Run" := Str(run), "Modality" := Str(suffix), "Folder" := Str(folder), "Filename" := Str(name)]
  }

  const DwiEntities: seq<(string, string)> := [("ses", "01"), ("acq", "01"), ("run", "01")]
  const PhasediffEntities: seq<(string, string)> := [("ses", "01"), ("acq", "01"), ("run", "03")]

  lemma RunEntitiesFit()
    ensures Renderable(DwiEntities) && TypedForBlock(DwiEntities)
    ensures Renderable(PhasediffEntities) && TypedForBlock(PhasediffEntities)
  {
    IndexFits("ses", "01");
    IndexFits("acq", "01");
    IndexFits("run", "01");
    IndexFits("run", "03");
    AllFit(DwiEntities);
    AllFit(PhasediffEntities);
  }

  lemma DwiExpected(name: string)
    ensures forall k :: k in RunBlock ==>
              RunFilled(name, "01", "dwi", "dwi")[k] == Rendered(k, RunBlock[k], name, DwiEntities, "dwi", "dwi")
  {
    assert Rendered("Run", Str(""), name, DwiEntities, "dwi", "dwi") == Str("01");
  }

  /** A diffusion image's run, suffix, folder and name. */
  lemma FillDiffusion(subject: string)
    requires InPart(subject)
    ensures var name := EntityName("sub-" + subject, DwiEntities, "dwi", ".nii.gz");
            FillBlock(RunBlock, name, ".nii.gz", "dwi", true) == RunFilled(name, "01", "dwi", "dwi")
  {
    var name := EntityName("sub-" + subject, DwiEntities, "dwi", ".nii.gz");
    RunEntitiesFit();
    DwiExpected(name);
    FillExample(RunBlock, "sub-" + subject, DwiEntities, "dwi", ".nii.gz", "dwi", true, RunFilled(name, "01", "dwi", "dwi"));
  }

  lemma PhasediffExpected(name: string)
    ensures forall k :: k in RunBlock ==>
              RunFilled(name, "03", "phasediff", "fmap")[k] ==
              Rendered(k, RunBlock[k], name, PhasediffEntities, "phasediff", "fmap")
  {
    assert Rendered("Run", Str(""), name, PhasediffEntities, "phasediff", "fmap") == Str("03");
  }

  /** A phase-difference fieldmap's run, suffix, folder and name. */
  lemma FillPhasediff(subject: string)
    requires InPart(subject)
    ensures var name := EntityName("sub-" + subject, PhasediffEntities, "phasediff", ".nii.gz");
            FillBlock(RunBlock, name, ".nii.gz", "fmap", true) == RunFilled(name, "03", "phasediff", "fmap")
  {
    var name := EntityName("sub-" + subject, PhasediffEntities, "phasediff", ".nii.gz");
    RunEntitiesFit();
    PhasediffExpected(name);
    FillExample(RunBlock, "sub-" + subject, PhasediffEntities, "phasediff", ".nii.gz", "fmap", true,
                RunFilled(name, "03", "phasediff", "fmap"));
  }

  /** The block of a spin-echo fieldmap with a direction key. */
  const EpiBlock: map<string, Value> := map[
    "Dir" := Str(""), "Run" := Str(""), "Modality" := Str(""), "Folder" := Str(""), "Filename" := Str("")]

  const EpiEntities: seq<(string, string)> := [("ses", "01"), ("acq", "01"), ("dir", "label1"), ("run", "03")]

  function EpiFilled(name: string): map<string, Value> {
    map["Dir" := Str("label1"), "Run" := Str("03"), "Modality" := Str("epi"), "Folder" := Str("fmap"),
        "Filename" := Str(name)]
  }

  lemma EpiEntitiesFit()
    ensures Renderable(EpiEntities) && TypedForBlock(EpiEntities)
  {
    IndexFits("ses", "01");
    IndexFits("acq", "01");
    LabelFits("dir", "label1");
    IndexFits("run", "03");
    AllFit(EpiEntities);
  }

  lemma EpiExpected(name: string)
    ensures forall k :: k in EpiBlock ==> EpiFilled(name)[k] == Rendered(k, EpiBlock[k], name, EpiEntities, "epi", "fmap")
  {
    assert Rendered("Dir", Str(""), name, EpiEntities, "epi", "fmap") == Str("label1");
    assert Rendered("Run", Str(""), name, EpiEntities, "epi", "fmap") == Str("03");
  }

  /** A spin-echo fieldmap's direction, run, suffix, folder and name. */
  lemma FillEpi(subject: string)
    requires InPart(subject)
    ensures var name := EntityName("sub-" + subject, EpiEntities, "epi", ".nii.gz");
            FillBlock(EpiBlock, name, ".nii.gz", "fmap", true) == EpiFilled(name)
  {
    var name := EntityName("sub-" + subject, EpiEntities, "epi", ".nii.gz");
    EpiEntitiesFit();
    EpiExpected(name);
    FillExample(EpiBlock, "sub-" + subject, EpiEntities, "epi", ".nii.gz", "fmap", true, EpiFilled(name));
  }

  /** The context `fill_in_properties` reads: the extension, the file's name and its BIDS block. */
  function Context(name: string, ext: string, block: map<string, Value>): Value {
    Obj(map["ext" := Str(ext),
            "file" := Obj(map["name" := Str(name), "info" := Obj(map["BIDS" := Obj(block)])])])
  }

  /** The properties are the filled block under `BIDS`. */
  lemma FillInContext(name: string, ext: string, block: map<string, Value>, folder: string, overwrite: bool)
    ensures FillInProperties(Context(name, ext, block), folder, overwrite) ==
            Some(Obj(map["BIDS" := Obj(FillBlock(block, name, ext, folder, overwrite))]))
  {
    var c := Context(name, ext, block);
    assert Get(c, ["file", "name"]) == Some(Str(name));
    assert Get(c, ["ext"]) == Some(Str(ext));
    assert Get(c, ["file", "info", "BIDS"]) == Some(Obj(block));
  }

  /** `fill_in_properties` on the anatomical context. */
  lemma FillInAnatomy(subject: string)
    requires InPart(subject)
    ensures var name := EntityName("sub-" + subject, AnatEntities, "T1w", ".nii.gz");
            FillInProperties(Context(name, ".nii.gz", AnatBlock), "anat", true) == Some(Obj(map["BIDS" := Obj(AnatFilled(name))]))
  {
    var name := EntityName("sub-" + subject, AnatEntities, "T1w", ".nii.gz");
    FillInContext(name, ".nii.gz", AnatBlock, "anat", true);
    FillAnatomy(subject);
  }

  // ---------------------------------------------------------------- table cells

  /** A data row converted cell by cell. */
  function DataRow(row: seq<string>): seq<Value> {
    seq(|row|, j requires 0 <= j < |row| => ConvertCell(row[j]))
  }

  /** The header row, kept as text. */
  function HeaderRow(row: seq<string>): seq<Value> {
    seq(|row|, j requires 0 <= j < |row| => Str(row[j]))
  }

  lemma Table2(h: seq<string>, r1: seq<string>)
    ensures ConvertRows([h, r1]) == [HeaderRow(h), DataRow(r1)]
  {
    var r := ConvertRows([h, r1]);
    assert r[0] == HeaderRow(h) && r[1] == DataRow(r1);
  }

  lemma Table4(h: seq<string>, r1: seq<string>, r2: seq<string>, r3: seq<string>)
    ensures ConvertRows([h, r1, r2, r3]) == [HeaderRow(h), DataRow(r1), DataRow(r2), DataRow(r3)]
  {
    var r := ConvertRows([h, r1, r2, r3]);
    assert r[0] == HeaderRow(h) && r[1] == DataRow(r1) && r[2] == DataRow(r2) && r[3] == DataRow(r3);
  }

  lemma Table6(h: seq<string>, r1: seq<string>, r2: seq<string>, r3: seq<string>, r4: seq<string>, r5: seq<string>)
    ensures ConvertRows([h, r1, r2, r3, r4, r5]) ==
            [HeaderRow(h), DataRow(r1), DataRow(r2), DataRow(r3), DataRow(r4), DataRow(r5)]
  {
    var r := ConvertRows([h, r1, r2, r3, r4, r5]);
    assert r[0] == HeaderRow(h) && r[1] == DataRow(r1) && r[2] == DataRow(r2);
    assert r[3] == DataRow(r3) && r[4] == DataRow(r4) && r[5] == DataRow(r5);
  }

  lemma Header2(a: string, b: string)
    ensures HeaderRow([a, b]) == [Str(a), Str(b)]
  {
  }

  lemma Header3(a: string, b: string, c: string)
    ensures HeaderRow([a, b, c]) == [Str(a), Str(b), Str(c)]
  {
  }

  lemma Header5(a: string, b: string, c: string, d: string, e: string)
    ensures HeaderRow([a, b, c, d, e]) == [Str(a), Str(b), Str(c), Str(d), Str(e)]
  {
  }

  lemma Data2(a: string, b: string)
    ensures DataRow([a, b]) == [ConvertCell(a), ConvertCell(b)]
  {
  }

  lemma Data3(a: string, b: string, c: string)
    ensures DataRow([a, b, c]) == [ConvertCell(a), ConvertCell(b), ConvertCell(c)]
  {
  }

  lemma Data5(a: string, b: string, c: string, d: string, e: string)
    ensures DataRow([a, b, c, d, e]) == [ConvertCell(a), ConvertCell(b), ConvertCell(c), ConvertCell(d), ConvertCell(e)]
  {
  }

  lemma SexCells()
    ensures ConvertCell("F") == Str("female") && ConvertCell("M") == Str("male")
  {
  }

  /** Decimal text converts to its number. */
  lemma NumberCell(n: nat, s: string)
    requires NatToString(n) == s
    ensures ConvertCell(s) == Int(n)
  {
    ConvertIntegerCell(n);
  }

  lemma AgeCells()
    ensures ConvertCell("29") == Int(29) && ConvertCell("17") == Int(17) && ConvertCell("100") == Int(100)
    ensures ConvertCell("23") == Int(23) && ConvertCell("6") == Int(6)
  {
    NumberCell(29, "29");
    NumberCell(17, "17");
    NumberCell(100, "100");
    NumberCell(23, "23");
    NumberCell(6, "6");
  }

  lemma MoreAgeCells()
    ensures ConvertCell("25") == Int(25) && ConvertCell("18") == Int(18) && ConvertCell("86") == Int(86)
  {
    NumberCell(25, "25");
    NumberCell(18, "18");
    NumberCell(86, "86");
  }

  lemma IdentifierCells()
    ensures ConvertCell("sub-01") == Str("sub-01") && ConvertCell("sub-02") == Str("sub-02") && ConvertCell("sub-03") == Str("sub-03")
  {
  }

  /** A participants table: sexes spelled out, ages and counts as integers, identifiers and header kept. */
  lemma ConvertParticipants()
    ensures ConvertRows([
              ["participant_id", "sex", "age_at_first_scan_years", "number_of_scans_before", "handedness"],
              ["sub-01", "F", "29", "17", "100"],
              ["sub-02", "F", "23", "6", "100"],
              ["sub-03", "M", "25", "18", "86"]]) ==
            [[Str("participant_id"), Str("sex"), Str("age_at_first_scan_years"), Str("number_of_scans_before"), Str("handedness")],
             [Str("sub-01"), Str("female"), Int(29), Int(17), Int(100)],
             [Str("sub-02"), Str("female"), Int(23), Int(6), Int(100)],
             [Str("sub-03"), Str("male"), Int(25), Int(18), Int(86)]]
  {
    Table4(["participant_id", "sex", "age_at_first_scan_years", "number_of_scans_before", "handedness"],
           ["sub-01", "F", "29", "17", "100"], ["sub-02", "F", "23", "6", "100"], ["sub-03", "M", "25", "18", "86"]);
    Header5("participant_id", "sex", "age_at_first_scan_years", "number_of_scans_before", "handedness");
    ParticipantRows();
  }

  lemma ParticipantRows()
    ensures DataRow(["sub-01", "F", "29", "17", "100"]) == [Str("sub-01"), Str("female"), Int(29), Int(17), Int(100)]
    ensures DataRow(["sub-02", "F", "23", "6", "100"]) == [Str("sub-02"), Str("female"), Int(23), Int(6), Int(100)]
    ensures DataRow(["sub-03", "M", "25", "18", "86"]) == [Str("sub-03"), Str("male"), Int(25), Int(18), Int(86)]
  {
    SexCells();
    AgeCells();
    MoreAgeCells();
    IdentifierCells();
    Data5("sub-01", "F", "29", "17", "100");
    Data5("sub-02", "F", "23", "6", "100");
    Data5("sub-03", "M", "25", "18", "86");
  }

  /** File names are text; the single digits beside them are integers. */
  lemma ConvertFilenames()
    ensures ConvertRows([["filename", "positive"], ["bold1.nii.gz", "1"], ["bold2.nii.gz", "9"], ["bold3.nii.gz", "7"]]) ==
            [[Str("filename"), Str("positive")],
             [Str("bold1.nii.gz"), Int(1)], [Str("bold2.nii.gz"), Int(9)], [Str("bold3.nii.gz"), Int(7)]]
  {
    Table4(["filename", "positive"], ["bold1.nii.gz", "1"], ["bold2.nii.gz", "9"], ["bold3.nii.gz", "7"]);
    Header2("filename", "positive");
    FilenameRows();
  }

  lemma FilenameRows()
    ensures DataRow(["bold1.nii.gz", "1"]) == [Str("bold1.nii.gz"), Int(1)]
    ensures DataRow(["bold2.nii.gz", "9"]) == [Str("bold2.nii.gz"), Int(9)]
    ensures DataRow(["bold3.nii.gz", "7"]) == [Str("bold3.nii.gz"), Int(7)]
  {
    NumberCell(1, "1");
    NumberCell(9, "9");
    NumberCell(7, "7");
    assert ConvertCell("bold1.nii.gz") == Str("bold1.nii.gz");
    assert ConvertCell("bold2.nii.gz") == Str("bold2.nii.gz");
    assert ConvertCell("bold3.nii.gz") == Str("bold3.nii.gz");
    Data2("bold1.nii.gz", "1");
    Data2("bold2.nii.gz", "9");
    Data2("bold3.nii.gz", "7");
  }

  lemma SessionCells()
    ensures ConvertCell("ses-1") == Str("ses-1") && ConvertCell("ses-2") == Str("ses-2") && ConvertCell("ses-3") == Str("ses-3")
    ensures ConvertCell("ses-4") == Str("ses-4") && ConvertCell("ses-5") == Str("ses-5")
  {
  }

  /** A column of sexes is spelled out row by row; the sessions beside it stay text. */
  lemma ConvertSexes()
    ensures ConvertRows([["session", "sex"], ["ses-1", "F"], ["ses-2", "M"], ["ses-3", "F"], ["ses-4", "F"], ["ses-5", "M"]]) ==
            [[Str("session"), Str("sex")],
             [Str("ses-1"), Str("female")], [Str("ses-2"), Str("male")], [Str("ses-3"), Str("female")],
             [Str("ses-4"), Str("female")], [Str("ses-5"), Str("male")]]
  {
    Table6(["session", "sex"], ["ses-1", "F"], ["ses-2", "M"], ["ses-3", "F"], ["ses-4", "F"], ["ses-5", "M"]);
    Header2("session", "sex");
    SexRows();
  }

  lemma SexRows()
    ensures DataRow(["ses-1", "F"]) == [Str("ses-1"), Str("female")] && DataRow(["ses-2", "M"]) == [Str("ses-2"), Str("male")]
    ensures DataRow(["ses-3", "F"]) == [Str("ses-3"), Str("female")] && DataRow(["ses-4", "F"]) == [Str("ses-4"), Str("female")]
    ensures DataRow(["ses-5", "M"]) == [Str("ses-5"), Str("male")]
  {
    SexCells();
    SessionCells();
    Data2("ses-1", "F");
    Data2("ses-2", "M");
    Data2("ses-3", "F");
    Data2("ses-4", "F");
    Data2("ses-5", "M");
  }

  /** The integer column of a two-row table; the decimal column is not modelled as a number. */
  lemma ConvertIntegerColumn()
    ensures ConvertRows([["session", "sex", "test1"], ["ses-1", "F", "1"]]) ==
            [[Str("session"), Str("sex"), Str("test1")], [Str("ses-1"), Str("female"), Int(1)]]
  {
    Table2(["session", "sex", "test1"], ["ses-1", "F", "1"]);
    Header3("session", "sex", "test1");
    NumberCell(1, "1");
    SexCells();
    SessionCells();
    Data3("ses-1", "F", "1");
  }
}

=== FILE: validator.dfy ===
/**
 * `validate_meta_info`: check a container's `info.BIDS` block against the schema of the
 * template that produced it, and record the verdict in the block as `valid` and
 * `error_message`. A missing block becomes the `NA` sentinel; an `NA` block is left alone.
 * Only the checks the template schemas use are modelled: a minimum length, a pattern that
 * a whole string must match, a list of allowed values, and required properties.
 */
module Validator {
  import opened Outcomes
  import opened Text
  import opened Json

  /** The characters a pattern admits: `[a-zA-Z0-9]` or `[0-9]`. */
  datatype Chars = AlnumChars | DigitChars

  /** One schema keyword on one property. */
  datatype Check =
    | MinLength(n: nat)
    /** `^[<chars>]+$` when `atLeastOne`, `^[<chars>]*$` otherwise. */
    | FullMatch(chars: Chars, atLeastOne: bool)
    | OneOf(allowed: seq<string>)

  /** A template's schema: property checks in the order they are reported, then the required properties. */
  datatype Schema = Schema(checks: seq<(string, Check)>, required: seq<string>)

  function Admits(chars: Chars, c: char): bool {
    match chars
    case AlnumChars => IsAlnum(c)
    case DigitChars => IsDigit(c)
  }

  /** The pattern as the schema writes it. */
  function PatternText(chars: Chars, atLeastOne: bool): string {
    "^[" + (match chars case AlnumChars => "a-zA-Z0-9" case DigitChars => "0-9") + "]" +
    (if atLeastOne then "+" else "*") + "$"
  }

  /** The pattern as a message quotes it: in single quotes, as `repr` writes it (`QuotedPatternIsRepr`). */
  function QuotedPattern(chars: Chars, atLeastOne: bool): string {
    "'" + PatternText(chars, atLeastOne) + "'"
  }

  lemma QuotedPatternIsRepr(chars: Chars, atLeastOne: bool)
    ensures QuotedPattern(chars, atLeastOne) == Repr(PatternText(chars, atLeastOne))
  {
    assert All(PatternText(chars, atLeastOne), Plain);
  }

  /** What `^[...]` has to cover before `$`, which also matches just before one final newline. */
  function PatternBody(s: string): (t: string)
    ensures |s| >= 1 && s[|s| - 1] == '\n' ==> s == t + "\n"
    ensures (|s| == 0 || s[|s| - 1] != '\n') ==> t == s
  {
    if |s| >= 1 && s[|s| - 1] == '\n' then s[..|s| - 1] else s
  }

  /** The characters of `t` are all admitted, and there is at least one when the pattern says `+`. */
  predicate Covers(chars: Chars, atLeastOne: bool, t: string) {
    (!atLeastOne || |t| >= 1) && forall i :: 0 <= i < |t| ==> Admits(chars, t[i])
  }

  /**
   * A value passes a check. As in JSON Schema, length and pattern only constrain strings
   * (an integer `Run` passes them), while a list of allowed values constrains every value.
   * A pattern is searched for with Python's `re.search`, so the anchored class may stop before
   * one trailing newline.
   */
  predicate Passes(c: Check, v: Value) {
    match c
    case MinLength(n) => !v.Str? || |v.s| >= n
    case FullMatch(chars, atLeastOne) => !v.Str? || Covers(chars, atLeastOne, PatternBody(v.s))
    case OneOf(allowed) => v.Str? && v.s in allowed
  }

  /** Appending one newline to a value that does not end in one never changes whether it matches a pattern. */
  lemma TrailingNewlinePasses(chars: Chars, atLeastOne: bool, s: string)
    requires |s| == 0 || s[|s| - 1] != '\n'
    ensures Passes(FullMatch(chars, atLeastOne), Str(s + "\n")) <==> Passes(FullMatch(chars, atLeastOne), Str(s))
  {
    assert (s + "\n")[..|s + "\n"| - 1] == s;
  }

  /** A value that ends in two newlines never matches: the class admits no newline. */
  lemma TwoNewlinesFail(chars: Chars, atLeastOne: bool, s: string)
    ensures !Passes(FullMatch(chars, atLeastOne), Str(s + "\n\n"))
  {
    var t := s + "\n\n";
    assert PatternBody(t) == s + "\n";
    assert PatternBody(t)[|s|] == '\n';
  }

  /** A block satisfies a schema: every present property passes its checks, every required one is present. */
  predicate Satisfies(schema: Schema, block: map<string, Value>) {
    (forall k :: 0 <= k < |schema.checks| && schema.checks[k].0 in block ==>
       Passes(schema.checks[k].1, block[schema.checks[k].0])) &&
    (forall k :: 0 <= k < |schema.required| ==> schema.required[k] in block)
  }

  // ---------------------------------------------------------------- messages

  /** How a message quotes a value: `repr` of a string, the digits of an integer. */
  function ValueText(v: Value): string {
    match v
    case Str(s) => Repr(s)
    case Int(n) => IntToString(n)
    case Bool(b) => if b then "True" else "False"
    case Null => "None"
    case List(_) => "[...]"
    case Obj(_) => "{...}"
  }

  /** The items of a list of strings as Python writes them, separated by `, `. */
  function Items(xs: seq<string>): string {
    if |xs| == 0 then ""
    else if |xs| == 1 then Repr(xs[0])
    else Repr(xs[0]) + ", " + Items(xs[1..])
  }

  function ListText(xs: seq<string>): string {
    "[" + Items(xs) + "]"
  }

  /** The message for a property that fails a check. */
  function CheckMessage(name: string, c: Check, v: Value): string {
    name + " " + ValueText(v) + " " +
    match c
    case MinLength(_) => "is too short"
    case FullMatch(chars, atLeastOne) => "does not match " + QuotedPattern(chars, atLeastOne)
    case OneOf(allowed) => "is not one of " + ListText(allowed)
  }

  function RequiredMessage(name: string): string {
    Repr(name) + " is a required property"
  }

  /** The message of one check on a block: none when the property is absent or passes. */
  function Complaint(check: (string, Check), block: map<string, Value>): seq<string> {
    var (name, c) := check;
    if name in block && !Passes(c, block[name]) then [CheckMessage(name, c, block[name])] else []
  }

  /** The messages of the failed checks, in schema order. */
  function CheckErrors(checks: seq<(string, Check)>, block: map<string, Value>): seq<string> {
    if |checks| == 0 then [] else Complaint(checks[0], block) + CheckErrors(checks[1..], block)
  }

  /** No message exactly when every check on a property the block holds passes. */
  lemma {:induction false} CheckErrorsNone(checks: seq<(string, Check)>, block: map<string, Value>)
    ensures |CheckErrors(checks, block)| == 0 <==>
            forall k :: 0 <= k < |checks| && checks[k].0 in block ==> Passes(checks[k].1, block[checks[k].0])
  {
    if |checks| > 0 {
      assert forall k :: 1 <= k < |checks| ==> checks[k] == checks[1..][k - 1];
      CheckErrorsNone(checks[1..], block);
    }
  }

  /** The messages of two runs of checks, one after the other, are those of the first run, then those of the second. */
  lemma {:induction false} CheckErrorsAppend(a: seq<(string, Check)>, b: seq<(string, Check)>, block: map<string, Value>)
    ensures CheckErrors(a + b, block) == CheckErrors(a, block) + CheckErrors(b, block)
  {
    if |a| == 0 {
      assert a + b == b;
    } else {
      assert (a + b)[0] == a[0] && (a + b)[1..] == a[1..] + b;
      CheckErrorsAppend(a[1..], b, block);
      assert CheckErrors(a + b, block) == Complaint(a[0], block) + CheckErrors(a[1..] + b, block);
    }
  }

  /** The checks from `i` on: the complaint of check `i`, then those of the checks after it. */
  lemma CheckErrorsFrom(checks: seq<(string, Check)>, block: map<string, Value>, i: nat)
    requires i < |checks|
    ensures CheckErrors(checks[i..], block) == Complaint(checks[i], block) + CheckErrors(checks[i + 1..], block)
  {
    assert checks[i..][0] == checks[i] && checks[i..][1..] == checks[i + 1..];
  }

  /** The first four checks' complaints, one after the other, then those of the rest. */
  lemma CheckErrorsFirstFour(checks: seq<(string, Check)>, block: map<string, Value>)
    requires |checks| >= 4
    ensures CheckErrors(checks, block) ==
            Complaint(checks[0], block) + (Complaint(checks[1], block) + (Complaint(checks[2], block) +
            (Complaint(checks[3], block) + CheckErrors(checks[4..], block))))
  {
    CheckErrorsFrom(checks, block, 3);
    CheckErrorsFrom(checks, block, 2);
    CheckErrorsFrom(checks, block, 1);
    CheckErrorsFrom(checks, block, 0);
    assert checks[0..] == checks;
  }

  /** Checks on properties the block does not hold raise nothing. */
  lemma {:induction false} CheckErrorsAbsent(checks: seq<(string, Check)>, block: map<string, Value>)
    requires forall k :: 0 <= k < |checks| ==> checks[k].0 !in block
    ensures CheckErrors(checks, block) == []
  {
    if |checks| > 0 {
      assert forall k :: 0 <= k < |checks[1..]| ==> checks[1..][k] == checks[k + 1];
      CheckErrorsAbsent(checks[1..], block);
    }
  }

  /** The messages of the missing required properties, in schema order. */
  function RequiredErrors(required: seq<string>, block: map<string, Value>): (errs: seq<string>)
    ensures |errs| <= |required|
  {
    if |required| == 0 then []
    else
      var rest := RequiredErrors(required[1..], block);
      if required[0] !in block then [RequiredMessage(required[0])] + rest else rest
  }

  /** No message exactly when every required property is present. */
  lemma {:induction false} RequiredErrorsNone(required: seq<string>, block: map<string, Value>)
    ensures |RequiredErrors(required, block)| == 0 <==> forall k :: 0 <= k < |required| ==> required[k] in block
  {
    if |required| > 0 {
      assert forall k :: 1 <= k < |required| ==> required[k] == required[1..][k - 1];
      RequiredErrorsNone(required[1..], block);
    }
  }

  /** Every message for a block: failed property checks first, then missing required properties. */
  function Errors(schema: Schema, block: map<string, Value>): seq<string> {
    CheckErrors(schema.checks, block) + RequiredErrors(schema.required, block)
  }

  /** A block earns no message from a schema exactly when it satisfies the schema. */
  lemma ErrorsNone(schema: Schema, block: map<string, Value>)
    ensures |Errors(schema, block)| == 0 <==> Satisfies(schema, block)
  {
    CheckErrorsNone(schema.checks, block);
    RequiredErrorsNone(schema.required, block);
  }

  // ---------------------------------------------------------------- validate_meta_info

  const NA: Value := Str("NA")
  const BlockPath: Path := ["info", "BIDS"]

  /** The template named by a block: none when the block names none. */
  function TemplateName(block: map<string, Value>): Option<string> {
    if "template" in block && block["template"] != Null then Some(TextOf(Some(block["template"]))) else None
  }

  /**
   * The messages a block earns: none without a template, one for a template the schemas do
   * not know, and otherwise the template's schema messages.
   */
  function BlockErrors(schemas: map<string, Schema>, block: map<string, Value>): (errs: seq<string>)
    ensures TemplateName(block).None? ==> errs == []
    ensures TemplateName(block).Some? && TemplateName(block).value !in schemas ==>
              errs == ["Unknown template: " + TemplateName(block).value + ". "]
  {
    match TemplateName(block)
    case None => []
    case Some(name) =>
      if name in schemas then Errors(schemas[name], block) else ["Unknown template: " + name + ". "]
  }

  /**
   * A block naming a known template earns exactly that template's schema messages, and so
   * none exactly when it satisfies the schema.
   */
  lemma KnownTemplateErrors(schemas: map<string, Schema>, block: map<string, Value>, name: string)
    requires TemplateName(block) == Some(name) && name in schemas
    ensures BlockErrors(schemas, block) == Errors(schemas[name], block)
    ensures |BlockErrors(schemas, block)| == 0 <==> Satisfies(schemas[name], block)
  {
    ErrorsNone(schemas[name], block);
  }

  /** The block with its verdict recorded; every other key is kept. */
  function Verdict(schemas: map<string, Schema>, block: map<string, Value>): (r: map<string, Value>)
    ensures r.Keys == block.Keys + {"valid", "error_message"}
    ensures r["valid"] == Bool(|BlockErrors(schemas, block)| == 0)
    ensures r["error_message"] == Str(Join(BlockErrors(schemas, block), '\n'))
    ensures forall k :: k in block && k != "valid" && k != "error_message" ==> r[k] == block[k]
  {
    var errs := BlockErrors(schemas, block);
    block["valid" := Bool(|errs| == 0)]["error_message" := Str(Join(errs, '\n'))]
  }

  /**
   * `validate_meta_info`. A container with no `info` or no `info.BIDS` gets the `NA` sentinel;
   * an `NA` block is returned as it is; an object block gets its verdict. A block of any other
   * kind makes the original raise, which is the failure here.
   */
  function ValidateMetaInfo(meta: Value, schemas: map<string, Schema>): (r: Result<Value, string>)
    ensures Get(meta, BlockPath).None? ==> r.Success? && Get(r.value, BlockPath) == Some(NA)
    ensures Get(meta, BlockPath) == Some(NA) ==> r == Success(meta)
    ensures r.Failure? <==> Get(meta, BlockPath).Some? && Get(meta, BlockPath) != Some(NA) &&
                            !Get(meta, BlockPath).value.Obj?
    ensures forall q :: Diverge(BlockPath, q, 0) ==> r.Success? ==> Get(r.value, q) == Get(meta, q)
  {
    match Get(meta, BlockPath)
    case None =>
      GetSet(meta, BlockPath, NA);
      ValidateOthers(meta, NA);
      Success(Set(meta, BlockPath, NA))
    case Some(block) =>
      if block == NA then Success(meta)
      else if block.Obj? then
        var updated := Obj(Verdict(schemas, block.fields));
        ValidateOthers(meta, updated);
        Success(Set(meta, BlockPath, updated))
      else Failure("'info.BIDS' is neither an object nor 'NA'")
  }

  /** Writing `info.BIDS` changes no path that leaves it. */
  lemma ValidateOthers(meta: Value, x: Value)
    ensures forall q :: Diverge(BlockPath, q, 0) ==> Get(Set(meta, BlockPath, x), q) == Get(meta, q)
  {
    forall q | Diverge(BlockPath, q, 0) ensures Get(Set(meta, BlockPath, x), q) == Get(meta, q) {
      GetSetOther(meta, BlockPath, q, x);
    }
  }

  /** An object block ends up holding its verdict: valid exactly when it satisfies its template's schema. */
  lemma ValidateRecords(meta: Value, schemas: map<string, Schema>, block: map<string, Value>)
    requires Get(meta, BlockPath) == Some(Obj(block))
    ensures ValidateMetaInfo(meta, schemas) == Success(Set(meta, BlockPath, Obj(Verdict(schemas, block))))
    ensures Get(ValidateMetaInfo(meta, schemas).value, BlockPath) == Some(Obj(Verdict(schemas, block)))
  {
    GetSet(meta, BlockPath, Obj(Verdict(schemas, block)));
  }

  /** What a caller reads back after validating an object block: its flag and its message. */
  lemma ValidateReads(meta: Value, schemas: map<string, Schema>, block: map<string, Value>)
    requires Get(meta, BlockPath) == Some(Obj(block))
    ensures ValidateMetaInfo(meta, schemas).Success?
    ensures Get(ValidateMetaInfo(meta, schemas).value, BlockPath + ["valid"]) ==
            Some(Bool(|BlockErrors(schemas, block)| == 0))
    ensures Get(ValidateMetaInfo(meta, schemas).value, BlockPath + ["error_message"]) ==
            Some(Str(Join(BlockErrors(schemas, block), '\n')))
  {
    var v := Obj(Verdict(schemas, block));
    ValidateRecords(meta, schemas, block);
    GetSetExtend(meta, BlockPath, v, ["valid"]);
    GetSetExtend(meta, BlockPath, v, ["error_message"]);
  }

  // ---------------------------------------------------------------- revalidation

  /** No schema constrains the two keys the verdict writes. */
  predicate LeavesVerdictAlone(schemas: map<string, Schema>) {
    forall name :: name in schemas ==> SchemaLeavesVerdict(schemas[name])
  }

  predicate SchemaLeavesVerdict(schema: Schema) {
    (forall k :: 0 <= k < |schema.checks| ==>
       schema.checks[k].0 != "valid" && schema.checks[k].0 != "error_message") &&
    (forall k :: 0 <= k < |schema.required| ==>
       schema.required[k] != "valid" && schema.required[k] != "error_message")
  }

  lemma {:induction false} CheckErrorsIgnore(checks: seq<(string, Check)>, block: map<string, Value>, key: string, x: Value)
    requires forall k :: 0 <= k < |checks| ==> checks[k].0 != key
    ensures CheckErrors(checks, block[key := x]) == CheckErrors(checks, block)
  {
    if |checks| > 0 {
      assert forall k :: 0 <= k < |checks[1..]| ==> checks[1..][k].0 != key by {
        forall k | 0 <= k < |checks[1..]| ensures checks[1..][k].0 != key {
          assert checks[1..][k] == checks[k + 1];
        }
      }
      CheckErrorsIgnore(checks[1..], block, key, x);
    }
  }

  lemma {:induction false} RequiredErrorsIgnore(required: seq<string>, block: map<string, Value>, key: string, x: Value)
    requires forall k :: 0 <= k < |required| ==> required[k] != key
    ensures RequiredErrors(required, block[key := x]) == RequiredErrors(required, block)
  {
    if |required| > 0 {
      assert forall k :: 0 <= k < |required[1..]| ==> required[1..][k] != key by {
        forall k | 0 <= k < |required[1..]| ensures required[1..][k] != key {
          assert required[1..][k] == required[k + 1];
        }
      }
      RequiredErrorsIgnore(required[1..], block, key, x);
    }
  }

  /** The messages do not depend on a previous verdict. */
  lemma BlockErrorsIgnoreVerdict(schemas: map<string, Schema>, block: map<string, Value>, key: string, x: Value)
    requires LeavesVerdictAlone(schemas) && (key == "valid" || key == "error_message")
    ensures BlockErrors(schemas, block[key := x]) == BlockErrors(schemas, block)
  {
    assert TemplateName(block[key := x]) == TemplateName(block);
    match TemplateName(block)
    case None =>
    case Some(name) =>
      if name in schemas {
        CheckErrorsIgnore(schemas[name].checks, block, key, x);
        RequiredErrorsIgnore(schemas[name].required, block, key, x);
      }
  }

  /**
   * Validation recomputes from scratch: whatever `valid` and `error_message` a block carried
   * before, it gets the verdict of the same block without them.
   */
  lemma RevalidateFromScratch(schemas: map<string, Schema>, block: map<string, Value>, valid: Value, message: Value)
    requires LeavesVerdictAlone(schemas)
    ensures Verdict(schemas, block["valid" := valid]["error_message" := message]) == Verdict(schemas, block)
  {
    BlockErrorsIgnoreVerdict(schemas, block, "valid", valid);
    BlockErrorsIgnoreVerdict(schemas, block["valid" := valid], "error_message", message);
  }

  /** Validating twice is validating once. */
  lemma ValidateIdempotent(meta: Value, schemas: map<string, Schema>)
    requires LeavesVerdictAlone(schemas)
    requires ValidateMetaInfo(meta, schemas).Success?
    ensures ValidateMetaInfo(ValidateMetaInfo(meta, schemas).value, schemas) == ValidateMetaInfo(meta, schemas)
  {
    var once := ValidateMetaInfo(meta, schemas).value;
    match Get(meta, BlockPath)
    case None =>
      GetSet(meta, BlockPath, NA);
    case Some(block) =>
      if block != NA {
        var v := Verdict(schemas, block.fields);
        ValidateRecords(meta, schemas, block.fields);
        RevalidateFromScratch(schemas, block.fields, v["valid"], v["error_message"]);
        assert v == block.fields["valid" := v["valid"]]["error_message" := v["error_message"]];
        ValidateRecords(once, schemas, v);
        SetSet(meta, BlockPath, Obj(v), Obj(v));
      }
  }
}

=== FILE: validator_examples.dfy ===
/**
 * The schemas of the three templates the validation tests exercise, and the verdicts
 * `validate_meta_info` records for the tests' blocks. The schemas take the anatomical and
 * functional modality lists as parameters, so each verdict is stated for every pair of lists
 * with the property it needs; the lists BIDS 1.0.2 names have it (`EmptyNotAModality`,
 * `BadModalityNotAModality`, `SbrefIsAModality`).
 */
module ValidatorExamples {
  import opened Outcomes
  import opened Text
  import opened Json
  import opened Validator

  /** The anatomical modalities BIDS 1.0.2 names. */
  const AnatModalities: seq<string> := [
    "T1w", "T2w", "T1rho", "T1map", "T2map", "FLAIR", "FLASH", "PD", "PDmap", "PDT2",
    "inplaneT1", "inplaneT2", "angio", "defacemask", "SWImagandphase"
  ]

  const FuncModalities: seq<string> := ["bold", "sbref", "cbv", "phase"]

  const Label: Check := FullMatch(AlnumChars, false)
  const RequiredLabel: Check := FullMatch(AlnumChars, true)
  const Index: Check := FullMatch(DigitChars, false)

  /** The `anat_file` schema, with the list of modalities it allows as a parameter. */
  function AnatSchemaOf(anat: seq<string>): Schema {
    Schema(
      [("Filename", MinLength(1)), ("Mod", Label), ("Modality", OneOf(anat)), ("Ce", Label),
       ("Acq", Label), ("Rec", Label), ("Run", Index)],
      ["Filename", "Modality"])
  }

  /** The `func_file` schema, with the list of modalities it allows as a parameter. */
  function FuncSchemaOf(func: seq<string>): Schema {
    Schema(
      [("Filename", MinLength(1)), ("Task", RequiredLabel), ("Modality", OneOf(func)), ("Acq", Label),
       ("Rec", Label), ("Run", Index), ("Echo", Index)],
      ["Filename", "Task", "Modality"])
  }

  const TaskEventsSchema: Schema := Schema(
    [("Filename", MinLength(1)), ("Task", RequiredLabel), ("Acq", Label), ("Rec", Label), ("Run", Index),
     ("Echo", Index)],
    ["Filename", "Task"])

  function SchemasOf(anat: seq<string>, func: seq<string>): map<string, Schema> {
    map[
      "anat_file" := AnatSchemaOf(anat),
      "func_file" := FuncSchemaOf(func),
      "task_events_file" := TaskEventsSchema
    ]
  }

  /** The schemas with the BIDS 1.0.2 modality lists. */
  const Schemas: map<string, Schema> := SchemasOf(AnatModalities, FuncModalities)

  function Meta(block: map<string, Value>): Value {
    Obj(map["info" := Obj(map["BIDS" := Obj(block)])])
  }

  /** None of the three schemas constrains `valid` or `error_message`. */
  lemma LeavesVerdict(anat: seq<string>, func: seq<string>)
    ensures LeavesVerdictAlone(SchemasOf(anat, func))
  {
    AnatLeavesVerdict(anat);
    FuncLeavesVerdict(func);
    TaskEventsLeavesVerdict();
  }

  lemma AnatLeavesVerdict(anat: seq<string>)
    ensures SchemaLeavesVerdict(AnatSchemaOf(anat))
  {
  }

  lemma FuncLeavesVerdict(func: seq<string>)
    ensures SchemaLeavesVerdict(FuncSchemaOf(func))
  {
  }

  lemma TaskEventsLeavesVerdict()
    ensures SchemaLeavesVerdict(TaskEventsSchema)
  {
  }

  lemma EmptyNotAModality()
    ensures "" !in AnatModalities
  {
  }

  lemma SbrefIsAModality()
    ensures "sbref" in FuncModalities
  {
  }

  lemma BadModalityNotAModality()
    ensures "invalid._#$*%" !in AnatModalities
  {
  }

  lemma NoMatchUnknown(anat: seq<string>, func: seq<string>)
    ensures "NO_MATCH" !in SchemasOf(anat, func)
  {
  }

  // ---------------------------------------------------------------- valid blocks

  /** A block without a template is valid, whatever else it holds (empty `Path`, `Folder`, extra keys, an integer `Run`). */
  lemma NoTemplateValid(block: map<string, Value>, schemas: map<string, Schema>)
    requires "template" !in block
    ensures Get(ValidateMetaInfo(Meta(block), schemas).value, BlockPath + ["valid"]) == Some(Bool(true))
    ensures Get(ValidateMetaInfo(Meta(block), schemas).value, BlockPath + ["error_message"]) == Some(Str(""))
  {
    ValidateReads(Meta(block), schemas, block);
  }

  /** An integer `Run` is kept as it is. */
  lemma IntegerRunKept(block: map<string, Value>, schemas: map<string, Schema>)
    requires block == map["Run" := Int(1)]
    ensures Get(ValidateMetaInfo(Meta(block), schemas).value, BlockPath + ["Run"]) == Some(Int(1))
  {
    var v := Verdict(schemas, block);
    ValidateRecords(Meta(block), schemas, block);
    GetSetExtend(Meta(block), BlockPath, Obj(v), ["Run"]);
  }

  /** A block that already carries a verdict is judged afresh. */
  lemma StaleVerdictReplaced(block: map<string, Value>, schemas: map<string, Schema>)
    requires block == map["Task" := Str("testtask"), "Modality" := Str("bold"),
                          "Filename" := Str("sub-01_ses-02_task-testtask_bold.nii.gz"),
                          "valid" := Bool(false), "error_message" := Str("Missing required property: Task. ")]
    ensures Get(ValidateMetaInfo(Meta(block), schemas).value, BlockPath + ["valid"]) == Some(Bool(true))
    ensures Get(ValidateMetaInfo(Meta(block), schemas).value, BlockPath + ["error_message"]) == Some(Str(""))
  {
    NoTemplateValid(block, schemas);
  }

  // ---------------------------------------------------------------- the NA sentinel

  lemma MissingBlockBecomesNA(meta: Value, schemas: map<string, Schema>)
    requires meta == Obj(map["info" := Obj(map["test1" := Str("abc"), "test2" := Str("def")])]) ||
             meta == Obj(map["other_info" := Str("test")])
    ensures Get(ValidateMetaInfo(meta, schemas).value, BlockPath) == Some(Str("NA"))
  {
  }

  lemma NAKept(meta: Value, schemas: map<string, Schema>)
    requires meta == Obj(map["info" := Obj(map["BIDS" := Str("NA")])])
    ensures ValidateMetaInfo(meta, schemas) == Success(meta)
  {
  }

  // ---------------------------------------------------------------- an unknown template

  lemma UnknownTemplateText(n: string)
    requires n == "NO_MATCH"
    ensures "Unknown template: " + n + ". " == "Unknown template: NO_MATCH. "
  {
  }

  /** A template no schema is known for is the one complaint, whatever else the block holds. */
  lemma UnknownTemplate(block: map<string, Value>, schemas: map<string, Schema>)
    requires block == map["template" := Str("NO_MATCH"), "Modality" := Str("bold")]
    requires "NO_MATCH" !in schemas
    ensures Get(ValidateMetaInfo(Meta(block), schemas).value, BlockPath + ["valid"]) == Some(Bool(false))
    ensures Get(ValidateMetaInfo(Meta(block), schemas).value, BlockPath + ["error_message"]) ==
            Some(Str("Unknown template: NO_MATCH. "))
  {
    ValidateReads(Meta(block), schemas, block);
    var n := TemplateName(block).value;
    assert n == "NO_MATCH";
    UnknownTemplateText(n);
  }

  // ---------------------------------------------------------------- messages

  lemma AppendAssoc(a: string, b: string, c: string)
    ensures a + (b + c) == a + b + c
  {
  }

  /** The text of a string value without quotes or escapes is the string in single quotes. */
  lemma QuotedText(v: Value, s: string)
    requires v == Str(s) && All(s, Plain)
    ensures ValueText(v) == "'" + s + "'"
  {
  }

  lemma PlainText(s: string)
    requires s == "invalid2." || s == "_invalid2"
    ensures All(s, Plain)
  {
  }

  lemma QuotedLabel()
    ensures QuotedPattern(AlnumChars, false) == "'^[a-zA-Z0-9]*$'"
  {
  }

  lemma QuotedIndex()
    ensures QuotedPattern(DigitChars, false) == "'^[0-9]*$'"
  {
  }

  lemma EmptyTaskMessage(name: string, v: Value)
    requires name == "Task" && v == Str("")
    ensures CheckMessage(name, RequiredLabel, v) ==
            "Task" + " " + "''" + " " + "does not match " + "'^[a-zA-Z0-9]+$'"
  {
    assert ValueText(v) == "''";
    assert QuotedPattern(AlnumChars, true) == "'^[a-zA-Z0-9]+$'";
  }

  lemma ShortNameMessage(name: string, v: Value)
    requires name == "Filename" && v == Str("")
    ensures CheckMessage(name, MinLength(1), v) == "Filename" + " " + "''" + " " + "is too short"
  {
    assert ValueText(v) == "''";
  }

  lemma MissingModalityMessage(name: string)
    requires name == "Modality"
    ensures RequiredMessage(name) == "'Modality'" + " is a required property"
  {
    assert All(name, Plain);
  }

  lemma BadEchoMessage(name: string, v: Value)
    requires name == "Echo" && v == Str("AA")
    ensures CheckMessage(name, Index, v) == "Echo" + " " + "'AA'" + " " + "does not match " + "'^[0-9]*$'"
  {
    QuotedText(v, "AA");
    QuotedIndex();
  }

  lemma BadModMessage(name: string, v: Value)
    requires name == "Mod" && v == Str("_invalid2")
    ensures CheckMessage(name, Label, v) == "Mod" + " " + "'_invalid2'" + " " + "does not match " + "'^[a-zA-Z0-9]*$'"
  {
    PlainText("_invalid2");
    QuotedText(v, "_invalid2");
    QuotedLabel();
  }

  lemma BadCeMessage(name: string, v: Value)
    requires name == "Ce" && v == Str("invalid2.")
    ensures CheckMessage(name, Label, v) == "Ce" + " " + "'invalid2.'" + " " + "does not match " + "'^[a-zA-Z0-9]*$'"
  {
    PlainText("invalid2.");
    QuotedText(v, "invalid2.");
    QuotedLabel();
  }

  /** A value outside the allowed list: the list, as Python prints it, closes the message. */
  lemma NotOneOfMessage(name: string, s: string, quoted: string, allowed: seq<string>)
    requires All(s, Plain) && quoted == "'" + s + "'"
    ensures CheckMessage(name, OneOf(allowed), Str(s)) == name + " " + quoted + " " + "is not one of " + ListText(allowed)
  {
    assert ValueText(Str(s)) == quoted;
    AppendAssoc(name + " " + quoted + " ", "is not one of ", ListText(allowed));
  }

  // ---------------------------------------------------------------- an empty Task

  const EmptyTaskBlock: map<string, Value> :=
    map["template" := Str("task_events_file"), "Filename" := Str("example.tsv"), "Task" := Str(""), "Modality" := Str("bold")]

  lemma EmptyTaskComplaints(block: map<string, Value>, checks: seq<(string, Check)>)
    requires block == EmptyTaskBlock && checks == TaskEventsSchema.checks
    ensures Complaint(checks[0], block) == []
    ensures Complaint(checks[1], block) == [CheckMessage("Task", RequiredLabel, Str(""))]
    ensures CheckErrors(checks[2..], block) == []
  {
    var rest := checks[2..];
    assert forall k :: 0 <= k < |rest| ==> rest[k].0 !in block;
    CheckErrorsAbsent(rest, block);
  }

  /** Of the `task_events_file` checks only the one on `Task` fails. */
  lemma EmptyTaskErrors(block: map<string, Value>, checks: seq<(string, Check)>)
    requires block == EmptyTaskBlock && checks == TaskEventsSchema.checks
    ensures CheckErrors(checks, block) == [CheckMessage("Task", RequiredLabel, Str(""))]
  {
    EmptyTaskComplaints(block, checks);
    CheckErrorsFrom(checks, block, 1);
  }

  /** Both required properties are there. */
  lemma TaskEventsRequiredPresent(block: map<string, Value>, required: seq<string>)
    requires required == TaskEventsSchema.required && "Filename" in block && "Task" in block
    ensures RequiredErrors(required, block) == []
  {
    assert required[1..][1..] == [];
  }

  lemma EmptyTaskBlockErrors(block: map<string, Value>, anat: seq<string>, func: seq<string>)
    requires block == EmptyTaskBlock
    ensures BlockErrors(SchemasOf(anat, func), block) ==
            ["Task" + " " + "''" + " " + "does not match " + "'^[a-zA-Z0-9]+$'"]
  {
    assert TemplateName(block) == Some("task_events_file");
    KnownTemplateErrors(SchemasOf(anat, func), block, "task_events_file");
    EmptyTaskErrors(block, TaskEventsSchema.checks);
    TaskEventsRequiredPresent(block, TaskEventsSchema.required);
    EmptyTaskMessage("Task", Str(""));
  }

  /** An empty `Task` in a `task_events_file` block is the one complaint. */
  lemma EmptyTask(block: map<string, Value>, anat: seq<string>, func: seq<string>)
    requires block == EmptyTaskBlock
    ensures Get(ValidateMetaInfo(Meta(block), SchemasOf(anat, func)).value, BlockPath + ["valid"]) == Some(Bool(false))
    ensures Get(ValidateMetaInfo(Meta(block), SchemasOf(anat, func)).value, BlockPath + ["error_message"]) ==
            Some(Str("Task" + " " + "''" + " " + "does not match " + "'^[a-zA-Z0-9]+$'"))
  {
    ValidateReads(Meta(block), SchemasOf(anat, func), block);
    EmptyTaskBlockErrors(block, anat, func);
  }

  /** `rest` followed by one newline still matches `^[a-zA-Z0-9]+$`; followed by two it does not. */
  lemma TaskWithNewline()
    ensures Passes(RequiredLabel, Str("rest\n"))
    ensures !Passes(RequiredLabel, Str("rest\n\n"))
  {
    assert Passes(RequiredLabel, Str("rest"));
    TrailingNewlinePasses(AlnumChars, true, "rest");
    assert "rest\n\n" == "rest" + "\n\n";
    TwoNewlinesFail(AlnumChars, true, "rest");
  }

  // ---------------------------------------------------------------- an empty Filename, a missing Modality

  const ShortNameBlock: map<string, Value> :=
    map["template" := Str("anat_file"), "Filename" := Str(""), "extra" := Str("test")]

  /** The empty `Filename` fails its minimum length; the other checks are on properties the block does not hold. */
  lemma ShortNameErrors(block: map<string, Value>, checks: seq<(string, Check)>, anat: seq<string>)
    requires checks == AnatSchemaOf(anat).checks && "Filename" in block && block["Filename"] == Str("")
    requires "Mod" !in block && "Modality" !in block && "Ce" !in block && "Acq" !in block && "Rec" !in block && "Run" !in block
    ensures CheckErrors(checks, block) == [CheckMessage("Filename", MinLength(1), Str(""))]
  {
    var rest := checks[1..];
    assert forall k :: 0 <= k < |rest| ==> rest[k].0 !in block;
    CheckErrorsAbsent(rest, block);
  }

  /** `Modality` is missing; the extra key is allowed. */
  lemma ShortNameRequired(block: map<string, Value>, required: seq<string>, anat: seq<string>)
    requires required == AnatSchemaOf(anat).required && "Filename" in block && "Modality" !in block
    ensures RequiredErrors(required, block) == [RequiredMessage("Modality")]
  {
    assert required[1..][1..] == [];
  }

  lemma ShortNameBlockErrors(block: map<string, Value>, anat: seq<string>, func: seq<string>)
    requires block == ShortNameBlock
    ensures BlockErrors(SchemasOf(anat, func), block) ==
            ["Filename" + " " + "''" + " " + "is too short", "'Modality'" + " is a required property"]
  {
    ShortNameBlockKeys(block);
    EmptyFilenameOnlyErrors(block, anat, func);
  }

  lemma ShortNameBlockKeys(block: map<string, Value>)
    requires block == ShortNameBlock
    ensures TemplateName(block) == Some("anat_file") && "Filename" in block && block["Filename"] == Str("")
    ensures "Mod" !in block && "Modality" !in block && "Ce" !in block && "Acq" !in block && "Rec" !in block && "Run" !in block
  {
  }

  /** An `anat_file` block whose only checked property is an empty `Filename`: that and the missing `Modality`. */
  lemma EmptyFilenameOnlyErrors(block: map<string, Value>, anat: seq<string>, func: seq<string>)
    requires TemplateName(block) == Some("anat_file") && "Filename" in block && block["Filename"] == Str("")
    requires "Mod" !in block && "Modality" !in block && "Ce" !in block && "Acq" !in block && "Rec" !in block && "Run" !in block
    ensures BlockErrors(SchemasOf(anat, func), block) ==
            ["Filename" + " " + "''" + " " + "is too short", "'Modality'" + " is a required property"]
  {
    KnownTemplateErrors(SchemasOf(anat, func), block, "anat_file");
    ShortNameErrors(block, AnatSchemaOf(anat).checks, anat);
    ShortNameRequired(block, AnatSchemaOf(anat).required, anat);
    ShortNameMessage("Filename", Str(""));
    MissingModalityMessage("Modality");
  }

  /**
   * Both complaints, one per line: the failed check first, then the missing property. The
   * modality lists play no part.
   */
  lemma ShortName(block: map<string, Value>, anat: seq<string>, func: seq<string>)
    requires block == ShortNameBlock
    ensures Get(ValidateMetaInfo(Meta(block), SchemasOf(anat, func)).value, BlockPath + ["valid"]) == Some(Bool(false))
    ensures Get(ValidateMetaInfo(Meta(block), SchemasOf(anat, func)).value, BlockPath + ["error_message"]) ==
            Some(Str(Join(["Filename" + " " + "''" + " " + "is too short", "'Modality'" + " is a required property"], '\n')))
  {
    ValidateReads(Meta(block), SchemasOf(anat, func), block);
    ShortNameBlockErrors(block, anat, func);
  }

  // ---------------------------------------------------------------- a modality outside the list

  const EmptyModalityBlock: map<string, Value> :=
    map["template" := Str("anat_file"), "Filename" := Str("example.nii.gz"), "Modality" := Str("")]

  lemma EmptyModalityComplaints(block: map<string, Value>, checks: seq<(string, Check)>, anat: seq<string>)
    requires block == EmptyModalityBlock && checks == AnatSchemaOf(anat).checks && "" !in anat
    ensures Complaint(checks[0], block) == []
    ensures Complaint(checks[1], block) == []
    ensures Complaint(checks[2], block) == [CheckMessage("Modality", OneOf(anat), Str(""))]
    ensures CheckErrors(checks[3..], block) == []
  {
    var rest := checks[3..];
    assert forall k :: 0 <= k < |rest| ==> rest[k].0 !in block;
    CheckErrorsAbsent(rest, block);
  }

  lemma EmptyModalityErrors(block: map<string, Value>, checks: seq<(string, Check)>, anat: seq<string>)
    requires block == EmptyModalityBlock && checks == AnatSchemaOf(anat).checks && "" !in anat
    ensures CheckErrors(checks, block) == [CheckMessage("Modality", OneOf(anat), Str(""))]
  {
    EmptyModalityComplaints(block, checks, anat);
    CheckErrorsFrom(checks, block, 2);
    CheckErrorsFrom(checks, block, 1);
  }

  lemma AnatRequiredPresent(block: map<string, Value>, required: seq<string>, anat: seq<string>)
    requires required == AnatSchemaOf(anat).required && "Filename" in block && "Modality" in block
    ensures RequiredErrors(required, block) == []
  {
    assert required[1..][1..] == [];
  }

  lemma EmptyModalityBlockErrors(block: map<string, Value>, anat: seq<string>, func: seq<string>)
    requires block == EmptyModalityBlock && "" !in anat
    ensures BlockErrors(SchemasOf(anat, func), block) == ["Modality" + " " + "''" + " " + "is not one of " + ListText(anat)]
  {
    assert TemplateName(block) == Some("anat_file");
    KnownTemplateErrors(SchemasOf(anat, func), block, "anat_file");
    EmptyModalityErrors(block, AnatSchemaOf(anat).checks, anat);
    AnatRequiredPresent(block, AnatSchemaOf(anat).required, anat);
    NotOneOfMessage("Modality", "", "''", anat);
  }

  /** An empty `Modality` is not an anatomical modality; the message lists them all. */
  lemma EmptyModality(block: map<string, Value>, anat: seq<string>, func: seq<string>)
    requires block == EmptyModalityBlock && "" !in anat
    ensures Get(ValidateMetaInfo(Meta(block), SchemasOf(anat, func)).value, BlockPath + ["valid"]) == Some(Bool(false))
    ensures Get(ValidateMetaInfo(Meta(block), SchemasOf(anat, func)).value, BlockPath + ["error_message"]) ==
            Some(Str("Modality" + " " + "''" + " " + "is not one of " + ListText(anat)))
  {
    ValidateReads(Meta(block), SchemasOf(anat, func), block);
    EmptyModalityBlockErrors(block, anat, func);
  }

  // ---------------------------------------------------------------- two failed patterns

  const BadEchoBlock: map<string, Value> :=
    map["template" := Str("func_file"), "Filename" := Str("example.nii.gz"), "Modality" := Str("sbref"),
        "Task" := Str(""), "Rec" := Str(""), "Run" := Str("01"), "Echo" := Str("AA")]

  lemma BadEchoFirstComplaints(block: map<string, Value>, checks: seq<(string, Check)>, func: seq<string>)
    requires block == BadEchoBlock && checks == FuncSchemaOf(func).checks
    ensures Complaint(checks[0], block) == []
    ensures Complaint(checks[1], block) == [CheckMessage("Task", RequiredLabel, Str(""))]
  {
    assert block["Filename"] == Str("example.nii.gz") && block["Task"] == Str("");
    assert PatternBody("") == "";
  }

  lemma BadEchoModalityComplaints(block: map<string, Value>, checks: seq<(string, Check)>, func: seq<string>)
    requires block == BadEchoBlock && checks == FuncSchemaOf(func).checks && "sbref" in func
    ensures Complaint(checks[2], block) == []
    ensures Complaint(checks[3], block) == []
  {
  }

  lemma BadEchoLastComplaints(block: map<string, Value>, checks: seq<(string, Check)>, func: seq<string>)
    requires block == BadEchoBlock && checks == FuncSchemaOf(func).checks
    ensures Complaint(checks[4], block) == []
    ensures Complaint(checks[5], block) == []
    ensures Complaint(checks[6], block) == [CheckMessage("Echo", Index, Str("AA"))]
  {
    assert !IsDigit('A');
  }

  /** The last three checks: `Rec` and `Run` pass, `Echo` fails. */
  lemma BadEchoTail(block: map<string, Value>, checks: seq<(string, Check)>, func: seq<string>)
    requires block == BadEchoBlock && checks == FuncSchemaOf(func).checks
    ensures CheckErrors(checks[4..], block) == [CheckMessage("Echo", Index, Str("AA"))]
  {
    BadEchoLastComplaints(block, checks, func);
    CheckErrorsFrom(checks, block, 6);
    assert checks[7..] == [];
    CheckErrorsFrom(checks, block, 5);
    CheckErrorsFrom(checks, block, 4);
  }

  /** Only `Task` and `Echo` fail, in the order the schema lists them; an empty `Rec` passes `^[a-zA-Z0-9]*$`. */
  lemma BadEchoErrors(block: map<string, Value>, checks: seq<(string, Check)>, func: seq<string>)
    requires block == BadEchoBlock && checks == FuncSchemaOf(func).checks && "sbref" in func
    ensures CheckErrors(checks, block) ==
            [CheckMessage("Task", RequiredLabel, Str("")), CheckMessage("Echo", Index, Str("AA"))]
  {
    BadEchoFirstComplaints(block, checks, func);
    BadEchoModalityComplaints(block, checks, func);
    BadEchoTail(block, checks, func);
    CheckErrorsFirstFour(checks, block);
  }

  lemma FuncRequiredPresent(block: map<string, Value>, required: seq<string>, func: seq<string>)
    requires required == FuncSchemaOf(func).required && "Filename" in block && "Task" in block && "Modality" in block
    ensures RequiredErrors(required, block) == []
  {
    assert required[1..][1..][1..] == [];
    assert RequiredErrors(required[1..][1..], block) == [];
  }

  lemma BadEchoBlockErrors(block: map<string, Value>, anat: seq<string>, func: seq<string>)
    requires block == BadEchoBlock && "sbref" in func
    ensures BlockErrors(SchemasOf(anat, func), block) ==
            ["Task" + " " + "''" + " " + "does not match " + "'^[a-zA-Z0-9]+$'",
             "Echo" + " " + "'AA'" + " " + "does not match " + "'^[0-9]*$'"]
  {
    assert TemplateName(block) == Some("func_file");
    KnownTemplateErrors(SchemasOf(anat, func), block, "func_file");
    BadEchoErrors(block, FuncSchemaOf(func).checks, func);
    FuncRequiredPresent(block, FuncSchemaOf(func).required, func);
    EmptyTaskMessage("Task", Str(""));
    BadEchoMessage("Echo", Str("AA"));
  }

  /** A `func_file` block with an empty `Task` and a non-numeric `Echo`: both failed patterns, one per line. */
  lemma BadEcho(block: map<string, Value>, anat: seq<string>, func: seq<string>)
    requires block == BadEchoBlock && "sbref" in func
    ensures Get(ValidateMetaInfo(Meta(block), SchemasOf(anat, func)).value, BlockPath + ["valid"]) == Some(Bool(false))
    ensures Get(ValidateMetaInfo(Meta(block), SchemasOf(anat, func)).value, BlockPath + ["error_message"]) ==
            Some(Str(Join(["Task" + " " + "''" + " " + "does not match " + "'^[a-zA-Z0-9]+$'",
                           "Echo" + " " + "'AA'" + " " + "does not match " + "'^[0-9]*$'"], '\n')))
  {
    ValidateReads(Meta(block), SchemasOf(anat, func), block);
    BadEchoBlockErrors(block, anat, func);
  }

  // ---------------------------------------------------------------- four failures at once

  const BadCharactersBlock: map<string, Value> :=
    map["template" := Str("anat_file"), "Modality" := Str("invalid._#$*%"), "Ce" := Str("invalid2."),
        "Mod" := Str("_invalid2"), "Filename" := Str("")]

  lemma ShortFilenameComplaint(block: map<string, Value>, checks: seq<(string, Check)>, anat: seq<string>)
    requires block == BadCharactersBlock && checks == AnatSchemaOf(anat).checks
    ensures Complaint(checks[0], block) == ["Filename" + " " + "''" + " " + "is too short"]
  {
    ShortNameMessage("Filename", block["Filename"]);
  }

  lemma BadModComplaint(block: map<string, Value>, checks: seq<(string, Check)>, anat: seq<string>)
    requires block == BadCharactersBlock && checks == AnatSchemaOf(anat).checks
    ensures Complaint(checks[1], block) == ["Mod" + " " + "'_invalid2'" + " " + "does not match " + "'^[a-zA-Z0-9]*$'"]
  {
    var v := block["Mod"];
    assert v.s[0] == '_' && !Admits(AlnumChars, v.s[0]);
    BadModMessage("Mod", v);
  }

  lemma BadModalityComplaint(block: map<string, Value>, checks: seq<(string, Check)>, anat: seq<string>)
    requires block == BadCharactersBlock && checks == AnatSchemaOf(anat).checks && "invalid._#$*%" !in anat
    ensures Complaint(checks[2], block) == ["Modality" + " " + "'invalid._#$*%'" + " " + "is not one of " + ListText(anat)]
  {
    NotOneOfMessage("Modality", "invalid._#$*%", "'invalid._#$*%'", anat);
  }

  lemma BadCeComplaint(block: map<string, Value>, checks: seq<(string, Check)>, anat: seq<string>)
    requires block == BadCharactersBlock && checks == AnatSchemaOf(anat).checks
    ensures Complaint(checks[3], block) == ["Ce" + " " + "'invalid2.'" + " " + "does not match " + "'^[a-zA-Z0-9]*$'"]
  {
    var v := block["Ce"];
    assert v.s[8] == '.' && !Admits(AlnumChars, v.s[8]);
    BadCeMessage("Ce", v);
  }

  lemma AnatTailAbsent(block: map<string, Value>, checks: seq<(string, Check)>, anat: seq<string>)
    requires checks == AnatSchemaOf(anat).checks && "Acq" !in block && "Rec" !in block && "Run" !in block
    ensures CheckErrors(checks[4..], block) == []
  {
    var rest := checks[4..];
    assert forall k :: 0 <= k < |rest| ==> rest[k].0 !in block;
    CheckErrorsAbsent(rest, block);
  }

  /** With no `Acq`, `Rec` or `Run`, only the first four `anat_file` checks can complain. */
  lemma AnatFirstFourErrors(block: map<string, Value>, checks: seq<(string, Check)>, anat: seq<string>)
    requires checks == AnatSchemaOf(anat).checks && "Acq" !in block && "Rec" !in block && "Run" !in block
    ensures CheckErrors(checks, block) ==
            Complaint(checks[0], block) + (Complaint(checks[1], block) + (Complaint(checks[2], block) + Complaint(checks[3], block)))
  {
    AnatTailAbsent(block, checks, anat);
    CheckErrorsFirstFour(checks, block);
  }

  /** An `anat_file` block holding both required properties and no `Acq`, `Rec` or `Run` earns the first four checks' complaints. */
  lemma BadCharactersComplaints(block: map<string, Value>, checks: seq<(string, Check)>, anat: seq<string>, func: seq<string>)
    requires TemplateName(block) == Some("anat_file") && checks == AnatSchemaOf(anat).checks
    requires "Filename" in block && "Modality" in block && "Acq" !in block && "Rec" !in block && "Run" !in block
    ensures BlockErrors(SchemasOf(anat, func), block) ==
            Complaint(checks[0], block) + (Complaint(checks[1], block) + (Complaint(checks[2], block) + Complaint(checks[3], block)))
  {
    KnownTemplateErrors(SchemasOf(anat, func), block, "anat_file");
    AnatFirstFourErrors(block, checks, anat);
    AnatRequiredPresent(block, AnatSchemaOf(anat).required, anat);
  }

  /** `Filename`, `Mod`, `Modality` and `Ce` fail, in the order the schema lists them. */
  lemma BadCharactersBlockErrors(block: map<string, Value>, anat: seq<string>, func: seq<string>)
    requires block == BadCharactersBlock && "invalid._#$*%" !in anat
    ensures BlockErrors(SchemasOf(anat, func), block) ==
            ["Filename" + " " + "''" + " " + "is too short",
             "Mod" + " " + "'_invalid2'" + " " + "does not match " + "'^[a-zA-Z0-9]*$'",
             "Modality" + " " + "'invalid._#$*%'" + " " + "is not one of " + ListText(anat),
             "Ce" + " " + "'invalid2.'" + " " + "does not match " + "'^[a-zA-Z0-9]*$'"]
  {
    var checks := AnatSchemaOf(anat).checks;
    assert TemplateName(block) == Some("anat_file");
    BadCharactersComplaints(block, checks, anat, func);
    ShortFilenameComplaint(block, checks, anat);
    BadModComplaint(block, checks, anat);
    BadModalityComplaint(block, checks, anat);
    BadCeComplaint(block, checks, anat);
    FourSingletons(Complaint(checks[0], block), Complaint(checks[1], block), Complaint(checks[2], block), Complaint(checks[3], block));
  }

  lemma FourSingletons(a: seq<string>, b: seq<string>, c: seq<string>, d: seq<string>)
    requires |a| == |b| == |c| == |d| == 1
    ensures a + (b + (c + d)) == [a[0], b[0], c[0], d[0]]
  {
  }

  /** Invalid characters in three keys and an empty `Filename`: four messages, one per line. */
  lemma BadCharacters(block: map<string, Value>, anat: seq<string>, func: seq<string>)
    requires block == BadCharactersBlock && "invalid._#$*%" !in anat
    ensures Get(ValidateMetaInfo(Meta(block), SchemasOf(anat, func)).value, BlockPath + ["valid"]) == Some(Bool(false))
    ensures Get(ValidateMetaInfo(Meta(block), SchemasOf(anat, func)).value, BlockPath + ["error_message"]) ==
            Some(Str(Join(["Filename" + " " + "''" + " " + "is too short",
                           "Mod" + " " + "'_invalid2'" + " " + "does not match " + "'^[a-zA-Z0-9]*$'",
                           "Modality" + " " + "'invalid._#$*%'" + " " + "is not one of " + ListText(anat),
                           "Ce" + " " + "'invalid2.'" + " " + "does not match " + "'^[a-zA-Z0-9]*$'"], '\n')))
  {
    ValidateReads(Meta(block), SchemasOf(anat, func), block);
    BadCharactersBlockErrors(block, anat, func);
  }
}
